=== FILE: README.md ===
# CzechIdM decision logic in Dafny

A Dafny model of the small decision procedures and in-place updates of
CzechIdM, an identity manager. The backend is Java (Spring, JPA, Groovy).
The frontend is JavaScript (React with redux). The model covers:

- **Username and configuration logic.** Username generation from first and
  last names. Classification and typed reading of configuration
  properties. Parsing of HTTP Basic credentials.
- **Key/field enumerations.** Identity and contract-slice attributes, with
  their round trips.
- **Frontend list and option builders.** The navigation path reducer,
  password-change targets, code-list options, system state labels,
  form-attribute capabilities and the next attribute order.
- **Small stateful structures.** Result models, the Groovy sandbox
  allow-list with its custom-type stack, the redux connector caches and
  token cache eviction.
- **Backend decision procedures.** Token prolongation and defaults,
  notification sender routing, dependent-task triggering, automatic-role
  assignment, bulk-delete prevalidation, synchronization lookups and stop,
  system-mapping delete and duplicate, and script evaluation.
- **Query predicates as boolean functions over records.** Contract-slice
  filters, nested-set recursion for automatic roles and contract positions,
  and the guarantee-managers filter.

Each source file of the core is one Dafny module with the same name in
snake case:

- Pure code is modelled as functions.
- State the system changes in place is modelled as a class whose methods
  are proved against those functions.
- Loops are modelled as methods with invariants.

`Wrappers` holds `Option` and `Result`. `Strings` holds the string helpers:
ASCII case mapping, splitting, joining, trimming and decimal digits. Dates
are day numbers and times are milliseconds, both as `int`.

The following are parameters of the model, not computed by it:

- accent stripping;
- hashing;
- Base64 decoding;
- the clock;
- random UUIDs;
- localized labels;
- the repositories behind the services;
- the outcome of calls into other services (authentication, script
  execution, notification sending, saving).

## Model

| member | source | states |
|---|---|---|
| IdentityValueGenerator.CharacterCount | Realization/backend/core/core-impl/src/main/java/eu/bcvsolutions/idm/core/generator/identity/AbstractIdentityValueGenerator.java:148-167 | no count when the property is missing or its text is empty; a number-format failure exactly when the text does not parse as a 32-bit integer; otherwise that integer |
| IdentityValueGenerator.Cut | Realization/backend/core/core-impl/src/main/java/eu/bcvsolutions/idm/core/generator/identity/AbstractIdentityValueGenerator.java:72-80 | with a count set the part keeps at most that many leading characters; without one it is unchanged |
| IdentityValueGenerator.JoinedUsername | Realization/backend/core/core-impl/src/main/java/eu/bcvsolutions/idm/core/generator/identity/AbstractIdentityValueGenerator.java:82-106 | the parts in firstNameFirst order with the connecting string between them only when it is set, lower-cased and no longer than the maximal name length |
| IdentityValueGenerator.DeleteWhitespace | Realization/backend/core/core-impl/src/main/java/eu/bcvsolutions/idm/core/generator/identity/AbstractIdentityValueGenerator.java:125-127 | equal to the independent definition Mapped(s, Kept): every character for which Character.isWhitespace holds is dropped, every other one kept in order; the result has no such character |
| IdentityValueGenerator.ReplaceWhitespace | Realization/backend/core/core-impl/src/main/java/eu/bcvsolutions/idm/core/generator/identity/AbstractIdentityValueGenerator.java:128-131 | no match of \s: the string unchanged, whatever the replacement; otherwise a failure exactly when replaceAll refuses the replacement, else Mapped(s, ReplacedBy(replacement)): each \s character becomes the expanded replacement, others kept in order |
| IdentityValueGenerator.PlainReplacement | Realization/backend/core/core-impl/src/main/java/eu/bcvsolutions/idm/core/generator/identity/AbstractIdentityValueGenerator.java:130 | a replacement with no backslash and no dollar sign is accepted and inserted as it is |
| IdentityValueGenerator.ExpandQuoted | Realization/backend/core/core-impl/src/main/java/eu/bcvsolutions/idm/core/generator/identity/AbstractIdentityValueGenerator.java:130 | a quoted text (backslash before each backslash and dollar) is accepted as a replacement and inserts exactly itself |
| IdentityValueGenerator.PlainSpaceFree | Realization/backend/core/core-impl/src/main/java/eu/bcvsolutions/idm/core/generator/identity/AbstractIdentityValueGenerator.java:130 | with a plain replacement free of \s, the replaced string has no \s character; a one-character replacement keeps the length |
| IdentityValueGenerator.ReplaceAllWhiteSpaces | Realization/backend/core/core-impl/src/main/java/eu/bcvsolutions/idm/core/generator/identity/AbstractIdentityValueGenerator.java:119-132 | a null or empty string is returned as is; an empty or missing replacement deletes Character.isWhitespace characters; any other replaces each \s character, failing exactly when a match exists and the replacement is refused; a string with no whitespace is unchanged |
| IdentityValueGenerator.GenerateUsername | Realization/backend/core/core-impl/src/main/java/eu/bcvsolutions/idm/core/generator/identity/AbstractIdentityValueGenerator.java:63-109 | null when either name is missing or empty; the first count's failure, else the last count's failure; otherwise whitespace handling of the joined username, which with both names present is never null |
| IdentityValueGenerator.UsernameWithoutWhitespace | Realization/backend/core/core-impl/src/main/java/eu/bcvsolutions/idm/core/generator/identity/AbstractIdentityValueGenerator.java:102-127 | with an empty replacement the username has no Character.isWhitespace character, is lower-case and fits the maximal name length |
| IdentityValueGenerator.ReplaceAllWhiteSpacesIdempotent | Realization/backend/core/core-impl/src/main/java/eu/bcvsolutions/idm/core/generator/identity/AbstractIdentityValueGenerator.java:119-132 | deleting whitespace, or replacing it by a plain text free of \s, succeeds and a second pass changes nothing |
| ConfigurationManager.ShouldBeGuarded | Realization/frontend/czechidm-core/src/redux/data/ConfigurationManager.js:113-115 | true exactly when some dot-separated segment of the name is password, token or secret |
| ConfigurationManager.GuardedIffSegment | Realization/frontend/czechidm-core/src/redux/data/ConfigurationManager.js:113-115 | a name joined from dot-free segments is guarded exactly when one segment is a guarded word |
| ConfigurationManager.ShouldBeSecured | Realization/frontend/czechidm-core/src/redux/data/ConfigurationManager.js:123-128 | false for an empty or missing name, otherwise true exactly when the name starts with idm.sec. |
| ConfigurationManager.GetValue | Realization/frontend/czechidm-core/src/redux/data/ConfigurationManager.js:171-180 | null when properties are not loaded or the key is absent, otherwise the stored value |
| ConfigurationManager.GetPublicValueAsBoolean | Realization/frontend/czechidm-core/src/redux/data/ConfigurationManager.js:191-197 | the default for a missing value, otherwise whether the value is the text true |
| ConfigurationManager.GetPublicValueAsArray | Realization/frontend/czechidm-core/src/redux/data/ConfigurationManager.js:208-215 | the default for a missing value, otherwise the comma-separated items, each trimmed of JavaScript whitespace (Unicode spaces included) |
| ConfigurationManager.ArrayReadsBackItems | Realization/frontend/czechidm-core/src/redux/data/ConfigurationManager.js:208-215 | trimmed comma-free items joined by commas read back as exactly those items |
| ConfigurationManager.IsModuleEnabled | Realization/frontend/czechidm-core/src/redux/data/ConfigurationManager.js:220-226 | null when idm.pub.<id>.enabled is missing, otherwise whether it is true |
| ConfigurationManager.GetEnvironmentStage | Realization/frontend/czechidm-core/src/redux/data/ConfigurationManager.js:234-240 | the stage lower-cased, or null when it is missing or empty |
| ConfigurationManager.ShowId | Realization/frontend/czechidm-core/src/redux/data/ConfigurationManager.js:264-272 | the published switch, else whether the stage is development; system information shows it anyway |
| ConfigurationManager.ShowTransactionId | Realization/frontend/czechidm-core/src/redux/data/ConfigurationManager.js:281-285 | the published switch (off by default) or system information |
| ConfigurationManager.NoBreakSpaceTrimmed | Realization/frontend/czechidm-core/src/redux/data/ConfigurationManager.js:208-215 | a value "a,<no-break space>b" reads as the items "a" and "b": Unicode spaces are trimmed |
| ConfigurationManager.SpacedSizeParses | Realization/frontend/czechidm-core/src/redux/data/ConfigurationManager.js:301-308 | a run of digits between any two JavaScript whitespace characters is a size with the digits' value |
| ConfigurationManager.ParsedSizes | Realization/frontend/czechidm-core/src/redux/data/ConfigurationManager.js:301-308 | never more sizes than items; which items are kept, with which value and in what order, is stated by ParsedSizesMembers, ParsedSizesAppend and ParsedSizesAllParse |
| ConfigurationManager.PresentMembers | Realization/frontend/czechidm-core/src/redux/data/ConfigurationManager.js:306-308 | the NaN filter keeps a value exactly when some entry holds it |
| ConfigurationManager.PresentAppend | Realization/frontend/czechidm-core/src/redux/data/ConfigurationManager.js:306-308 | the NaN filter keeps order: it distributes over concatenation |
| ConfigurationManager.PresentAllSome | Realization/frontend/czechidm-core/src/redux/data/ConfigurationManager.js:306-308 | with no NaN entry the filter drops nothing and keeps every value at its index |
| ConfigurationManager.Sizes | Realization/frontend/czechidm-core/src/redux/data/ConfigurationManager.js:301-308 | one entry per item, the i-th being that item parsed after trimming, NaN as None |
| ConfigurationManager.SizesAppend | Realization/frontend/czechidm-core/src/redux/data/ConfigurationManager.js:301-308 | mapping two runs of items gives the first run's entries followed by the second's |
| ConfigurationManager.ParsedSizesMembers | Realization/frontend/czechidm-core/src/redux/data/ConfigurationManager.js:301-308 | a number is a size exactly when some item parses to it |
| ConfigurationManager.ParsedSizesAppend | Realization/frontend/czechidm-core/src/redux/data/ConfigurationManager.js:301-308 | the sizes of two runs of items are the first run's sizes followed by the second's, so item order is kept |
| ConfigurationManager.ParsedSizesAllParse | Realization/frontend/czechidm-core/src/redux/data/ConfigurationManager.js:301-308 | when every item parses, the sizes are the items' numbers index by index |
| ConfigurationManager.GetSizeOptions | Realization/frontend/czechidm-core/src/redux/data/ConfigurationManager.js:294-315 | the default sizes 10, 25, 50, 100 when unset or when no item parses, otherwise the parsed sizes |
| ConfigurationManager.SizesTextReadBack | Realization/frontend/czechidm-core/src/redux/data/ConfigurationManager.js:294-315 | sizes published as numbers joined by commas are returned exactly |
| LayoutReducers.Layout | Realization/frontend/src/redux/Layout/layoutReducers.js:17-51 | SELECT_NAVIGATION_ITEMS keeps the action length and fills each falsy slot from the previous selection or null; SELECT_NAVIGATION_ITEM selects the ancestor path; I18N_READY and NAVIGATION_INIT change only their key; other actions change nothing |
| LayoutReducers.AncestorPathShape | Realization/frontend/src/redux/Layout/layoutReducers.js:30-39 | the path is empty exactly for a missing or unknown id; otherwise it ends at the selected item, each id is the parent of the next, and the first has no known parent |
| LayoutReducers.AncestorPathRankIrrelevant | Realization/frontend/src/redux/Layout/layoutReducers.js:32-39 | the walk does not depend on the ranking that proves it stops |
| PasswordChangeAccounts.UnprotectedOptions | Realization/frontend/czechidm-acc/src/content/identity/PasswordChangeAccounts.js:53-63 | never more options than accounts; content and order are stated by UnprotectedOptionsExactly, UnprotectedOptionsAppend and UnprotectedOptionsOfOne |
| PasswordChangeAccounts.UnprotectedOptionsExactly | Realization/frontend/czechidm-acc/src/content/identity/PasswordChangeAccounts.js:55-57 | every offered account is not in protection, and every account not in protection is offered |
| PasswordChangeAccounts.UnprotectedOptionsAppend | Realization/frontend/czechidm-acc/src/content/identity/PasswordChangeAccounts.js:55-63 | the options keep account order: two runs of accounts give the first run's options followed by the second's |
| PasswordChangeAccounts.UnprotectedOptionsOfOne | Realization/frontend/czechidm-acc/src/content/identity/PasswordChangeAccounts.js:55-63 | a single account is offered exactly when it is not in protection, with its id as value and system name and uid as label |
| PasswordChangeAccounts.GetOptions | Realization/frontend/czechidm-acc/src/content/identity/PasswordChangeAccounts.js:40-66 | null while loading; otherwise the local option 0:<app name> first, then the unprotected account options |
| PasswordChangeAccounts.OptionCount | Realization/frontend/czechidm-acc/src/content/identity/PasswordChangeAccounts.js:49-63 | the number of unprotected accounts; GetOptions adds the one "all accounts" option to it |
| PasswordChangeAccounts.ShouldReportLoadError | Realization/frontend/czechidm-acc/src/content/identity/PasswordChangeAccounts.js:32-37 | a load error is reported unless its status is 403 |
| SystemTable.StateCell | Realization/frontend/czechidm-acc/src/content/system/SystemTable.js:228-243 | disabledProvisioning gives the disabledProvisioning label when disabled, else readonlyDisabledProvisioning; otherwise disabled beats readonly; neither gives null |
| SystemTable.BlockedOperations | Realization/frontend/czechidm-acc/src/content/system/SystemTable.js:113-156 | nothing without a system or blocked operations; otherwise a label for exactly the blocked operations, in create, update, delete order |
| SystemTable.AfterDuplicate | Realization/frontend/czechidm-acc/src/content/system/SystemTable.js:82-88 | an error message when the callback got both an entity and an error, otherwise a reload |
| SystemManager.ConnectorsByNameLast | Realization/frontend/czechidm-acc/src/redux/SystemManager.js:202-212 | a full name is a key exactly when some connector has it, and it maps to the last such connector |
| SystemManager.RemoteFrameworksPresent | Realization/frontend/czechidm-acc/src/redux/SystemManager.js:234-247 | skipping null lists never fails, and a framework is present exactly when its list is not null |
| SystemManager.FrameworksFailOnNull | Realization/frontend/czechidm-acc/src/redux/SystemManager.js:202-212 | without skipping, the framework map exists exactly when no connector list is null |
| SystemManager.FrameworksOf | Realization/frontend/czechidm-acc/src/redux/SystemManager.js:203-212 | skipping null lists always gives a map, and every framework in it is a property of the response |
| SystemManager.SystemStore.CollectConnectors | Realization/frontend/czechidm-acc/src/redux/SystemManager.js:208-210 | the loop over the connector list builds exactly ConnectorsByName of the list |
| SystemManager.SystemStore.CollectFrameworks | Realization/frontend/czechidm-acc/src/redux/SystemManager.js:203-212 | the loop over the response properties builds exactly FrameworksOf the response |
| SystemManager.TypesById | Realization/frontend/czechidm-acc/src/redux/SystemManager.js:276-284 | an empty map when _embedded.connectorTypes is absent, otherwise the listed types keyed by id: an id is a key exactly when some listed type has it (the stored type is TypesOfListLastWins) |
| SystemManager.TypesOfList | Realization/frontend/czechidm-acc/src/redux/SystemManager.js:276-284 | an id is a key exactly when some listed type has it; the type stored under it is stated by TypesOfListLastWins |
| SystemManager.TypesOfListLastWins | Realization/frontend/czechidm-acc/src/redux/SystemManager.js:276-284 | under each id is stored the last listed type with that id |
| SystemManager.SystemStore.FetchAvailableFrameworks | Realization/frontend/czechidm-acc/src/redux/SystemManager.js:191-221 | no request when the inventory is cached; otherwise the loaded map is cached, or the error recorded |
| SystemManager.SystemStore.FetchAvailableRemoteConnector | Realization/frontend/czechidm-acc/src/redux/SystemManager.js:227-260 | always requests; null lists are skipped; the map is passed on, or the error |
| SystemManager.SystemStore.FetchSupportedTypes | Realization/frontend/czechidm-acc/src/redux/SystemManager.js:267-292 | no request when cached; otherwise the types keyed by id are cached, or the error recorded |
| SystemManager.SystemStore.FetchConfiguration | Realization/frontend/czechidm-acc/src/redux/SystemManager.js:94-118 | definition and values are requested together; a form instance is stored only when both arrive, otherwise the error is recorded |
| SystemManager.SystemStore.SaveConfiguration | Realization/frontend/czechidm-acc/src/redux/SystemManager.js:129-183 | a failed save records its error and calls back with it; a successful one fetches the same configuration kind again: when both loads arrive the form instance is stored and passed on, when either fails (the definition first) its error is recorded and passed on and the data is unchanged; loading always ends |
| SystemManager.FailurePersists | Realization/frontend/czechidm-acc/src/redux/SystemManager.js:202-212 | once a prefix of the response fails to convert, every longer prefix fails too |
| CodeListSelect.FilledOf | Realization/frontend/czechidm-core/src/components/advanced/CodeListSelect/CodeListSelect.js:222 | keeps exactly the values that are neither null nor empty; the order is stated by FilledOfAppend |
| CodeListSelect.SelectedValue | Realization/frontend/czechidm-core/src/components/advanced/CodeListSelect/CodeListSelect.js:247-249 | with useFirst, no filled value and at least one option, the first option's value; otherwise the current value |
| CodeListSelect.FilledOfAppend | Realization/frontend/czechidm-core/src/components/advanced/CodeListSelect/CodeListSelect.js:222 | the filter keeps value order: it distributes over concatenation |
| CodeListSelect.ItemOptions | Realization/frontend/czechidm-core/src/components/advanced/CodeListSelect/CodeListSelect.js:227-237 | one option per item, in order, with the item code as its value |
| CodeListSelect.OptionsFor | Realization/frontend/czechidm-core/src/components/advanced/CodeListSelect/CodeListSelect.js:222-246 | at least one option per item and at most one more per value; the shape is stated by OptionsShape |
| CodeListSelect.OptionsShape | Realization/frontend/czechidm-core/src/components/advanced/CodeListSelect/CodeListSelect.js:239-246 | the options are the values missing from the items, in reverse order, followed by the item options |
| CodeListSelect.MissingExactly | Realization/frontend/czechidm-core/src/components/advanced/CodeListSelect/CodeListSelect.js:239-246 | a value is put in front exactly when it is filled and no item has it as its code |
| CodeListSelect.FilledValuesSelectable | Realization/frontend/czechidm-core/src/components/advanced/CodeListSelect/CodeListSelect.js:222-246 | every filled value and every item code is an option value, and no option has another value |
| CodeListSelect.UseFirstSelectsFirstItem | Realization/frontend/czechidm-core/src/components/advanced/CodeListSelect/CodeListSelect.js:247-249 | with useFirst, no filled value and a non-empty code list, the first item code is selected |
| CodeListSelect.BuildOptions | Realization/frontend/czechidm-core/src/components/advanced/CodeListSelect/CodeListSelect.js:222-246 | the loops of _setOptions build exactly the options of OptionsFor |
| CodeListSelect.CodeListSelectBox.GetValue | Realization/frontend/czechidm-core/src/components/advanced/CodeListSelect/CodeListSelect.js:59-66 | the enum input value when there are options, otherwise the text input value |
| CodeListSelect.CodeListSelectBox.IsValid | Realization/frontend/czechidm-core/src/components/advanced/CodeListSelect/CodeListSelect.js:79-86 | the validity of the enum input when there are options, otherwise of the text input |
| CodeListSelect.CodeListSelectBox.Validate | Realization/frontend/czechidm-core/src/components/advanced/CodeListSelect/CodeListSelect.js:88-99 | true when read-only or not rendered, otherwise the shown input decides |
| CodeListSelect.CodeListSelectBox.SetOptions | Realization/frontend/czechidm-core/src/components/advanced/CodeListSelect/CodeListSelect.js:220-259 | the options are rebuilt from the items and both inputs get the selected value; the component value is unchanged |
| CodeListSelect.CodeListSelectBox.LoadOptions | Realization/frontend/czechidm-core/src/components/advanced/CodeListSelect/CodeListSelect.js:160-218 | nothing when not rendered; preloaded items are used without a load; a failed load leaves no options |
| FormAttributeDetail.SupportHierarchy | Realization/frontend/czechidm-core/src/content/form/FormAttributeDetail.js:155-174 | regex and unique support agree; min/max implies regex; the empty type supports nothing; BYTEARRAY and ATTACHMENT support no regex; only DOUBLE, INT, LONG support min/max |
| FormAttributeDetail.ChangePersistentType | Realization/frontend/czechidm-core/src/content/form/FormAttributeDetail.js:136-153 | the new type is set, faceType cleared, and unique, regex or min/max cleared when no longer supported; the result is consistent with the new type |
| FormAttributeDetail.ChangePersistentTypeLastWins | Realization/frontend/czechidm-core/src/content/form/FormAttributeDetail.js:136-153 | when every min/max and regex field the second type keeps was also kept by the first, two type changes in a row equal one change to the second type |
| FormAttributeDetail.Select | Realization/frontend/czechidm-core/src/content/form/FormAttributeDetail.js:391-396 | a CODELIST attribute shows its faceType as its code list; others are unchanged |
| FormAttributeDetail.SavedEntity | Realization/frontend/czechidm-core/src/content/form/FormAttributeDetail.js:74-106 | the saved entity has the chosen type, and for CODELIST the code list as faceType |
| FormAttributeDetail.SelectSaveRoundTrip | Realization/frontend/czechidm-core/src/content/form/FormAttributeDetail.js:91-95 | opening a stored attribute and saving it unchanged keeps its type and faceType |
| FormAttributeDetail.Save | Realization/frontend/czechidm-core/src/content/form/FormAttributeDetail.js:74-106 | save sends the saved entity for the chosen type |
| FormAttributeDetail.NewAttribute | Realization/frontend/czechidm-core/src/content/form/FormAttributeDetail.js:44-55 | a new attribute has no id, is SHORTTEXT, seq 0, modifiable, in the given definition |
| FormAttributeDetail.NewAttributeIsCreated | Realization/frontend/czechidm-core/src/content/form/FormAttributeDetail.js:97-103 | an attribute without id, as a new one is, is saved by createEntity with the definition given at save time and the chosen persistent type |
| FormAttributeDetail.FittingRenderers | Realization/frontend/czechidm-core/src/content/form/FormAttributeDetail.js:181-195 | every renderer kept is registered for the given, non-empty persistent type; which ones are kept is FittingRenderersMembers, the order FittingRenderersAppend |
| FormAttributeDetail.FittingRenderersMembers | Realization/frontend/czechidm-core/src/content/form/FormAttributeDetail.js:181-195 | a renderer is offered exactly when it is registered and its persistent type equals the given non-empty one |
| FormAttributeDetail.FittingRenderersAppend | Realization/frontend/czechidm-core/src/content/form/FormAttributeDetail.js:181-195 | the fitting renderers keep registration order: the filter distributes over concatenation |
| FormAttributeDetail.GetFaceTypes | Realization/frontend/czechidm-core/src/content/form/FormAttributeDetail.js:181-204 | null without a type; otherwise one option per fitting renderer, in order |
| FormAttributeDetail.AttributeDetailForm.OnChangePersistentType | Realization/frontend/czechidm-core/src/content/form/FormAttributeDetail.js:136-153 | the form fields become ChangePersistentType of the old fields |
| FormAttributeTable.HighestOrder | Realization/frontend/czechidm-core/src/content/form/FormAttributeTable.js:62-76 | an existing seq that is at least every seq |
| FormAttributeTable.FirstPageBySeqDesc | Realization/frontend/czechidm-core/src/content/form/FormAttributeTable.js:62-74 | the single-element page holds the highest seq, empty only for no attributes |
| FormAttributeTable.NextOrder | Realization/frontend/czechidm-core/src/content/form/FormAttributeTable.js:73-82 | 0 without a response or attributes, otherwise the first seq plus one, capped at 32767 |
| FormAttributeTable.NextOrderAfterAll | Realization/frontend/czechidm-core/src/content/form/FormAttributeTable.js:73-79 | a new attribute comes after every existing one unless the cap is reached, and never exceeds the cap |
| FormAttributeTable.AttributeTableView.ShowDetail | Realization/frontend/czechidm-core/src/content/form/FormAttributeTable.js:58-90 | an existing attribute only navigates to its detail; a new one gets SHORTTEXT, unmodifiable false and the next seq |
| RoleFormAttributeTable.DetailPersistentType | Realization/frontend/czechidm-core/src/content/role/RoleFormAttributeTable.js:44-56 | the type of the embedded form attribute, else null |
| RoleFormAttributeTable.RoleAttributeDetail.ShowDetail | Realization/frontend/czechidm-core/src/content/role/RoleFormAttributeTable.js:44-56 | the detail takes the persistent type of the row form attribute |
| RoleFormAttributeTable.RoleAttributeDetail.OnChangeFormAttribute | Realization/frontend/czechidm-core/src/content/role/RoleFormAttributeTable.js:72-90 | a chosen attribute copies defaultValue, required, unique, min, max, regex, validationMessage and persistentType; clearing sets only the type to null |
| RoleFormAttributeTable.RoleAttributeDetail.ValidationFields | Realization/frontend/czechidm-core/src/content/role/RoleFormAttributeTable.js:92-111 | unique and regex are offered together and never for an empty type; min/max only for numeric types, which also get the other two |
| IdentityAttributeEnum.FindSymbolByKey | Realization/frontend/czechidm-core/src/enums/IdentityAttributeEnum.js:20-22 | the symbol declared under the key, when there is one |
| IdentityAttributeEnum.GetField | Realization/frontend/czechidm-core/src/enums/IdentityAttributeEnum.js:24-75 | null for a falsy or unknown key, otherwise the field of the symbol of the key |
| IdentityAttributeEnum.GetEnum | Realization/frontend/czechidm-core/src/enums/IdentityAttributeEnum.js:77-126 | null for a falsy or unknown field, otherwise the symbol whose field it is |
| IdentityAttributeEnum.GetLevel | Realization/frontend/czechidm-core/src/enums/IdentityAttributeEnum.js:128-140 | null for a falsy key, default for any other |
| IdentityAttributeEnum.RoundTrip | Realization/frontend/czechidm-core/src/enums/IdentityAttributeEnum.js:24-126 | getEnum(getField(key)) is the symbol of the key, for all 13 symbols |
| IdentityAttributeEnum.FieldInjective | Realization/frontend/czechidm-core/src/enums/IdentityAttributeEnum.js:24-75 | distinct symbols have distinct fields |
| ContractSliceAttributeEnum.FindSymbolByKey | Realization/frontend/czechidm-core/src/enums/ContractSliceAttributeEnum.js:22-24 | the symbol declared under the key, when there is one |
| ContractSliceAttributeEnum.GetField | Realization/frontend/czechidm-core/src/enums/ContractSliceAttributeEnum.js:26-74 | null for a falsy or unknown key, otherwise the field of the symbol of the key |
| ContractSliceAttributeEnum.GetEnum | Realization/frontend/czechidm-core/src/enums/ContractSliceAttributeEnum.js:76-125 | as written: null for a falsy or unknown field; contratcValidTill gives CONTRACT_VALID_TILL; disabled gives an undeclared symbol |
| ContractSliceAttributeEnum.GetEnumCorrected | Realization/frontend/czechidm-core/src/enums/ContractSliceAttributeEnum.js:76-125 | as intended: contractValidTill gives CONTRACT_VALID_TILL, otherwise as written |
| ContractSliceAttributeEnum.GetLevel | Realization/frontend/czechidm-core/src/enums/ContractSliceAttributeEnum.js:127-139 | null for a falsy key, default for any other |
| ContractSliceAttributeEnum.RoundTripExceptValidTill | Realization/frontend/czechidm-core/src/enums/ContractSliceAttributeEnum.js:26-125 | the round trip holds for the eleven other symbols |
| ContractSliceAttributeEnum.RoundTripFailsForValidTill | Realization/frontend/czechidm-core/src/enums/ContractSliceAttributeEnum.js:91-93 | getEnum(getField(CONTRACT_VALID_TILL)) is null |
| ContractSliceAttributeEnum.RoundTripCorrected | Realization/frontend/czechidm-core/src/enums/ContractSliceAttributeEnum.js:26-125 | with the corrected lookup the round trip holds for every symbol |
| ContractSliceAttributeEnum.FieldInjective | Realization/frontend/czechidm-core/src/enums/ContractSliceAttributeEnum.js:26-74 | distinct symbols have distinct fields |
| ResultModels.FirstError | Realization/backend/core/core-api/src/main/java/eu/bcvsolutions/idm/core/api/dto/ResultModels.java:76-81 | none exactly when there are no errors, otherwise the first error |
| ResultModels.FirstErrorAfterAdd | Realization/backend/core/core-api/src/main/java/eu/bcvsolutions/idm/core/api/dto/ResultModels.java:57-59 | adding an error keeps the first error of a non-empty list, and becomes the first of an empty one |
| ResultModels.Results.Empty | Realization/backend/core/core-api/src/main/java/eu/bcvsolutions/idm/core/api/dto/ResultModels.java:28-29 | no errors and no infos |
| ResultModels.Results.Single | Realization/backend/core/core-api/src/main/java/eu/bcvsolutions/idm/core/api/dto/ResultModels.java:31-42 | a null error or info is skipped, any other is the only element of its list |
| ResultModels.Results.OfErrors | Realization/backend/core/core-api/src/main/java/eu/bcvsolutions/idm/core/api/dto/ResultModels.java:44-46 | every given error, in order, and no infos |
| ResultModels.Results.OfLists | Realization/backend/core/core-api/src/main/java/eu/bcvsolutions/idm/core/api/dto/ResultModels.java:48-55 | a null list is skipped, otherwise all its elements are taken in order |
| ResultModels.Results.AddError | Realization/backend/core/core-api/src/main/java/eu/bcvsolutions/idm/core/api/dto/ResultModels.java:57-59 | the error is appended and the infos stay; the first error of a non-empty list stays |
| ResultModels.Results.AddInfo | Realization/backend/core/core-api/src/main/java/eu/bcvsolutions/idm/core/api/dto/ResultModels.java:61-63 | the info is appended and the errors stay |
| ResultModels.Results.GetError | Realization/backend/core/core-api/src/main/java/eu/bcvsolutions/idm/core/api/dto/ResultModels.java:76-81 | none when there are no errors, else the first one added |
| GroovySandboxFilter.Filter | Realization/backend/core/core-impl/src/main/java/eu/bcvsolutions/idm/core/security/domain/GroovySandboxFilter.java:88-139 | null passes; with no custom types a class that is neither primitive nor globally allowed fails (getLast on an empty stack); a denial happens exactly when the target class is not primitive, neither allowed nor custom, not assignable to a non-Object allowed or custom type, the value is not a script or closure and the class is not a throwable, and it names that class; everything else passes |
| GroovySandboxFilter.Unauthorized | Realization/backend/core/core-impl/src/main/java/eu/bcvsolutions/idm/core/security/domain/GroovySandboxFilter.java:102-137 | a primitive class, a class named among the custom types and an exception are never denied; a denied class is assignable to no custom type other than Object |
| GroovySandboxFilter.ObjectGrantsNothing | Realization/backend/core/core-impl/src/main/java/eu/bcvsolutions/idm/core/security/domain/GroovySandboxFilter.java:105-128 | allowing Object as a custom type does not let every class through |
| GroovySandboxFilter.FilterMonotone | Realization/backend/core/core-impl/src/main/java/eu/bcvsolutions/idm/core/security/domain/GroovySandboxFilter.java:105-128 | more custom types never deny what fewer allowed |
| GroovySandboxFilter.Sandbox.constructor | Realization/backend/core/core-impl/src/main/java/eu/bcvsolutions/idm/core/security/domain/GroovySandboxFilter.java:60-67 | a null set is not pushed; a non-null one is the only stack element |
| GroovySandboxFilter.Sandbox.AddCustomTypes | Realization/backend/core/core-impl/src/main/java/eu/bcvsolutions/idm/core/security/domain/GroovySandboxFilter.java:69-73 | a non-null set is pushed on top; a null one changes nothing |
| GroovySandboxFilter.Sandbox.GetCustomTypes | Realization/backend/core/core-impl/src/main/java/eu/bcvsolutions/idm/core/security/domain/GroovySandboxFilter.java:75-77 | the top of the stack, none for an empty stack |
| GroovySandboxFilter.Sandbox.RemoveLastCustomTypes | Realization/backend/core/core-impl/src/main/java/eu/bcvsolutions/idm/core/security/domain/GroovySandboxFilter.java:79-81 | returns the top and removes it; on an empty stack returns None and leaves it empty |
| GroovySandboxFilter.Sandbox.IsCustomTypesLast | Realization/backend/core/core-impl/src/main/java/eu/bcvsolutions/idm/core/security/domain/GroovySandboxFilter.java:83-85 | true exactly when one set is on the stack |
| GroovySandboxFilter.Sandbox.FilterValue | Realization/backend/core/core-impl/src/main/java/eu/bcvsolutions/idm/core/security/domain/GroovySandboxFilter.java:88-139 | filter decides with the top of the stack |
| GroovySandboxFilter.Sandbox.NestedEvaluation | Realization/backend/core/core-impl/src/main/java/eu/bcvsolutions/idm/core/security/domain/GroovySandboxFilter.java:69-81 | pushing a set and popping it returns that set and restores the stack |
| JwtAuthenticationMapper.PutIfAbsent | Realization/backend/core/core-impl/src/main/java/eu/bcvsolutions/idm/core/security/service/impl/JwtAuthenticationMapper.java:285-293 | only a missing or null entry receives the value; any other map is unchanged |
| JwtAuthenticationMapper.TokenAuthorities | Realization/backend/core/core-impl/src/main/java/eu/bcvsolutions/idm/core/security/service/impl/JwtAuthenticationMapper.java:413-419 | no authorities when the property is missing, otherwise the stored list |
| JwtAuthenticationMapper.DtoAuthorities | Realization/backend/core/core-impl/src/main/java/eu/bcvsolutions/idm/core/security/service/impl/JwtAuthenticationMapper.java:402-410 | null gives an empty list; otherwise one dto per authority, in order, with the same name |
| JwtAuthenticationMapper.TokenToDto | Realization/backend/core/core-impl/src/main/java/eu/bcvsolutions/idm/core/security/service/impl/JwtAuthenticationMapper.java:376-390 | identifier, expiration, issue time and module from the token fields; current and original user from its properties |
| JwtAuthenticationMapper.AuthenticationToDto | Realization/backend/core/core-impl/src/main/java/eu/bcvsolutions/idm/core/security/service/impl/JwtAuthenticationMapper.java:354-368 | the claims copied from the authentication, the identity ids read from its identities |
| JwtAuthenticationMapper.TokenToAuthentication | Realization/backend/core/core-impl/src/main/java/eu/bcvsolutions/idm/core/security/service/impl/JwtAuthenticationMapper.java:219-241 | the authentication has the token identifier and the authorities the token stores |
| JwtAuthenticationMapper.TokenClaimsRoundTrip | Realization/backend/core/core-impl/src/main/java/eu/bcvsolutions/idm/core/security/service/impl/JwtAuthenticationMapper.java:219-390 | token to authentication to claims equals token to claims |
| JwtAuthenticationMapper.WithDefaults | Realization/backend/core/core-impl/src/main/java/eu/bcvsolutions/idm/core/security/service/impl/JwtAuthenticationMapper.java:270-282 | tokenType, ownerId, ownerType, issuedAt and id are defaulted only when null; the expiration is always renewed; nothing else changes |
| JwtAuthenticationMapper.IdentityProperties | Realization/backend/core/core-impl/src/main/java/eu/bcvsolutions/idm/core/security/service/impl/JwtAuthenticationMapper.java:283-293 | authorities and current user are always written; the original user only when absent |
| JwtAuthenticationMapper.NewToken | Realization/backend/core/core-impl/src/main/java/eu/bcvsolutions/idm/core/security/service/impl/JwtAuthenticationMapper.java:250-293 | the new token has an identifier and stores exactly the given authorities |
| JwtAuthenticationMapper.TruncDiv | Realization/backend/core/core-impl/src/main/java/eu/bcvsolutions/idm/core/security/service/impl/JwtAuthenticationMapper.java:318-322 | the quotient of Java long division, rounded toward zero: a non-negative dividend leaves a remainder in [0, b), a negative one a remainder in (-b, 0] |
| JwtAuthenticationMapper.ShouldProlongIffMinute | Realization/backend/core/core-impl/src/main/java/eu/bcvsolutions/idm/core/security/service/impl/JwtAuthenticationMapper.java:318-322 | the rule holds exactly when the new expiration is at least 60000 ms later |
| JwtAuthenticationMapper.ShouldProlong | Realization/backend/core/core-impl/src/main/java/eu/bcvsolutions/idm/core/security/service/impl/JwtAuthenticationMapper.java:318-322 | at least 60000 ms later always prolongs, and only a later expiration can prolong |
| JwtAuthenticationMapper.NewExpiration | Realization/backend/core/core-impl/src/main/java/eu/bcvsolutions/idm/core/security/service/impl/JwtAuthenticationMapper.java:142-148 | the new expiration prolongs one ending now exactly when the timeout is at least a minute, and lies after now exactly when the timeout is positive |
| JwtAuthenticationMapper.TokenStore.GetToken | Realization/backend/core/core-impl/src/main/java/eu/bcvsolutions/idm/core/security/service/impl/JwtAuthenticationMapper.java:219-241 | the stored token with that identifier, none when there is none |
| JwtAuthenticationMapper.TokenStore.SaveToken | Realization/backend/core/core-impl/src/main/java/eu/bcvsolutions/idm/core/security/service/impl/JwtAuthenticationMapper.java:294-297 | the token is stored under its identifier |
| JwtAuthenticationMapper.TokenStore.CreateToken | Realization/backend/core/core-impl/src/main/java/eu/bcvsolutions/idm/core/security/service/impl/JwtAuthenticationMapper.java:250-298 | an identity without id is refused; otherwise the defaulted, hashed token is saved and returned |
| JwtAuthenticationMapper.TokenStore.FromDto | Realization/backend/core/core-impl/src/main/java/eu/bcvsolutions/idm/core/security/service/impl/JwtAuthenticationMapper.java:159-211 | requires a current identity id; an existing token is reused and nothing changes; otherwise exactly one token is added under the claims id (or a fresh one): an authentication token of the identity, whose claims read back as the given ones, whose stored authorities are the identity's granted authorities, hashed over its claims, and the authentication carries those authorities |
| JwtAuthenticationMapper.TokenStore.ProlongExpiration | Realization/backend/core/core-impl/src/main/java/eu/bcvsolutions/idm/core/security/service/impl/JwtAuthenticationMapper.java:307-341 | claims without id or expiration, or moved by under a minute, are returned unchanged and nothing is stored; otherwise the expiration moves at least a minute later, and a persisted token with an expiration is replaced by itself with the new expiration and a fresh hash, every other token left as it was |
| TokenEvictCacheProcessor.UpdateWithoutDisablingKeepsCaches | Realization/backend/core/core-impl/src/main/java/eu/bcvsolutions/idm/core/model/event/processor/token/TokenEvictCacheProcessor.java:52-53 | an update of an authentication token that does not disable it keeps the owner caches |
| TokenEvictCacheProcessor.OtherTokenTypesKeepCaches | Realization/backend/core/core-impl/src/main/java/eu/bcvsolutions/idm/core/model/event/processor/token/TokenEvictCacheProcessor.java:52 | tokens of other types never evict the owner caches |
| TokenEvictCacheProcessor.EvictsOwnerCaches | Realization/backend/core/core-impl/src/main/java/eu/bcvsolutions/idm/core/model/event/processor/token/TokenEvictCacheProcessor.java:51-52 | deleting an authentication token always evicts the owner caches; an update with a previous token evicts them only when it disables an enabled token |
| TokenEvictCacheProcessor.Evict | Realization/backend/core/core-impl/src/main/java/eu/bcvsolutions/idm/core/model/event/processor/token/TokenEvictCacheProcessor.java:57-62 | the key is removed; every other entry stays with its value |
| TokenEvictCacheProcessor.CacheManager.Process | Realization/backend/core/core-impl/src/main/java/eu/bcvsolutions/idm/core/model/event/processor/token/TokenEvictCacheProcessor.java:47-65 | the owner is evicted from the permission and policy caches exactly when the rule holds; the token entry is always evicted; other entries are untouched |
| NotificationConfigurationService.PluginFor | Realization/backend/core/core-impl/src/main/java/eu/bcvsolutions/idm/core/notification/service/impl/DefaultIdmNotificationConfigurationService.java:119-122 | a registered sender of that type when one exists |
| NotificationConfigurationService.DefaultSenders | Realization/backend/core/core-impl/src/main/java/eu/bcvsolutions/idm/core/notification/service/impl/DefaultIdmNotificationConfigurationService.java:103-107 | exactly one entry: the first registered console sender, or null when none is registered |
| NotificationConfigurationService.SendersOfTypes | Realization/backend/core/core-impl/src/main/java/eu/bcvsolutions/idm/core/notification/service/impl/DefaultIdmNotificationConfigurationService.java:124-130 | registered senders only; empty exactly when no type has a sender; which senders and in which order is stated by SendersOfTypesExactly and SendersOfTypesAppend |
| NotificationConfigurationService.SendersOfTypesExactly | Realization/backend/core/core-impl/src/main/java/eu/bcvsolutions/idm/core/notification/service/impl/DefaultIdmNotificationConfigurationService.java:124-130 | an entry is a sender exactly when it is the registered sender of one of the types |
| NotificationConfigurationService.SendersOfTypesAppend | Realization/backend/core/core-impl/src/main/java/eu/bcvsolutions/idm/core/notification/service/impl/DefaultIdmNotificationConfigurationService.java:124-130 | the senders follow the order of the types: the collection distributes over concatenation |
| NotificationConfigurationService.SendersOfOneType | Realization/backend/core/core-impl/src/main/java/eu/bcvsolutions/idm/core/notification/service/impl/DefaultIdmNotificationConfigurationService.java:125-128 | one type contributes its registered sender, or nothing when it has none |
| NotificationConfigurationService.SupportedNotificationTypes | Realization/backend/core/core-impl/src/main/java/eu/bcvsolutions/idm/core/notification/service/impl/DefaultIdmNotificationConfigurationService.java:140-149 | every registered type except the envelope type |
| NotificationConfigurationService.ToSenderType | Realization/backend/core/core-impl/src/main/java/eu/bcvsolutions/idm/core/notification/service/impl/DefaultIdmNotificationConfigurationService.java:152-162 | null for an empty type, the sender class for a registered one, an error otherwise |
| NotificationConfigurationService.ConfigurationRepository.CountByTopic | Realization/backend/core/core-impl/src/main/java/eu/bcvsolutions/idm/core/notification/service/impl/DefaultIdmNotificationConfigurationService.java:87-90 | zero exactly when no configuration has the topic |
| NotificationConfigurationService.ConfigurationRepository.FindTypes | Realization/backend/core/core-impl/src/main/java/eu/bcvsolutions/idm/core/notification/service/impl/DefaultIdmNotificationConfigurationService.java:124-130 | exactly the types configured for the topic and level |
| NotificationConfigurationService.WithKey | Realization/backend/core/core-impl/src/main/java/eu/bcvsolutions/idm/core/notification/service/impl/DefaultIdmNotificationConfigurationService.java:73 | exactly the stored configurations with the topic, level and type |
| NotificationConfigurationService.Refusal | Realization/backend/core/core-impl/src/main/java/eu/bcvsolutions/idm/core/notification/service/impl/DefaultIdmNotificationConfigurationService.java:73-76 | several configurations with the key: the finder fails; exactly one that is not the one saved: NOTIFICATION_TOPIC_AND_LEVEL_EXISTS; otherwise no refusal |
| NotificationConfigurationService.UniqueKeyOnce | Realization/backend/core/core-impl/src/main/java/eu/bcvsolutions/idm/core/notification/service/impl/DefaultIdmNotificationConfigurationService.java:73 | where no topic, level and type repeat, the finder meets at most one configuration |
| NotificationConfigurationService.ConfigurationRepository.FindByKey | Realization/backend/core/core-impl/src/main/java/eu/bcvsolutions/idm/core/notification/service/impl/DefaultIdmNotificationConfigurationService.java:73 | the loop collects exactly WithKey of the stored configurations |
| NotificationConfigurationService.ConfigurationRepository.Save | Realization/backend/core/core-impl/src/main/java/eu/bcvsolutions/idm/core/notification/service/impl/DefaultIdmNotificationConfigurationService.java:69-78 | refused exactly as Refusal says, storing nothing; on a repository without repeated keys only the duplicate error remains; otherwise the dto is stored under its id (or the next one), replacing the configuration with that id and keeping every other, or appended; the at-most-once rule is kept once it holds |
| NotificationConfigurationService.ConfigurationRepository.Store | Realization/backend/core/core-impl/src/main/java/eu/bcvsolutions/idm/core/notification/service/impl/DefaultIdmNotificationConfigurationService.java:77 | the configuration with the same id is replaced and every other kept, or the configuration is appended; the at-most-once rule survives when no other configuration has its key |
| NotificationConfigurationService.ModuleDefaults | Realization/backend/core/core-impl/src/main/java/eu/bcvsolutions/idm/core/notification/service/impl/DefaultIdmNotificationConfigurationService.java:87-97 | one module's defaults keep every stored configuration in front, in order |
| NotificationConfigurationService.ConfigurationRepository.InitModule | Realization/backend/core/core-impl/src/main/java/eu/bcvsolutions/idm/core/notification/service/impl/DefaultIdmNotificationConfigurationService.java:87-97 | the new state is ModuleDefaults: in declared order, a default is stored under the next id when its topic has no configuration or was already taken up by this module; every default topic ends configured |
| NotificationConfigurationService.ConfigurationRepository.InitDefaultTopics | Realization/backend/core/core-impl/src/main/java/eu/bcvsolutions/idm/core/notification/service/impl/DefaultIdmNotificationConfigurationService.java:85-100 | the new state is Initialized, the modules' defaults applied in module order; stored configurations are kept in front and every default topic has a configuration |
| NotificationConfigurationService.ConfigurationRepository.InitDefault | Realization/backend/core/core-impl/src/main/java/eu/bcvsolutions/idm/core/notification/service/impl/DefaultIdmNotificationConfigurationService.java:89-97 | one default advances the state exactly as one step of ModuleDefaults: stored under the next id when its topic is unconfigured or already in the module's to-create set, which then holds it; earlier configurations are kept and the default's topic ends configured |
| NotificationConfigurationService.ConfigurationRepository.StoreNew | Realization/backend/core/core-impl/src/main/java/eu/bcvsolutions/idm/core/notification/service/impl/DefaultIdmNotificationConfigurationService.java:92-97 | the module default is appended under the next identifier, which then advances; no topic loses its configuration |
| NotificationConfigurationService.ConfigurationRepository.GetSenders | Realization/backend/core/core-impl/src/main/java/eu/bcvsolutions/idm/core/notification/service/impl/DefaultIdmNotificationConfigurationService.java:103-137 | the console sender for an empty topic or an empty result; a plain type gives its own sender; the envelope gives SendersOfTypes of the stored types, that is, the registered sender of each stored type that has one, in type order |
| RoleTreeNodeRepository.Find | Realization/backend/core/core-impl/src/main/java/eu/bcvsolutions/idm/core/model/repository/IdmRoleTreeNodeRepository.java:28-30 | the generic find always fails with an unsupported-operation error |
| RoleTreeNodeRepository.FindAutomaticRoles | Realization/backend/core/core-impl/src/main/java/eu/bcvsolutions/idm/core/model/repository/IdmRoleTreeNodeRepository.java:38-45 | as written: exactly the automatic roles on the node itself, DOWN with the node lft in the role node range, or UP with the role node lft in the node range; the tree type is not compared |
| RoleTreeNodeRepository.AppliesTo | Realization/backend/core/core-impl/src/main/java/eu/bcvsolutions/idm/core/model/repository/IdmRoleTreeNodeRepository.java:38-45 | a DOWN role applies to every node strictly inside its range and an UP role to every node whose range strictly holds its node; a DOWN role never applies to another node outside its range |
| RoleTreeNodeRepository.OwnNodeAlwaysApplies | Realization/backend/core/core-impl/src/main/java/eu/bcvsolutions/idm/core/model/repository/IdmRoleTreeNodeRepository.java:40 | an automatic role on the node itself applies whatever its recursion |
| RoleTreeNodeRepository.NoRecursionOwnNodeOnly | Realization/backend/core/core-impl/src/main/java/eu/bcvsolutions/idm/core/model/repository/IdmRoleTreeNodeRepository.java:38-45 | with NO recursion a role applies exactly to its own node |
| RoleTreeNodeRepository.DownIsSubtree | Realization/backend/core/core-impl/src/main/java/eu/bcvsolutions/idm/core/model/repository/IdmRoleTreeNodeRepository.java:42-44 | for properly nested ranges the lft test equals range containment, both for DOWN and for UP |
| RoleTreeNodeRepository.CrossTreeTypeMatch | Realization/backend/core/core-impl/src/main/java/eu/bcvsolutions/idm/core/model/repository/IdmRoleTreeNodeRepository.java:38-45 | a DOWN role on a root (1,4) of one tree type applies to a node (2,3) of another tree type |
| RoleTreeNodeRepository.FindAutomaticRolesSameTreeType | Realization/backend/core/core-impl/src/main/java/eu/bcvsolutions/idm/core/model/repository/IdmRoleTreeNodeRepository.java:38-45 | corrected: the same roles restricted to the node tree type; every result has that tree type |
| RoleTreeNodeRepository.SameTreeTypeAgrees | Realization/backend/core/core-impl/src/main/java/eu/bcvsolutions/idm/core/model/repository/IdmRoleTreeNodeRepository.java:38-45 | when all roles are on nodes of the queried tree type, the corrected query equals the query as written |
| ContractPositionRepository.FindAllByWorkPosition | Realization/backend/core/core-impl/src/main/java/eu/bcvsolutions/idm/core/model/repository/IdmContractPositionRepository.java:23-41 | an unknown work position gives none; otherwise exactly the positions of the same tree type on the node itself, below it for DOWN or above it for UP |
| ContractPositionRepository.OnWorkPosition | Realization/backend/core/core-impl/src/main/java/eu/bcvsolutions/idm/core/model/repository/IdmContractPositionRepository.java:23-41 | within one tree type the node itself always matches, DOWN matches nodes strictly inside the work position range and UP nodes whose range strictly holds it; without recursion only the node itself |
| ContractPositionRepository.OtherTreeTypeNeverMatches | Realization/backend/core/core-impl/src/main/java/eu/bcvsolutions/idm/core/model/repository/IdmContractPositionRepository.java:27 | a position of another tree type never matches |
| ContractPositionRepository.NoRecursionSameNodeOnly | Realization/backend/core/core-impl/src/main/java/eu/bcvsolutions/idm/core/model/repository/IdmContractPositionRepository.java:29-41 | without recursion (NO) only the same node of the same tree type matches |
| ContractPositionRepository.RecursionWidens | Realization/backend/core/core-impl/src/main/java/eu/bcvsolutions/idm/core/model/repository/IdmContractPositionRepository.java:29-41 | what NO matches, DOWN and UP match too; an unset recursion equals NO |
| ContractPositionRepository.AgreesWithAutomaticRoles | Realization/backend/core/core-impl/src/main/java/eu/bcvsolutions/idm/core/model/repository/IdmContractPositionRepository.java:23-41 | within one tree type the position query and the automatic-role query agree for every recursion |
| LongRunningTaskExecuteDependentProcessor.TriggersOf | Realization/backend/core/core-impl/src/main/java/eu/bcvsolutions/idm/core/scheduler/event/processor/LongRunningTaskExecuteDependentProcessor.java:64-70 | exactly the triggers whose initiator is the ended long-running task |
| LongRunningTaskExecuteDependentProcessor.DependentRuns | Realization/backend/core/core-impl/src/main/java/eu/bcvsolutions/idm/core/scheduler/event/processor/LongRunningTaskExecuteDependentProcessor.java:79-97 | every run is an existing task with the initiator dryRun and comes from some trigger, and every existing dependent task is run; the count is DependentRunsCount |
| LongRunningTaskExecuteDependentProcessor.ExistingCount | Realization/backend/core/core-impl/src/main/java/eu/bcvsolutions/idm/core/scheduler/event/processor/LongRunningTaskExecuteDependentProcessor.java:88-96 | the number of triggers whose dependent task the scheduler knows, at most the number of triggers |
| LongRunningTaskExecuteDependentProcessor.DependentRunsCount | Realization/backend/core/core-impl/src/main/java/eu/bcvsolutions/idm/core/scheduler/event/processor/LongRunningTaskExecuteDependentProcessor.java:79-97 | one run per trigger whose task exists: the number of runs is ExistingCount |
| LongRunningTaskExecuteDependentProcessor.DependentRunsSnoc | Realization/backend/core/core-impl/src/main/java/eu/bcvsolutions/idm/core/scheduler/event/processor/LongRunningTaskExecuteDependentProcessor.java:79-97 | one more trigger adds its run at the end exactly when its task exists |
| LongRunningTaskExecuteDependentProcessor.DependentRunsAppend | Realization/backend/core/core-impl/src/main/java/eu/bcvsolutions/idm/core/scheduler/event/processor/LongRunningTaskExecuteDependentProcessor.java:79-97 | the runs follow trigger order: they distribute over concatenation of triggers |
| LongRunningTaskExecuteDependentProcessor.StartsDependents | Realization/backend/core/core-impl/src/main/java/eu/bcvsolutions/idm/core/scheduler/event/processor/LongRunningTaskExecuteDependentProcessor.java:55-76 | never for a task that has no scheduled task or did not end EXECUTED; when it holds, some trigger names the scheduled task as its initiator |
| LongRunningTaskExecuteDependentProcessor.SchedulerManager.RunTaskNewTransactional | Realization/backend/core/core-impl/src/main/java/eu/bcvsolutions/idm/core/scheduler/event/processor/LongRunningTaskExecuteDependentProcessor.java:95 | one run with the given dryRun is appended |
| LongRunningTaskExecuteDependentProcessor.SchedulerManager.RunDependents | Realization/backend/core/core-impl/src/main/java/eu/bcvsolutions/idm/core/scheduler/event/processor/LongRunningTaskExecuteDependentProcessor.java:80-101 | the runs appended are exactly DependentRuns of the triggers against the scheduler's tasks, in trigger order; the known tasks do not change |
| LongRunningTaskExecuteDependentProcessor.Process | Realization/backend/core/core-impl/src/main/java/eu/bcvsolutions/idm/core/scheduler/event/processor/LongRunningTaskExecuteDependentProcessor.java:55-102 | EXECUTED exactly when StartsDependents holds; then the runs appended are DependentRuns of the triggers, so each comes from a trigger and their count is ExistingCount; otherwise nothing runs |
| AddNewAutomaticRoleForPosition.AddConcept | Realization/backend/core/core-impl/src/main/java/eu/bcvsolutions/idm/core/scheduler/task/impl/AddNewAutomaticRoleForPositionTaskExecutor.java:131-142 | one ADD concept with the automatic role, its role, the contract and position, and the contract validFrom and validTill |
| AddNewAutomaticRoleForPosition.Outcome | Realization/backend/core/core-impl/src/main/java/eu/bcvsolutions/idm/core/scheduler/task/impl/AddNewAutomaticRoleForPositionTaskExecutor.java:93-161 | a missing node throws AUTOMATIC_ROLE_TASK_EMPTY; EXECUTED exactly for a valid contract, a role not yet assigned by the automatic role and a successful execution; an invalid contract is NOT_EXECUTED with AUTOMATIC_ROLE_CONTRACT_IS_NOT_VALID, an existing assignment NOT_EXECUTED with AUTOMATIC_ROLE_ALREADY_ASSIGNED, a failed execution EXCEPTION |
| AddNewAutomaticRoleForPosition.RerunDoesNotAssignTwice | Realization/backend/core/core-impl/src/main/java/eu/bcvsolutions/idm/core/scheduler/task/impl/AddNewAutomaticRoleForPositionTaskExecutor.java:113-128 | once the assigned role is among the identity roles, processing again is NOT_EXECUTED with ALREADY_ASSIGNED |
| AddNewAutomaticRoleForPosition.AutomaticRolePositionTask.Init | Realization/backend/core/core-impl/src/main/java/eu/bcvsolutions/idm/core/scheduler/task/impl/AddNewAutomaticRoleForPositionTaskExecutor.java:72-77 | the role tree node id is taken from the parameter and the cache is reset |
| AddNewAutomaticRoleForPosition.AutomaticRolePositionTask.GetRoleTreeNode | Realization/backend/core/core-impl/src/main/java/eu/bcvsolutions/idm/core/scheduler/task/impl/AddNewAutomaticRoleForPositionTaskExecutor.java:171-179 | a cached node is returned as is; otherwise it is loaded and cached, or AUTOMATIC_ROLE_TASK_EMPTY when missing |
| AddNewAutomaticRoleForPosition.AutomaticRolePositionTask.GetItemsToProcess | Realization/backend/core/core-impl/src/main/java/eu/bcvsolutions/idm/core/scheduler/task/impl/AddNewAutomaticRoleForPositionTaskExecutor.java:80-84 | the positions on the role node work position with its recursion type, or AUTOMATIC_ROLE_TASK_EMPTY |
| AddNewAutomaticRoleForPosition.AutomaticRolePositionTask.IsInProcessedQueue | Realization/backend/core/core-impl/src/main/java/eu/bcvsolutions/idm/core/scheduler/task/impl/AddNewAutomaticRoleForPositionTaskExecutor.java:87-90 | always false |
| AddNewAutomaticRoleForPosition.AutomaticRolePositionTask.ProcessItem | Realization/backend/core/core-impl/src/main/java/eu/bcvsolutions/idm/core/scheduler/task/impl/AddNewAutomaticRoleForPositionTaskExecutor.java:93-161 | the result is Outcome; one execution with one ADD concept is recorded exactly when EXECUTED |
| PasswordExpirationWarning.ToInt32 | Realization/backend/core/core-impl/src/main/java/eu/bcvsolutions/idm/core/scheduler/task/impl/password/PasswordExpirationWarningTaskExecutor.java:73 | the 32-bit narrowing of a long: in range, congruent modulo 2^32, and the identity on values already in range |
| PasswordExpirationWarning.ExpirationAsWritten | Realization/backend/core/core-impl/src/main/java/eu/bcvsolutions/idm/core/scheduler/task/impl/password/PasswordExpirationWarningTaskExecutor.java:73 | as written: today plus the narrowed days minus one, which is today + daysBefore - 1 whenever daysBefore fits in 32 bits |
| PasswordExpirationWarning.ExpirationWraps | Realization/backend/core/core-impl/src/main/java/eu/bcvsolutions/idm/core/scheduler/task/impl/password/PasswordExpirationWarningTaskExecutor.java:73 | as written, daysBefore = 2^31 gives today + 2^31 - 1 and daysBefore = 2^32 gives yesterday |
| PasswordExpirationWarning.Expiration | Realization/backend/core/core-impl/src/main/java/eu/bcvsolutions/idm/core/scheduler/task/impl/password/PasswordExpirationWarningTaskExecutor.java:73 | corrected: for a positive daysBefore the expiration day lies in [today, today + daysBefore) |
| PasswordExpirationWarning.ExpirationMonotone | Realization/backend/core/core-impl/src/main/java/eu/bcvsolutions/idm/core/scheduler/task/impl/password/PasswordExpirationWarningTaskExecutor.java:73 | more days before never gives an earlier expiration day |
| PasswordExpirationWarning.SelectedWithinDays | Realization/backend/core/core-impl/src/main/java/eu/bcvsolutions/idm/core/scheduler/task/impl/password/PasswordExpirationWarningTaskExecutor.java:79-82 | a password of an enabled identity is selected exactly when it expires within daysBefore days from today |
| PasswordExpirationWarning.PasswordsExpiringBy | Realization/backend/core/core-impl/src/main/java/eu/bcvsolutions/idm/core/scheduler/task/impl/password/PasswordExpirationWarningTaskExecutor.java:79-82 | exactly the passwords with a validTill on or before the expiration day whose identity is not disabled |
| PasswordExpirationWarning.PasswordExpirationWarningTask.Init | Realization/backend/core/core-impl/src/main/java/eu/bcvsolutions/idm/core/scheduler/task/impl/password/PasswordExpirationWarningTaskExecutor.java:64-75 | a missing or non-positive daysBefore fails with PASSWORD_EXPIRATION_TASK_DAYS_BEFORE; otherwise the expiration day is stored and returned |
| PasswordExpirationWarning.PasswordExpirationWarningTask.ItemsToProcess | Realization/backend/core/core-impl/src/main/java/eu/bcvsolutions/idm/core/scheduler/task/impl/password/PasswordExpirationWarningTaskExecutor.java:78-84 | only passwords expiring by the stored day of enabled identities, and every such password |
| PasswordExpirationWarning.PasswordExpirationWarningTask.ProcessItem | Realization/backend/core/core-impl/src/main/java/eu/bcvsolutions/idm/core/scheduler/task/impl/password/PasswordExpirationWarningTaskExecutor.java:87-112 | one warning with the topic, identity, validTill and daysBefore is sent and the item is EXECUTED; EXCEPTION with nothing sent when sending fails or validTill is null |
| RoleDeleteBulkAction.IdentitiesModel | Realization/backend/core/core-impl/src/main/java/eu/bcvsolutions/idm/core/bulk/action/impl/role/RoleDeleteBulkAction.java:71-80 | the model has the number-of-identities code and the role code as its role parameter |
| RoleDeleteBulkAction.IdentityEntries | Realization/backend/core/core-impl/src/main/java/eu/bcvsolutions/idm/core/bulk/action/impl/role/RoleDeleteBulkAction.java:71-80 | one entry per selected role with assigned identities, each with a positive count |
| RoleDeleteBulkAction.CollectEntries | Realization/backend/core/core-impl/src/main/java/eu/bcvsolutions/idm/core/bulk/action/impl/role/RoleDeleteBulkAction.java:71-80 | the loop collects exactly the identity entries |
| RoleDeleteBulkAction.ConceptsToModify | Realization/backend/core/core-impl/src/main/java/eu/bcvsolutions/idm/core/bulk/action/impl/role/RoleDeleteBulkAction.java:82-95 | zero exactly when no selected role has a concept to modify |
| RoleDeleteBulkAction.SortByCountDesc | Realization/backend/core/core-impl/src/main/java/eu/bcvsolutions/idm/core/bulk/action/impl/role/RoleDeleteBulkAction.java:98-106 | a permutation of the entries, sorted by descending count |
| RoleDeleteBulkAction.Models | Realization/backend/core/core-impl/src/main/java/eu/bcvsolutions/idm/core/bulk/action/impl/role/RoleDeleteBulkAction.java:98-106 | the models of the entries, in order |
| RoleDeleteBulkAction.TopEntriesAreTheLargest | Realization/backend/core/core-impl/src/main/java/eu/bcvsolutions/idm/core/bulk/action/impl/role/RoleDeleteBulkAction.java:98-106 | at most the limit of entries, sorted, all with identities, and no left-out entry has a larger count than a reported one |
| RoleDeleteBulkAction.PrevalidateInfos | Realization/backend/core/core-impl/src/main/java/eu/bcvsolutions/idm/core/bulk/action/impl/role/RoleDeleteBulkAction.java:98-110 | at most limit + 1 infos; the concepts info comes last exactly when there are concepts to modify |
| RoleDeleteBulkAction.InfosShape | Realization/backend/core/core-impl/src/main/java/eu/bcvsolutions/idm/core/bulk/action/impl/role/RoleDeleteBulkAction.java:98-110 | the first infos are all number-of-identities models, followed by the concepts info exactly when there are concepts to modify |
| RoleDeleteBulkAction.AddInfos | Realization/backend/core/core-impl/src/main/java/eu/bcvsolutions/idm/core/bulk/action/impl/role/RoleDeleteBulkAction.java:98-106 | the models of the entries are appended to the infos and the errors are unchanged |
| RoleDeleteBulkAction.Prevalidate | Realization/backend/core/core-impl/src/main/java/eu/bcvsolutions/idm/core/bulk/action/impl/role/RoleDeleteBulkAction.java:65-113 | a fresh result with no errors and the prevalidation infos |
| ContractSliceService.ToEntity | Realization/backend/core/core-impl/src/main/java/eu/bcvsolutions/idm/core/model/service/impl/DefaultIdmContractSliceService.java:58-64 | no entity when the mapping gives none; otherwise the mapped entity, with the disabled flag taken from the dto when one is given |
| ContractSliceService.Find | Realization/backend/core/core-impl/src/main/java/eu/bcvsolutions/idm/core/model/service/impl/DefaultIdmContractSliceService.java:67-181 | exactly the slices matching every set filter field |
| ContractSliceService.Matches | Realization/backend/core/core-impl/src/main/java/eu/bcvsolutions/idm/core/model/service/impl/DefaultIdmContractSliceService.java:67-181 | the empty filter matches every slice; a text filter needs a work position; an identity filter keeps only that identity; a date filter never matches a slice whose column is unset |
| ContractSliceService.TextMatches | Realization/backend/core/core-impl/src/main/java/eu/bcvsolutions/idm/core/model/service/impl/DefaultIdmContractSliceService.java:70-79 | a slice without a work position never matches (inner join); with no position the name or code of the work position decides |
| ContractSliceService.InWindow | Realization/backend/core/core-impl/src/main/java/eu/bcvsolutions/idm/core/model/service/impl/DefaultIdmContractSliceService.java:99-112 | both bounds are inclusive and an unset bound is open; a slice that has ended or not started is outside |
| ContractSliceService.ValidNow | Realization/backend/core/core-impl/src/main/java/eu/bcvsolutions/idm/core/model/service/impl/DefaultIdmContractSliceService.java:99-112 | a disabled slice is never valid; an open-ended slice is valid exactly when enabled |
| ContractSliceService.InvalidNow | Realization/backend/core/core-impl/src/main/java/eu/bcvsolutions/idm/core/model/service/impl/DefaultIdmContractSliceService.java:114-123 | a disabled slice is always invalid; an open-ended slice is invalid exactly when disabled |
| ContractSliceService.ValidNowOrInFuture | Realization/backend/core/core-impl/src/main/java/eu/bcvsolutions/idm/core/model/service/impl/DefaultIdmContractSliceService.java:126-134 | a slice not started yet still counts; a slice ending today counts exactly when enabled |
| ContractSliceService.EndedBefore | Realization/backend/core/core-impl/src/main/java/eu/bcvsolutions/idm/core/model/service/impl/DefaultIdmContractSliceService.java:135-137 | a slice that ended yesterday has ended; one ending today or never has not |
| ContractSliceService.OutOfWindow | Realization/backend/core/core-impl/src/main/java/eu/bcvsolutions/idm/core/model/service/impl/DefaultIdmContractSliceService.java:169-177 | an open-ended slice is never out of its window; one starting tomorrow or ended yesterday is |
| ContractSliceService.EmptyFilterFindsAll | Realization/backend/core/core-impl/src/main/java/eu/bcvsolutions/idm/core/model/service/impl/DefaultIdmContractSliceService.java:67-181 | the empty filter returns every slice, in order |
| ContractSliceService.ValidFalseIsComplement | Realization/backend/core/core-impl/src/main/java/eu/bcvsolutions/idm/core/model/service/impl/DefaultIdmContractSliceService.java:99-123 | valid = false selects exactly the slices valid = true does not |
| ContractSliceService.ShouldBeUsingIsComplementAndIgnoresDisabled | Realization/backend/core/core-impl/src/main/java/eu/bcvsolutions/idm/core/model/service/impl/DefaultIdmContractSliceService.java:154-177 | shouldBeUsing = false is the complement of true, and neither depends on the disabled flag |
| ContractSliceService.ValidNowIsValidNowOrInFuture | Realization/backend/core/core-impl/src/main/java/eu/bcvsolutions/idm/core/model/service/impl/DefaultIdmContractSliceService.java:99-137 | a slice valid now is valid now or in the future and has not ended |
| ContractSliceService.ValidNowOrInFutureNotComplement | Realization/backend/core/core-impl/src/main/java/eu/bcvsolutions/idm/core/model/service/impl/DefaultIdmContractSliceService.java:125-137 | validNowOrInFuture = true and = false never both hold, and a disabled slice that has not ended matches neither |
| ContractSliceService.TextIgnoresCase | Realization/backend/core/core-impl/src/main/java/eu/bcvsolutions/idm/core/model/service/impl/DefaultIdmContractSliceService.java:70-79 | the text filter gives the same answer for a text and its lower case |
| SynchronizationService.PluginFor | Realization/backend/acc/src/main/java/eu/bcvsolutions/idm/acc/service/impl/DefaultSynchronizationService.java:358-366 | an executor supporting the entity type exactly when one exists, and then the first registered one |
| SynchronizationService.GetSyncExecutor | Realization/backend/acc/src/main/java/eu/bcvsolutions/idm/acc/service/impl/DefaultSynchronizationService.java:358-366 | a supporting executor exactly when one exists, otherwise an executor-not-supported error for that entity type |
| SynchronizationService.Process | Realization/backend/acc/src/main/java/eu/bcvsolutions/idm/acc/service/impl/DefaultSynchronizationService.java:140-154 | an unknown configuration gives SYNCHRONIZATION_NOT_FOUND, a configuration without mapping an error; for a configuration with a mapping, the executor registered for the mapping entity type, or ExecutorNotSupported when none supports it |
| SynchronizationService.SystemEntitiesOf | Realization/backend/acc/src/main/java/eu/bcvsolutions/idm/acc/service/impl/DefaultSynchronizationService.java:338-345 | exactly the system entities with the uid, system and entity type |
| SynchronizationService.FindSystemEntity | Realization/backend/acc/src/main/java/eu/bcvsolutions/idm/acc/service/impl/DefaultSynchronizationService.java:333-346 | none exactly when no entity matches, the matching one when it is unique, SYNCHRONIZATION_TO_MANY_SYSTEM_ENTITY exactly when more than one matches |
| SynchronizationService.DuplicateUidFails | Realization/backend/acc/src/main/java/eu/bcvsolutions/idm/acc/service/impl/DefaultSynchronizationService.java:338-345 | two distinct entities with the same uid, system and type make the lookup fail |
| SynchronizationService.SynchronizationTask.UpdateState | Realization/backend/acc/src/main/java/eu/bcvsolutions/idm/acc/service/impl/DefaultSynchronizationService.java:161-166 | a running synchronization whose task is not updated by the scheduler publishes one CANCEL event with its configuration (none when unknown); otherwise nothing changes |
| SynchronizationService.SynchronizationTask.StopSynchronization | Realization/backend/acc/src/main/java/eu/bcvsolutions/idm/acc/service/impl/DefaultSynchronizationService.java:175-193 | SYNCHRONIZATION_IS_NOT_RUNNING exactly when no log of the configuration is running; otherwise every such log is stopped and the configuration returned |
| RoleSynchronizationExecutor.Supports | Realization/backend/acc/src/main/java/eu/bcvsolutions/idm/acc/service/impl/RoleSynchronizationExecutor.java:343-346 | true exactly for the role entity type |
| RoleSynchronizationExecutor.RoleTypeOf | Realization/backend/acc/src/main/java/eu/bcvsolutions/idm/acc/service/impl/RoleSynchronizationExecutor.java:313-321 | a role type for its four names and an error for any other name |
| RoleSynchronizationExecutor.RoleTypeRoundTrip | Realization/backend/acc/src/main/java/eu/bcvsolutions/idm/acc/service/impl/RoleSynchronizationExecutor.java:313-321 | the name of every role type parses back to it |
| RoleSynchronizationExecutor.ValueByMappedAttribute | Realization/backend/acc/src/main/java/eu/bcvsolutions/idm/acc/service/impl/RoleSynchronizationExecutor.java:313-321 | text mapped to the role type property becomes a role type (or an error); every other value is passed through |
| RoleSynchronizationExecutor.RolesWith | Realization/backend/acc/src/main/java/eu/bcvsolutions/idm/acc/service/impl/RoleSynchronizationExecutor.java:401-413 | exactly the roles with the property value |
| RoleSynchronizationExecutor.FindEntityByAttribute | Realization/backend/acc/src/main/java/eu/bcvsolutions/idm/acc/service/impl/RoleSynchronizationExecutor.java:395-414 | none when no role matches, the role when one matches, SYNCHRONIZATION_CORRELATION_TO_MANY_RESULTS exactly when several match |
| RoleSynchronizationExecutor.UniqueCorrelation | Realization/backend/acc/src/main/java/eu/bcvsolutions/idm/acc/service/impl/RoleSynchronizationExecutor.java:401-413 | a role whose property value is unique is the one found |
| RoleSynchronizationExecutor.RelationsOf | Realization/backend/acc/src/main/java/eu/bcvsolutions/idm/acc/service/impl/RoleSynchronizationExecutor.java:288-291 | exactly the role-account relations of the account |
| RoleSynchronizationExecutor.RoleSyncExecutor.FindRelations | Realization/backend/acc/src/main/java/eu/bcvsolutions/idm/acc/service/impl/RoleSynchronizationExecutor.java:288-291 | the loop finds exactly RelationsOf the account, in order |
| RoleSynchronizationExecutor.RoleSyncExecutor.DeleteRelations | Realization/backend/acc/src/main/java/eu/bcvsolutions/idm/acc/service/impl/RoleSynchronizationExecutor.java:300-309 | the given relations are removed, one deletion line each, nothing else changes |
| RoleSynchronizationExecutor.RelationsNotOf | Realization/backend/acc/src/main/java/eu/bcvsolutions/idm/acc/service/impl/RoleSynchronizationExecutor.java:291-310 | exactly the role-account relations of other accounts |
| RoleSynchronizationExecutor.RoleSyncExecutor.DoDeleteEntity | Realization/backend/acc/src/main/java/eu/bcvsolutions/idm/acc/service/impl/RoleSynchronizationExecutor.java:120-135 | a linked role that exists is removed and logged; otherwise a warning is logged; the linked role no longer exists |
| RoleSynchronizationExecutor.RoleSyncExecutor.CallProvisioningForEntity | Realization/backend/acc/src/main/java/eu/bcvsolutions/idm/acc/service/impl/RoleSynchronizationExecutor.java:169-176 | one item-log line naming the role's id and name, and the role is provisioned; roles, relations and action logs unchanged |
| RoleSynchronizationExecutor.RoleSyncExecutor.DoCreateEntity | Realization/backend/acc/src/main/java/eu/bcvsolutions/idm/acc/service/impl/RoleSynchronizationExecutor.java:189-220 | the role is saved, linked to the account by a new owning relation and provisioned; the item log gains exactly the create decision, the new role's id and the provisioning line, in that order |
| RoleSynchronizationExecutor.RoleSyncExecutor.DoUnlink | Realization/backend/acc/src/main/java/eu/bcvsolutions/idm/acc/service/impl/RoleSynchronizationExecutor.java:285-311 | every relation of the account is removed and nothing else; a missing relation is logged as a warning, otherwise the item log gains the to-delete line and one deletion line per relation |
| RoleSynchronizationExecutor.RoleSyncExecutor.FindRole | Realization/backend/acc/src/main/java/eu/bcvsolutions/idm/acc/service/impl/RoleSynchronizationExecutor.java:120-135 | found exactly when a role with the id exists |
| SystemMappingService.FindBySystem | Realization/backend/acc/src/main/java/eu/bcvsolutions/idm/acc/service/impl/DefaultSysSystemMappingService.java:74-83 | exactly the mappings of the system with the operation type (and entity type) |
| SystemMappingService.IsEnabledProtection | Realization/backend/acc/src/main/java/eu/bcvsolutions/idm/acc/service/impl/DefaultSysSystemMappingService.java:122-133 | no entity type gives an error; otherwise the protection flag of the provisioning mapping, false without one |
| SystemMappingService.GetProtectionInterval | Realization/backend/acc/src/main/java/eu/bcvsolutions/idm/acc/service/impl/DefaultSysSystemMappingService.java:135-146 | no entity type gives an error; otherwise the protection interval of the provisioning mapping, -1 without one |
| SystemMappingService.NoMappingNoProtection | Realization/backend/acc/src/main/java/eu/bcvsolutions/idm/acc/service/impl/DefaultSysSystemMappingService.java:122-146 | without a provisioning mapping protection is off and the interval is -1 |
| SystemMappingService.ClonedAttributes | Realization/backend/acc/src/main/java/eu/bcvsolutions/idm/acc/service/impl/DefaultSysSystemMappingService.java:148-158 | one clone per attribute, with fresh consecutive ids and the target mapping, the rest copied |
| SystemMappingService.AttributeDeletions | Realization/backend/acc/src/main/java/eu/bcvsolutions/idm/acc/service/impl/DefaultSysSystemMappingService.java:105-113 | one deletion per attribute, in order |
| SystemMappingService.RoleSystemDeletions | Realization/backend/acc/src/main/java/eu/bcvsolutions/idm/acc/service/impl/DefaultSysSystemMappingService.java:114-119 | one deletion per role system, in order |
| SystemMappingService.MappingStore.Delete | Realization/backend/acc/src/main/java/eu/bcvsolutions/idm/acc/service/impl/DefaultSysSystemMappingService.java:97-120 | refused with SYSTEM_MAPPING_DELETE_FAILED_USED_IN_SYNC exactly when a synchronization uses the mapping; otherwise the mapping, its attributes and role systems are deleted |
| SystemMappingService.MappingStore.Duplicate | Realization/backend/acc/src/main/java/eu/bcvsolutions/idm/acc/service/impl/DefaultSysSystemMappingService.java:160-178 | MappingNotFound for an unknown id, with nothing changed; otherwise a copy with a new id and object class, with cloned attributes, the id counter advanced past all of them |
| SystemMappingService.MappingStore.CloneAttributes | Realization/backend/acc/src/main/java/eu/bcvsolutions/idm/acc/service/impl/DefaultSysSystemMappingService.java:164-177 | the cloned attributes of the source mapping are appended, ids stay below the next id |
| SystemMappingService.MappingStore.DeleteAttributesOf | Realization/backend/acc/src/main/java/eu/bcvsolutions/idm/acc/service/impl/DefaultSysSystemMappingService.java:105-113 | exactly the attributes of the mapping are removed and their deletions recorded |
| SystemMappingService.MappingStore.DeleteAttributes | Realization/backend/acc/src/main/java/eu/bcvsolutions/idm/acc/service/impl/DefaultSysSystemMappingService.java:107-110 | the attributes listed, and only those, are removed, and one deletion per listed attribute is recorded in order; nothing else changes |
| SystemMappingService.MappingStore.DeleteAttribute | Realization/backend/acc/src/main/java/eu/bcvsolutions/idm/acc/service/impl/DefaultSysSystemMappingService.java:109 | the one attribute is removed and its deletion recorded; nothing else changes |
| SystemMappingService.MappingStore.DeleteRoleSystemsOf | Realization/backend/acc/src/main/java/eu/bcvsolutions/idm/acc/service/impl/DefaultSysSystemMappingService.java:114-119 | exactly the role systems of the mapping are removed and their deletions recorded |
| SystemMappingService.MappingStore.DeleteRoleSystems | Realization/backend/acc/src/main/java/eu/bcvsolutions/idm/acc/service/impl/DefaultSysSystemMappingService.java:114-117 | the role systems listed, and only those, are removed, and one deletion per listed role system is recorded in order; nothing else changes |
| SystemMappingService.MappingStore.DeleteRoleSystem | Realization/backend/acc/src/main/java/eu/bcvsolutions/idm/acc/service/impl/DefaultSysSystemMappingService.java:116 | the one role system is removed and its deletion recorded; nothing else changes |
| SystemMappingService.CloneEach | Realization/backend/acc/src/main/java/eu/bcvsolutions/idm/acc/service/impl/DefaultSysSystemMappingService.java:164-177 | the loop produces exactly the cloned attributes |
| ScriptEvaluator.CanExecuteScript | Realization/backend/core/core-impl/src/main/java/eu/bcvsolutions/idm/core/script/evaluator/AbstractScriptEvaluator.java:116-123 | a script runs exactly when its category is DEFAULT or one the evaluator supports |
| ScriptEvaluator.DefaultCallableEverywhere | Realization/backend/core/core-impl/src/main/java/eu/bcvsolutions/idm/core/script/evaluator/AbstractScriptEvaluator.java:116-123 | a DEFAULT script runs under every evaluator |
| ScriptEvaluator.ClassNames | Realization/backend/core/core-impl/src/main/java/eu/bcvsolutions/idm/core/script/evaluator/AbstractScriptEvaluator.java:84-96 | exactly the class names of the CLASS_NAME authorities |
| ScriptEvaluator.Grant | Realization/backend/core/core-impl/src/main/java/eu/bcvsolutions/idm/core/script/evaluator/AbstractScriptEvaluator.java:84-99 | succeeds exactly when every named class is known and every named service is an existing bean with a parameter map to receive it (GrantOk); then the builder class followed by the named classes in order, the service beans put under their names and the other parameters kept |
| ScriptEvaluator.FirstUnknownClassReported | Realization/backend/core/core-impl/src/main/java/eu/bcvsolutions/idm/core/script/evaluator/AbstractScriptEvaluator.java:84-96 | the first unknown class is the one reported |
| ScriptEvaluator.Evaluate | Realization/backend/core/core-impl/src/main/java/eu/bcvsolutions/idm/core/script/evaluator/AbstractScriptEvaluator.java:71-108 | a null code is the null-pointer failure NullScriptCode, NOT_FOUND with the code for an unknown script, GROOVY_SCRIPT_INVALID_CATEGORY for an unsupported category; otherwise the outcome of Grant over the script's authorities: its failure is passed on, and after a successful grant a failing script gives GROOVY_SCRIPT_EXCEPTION with the script code, a running one the granted classes (builder class first) and parameters, null when the caller gave none |
| ScriptEvaluator.EvaluatorParameterKept | Realization/backend/core/core-impl/src/main/java/eu/bcvsolutions/idm/core/script/evaluator/AbstractScriptEvaluator.java:58-99 | the evaluator parameter set by evaluate survives the authority grants |
| ScriptEvaluator.FailureStays | Realization/backend/core/core-impl/src/main/java/eu/bcvsolutions/idm/core/script/evaluator/AbstractScriptEvaluator.java:84-96 | once granting fails, later authorities keep the failure |
| ScriptEvaluator.ApplyGrants | Realization/backend/core/core-impl/src/main/java/eu/bcvsolutions/idm/core/script/evaluator/AbstractScriptEvaluator.java:84-99 | the loop over the authorities computes exactly Grant |
| ScriptEvaluator.Evaluator.EvaluateWith | Realization/backend/core/core-impl/src/main/java/eu/bcvsolutions/idm/core/script/evaluator/AbstractScriptEvaluator.java:71-108 | the loop over authorities computes exactly Evaluate |
| ScriptEvaluator.Evaluator.EvaluateCode | Realization/backend/core/core-impl/src/main/java/eu/bcvsolutions/idm/core/script/evaluator/AbstractScriptEvaluator.java:58-62 | evaluation with a parameter map holding the evaluator itself, which is still there when the evaluation succeeds |
| ScriptEvaluator.Evaluator.EvaluateBuilder | Realization/backend/core/core-impl/src/main/java/eu/bcvsolutions/idm/core/script/evaluator/AbstractScriptEvaluator.java:141-143 | the builder script code and parameters are evaluated |
| ScriptEvaluator.Builder.AddParameter | Realization/backend/core/core-impl/src/main/java/eu/bcvsolutions/idm/core/script/evaluator/AbstractScriptEvaluator.java:183-189 | the parameter map is created when missing, the new entry added and earlier entries kept |
| ScriptEvaluator.Builder.SetScriptCode | Realization/backend/core/core-impl/src/main/java/eu/bcvsolutions/idm/core/script/evaluator/AbstractScriptEvaluator.java:173-176 | only the script code changes |
| ScriptEvaluator.Builder.SetParameters | Realization/backend/core/core-impl/src/main/java/eu/bcvsolutions/idm/core/script/evaluator/AbstractScriptEvaluator.java:178-181 | only the parameters change |
| BasicAuthenticationFilter.JavaSplit | Realization/backend/core/core-impl/src/main/java/eu/bcvsolutions/idm/core/security/auth/filter/BasicIdmAuthenticationFilter.java:64-66 | no separator gives the whole text; otherwise the pieces with trailing empty pieces dropped |
| BasicAuthenticationFilter.CreateLoginDto | Realization/backend/core/core-impl/src/main/java/eu/bcvsolutions/idm/core/security/auth/filter/BasicIdmAuthenticationFilter.java:68-77 | a login exactly for two credentials, the first the username and the second the password |
| BasicAuthenticationFilter.LoginFromDecoded | Realization/backend/core/core-impl/src/main/java/eu/bcvsolutions/idm/core/security/auth/filter/BasicIdmAuthenticationFilter.java:64-77 | as written: on success neither field holds a colon and the password is not empty |
| BasicAuthenticationFilter.PlainCredentialsRoundTrip | Realization/backend/core/core-impl/src/main/java/eu/bcvsolutions/idm/core/security/auth/filter/BasicIdmAuthenticationFilter.java:64-77 | a colon-free username and a non-empty colon-free password are read back |
| BasicAuthenticationFilter.ColonInPasswordRejected | Realization/backend/core/core-impl/src/main/java/eu/bcvsolutions/idm/core/security/auth/filter/BasicIdmAuthenticationFilter.java:64-70 | as written, a password containing a colon is refused |
| BasicAuthenticationFilter.EmptyPasswordRejected | Realization/backend/core/core-impl/src/main/java/eu/bcvsolutions/idm/core/security/auth/filter/BasicIdmAuthenticationFilter.java:64-70 | as written, an empty password is refused |
| BasicAuthenticationFilter.TrailingColonDropped | Realization/backend/core/core-impl/src/main/java/eu/bcvsolutions/idm/core/security/auth/filter/BasicIdmAuthenticationFilter.java:64-76 | as written, a password ending in a colon loses it |
| BasicAuthenticationFilter.LoginFromDecodedCorrected | Realization/backend/core/core-impl/src/main/java/eu/bcvsolutions/idm/core/security/auth/filter/BasicIdmAuthenticationFilter.java:64-76 | corrected: a login exactly when a colon is present, and the decoded text is username, colon, password |
| BasicAuthenticationFilter.CorrectedRoundTrip | Realization/backend/core/core-impl/src/main/java/eu/bcvsolutions/idm/core/security/auth/filter/BasicIdmAuthenticationFilter.java:64-76 | every colon-free username with any password is read back |
| BasicAuthenticationFilter.CorrectedAgreesOnPlainCredentials | Realization/backend/core/core-impl/src/main/java/eu/bcvsolutions/idm/core/security/auth/filter/BasicIdmAuthenticationFilter.java:64-76 | the corrected and as-written parses agree on plain credentials |
| BasicAuthenticationFilter.AuthorizeLogin | Realization/backend/core/core-impl/src/main/java/eu/bcvsolutions/idm/core/security/auth/filter/BasicIdmAuthenticationFilter.java:42-57 | malformed credentials are not authorized; authorized exactly when the manager authenticates the login; the password-change and two-factor outcomes are rethrown as they are; any other failure is not authorized |
| BasicAuthenticationFilter.Authorize | Realization/backend/core/core-impl/src/main/java/eu/bcvsolutions/idm/core/security/auth/filter/BasicIdmAuthenticationFilter.java:42-57 | as written, with split(":"): not authorized when the split does not give two pieces; otherwise authorized exactly when the manager authenticates them, with the password-change and two-factor outcomes rethrown |
| BasicAuthenticationFilter.AuthorizeCorrected | Realization/backend/core/core-impl/src/main/java/eu/bcvsolutions/idm/core/security/auth/filter/BasicIdmAuthenticationFilter.java:42-57 | the same decision with the credentials split at the first colon |
| BasicAuthenticationFilter.AuthorizeSendsEncodedCredentials | Realization/backend/core/core-impl/src/main/java/eu/bcvsolutions/idm/core/security/auth/filter/BasicIdmAuthenticationFilter.java:42-47 | as written, a username and a non-empty password free of colons reach the manager exactly as encoded |
| BasicAuthenticationFilter.AuthorizeCorrectedSendsEncodedCredentials | Realization/backend/core/core-impl/src/main/java/eu/bcvsolutions/idm/core/security/auth/filter/BasicIdmAuthenticationFilter.java:42-47 | with the corrected split any password, colons and emptiness included, reaches the manager exactly as encoded |
| BasicAuthenticationFilter.ColonPasswordNeverAuthorized | Realization/backend/core/core-impl/src/main/java/eu/bcvsolutions/idm/core/security/auth/filter/BasicIdmAuthenticationFilter.java:42-70 | as written, a password with a colon between non-empty pieces is never authorized, whatever the manager would answer |
| GuaranteeManagersFilter.ValidityPredicate | Realization/backend/core/core-impl/src/main/java/eu/bcvsolutions/idm/core/model/repository/filter/GuaranteeManagersFilter.java:88-101 | no validity filter keeps every contract; otherwise it keeps the contracts whose validity equals the filter value |
| GuaranteeManagersFilter.ValidityFilterSplits | Realization/backend/core/core-impl/src/main/java/eu/bcvsolutions/idm/core/model/repository/filter/GuaranteeManagersFilter.java:88-101 | without a validity filter a manager is found exactly when one is found with validContractManagers = true or with = false |
| GuaranteeManagersFilter.GetPredicate | Realization/backend/core/core-impl/src/main/java/eu/bcvsolutions/idm/core/model/repository/filter/GuaranteeManagersFilter.java:103-136 | no predicate without managersFor; false for a tree type or without guarantees; otherwise true exactly when the identity is enabled with a valid, enabled, non-EXCLUDED contract and is the guarantee of a (validity- and contract-matching) contract of the subordinate |
| GuaranteeManagersFilter.FindManagers | Realization/backend/core/core-impl/src/main/java/eu/bcvsolutions/idm/core/model/repository/filter/GuaranteeManagersFilter.java:103-136 | exactly the identities the predicate does not exclude |
| GuaranteeManagersFilter.UnsetFilterKeepsAll | Realization/backend/core/core-impl/src/main/java/eu/bcvsolutions/idm/core/model/repository/filter/GuaranteeManagersFilter.java:105-107 | without managersFor every identity is kept |
| GuaranteeManagersFilter.NoGuaranteesFindsNobody | Realization/backend/core/core-impl/src/main/java/eu/bcvsolutions/idm/core/model/repository/filter/GuaranteeManagersFilter.java:108-111 | with managersFor and includeGuarantees off nobody is found |
| GuaranteeManagersFilter.ByContractNarrows | Realization/backend/core/core-impl/src/main/java/eu/bcvsolutions/idm/core/model/repository/filter/GuaranteeManagersFilter.java:75-77 | naming one contract of the subordinate only removes managers: one found with it is found without it |
| GuaranteeManagersFilter.ManagerGuaranteesSubordinate | Realization/backend/core/core-impl/src/main/java/eu/bcvsolutions/idm/core/model/repository/filter/GuaranteeManagersFilter.java:63-80 | a found manager is the guarantee of some contract of the subordinate |
| AddNewAutomaticRoleForPosition.Lookup | Realization/backend/core/core-impl/src/main/java/eu/bcvsolutions/idm/core/scheduler/task/impl/AddNewAutomaticRoleForPositionTaskExecutor.java:171-179 | a node exactly when the id is set and known, and then the stored node |

## Left out

- ConfigurationManager: the fetch thunks that load public configuration over HTTP (redux async dispatch) are not modelled; only the getters over the loaded state are.
- Strings: case mapping covers ASCII letters only, so `toLowerCase` of other letters is not modelled; there is no Unicode normalisation. Whitespace is modelled exactly, in three sets: `\s` of a Java regular expression as `IsSpace`, `Character.isWhitespace` as `IsJavaWhitespace`, and the WhiteSpace and LineTerminator characters of ECMA-262 that JavaScript's `trim()` and `parseInt` skip as `IsJsSpace`.
- IdentityValueGenerator: `StringUtils.stripAccents` is not modelled; the names are taken as already stripped.
- ConfigurationManager.IsModuleEnabled: a loaded property whose `value` is undefined is modelled as null, so the model answers None where `isModuleEnabled` answers false (undefined is not null); the two are one `None` throughout the configuration model.
- GroovySandboxFilter.Sandbox.RemoveLastCustomTypes: on an empty stack returns None, where `LinkedList.removeLast` throws NoSuchElementException; the stack stays empty either way.
- ConfigurationManager: JavaScript numbers are unbounded integers here. `parseInt` is modelled on decimal digit strings only, with NaN as no value and no floating point.
- LayoutReducers.Layout: requires the navigation parent links to be acyclic, through a rank that decreases towards the roots. The reducer's parent walk has no cycle guard and would not terminate on a cycle.
- PasswordChangeAccounts: the component's mounting and rendering are not modelled; the loading flag stands for accounts that have not arrived yet.
- SystemManager: the two requests of fetchConfiguration are modelled as one joined outcome, so the order in which `Promise.all` failures arrive is not modelled.
- JwtAuthenticationMapper.TokenStore.ProlongExpiration: `prolongExpiration` sets the new expiration on the caller's own dto before it looks the token up (JwtAuthenticationMapper.java:324), so the caller's object changes in every prolonging branch; the model returns a new dto and leaves the argument as it was, so that aliasing is not modelled.
- JwtAuthenticationMapper: JWT signing and claim (de)serialization are not modelled. A token authorities property that is not a list is not modelled (the mapper casts it). The `else` branch in fromDto that cannot be reached is not modelled.
- GroovySandboxFilter: class hierarchies (proxy target, array component type, assignability) are given as data, not derived from the JVM.
- TokenEvictCacheProcessor: evicting a cache entry under a null key is not modelled; the caches are maps.
- ContractSliceService: `like` patterns are a plain case-insensitive substring test; `%` and `_` inside the filter text are not treated as wildcards.
- PersistentTypeEnum, AbstractEnum, OperationState's Java enum, CoreModuleDescriptor, IdmScriptCategory, ScriptAuthorityType, ContractState, SchedulerManager, LoginService and the Groovy script service are not part of this model; their constants and calls appear as datatypes or parameters.
- RepositoryUtils is not part of this model. Its valid-now-or-in-future predicate is taken to be "validTill is null or not before today", as in DefaultIdmContractSliceService.
- RoleSynchronizationExecutor: doUpdateEntity, doUpdateAccount and the generic synchronization loop of AbstractSynchronizationExecutor are not modelled. getEntityByAccount is a parameter. Item-log texts are reduced to the kind of entry.
- RoleSynchronizationExecutor.RoleSyncExecutor.DoUnlink: the removeRoleRole flag is accepted and ignored, as doUnlink does.
- PasswordExpirationWarning.PasswordExpirationWarningTask.ItemsToProcess: requires init to have set the expiration day, which the scheduler framework guarantees. The executor is not modelled before init.
- PasswordExpirationWarning.PasswordExpirationWarningTask.ProcessItem: requires init to have set daysBefore, for the same reason.
- PasswordExpirationWarning.PasswordExpirationWarningTask.Init: computes the expiration day with the corrected `Expiration`, not the 32-bit narrowing as written (see Findings).
- RoleDeleteBulkAction: ties between equal identity counts are broken by a stable insertion sort. The action sorts a HashMap stream whose tie order is unspecified.
- ScriptEvaluator.Evaluate: service beans are put into a copy of the parameter map. `evaluate` puts them into the caller's own map (AbstractScriptEvaluator.java:98), so a Builder's parameters also receive the beans; that aliasing is not modelled.
- ScriptEvaluator: running the script body is a parameter. The NullPointerExceptions of `evaluate` are named errors: NullScriptCode for a null script code, NullParameters for a SERVICE authority whose bean exists but whose parameter map is null. A missing bean is the NoSuchBean error, raised before the null map is touched, as Java evaluates the arguments of `put` before its receiver is dereferenced.
- BasicAuthenticationFilter.Authorize: models `split(":")` as written, so passwords with a colon or empty passwords are refused; AuthorizeCorrected beside it splits at the first colon (see Findings).
- AddNewAutomaticRoleForPosition: the role request it creates and executes is a single recorded concept; role-request processing itself is not modelled.
- ResultModels: `getErrors` and `getInfos` return read-only views in Java; the model returns the sequences, which are values, so aliasing is not modelled.
- Transactions, event publication and the threading of long-running tasks are not modelled.
- ResultModels.Results.OfErrors: takes a list that is present. The one-list constructor throws a NullPointerException on a null list (ResultModels.java:44-46); that failure is not modelled.
- ResultModels.Results.AddError: takes an error that is present. `addError(null)` and `addInfo(null)` store a null entry (ResultModels.java:57-63); the model's lists hold no null entries.
- NotificationConfigurationService.ConfigurationRepository.GetSenders: the notification and its message are always present. The `Assert.notNull` checks that reject a null one (DefaultIdmNotificationConfigurationService.java:111-112) are not modelled.
- FormAttributeDetail.Select: returns a new record. `select` writes the code list onto the entity object held in the store (FormAttributeDetail.js:394-396), so the store's own entity changes; that in-place write is not modelled.
- SystemManager: a SaveFormValues request records the configuration kind and the system identifier only. The form values sent with it are not recorded.

## Findings

| source | as written | input that shows it | evidently intended | confidence | as-written member | corrected member |
|---|---|---|---|---|---|---|
| Realization/frontend/czechidm-core/src/enums/ContractSliceAttributeEnum.js:91-93 | getEnum compares with 'contratcValidTill' | getEnum(getField(CONTRACT_VALID_TILL)) is null | 'contractValidTill' maps back to CONTRACT_VALID_TILL | high, not executed | ContractSliceAttributeEnum.RoundTripFailsForValidTill | ContractSliceAttributeEnum.RoundTripCorrected |
| Realization/backend/core/core-impl/src/main/java/eu/bcvsolutions/idm/core/model/repository/IdmRoleTreeNodeRepository.java:38-45 | the nested-set query does not compare tree types | a DOWN role on a root with range (1,4) in one tree applies to a node with range (2,3) in another tree | compare tree types, as IdmContractPositionRepository.java:27 does | medium, not executed | RoleTreeNodeRepository.CrossTreeTypeMatch | RoleTreeNodeRepository.SameTreeTypeAgrees |
| Realization/backend/core/core-impl/src/main/java/eu/bcvsolutions/idm/core/scheduler/task/impl/password/PasswordExpirationWarningTaskExecutor.java:73 | `daysBefore.intValue() - 1` narrows a long to 32 bits | daysBefore = 4294967296 gives yesterday | today + daysBefore - 1 | low, not executed | PasswordExpirationWarning.ExpirationWraps | PasswordExpirationWarning.SelectedWithinDays |
| Realization/backend/core/core-impl/src/main/java/eu/bcvsolutions/idm/core/security/auth/filter/BasicIdmAuthenticationFilter.java:64-70 | split(":") at every colon, with trailing empty pieces dropped | "admin:pa:ss" is refused; "admin:secret:" authenticates with "secret" | split at the first colon only (section 2 of RFC 7617) | medium, not executed | BasicAuthenticationFilter.ColonInPasswordRejected | BasicAuthenticationFilter.CorrectedRoundTrip |

=== FILE: add_new_automatic_role_for_position.dfy ===
/**
 * The long-running task that assigns a newly added automatic role (by
 * tree node) to the contract positions on its tree node, following the
 * automatic role's recursion. It may run again after an interruption:
 * positions already holding the role are skipped.
 */
module AddNewAutomaticRoleForPosition {
  import opened Wrappers
  import opened OperationStates
  import opened RoleTreeNodeRepository
  import opened ContractPositionRepository

  const TASK_NAME: string := "core-add-new-automatic-role-position-long-running-task"

  const AUTOMATIC_ROLE_TASK_EMPTY: string := "AUTOMATIC_ROLE_TASK_EMPTY"
  const AUTOMATIC_ROLE_CONTRACT_IS_NOT_VALID: string := "AUTOMATIC_ROLE_CONTRACT_IS_NOT_VALID"
  const AUTOMATIC_ROLE_ALREADY_ASSIGNED: string := "AUTOMATIC_ROLE_ALREADY_ASSIGNED"
  const AUTOMATIC_ROLE_ASSIGN_TASK_NOT_COMPLETE: string := "AUTOMATIC_ROLE_ASSIGN_TASK_NOT_COMPLETE"

  /** Days since an epoch. */
  type Date = int

  /** The contract of a position; whether it is valid now or in the future is decided by the contract itself. */
  datatype IdentityContract = IdentityContract(id: Uuid, identity: Uuid, validFrom: Option<Date>, validTill: Option<Date>,
                                               validNowOrInFuture: bool)

  /** An assigned role; `automaticRole` is the automatic role that assigned it, when any. */
  datatype IdentityRole = IdentityRole(id: Uuid, role: Uuid, automaticRole: Option<Uuid>)

  datatype ConceptOperation = ADD | UPDATE | REMOVE

  datatype ConceptRoleRequest = ConceptRoleRequest(identityContract: Uuid, contractPosition: Uuid, validFrom: Option<Date>,
                                                   validTill: Option<Date>, role: Uuid, automaticRole: Uuid,
                                                   operation: ConceptOperation)

  /** `executeConceptsImmediate` for an identity. */
  datatype Execution = Execution(identity: Uuid, concepts: seq<ConceptRoleRequest>)

  /** How processing an item ends: with a result, or with an exception that leaves the long-running task. */
  datatype ItemOutcome = Completed(result: OperationResult) | Thrown(code: string)

  /** The automatic role this long-running task works on, when it can be found. */
  function Lookup(roleTreeNodeId: Option<Uuid>, roleTreeNodes: map<Uuid, RoleTreeNode>): (r: Option<RoleTreeNode>)
    ensures r.Some? <==> roleTreeNodeId.Some? && roleTreeNodeId.value in roleTreeNodes
    ensures r.Some? ==> r.value == roleTreeNodes[roleTreeNodeId.value]
  {
    if roleTreeNodeId.Some? && roleTreeNodeId.value in roleTreeNodes then Some(roleTreeNodes[roleTreeNodeId.value]) else None
  }

  /** Whether one of the roles was assigned by the automatic role. */
  predicate AssignedBy(identityRoles: seq<IdentityRole>, automaticRole: Uuid)
  {
    exists k :: 0 <= k < |identityRoles| && identityRoles[k].automaticRole == Some(automaticRole)
  }

  /** The concept adding the automatic role's role on the position, for the contract's validity window. */
  function AddConcept(node: RoleTreeNode, contract: IdentityContract, position: ContractPosition): (r: ConceptRoleRequest)
    ensures r.operation == ADD && r.role == node.role && r.automaticRole == node.id
    ensures r.identityContract == contract.id && r.contractPosition == position.id
    ensures r.validFrom == contract.validFrom && r.validTill == contract.validTill
  {
    ConceptRoleRequest(contract.id, position.id, contract.validFrom, contract.validTill, node.role, node.id, ADD)
  }

  /**
   * The outcome of `processItem` once the automatic role is known (None
   * when it cannot be found): an invalid contract and an assignment that
   * is already there are NOT_EXECUTED, a failed execution is EXCEPTION,
   * otherwise EXECUTED. A missing automatic role escapes, since the error
   * handler looks it up again.
   */
  function Outcome(node: Option<RoleTreeNode>, contract: IdentityContract, identityRoles: seq<IdentityRole>,
                   executeFails: bool): (r: ItemOutcome)
    ensures node.None? <==> r == Thrown(AUTOMATIC_ROLE_TASK_EMPTY)
    ensures r.Completed? ==> (r.result.state == EXECUTED <==> r.result.code.None?)
    ensures r == Completed(OperationResult(EXECUTED, None)) <==>
              node.Some? && contract.validNowOrInFuture && !AssignedBy(identityRoles, node.value.id) && !executeFails
    ensures r.Completed? && r.result.code == Some(AUTOMATIC_ROLE_CONTRACT_IS_NOT_VALID) <==>
              node.Some? && !contract.validNowOrInFuture
    ensures r.Completed? && r.result.code == Some(AUTOMATIC_ROLE_ALREADY_ASSIGNED) <==>
              node.Some? && contract.validNowOrInFuture && AssignedBy(identityRoles, node.value.id)
    ensures r.Completed? && r.result.state == EXCEPTION <==>
              node.Some? && contract.validNowOrInFuture && !AssignedBy(identityRoles, node.value.id) && executeFails
    ensures r.Completed? && r.result.state == NOT_EXECUTED ==>
              r.result.code in {Some(AUTOMATIC_ROLE_CONTRACT_IS_NOT_VALID), Some(AUTOMATIC_ROLE_ALREADY_ASSIGNED)}
  {
    if node.None? then Thrown(AUTOMATIC_ROLE_TASK_EMPTY)
    else if !contract.validNowOrInFuture then Completed(OperationResult(NOT_EXECUTED, Some(AUTOMATIC_ROLE_CONTRACT_IS_NOT_VALID)))
    else if AssignedBy(identityRoles, node.value.id) then Completed(OperationResult(NOT_EXECUTED, Some(AUTOMATIC_ROLE_ALREADY_ASSIGNED)))
    else if executeFails then Completed(OperationResult(EXCEPTION, Some(AUTOMATIC_ROLE_ASSIGN_TASK_NOT_COMPLETE)))
    else Completed(OperationResult(EXECUTED, None))
  }

  /**
   * Processing a position again once the role it was given is among its
   * roles is NOT_EXECUTED with ALREADY_ASSIGNED: rerunning it does
   * not assign twice.
   */
  lemma RerunDoesNotAssignTwice(node: RoleTreeNode, contract: IdentityContract, position: ContractPosition,
                                identityRoles: seq<IdentityRole>, newRole: IdentityRole, executeFails: bool)
    requires Outcome(Some(node), contract, identityRoles, false) == Completed(OperationResult(EXECUTED, None))
    requires newRole.automaticRole == Some(AddConcept(node, contract, position).automaticRole)
    ensures Outcome(Some(node), contract, identityRoles + [newRole], executeFails)
            == Completed(OperationResult(NOT_EXECUTED, Some(AUTOMATIC_ROLE_ALREADY_ASSIGNED)))
  {
    var roles := identityRoles + [newRole];
    assert roles[|identityRoles|].automaticRole == Some(node.id);
  }

  /** The long-running task: its parameter, the cached automatic role and the executed concepts. */
  class AutomaticRolePositionTask {
    var roleTreeNodeId: Option<Uuid>
    var roleTreeNode: Option<RoleTreeNode>
    var executions: seq<Execution>

    constructor ()
      ensures roleTreeNodeId.None? && roleTreeNode.None? && executions == []
    {
      roleTreeNodeId := None;
      roleTreeNode := None;
      executions := [];
    }

    /** The cache holds the automatic role of the parameter, if anything. */
    predicate CacheValid(roleTreeNodes: map<Uuid, RoleTreeNode>)
      reads this
    {
      roleTreeNode.Some? ==> roleTreeNode == Lookup(roleTreeNodeId, roleTreeNodes)
    }

    /** `init`: the cache is cleared and the automatic role parameter taken. */
    method Init(parameter: Option<Uuid>)
      modifies this
      ensures roleTreeNodeId == parameter && roleTreeNode.None? && executions == old(executions)
      ensures forall roleTreeNodes :: CacheValid(roleTreeNodes)
    {
      roleTreeNode := None;
      roleTreeNodeId := parameter;
    }

    /**
     * `getRoleTreeNode`: the cached automatic role, else the one looked up
     * and then cached; AUTOMATIC_ROLE_TASK_EMPTY when there is none.
     */
    method GetRoleTreeNode(roleTreeNodes: map<Uuid, RoleTreeNode>) returns (r: Result<RoleTreeNode, string>)
      requires CacheValid(roleTreeNodes)
      modifies this
      ensures CacheValid(roleTreeNodes)
      ensures roleTreeNodeId == old(roleTreeNodeId) && executions == old(executions)
      ensures old(roleTreeNode).Some? ==> r == Ok(old(roleTreeNode).value) && roleTreeNode == old(roleTreeNode)
      ensures r.Ok? <==> Lookup(roleTreeNodeId, roleTreeNodes).Some?
      ensures r.Ok? ==> r.value == Lookup(roleTreeNodeId, roleTreeNodes).value && roleTreeNode == Some(r.value)
      ensures r.Fail? ==> r.error == AUTOMATIC_ROLE_TASK_EMPTY && roleTreeNode.None?
    {
      if roleTreeNode.None? {
        roleTreeNode := Lookup(roleTreeNodeId, roleTreeNodes);
        if roleTreeNode.None? {
          return Fail(AUTOMATIC_ROLE_TASK_EMPTY);
        }
      }
      r := Ok(roleTreeNode.value);
    }

    /** `getItemsToProcess`: the positions on the automatic role's node, with its recursion. */
    method GetItemsToProcess(roleTreeNodes: map<Uuid, RoleTreeNode>, positions: seq<ContractPosition>,
                             nodes: map<Uuid, TreeNode>) returns (r: Result<seq<ContractPosition>, string>)
      requires CacheValid(roleTreeNodes)
      modifies this
      ensures CacheValid(roleTreeNodes)
      ensures roleTreeNodeId == old(roleTreeNodeId) && executions == old(executions)
      ensures Lookup(roleTreeNodeId, roleTreeNodes).None? ==> r == Fail(AUTOMATIC_ROLE_TASK_EMPTY)
      ensures Lookup(roleTreeNodeId, roleTreeNodes).Some? ==>
                var node := Lookup(roleTreeNodeId, roleTreeNodes).value;
                r == Ok(FindAllByWorkPosition(positions, nodes, node.treeNode.id, Some(node.recursionType)))
    {
      var node := GetRoleTreeNode(roleTreeNodes);
      if node.Fail? {
        return Fail(node.error);
      }
      r := Ok(FindAllByWorkPosition(positions, nodes, node.value.treeNode.id, Some(node.value.recursionType)));
    }

    /** `isInProcessedQueue`: items are logged but processed on every run. */
    function IsInProcessedQueue(position: ContractPosition): (r: bool)
      ensures !r
    {
      false
    }

    /**
     * `processItem`: the outcome is `Outcome` for the automatic role, and
     * exactly when it is EXECUTED one ADD concept for the position is
     * executed for the contract's identity.
     */
    method ProcessItem(roleTreeNodes: map<Uuid, RoleTreeNode>, position: ContractPosition, contract: IdentityContract,
                       identityRoles: seq<IdentityRole>, executeFails: bool) returns (r: ItemOutcome)
      requires CacheValid(roleTreeNodes)
      modifies this
      ensures CacheValid(roleTreeNodes)
      ensures roleTreeNodeId == old(roleTreeNodeId)
      ensures r == Outcome(Lookup(roleTreeNodeId, roleTreeNodes), contract, identityRoles, executeFails)
      ensures r == Completed(OperationResult(EXECUTED, None)) ==>
                executions == old(executions) + [Execution(contract.identity,
                                                           [AddConcept(Lookup(roleTreeNodeId, roleTreeNodes).value, contract, position)])]
      ensures r != Completed(OperationResult(EXECUTED, None)) ==> executions == old(executions)
    {
      var node := GetRoleTreeNode(roleTreeNodes);
      if node.Fail? {
        return Thrown(AUTOMATIC_ROLE_TASK_EMPTY);
      }
      var autoRole := node.value;
      if !contract.validNowOrInFuture {
        return Completed(OperationResult(NOT_EXECUTED, Some(AUTOMATIC_ROLE_CONTRACT_IS_NOT_VALID)));
      }
      for k := 0 to |identityRoles|
        invariant forall j :: 0 <= j < k ==> identityRoles[j].automaticRole != Some(autoRole.id)
      {
        if identityRoles[k].automaticRole == Some(autoRole.id) {
          return Completed(OperationResult(NOT_EXECUTED, Some(AUTOMATIC_ROLE_ALREADY_ASSIGNED)));
        }
      }
      if executeFails {
        return Completed(OperationResult(EXCEPTION, Some(AUTOMATIC_ROLE_ASSIGN_TASK_NOT_COMPLETE)));
      }
      executions := executions + [Execution(contract.identity, [AddConcept(autoRole, contract, position)])];
      r := Completed(OperationResult(EXECUTED, None));
    }
  }
}

=== FILE: basic_authentication_filter.dfy ===
/**
 * The Basic authentication filter: the header token is Base64-decoded,
 * split into a username and a password, and the pair is handed to the
 * authentication manager. `authorize` turns the outcome into a boolean,
 * except for the two outcomes that ask the client for more.
 */
module BasicAuthenticationFilter {
  import opened Wrappers
  import opened Strings

  const AUTHORIZATION_TYPE_BASIC_PREFIX: string := "Basic "
  const CREDENTIALS_REQUIRED: string := "Credentials username and password is requered."

  datatype LoginDto = LoginDto(username: string, password: string)

  /** What `authenticate` does with a login: succeeds, or throws one of these. */
  datatype AuthenticationOutcome =
    | Authenticated
    | MustChangePassword
    | TwoFactorAuthenticationRequired
    | IdmAuthenticationFailed
    | OtherException

  /** `authorize` answers a boolean or lets the exception through. */
  datatype AuthorizeResult = Authorized(authorized: bool) | Rethrown(outcome: AuthenticationOutcome)

  /** Drops the empty pieces at the end of a split, as Java's `String.split` does. */
  function DropTrailingEmpty(parts: seq<string>): (r: seq<string>)
    ensures |r| <= |parts| && r == parts[..|r|]
    ensures |r| > 0 ==> r[|r| - 1] != ""
    ensures forall k :: |r| <= k < |parts| ==> parts[k] == ""
  {
    if |parts| == 0 || parts[|parts| - 1] != "" then parts
    else DropTrailingEmpty(parts[..|parts| - 1])
  }

  /**
   * Java's `s.split(":")`: the text itself when no separator occurs,
   * otherwise every piece with the trailing empty ones removed.
   */
  function JavaSplit(s: string, sep: char): (r: seq<string>)
    ensures sep !in s ==> r == [s]
    ensures forall k :: 0 <= k < |r| ==> sep !in r[k]
    ensures sep in s ==> |r| == 0 || r[|r| - 1] != ""
  {
    if sep !in s then [s] else DropTrailingEmpty(Split(s, sep))
  }

  /** `createLoginDto`: exactly two pieces, the username first and the password second. */
  function CreateLoginDto(credentials: seq<string>): (r: Result<LoginDto, string>)
    ensures r.Ok? <==> |credentials| == 2
    ensures r.Ok? ==> r.value.username == credentials[0] && r.value.password == credentials[1]
    ensures r.Fail? ==> r.error == CREDENTIALS_REQUIRED
  {
    if |credentials| == 2 then Ok(LoginDto(credentials[0], credentials[1]))
    else Fail(CREDENTIALS_REQUIRED)
  }

  /** `createLoginDto(getBasicCredentials(token))` on the decoded text, as written. */
  function LoginFromDecoded(decoded: string): (r: Result<LoginDto, string>)
    ensures r.Ok? ==> ':' !in r.value.username && ':' !in r.value.password && r.value.password != ""
  {
    CreateLoginDto(JavaSplit(decoded, ':'))
  }

  /** A username and a password free of ':' (the password not empty) come back as they were sent. */
  lemma PlainCredentialsRoundTrip(username: string, password: string)
    requires ':' !in username && ':' !in password && password != ""
    ensures LoginFromDecoded(username + ":" + password) == Ok(LoginDto(username, password))
  {
    var s := username + [':'] + password;
    assert s[|username|] == ':';
    SplitAtFirst(username, password, ':');
    SplitNoSeparator(password, ':');
    assert Split(s, ':') == [username, password];
  }

  /** As written: a password holding ':' between non-empty pieces gives three parts and is refused. */
  lemma ColonInPasswordRejected(username: string, first: string, second: string)
    requires ':' !in username && ':' !in first && ':' !in second && second != ""
    ensures LoginFromDecoded(username + ":" + first + ":" + second).Fail?
  {
    var s := username + [':'] + (first + [':'] + second);
    assert username + ":" + first + ":" + second == s;
    assert s[|username|] == ':';
    SplitAtFirst(username, first + [':'] + second, ':');
    SplitAtFirst(first, second, ':');
    SplitNoSeparator(second, ':');
    assert Split(s, ':') == [username, first, second];
  }

  /** As written: an empty password gives a single part and is refused. */
  lemma EmptyPasswordRejected(username: string)
    requires ':' !in username
    ensures LoginFromDecoded(username + ":").Fail?
  {
    var s := username + [':'] + "";
    assert username + ":" == s;
    assert s[|username|] == ':';
    SplitAtFirst(username, "", ':');
    assert Split(s, ':') == [username, ""];
  }

  /** As written: the colons that end a password are cut off, so another password is sent. */
  lemma TrailingColonDropped(username: string, password: string)
    requires ':' !in username && ':' !in password && password != ""
    ensures LoginFromDecoded(username + ":" + password + ":") == Ok(LoginDto(username, password))
  {
    var s := username + [':'] + (password + [':'] + "");
    assert username + ":" + password + ":" == s;
    assert s[|username|] == ':';
    SplitAtFirst(username, password + [':'] + "", ':');
    SplitAtFirst(password, "", ':');
    assert Split(s, ':') == [username, password, ""];
    assert DropTrailingEmpty([username, password, ""]) == DropTrailingEmpty([username, password, ""][..2]);
    assert [username, password, ""][..2] == [username, password];
  }

  /**
   * The credentials split as section 2 of RFC 7617 defines them: the
   * user-id ends at the first colon and the password is all the rest.
   */
  function LoginFromDecodedCorrected(decoded: string): (r: Result<LoginDto, string>)
    ensures r.Ok? <==> ':' in decoded
    ensures r.Ok? ==> ':' !in r.value.username && decoded == r.value.username + ":" + r.value.password
  {
    var parts := Split(decoded, ':');
    if |parts| < 2 then
      JoinSplit(decoded, ':');
      Fail(CREDENTIALS_REQUIRED)
    else
      JoinSplit(decoded, ':');
      assert decoded == parts[0] + [':'] + Join(parts[1..], ':');
      Ok(LoginDto(parts[0], Join(parts[1..], ':')))
  }

  /** The corrected split gives back every password, colons and emptiness included. */
  lemma {:induction false} CorrectedRoundTrip(username: string, password: string)
    requires ':' !in username
    ensures LoginFromDecodedCorrected(username + ":" + password) == Ok(LoginDto(username, password))
  {
    SplitAtFirst(username, password, ':');
    assert username + [':'] + password == username + ":" + password;
    var parts := Split(username + ":" + password, ':');
    assert parts[1..] == Split(password, ':');
    JoinSplit(password, ':');
  }

  /** Where the filter as written accepts plain credentials, the corrected split agrees with it. */
  lemma CorrectedAgreesOnPlainCredentials(username: string, password: string)
    requires ':' !in username && ':' !in password && password != ""
    ensures LoginFromDecodedCorrected(username + ":" + password) == LoginFromDecoded(username + ":" + password)
  {
    PlainCredentialsRoundTrip(username, password);
    CorrectedRoundTrip(username, password);
  }

  /**
   * `authorize` once the credentials are parsed: true on a successful login,
   * the must-change-password and two-factor exceptions rethrown, false on
   * every other failure, malformed credentials included.
   */
  function AuthorizeLogin(login: Result<LoginDto, string>, authenticate: LoginDto -> AuthenticationOutcome)
    : (r: AuthorizeResult)
    ensures login.Fail? ==> r == Authorized(false)
    ensures r == Authorized(true) <==> login.Ok? && authenticate(login.value) == Authenticated
    ensures r.Rethrown? <==>
              login.Ok? && authenticate(login.value) in {MustChangePassword, TwoFactorAuthenticationRequired}
    ensures r.Rethrown? ==> r.outcome == authenticate(login.value)
  {
    match login
    case Fail(_) => Authorized(false)
    case Ok(loginDto) =>
      match authenticate(loginDto)
      case Authenticated => Authorized(true)
      case MustChangePassword => Rethrown(MustChangePassword)
      case TwoFactorAuthenticationRequired => Rethrown(TwoFactorAuthenticationRequired)
      case IdmAuthenticationFailed => Authorized(false)
      case OtherException => Authorized(false)
  }

  /** `authorize` as written, with the credentials split by `split(":")`. */
  function Authorize(token: string, decodeBase64: string -> string, authenticate: LoginDto -> AuthenticationOutcome)
    : (r: AuthorizeResult)
    ensures LoginFromDecoded(decodeBase64(token)).Fail? ==> r == Authorized(false)
    ensures r == Authorized(true) <==>
              LoginFromDecoded(decodeBase64(token)).Ok?
              && authenticate(LoginFromDecoded(decodeBase64(token)).value) == Authenticated
    ensures r.Rethrown? <==>
              LoginFromDecoded(decodeBase64(token)).Ok?
              && authenticate(LoginFromDecoded(decodeBase64(token)).value) in {MustChangePassword, TwoFactorAuthenticationRequired}
  {
    AuthorizeLogin(LoginFromDecoded(decodeBase64(token)), authenticate)
  }

  /** `authorize` with the credentials split at the first colon. */
  function AuthorizeCorrected(token: string, decodeBase64: string -> string, authenticate: LoginDto -> AuthenticationOutcome)
    : (r: AuthorizeResult)
    ensures LoginFromDecodedCorrected(decodeBase64(token)).Fail? ==> r == Authorized(false)
    ensures r == Authorized(true) <==>
              LoginFromDecodedCorrected(decodeBase64(token)).Ok?
              && authenticate(LoginFromDecodedCorrected(decodeBase64(token)).value) == Authenticated
    ensures r.Rethrown? <==>
              LoginFromDecodedCorrected(decodeBase64(token)).Ok?
              && authenticate(LoginFromDecodedCorrected(decodeBase64(token)).value) in {MustChangePassword, TwoFactorAuthenticationRequired}
  {
    AuthorizeLogin(LoginFromDecodedCorrected(decodeBase64(token)), authenticate)
  }

  /**
   * As written, the manager sees exactly the username and password that
   * were encoded when neither holds a colon and the password is not empty.
   */
  lemma AuthorizeSendsEncodedCredentials(token: string, decodeBase64: string -> string,
                                         authenticate: LoginDto -> AuthenticationOutcome,
                                         username: string, password: string)
    requires ':' !in username && ':' !in password && password != ""
    requires decodeBase64(token) == username + ":" + password
    ensures Authorize(token, decodeBase64, authenticate) == AuthorizeLogin(Ok(LoginDto(username, password)), authenticate)
  {
    PlainCredentialsRoundTrip(username, password);
  }

  /** With the corrected split the manager sees every encoded password, colons and emptiness included. */
  lemma AuthorizeCorrectedSendsEncodedCredentials(token: string, decodeBase64: string -> string,
                                                  authenticate: LoginDto -> AuthenticationOutcome,
                                                  username: string, password: string)
    requires ':' !in username && decodeBase64(token) == username + ":" + password
    ensures AuthorizeCorrected(token, decodeBase64, authenticate) == AuthorizeLogin(Ok(LoginDto(username, password)), authenticate)
  {
    CorrectedRoundTrip(username, password);
  }

  /** As written, a password with a colon inside is never authorized, whatever the manager would say. */
  lemma ColonPasswordNeverAuthorized(token: string, decodeBase64: string -> string,
                                     authenticate: LoginDto -> AuthenticationOutcome,
                                     username: string, first: string, second: string)
    requires ':' !in username && ':' !in first && ':' !in second && second != ""
    requires decodeBase64(token) == username + ":" + first + ":" + second
    ensures Authorize(token, decodeBase64, authenticate) == Authorized(false)
  {
    ColonInPasswordRejected(username, first, second);
  }
}

=== FILE: code_list_select.dfy ===
/**
 * The code-list select box: an enum select filled with the items of a code
 * list, falling back to a text field when no option is available. Filled
 * values missing from the code list stay selectable.
 */
module CodeListSelect {
  import opened Wrappers

  /** A code-list item; `niceLabel` is what the item manager renders for it. */
  datatype CodeListItem = CodeListItem(code: string, niceLabel: string)

  datatype EnumOption = EnumOption(value: string, niceLabel: string)

  /** The component value: one value, or an array of values in multi-select mode. */
  datatype FieldValue = Single(single: Option<string>) | Multiple(multiple: seq<Option<string>>)

  /** A failed load of the code-list items. */
  datatype LoadError = LoadError(statusCode: int)

  /** An error message shown to the user; `hidden` messages are only logged. */
  datatype ErrorMessage = ErrorMessage(key: string, hidden: bool, error: LoadError)

  const ERROR_CODE_LIST_LOAD: string := "error-code-list-load"

  /** Keep the values that are neither null, undefined nor ''. */
  function FilledOf(values: seq<Option<string>>): (r: seq<string>)
    ensures forall i :: 0 <= i < |r| ==> r[i] != ""
    ensures forall v :: v in r <==> Some(v) in values && v != ""
  {
    if |values| == 0 then []
    else
      var rest := FilledOf(values[1..]);
      assert values == [values[0]] + values[1..];
      match values[0]
      case Some(v) => if v != "" then [v] + rest else rest
      case None => rest
  }

  /** The filter keeps the order of the values: it distributes over concatenation. */
  lemma {:induction false} FilledOfAppend(a: seq<Option<string>>, b: seq<Option<string>>)
    ensures FilledOf(a + b) == FilledOf(a) + FilledOf(b)
  {
    if |a| > 0 {
      assert (a + b)[1..] == a[1..] + b;
      FilledOfAppend(a[1..], b);
    } else {
      assert a + b == b;
    }
  }

  /** `_.concat([], value)` with the empty values filtered out. */
  function FilledValues(value: FieldValue): (r: seq<string>)
    ensures forall i :: 0 <= i < |r| ==> r[i] != ""
  {
    match value
    case Single(v) => FilledOf([v])
    case Multiple(vs) => FilledOf(vs)
  }

  predicate HasCode(items: seq<CodeListItem>, code: string)
  {
    exists j :: 0 <= j < |items| && items[j].code == code
  }

  /** One option per item, in item order, with the code as its value. */
  function ItemOptions(items: seq<CodeListItem>): (r: seq<EnumOption>)
    ensures |r| == |items|
    ensures forall j :: 0 <= j < |items| ==> r[j] == EnumOption(items[j].code, items[j].niceLabel)
  {
    seq(|items|, j requires 0 <= j < |items| => EnumOption(items[j].code, items[j].niceLabel))
  }

  /**
   * The options after the values in `values` have been handled in order:
   * every value missing from the items is put in front, so the missing
   * values end up in reverse order before the item options.
   */
  function OptionsFor(items: seq<CodeListItem>, values: seq<string>, translate: string -> string): (r: seq<EnumOption>)
    ensures |items| <= |r| <= |items| + |values|
  {
    if |values| == 0 then ItemOptions(items)
    else
      var n := |values| - 1;
      var rest := OptionsFor(items, values[..n], translate);
      if HasCode(items, values[n]) then rest else [EnumOption(values[n], translate(values[n]))] + rest
  }

  /** The values missing from the items, in the order they end up in front of the options. */
  function MissingReversed(items: seq<CodeListItem>, values: seq<string>): seq<string>
  {
    if |values| == 0 then []
    else
      var n := |values| - 1;
      var rest := MissingReversed(items, values[..n]);
      if HasCode(items, values[n]) then rest else [values[n]] + rest
  }

  /** The options are the missing values (reversed) followed by the item options. */
  lemma {:induction false} OptionsShape(items: seq<CodeListItem>, values: seq<string>, translate: string -> string)
    ensures var missing := MissingReversed(items, values);
            var options := OptionsFor(items, values, translate);
            |options| == |missing| + |items|
            && (forall k :: 0 <= k < |missing| ==> options[k] == EnumOption(missing[k], translate(missing[k])))
            && options[|missing|..] == ItemOptions(items)
  {
    if |values| > 0 {
      OptionsShape(items, values[..|values| - 1], translate);
    }
  }

  /** A value is missing exactly when it is one of the values and no item has it as its code. */
  lemma {:induction false} MissingExactly(items: seq<CodeListItem>, values: seq<string>, v: string)
    ensures v in MissingReversed(items, values) <==> v in values && !HasCode(items, v)
  {
    if |values| > 0 {
      var n := |values| - 1;
      MissingExactly(items, values[..n], v);
      assert values == values[..n] + [values[n]];
    }
  }

  /**
   * Every filled value and every item code is the value of some option, and
   * no option has any other value: a filled value always stays selectable.
   */
  lemma FilledValuesSelectable(items: seq<CodeListItem>, values: seq<string>, translate: string -> string, v: string)
    ensures (exists k :: 0 <= k < |OptionsFor(items, values, translate)| && OptionsFor(items, values, translate)[k].value == v)
            <==> v in values || HasCode(items, v)
  {
    var options := OptionsFor(items, values, translate);
    var missing := MissingReversed(items, values);
    OptionsShape(items, values, translate);
    MissingExactly(items, values, v);
    if v in values || HasCode(items, v) {
      if HasCode(items, v) {
        var j :| 0 <= j < |items| && items[j].code == v;
        assert options[|missing|..][j] == options[|missing| + j];
      } else {
        var k :| 0 <= k < |missing| && missing[k] == v;
        assert options[k].value == v;
      }
    }
    if exists k :: 0 <= k < |options| && options[k].value == v {
      var k :| 0 <= k < |options| && options[k].value == v;
      if k >= |missing| {
        assert options[|missing|..][k - |missing|] == options[k];
      } else {
        assert missing[k] in missing;
      }
    }
  }

  /**
   * The value the inputs are set to: with `useFirst` and no filled value,
   * the first option; otherwise the current value.
   */
  function SelectedValue(value: FieldValue, options: seq<EnumOption>, useFirst: bool): (r: FieldValue)
    ensures FilledValues(value) == [] && useFirst && |options| > 0 ==> r == Single(Some(options[0].value))
    ensures FilledValues(value) != [] || !useFirst || |options| == 0 ==> r == value
  {
    if |FilledValues(value)| == 0 && useFirst && |options| > 0 then Single(Some(options[0].value)) else value
  }

  /** With `useFirst`, nothing filled and a non-empty code list, the first item's code is selected. */
  lemma UseFirstSelectsFirstItem(items: seq<CodeListItem>, value: FieldValue, translate: string -> string)
    requires FilledValues(value) == [] && |items| > 0
    ensures SelectedValue(value, OptionsFor(items, FilledValues(value), translate), true) == Single(Some(items[0].code))
  {
  }

  /**
   * The option-building loops of `_setOptions`: item options are pushed in
   * order while the values found in the code list are collected, then every
   * value not found is put in front.
   */
  method BuildOptions(items: seq<CodeListItem>, values: seq<string>, translate: string -> string)
    returns (options: seq<EnumOption>)
    requires forall i :: 0 <= i < |values| ==> values[i] != ""
    ensures options == OptionsFor(items, values, translate)
  {
    options := [];
    var presentValues: seq<string> := [];
    for i := 0 to |items|
      invariant options == ItemOptions(items[..i])
      invariant forall v :: v in presentValues <==> v in values && HasCode(items[..i], v)
    {
      for k := 0 to |values|
        invariant forall v :: v in presentValues <==>
                    (v in values && HasCode(items[..i], v)) || (v in values[..k] && items[i].code == v)
      {
        if values[k] != "" && items[i].code == values[k] {
          presentValues := presentValues + [values[k]];
        }
      }
      assert values[..|values|] == values;
      assert forall v :: HasCode(items[..i + 1], v) <==> HasCode(items[..i], v) || items[i].code == v by {
        forall v ensures HasCode(items[..i + 1], v) <==> HasCode(items[..i], v) || items[i].code == v {
          if HasCode(items[..i + 1], v) {
            var j :| 0 <= j < i + 1 && items[..i + 1][j].code == v;
            if j < i { assert items[..i][j] == items[j]; }
          }
          if HasCode(items[..i], v) {
            var j :| 0 <= j < i && items[..i][j].code == v;
            assert items[..i + 1][j] == items[j];
          }
          if items[i].code == v { assert items[..i + 1][i] == items[i]; }
        }
      }
      options := options + [EnumOption(items[i].code, items[i].niceLabel)];
    }
    assert items[..|items|] == items;
    for k := 0 to |values|
      invariant options == OptionsFor(items, values[..k], translate)
    {
      assert values[..k + 1][..k] == values[..k];
      if values[k] != "" && values[k] !in presentValues {
        options := [EnumOption(values[k], translate(values[k]))] + options;
      }
    }
    assert values[..|values|] == values;
  }

  /** The select box and its two inputs; only one of them is shown at a time. */
  class CodeListSelectBox {
    var options: seq<EnumOption>
    var showLoading: bool
    var value: FieldValue
    var enumInputValue: FieldValue
    var textInputValue: FieldValue
    var errorMessages: seq<ErrorMessage>

    constructor (value: FieldValue)
      ensures options == [] && showLoading && this.value == value
      ensures enumInputValue == value && textInputValue == value && errorMessages == []
    {
      options := [];
      showLoading := true;
      this.value := value;
      enumInputValue := value;
      textInputValue := value;
      errorMessages := [];
    }

    /** `getValue`: the enum input when there are options, else the text input. */
    function GetValue(): (r: FieldValue)
      reads this
      ensures |options| > 0 ==> r == enumInputValue
      ensures |options| == 0 ==> r == textInputValue
    {
      if |options| > 0 then enumInputValue else textInputValue
    }

    /** `isValid`: the validity of the input that is shown. */
    function IsValid(enumValid: bool, textValid: bool): (r: bool)
      reads this
      ensures r <==> (if |options| > 0 then enumValid else textValid)
    {
      if |options| > 0 then enumValid else textValid
    }

    /** `validate`: a read-only or not rendered component is valid; otherwise the shown input decides. */
    function Validate(readOnly: bool, rendered: bool, enumValid: bool, textValid: bool): (r: bool)
      reads this
      ensures readOnly || !rendered ==> r
      ensures !readOnly && rendered ==> (r <==> IsValid(enumValid, textValid))
    {
      if readOnly || !rendered then true else IsValid(enumValid, textValid)
    }

    /**
     * `_setOptions`: the options are rebuilt from the items and both inputs
     * get the selected value; the component value itself stays as it was.
     */
    method SetOptions(items: seq<CodeListItem>, useFirst: bool, translate: string -> string)
      modifies this
      ensures options == OptionsFor(items, FilledValues(old(value)), translate) && !showLoading
      ensures enumInputValue == SelectedValue(old(value), options, useFirst) && textInputValue == enumInputValue
      ensures GetValue() == SelectedValue(old(value), options, useFirst)
      ensures value == old(value) && errorMessages == old(errorMessages)
    {
      var values := FilledValues(value);
      var built := BuildOptions(items, values, translate);
      var selected := SelectedValue(value, built, useFirst);
      options := built;
      showLoading := false;
      enumInputValue := selected;
      textInputValue := selected;
    }

    /**
     * `_loadOptions`: nothing when not rendered; preloaded items are used
     * without a load; otherwise the loaded items (none when the collection
     * is missing) or, on a failed load, no options and an error message that
     * is hidden for 400 and 403.
     */
    method LoadOptions(rendered: bool, preloaded: Option<seq<CodeListItem>>, useFirst: bool,
                       response: Result<Option<seq<CodeListItem>>, LoadError>, translate: string -> string)
      modifies this
      ensures !rendered ==>
                options == old(options) && showLoading == old(showLoading) && value == old(value)
                && enumInputValue == old(enumInputValue) && textInputValue == old(textInputValue)
                && errorMessages == old(errorMessages)
      ensures rendered && preloaded.Some? ==>
                options == OptionsFor(preloaded.value, FilledValues(old(value)), translate)
                && errorMessages == old(errorMessages)
      ensures rendered && preloaded.None? && response.Ok? ==>
                options == OptionsFor(response.value.GetOr([]), FilledValues(old(value)), translate)
                && errorMessages == old(errorMessages)
      ensures rendered && preloaded.None? && response.Fail? ==>
                options == [] && GetValue() == old(value)
                && errorMessages == old(errorMessages) + [ErrorMessage(ERROR_CODE_LIST_LOAD,
                     response.error.statusCode == 400 || response.error.statusCode == 403, response.error)]
      ensures rendered ==> !showLoading && value == old(value)
    {
      if !rendered {
        return;
      }
      if preloaded.Some? {
        SetOptions(preloaded.value, useFirst, translate);
        return;
      }
      showLoading := true;
      match response
      case Ok(embedded) =>
        SetOptions(embedded.GetOr([]), useFirst, translate);
      case Fail(error) =>
        var hidden := error.statusCode == 400 || error.statusCode == 403;
        errorMessages := errorMessages + [ErrorMessage(ERROR_CODE_LIST_LOAD, hidden, error)];
        options := [];
        showLoading := false;
        enumInputValue := value;
        textInputValue := value;
    }
  }
}

=== FILE: configuration_manager.dfy ===
/**
 * Application configuration as the frontend reads it: classification of
 * configuration names (guarded, secured) and typed readers of the loaded
 * public properties (boolean, array, module switch, environment stage,
 * identifier display, pagination size options).
 */
module ConfigurationManager {
  import opened Wrappers
  import opened Strings

  const DEFAULT_SIZE_OPTIONS: seq<int> := [10, 25, 50, 100]
  const GUARDED_PROPERTY_NAMES: seq<string> := ["password", "token", "secret"]
  const SECURED_PREFIX: string := "idm.sec."
  const STAGE_KEY: string := "idm.pub.app.stage"
  const SHOW_ID_KEY: string := "idm.pub.app.show.id"
  const SHOW_TRANSACTION_ID_KEY: string := "idm.pub.app.show.transactionId"
  const SIZE_OPTIONS_KEY: string := "idm.pub.app.show.sizeOptions"

  /**
   * The part of the redux state the readers look at: the loaded properties
   * (absent until they are loaded), each with its possibly missing value,
   * and whether the logged user's profile asks for system information.
   */
  datatype ConfigState = ConfigState(
    properties: Option<map<string, Option<string>>>,
    systemInformation: bool)

  /**
   * `_.intersection(xs, ys)`: the distinct elements of `xs` that are also in
   * `ys`, in the order of their first occurrence in `xs`.
   */
  function Intersection(xs: seq<string>, ys: seq<string>): (r: seq<string>)
    ensures forall x :: x in r <==> x in xs && x in ys
    ensures forall i, j :: 0 <= i < j < |r| ==> r[i] != r[j]
  {
    if |xs| == 0 then []
    else
      var last := xs[|xs| - 1];
      var rest := Intersection(xs[..|xs| - 1], ys);
      assert forall x :: x in xs <==> x in xs[..|xs| - 1] || x == last;
      if last in ys && last !in rest then rest + [last] else rest
  }

  /** Some segment is one of the guarded words. */
  predicate HasGuardedSegment(segments: seq<string>)
  {
    exists k :: 0 <= k < |segments| && segments[k] in GUARDED_PROPERTY_NAMES
  }

  /** `shouldBeGuarded`: some '.'-separated segment of the name is a guarded word. */
  function ShouldBeGuarded(configurationName: Option<string>): (r: bool)
    ensures r <==> HasGuardedSegment(Split(configurationName.GetOr(""), '.'))
  {
    var segments := Split(configurationName.GetOr(""), '.');
    var common := Intersection(segments, GUARDED_PROPERTY_NAMES);
    assert HasGuardedSegment(segments) ==> |common| > 0 by {
      if HasGuardedSegment(segments) {
        var k :| 0 <= k < |segments| && segments[k] in GUARDED_PROPERTY_NAMES;
        assert segments[k] in common;
      }
    }
    assert |common| > 0 ==> HasGuardedSegment(segments) by {
      if |common| > 0 {
        assert common[0] in segments;
        var k :| 0 <= k < |segments| && segments[k] == common[0];
      }
    }
    |common| > 0
  }

  /** A name built from '.'-free segments is guarded exactly when one of them is a guarded word. */
  lemma GuardedIffSegment(segments: seq<string>)
    requires |segments| >= 1
    requires forall k :: 0 <= k < |segments| ==> '.' !in segments[k]
    ensures ShouldBeGuarded(Some(Join(segments, '.'))) <==> HasGuardedSegment(segments)
  {
    SplitJoin(segments, '.');
  }

  /**
   * `s.lastIndexOf(t, from)`: the greatest index not above `from` where `t`
   * occurs in `s`, or -1.
   */
  function LastIndexOf(s: string, t: string, from: int): (r: int)
    ensures r == -1 || (0 <= r <= from && OccursAt(s, t, r))
    ensures forall i :: r < i <= from ==> !OccursAt(s, t, i)
    decreases from
  {
    if from < 0 then -1
    else if OccursAt(s, t, from) then from
    else LastIndexOf(s, t, from - 1)
  }

  /** `shouldBeSecured`: false for an empty name, else whether it starts with 'idm.sec.'. */
  function ShouldBeSecured(configurationName: Option<string>): (r: bool)
    ensures r <==> !Falsy(configurationName) && StartsWith(configurationName.value, SECURED_PREFIX)
  {
    if Falsy(configurationName) then false
    else LastIndexOf(configurationName.value, SECURED_PREFIX, 0) == 0
  }

  /** `getValue`: null when the properties are not loaded or the key is absent. */
  function GetValue(state: ConfigState, key: string): (r: Option<string>)
    ensures state.properties.None? ==> r == None
    ensures state.properties.Some? && key !in state.properties.value ==> r == None
    ensures r.Some? ==> state.properties.Some? && key in state.properties.value
                        && state.properties.value[key] == r
  {
    match state.properties
    case None => None
    case Some(loaded) => if key in loaded then loaded[key] else None
  }

  /** `getPublicValueAsBoolean`: the default for a missing value, else whether it is 'true'. */
  function GetPublicValueAsBoolean(state: ConfigState, key: string, defaultValue: Option<bool>): (r: Option<bool>)
    ensures GetValue(state, key).None? ==> r == defaultValue
    ensures GetValue(state, key).Some? ==> r == Some(GetValue(state, key).value == "true")
  {
    match GetValue(state, key)
    case None => defaultValue
    case Some(v) => Some(v == "true")
  }

  /** `getPublicValueAsArray`: the default for a missing value, else its ','-separated items trimmed. */
  function GetPublicValueAsArray(state: ConfigState, key: string, defaultValue: Option<seq<string>>): (r: Option<seq<string>>)
    ensures GetValue(state, key).None? ==> r == defaultValue
    ensures GetValue(state, key).Some? ==>
              var items := Split(GetValue(state, key).value, ',');
              r.Some? && |r.value| == |items|
              && forall i :: 0 <= i < |items| ==> r.value[i] == Trim(items[i])
  {
    match GetValue(state, key)
    case None => defaultValue
    case Some(v) =>
      var items := Split(v, ',');
      Some(seq(|items|, i requires 0 <= i < |items| => Trim(items[i])))
  }

  /** A value written as trimmed, comma-free items joined by ',' reads back as those items. */
  lemma ArrayReadsBackItems(state: ConfigState, key: string, items: seq<string>, defaultValue: Option<seq<string>>)
    requires |items| >= 1
    requires forall k :: 0 <= k < |items| ==> ',' !in items[k] && Trim(items[k]) == items[k]
    requires GetValue(state, key) == Some(Join(items, ','))
    ensures GetPublicValueAsArray(state, key, defaultValue) == Some(items)
  {
    SplitJoin(items, ',');
    var r := GetPublicValueAsArray(state, key, defaultValue).value;
    assert |r| == |items|;
    forall i | 0 <= i < |items| ensures r[i] == items[i] {
    }
    assert r == items;
  }

  /** The key under which a module's switch is published. */
  function ModuleEnabledKey(moduleId: string): string
  {
    "idm.pub." + moduleId + ".enabled"
  }

  /** `isModuleEnabled`: null when the module's switch is not published, else whether it is 'true'. */
  function IsModuleEnabled(state: ConfigState, moduleId: string): (r: Option<bool>)
    ensures r.None? <==> GetValue(state, ModuleEnabledKey(moduleId)).None?
    ensures r == Some(true) <==> GetValue(state, ModuleEnabledKey(moduleId)) == Some("true")
  {
    match GetValue(state, ModuleEnabledKey(moduleId))
    case None => None
    case Some(v) => Some(v == "true")
  }

  /** `getEnvironmentStage`: the published stage lower-cased, or null when missing or empty. */
  function GetEnvironmentStage(state: ConfigState): (r: Option<string>)
    ensures r.None? <==> Falsy(GetValue(state, STAGE_KEY))
    ensures r.Some? ==> IsLower(r.value) && r.value == ToLower(GetValue(state, STAGE_KEY).value)
  {
    var environment := GetValue(state, STAGE_KEY);
    if Falsy(environment) then None else Some(ToLower(environment.value))
  }

  /**
   * `showId`: the published switch when there is one, otherwise whether the
   * stage is development; system information in the profile shows it anyway.
   */
  function ShowId(state: ConfigState): (r: bool)
    ensures state.systemInformation ==> r
    ensures GetValue(state, SHOW_ID_KEY) == Some("true") ==> r
    ensures GetValue(state, SHOW_ID_KEY).Some? && GetValue(state, SHOW_ID_KEY) != Some("true")
            ==> r == state.systemInformation
    ensures GetValue(state, SHOW_ID_KEY).None?
            ==> r == (GetEnvironmentStage(state) == Some("development") || state.systemInformation)
  {
    var show := match GetPublicValueAsBoolean(state, SHOW_ID_KEY, None)
                case Some(b) => b
                case None => GetEnvironmentStage(state) == Some("development");
    show || state.systemInformation
  }

  /** `showTransactionId`: the published switch (off by default) or system information. */
  function ShowTransactionId(state: ConfigState): (r: bool)
    ensures r <==> GetValue(state, SHOW_TRANSACTION_ID_KEY) == Some("true") || state.systemInformation
  {
    GetPublicValueAsBoolean(state, SHOW_TRANSACTION_ID_KEY, Some(false)) == Some(true) || state.systemInformation
  }

  /** The longest prefix of `s` made of decimal digits. */
  function LeadingDigits(s: string): (r: string)
    ensures |r| <= |s| && r == s[..|r|] && AllDigits(r)
    ensures |r| < |s| ==> !IsDigit(s[|r|])
  {
    if |s| > 0 && IsDigit(s[0]) then
      var rest := LeadingDigits(s[1..]);
      assert [s[0]] + rest == s[..|rest| + 1];
      [s[0]] + rest
    else ""
  }

  /**
   * `parseInt(s, 10)`: leading whitespace skipped, an optional sign, then as
   * many decimal digits as follow; NaN (here `None`) when there is none.
   */
  function ParseInt(s: string): Option<int>
  {
    var t := TrimStart(s);
    var negative := |t| > 0 && t[0] == '-';
    var body := if |t| > 0 && (t[0] == '-' || t[0] == '+') then t[1..] else t;
    var digits := LeadingDigits(body);
    if |digits| == 0 then None
    else Some(if negative then 0 - DigitsValue(digits) else DigitsValue(digits))
  }

  lemma DigitsAreTrimmed(s: string)
    requires AllDigits(s) && |s| > 0
    ensures TrimStart(s) == s && TrimEnd(s) == s && Trim(s) == s
  {
    assert !IsJsSpace(s[0]) && !IsJsSpace(s[|s| - 1]);
  }

  lemma ParseDigitsText(s: string)
    requires AllDigits(s) && |s| > 0
    ensures ParseInt(Trim(s)) == Some(DigitsValue(s))
  {
    DigitsAreTrimmed(s);
    var digits := LeadingDigits(s);
    assert |digits| == |s|;
    assert digits == s;
    assert !(s[0] == '-' || s[0] == '+') by { assert IsDigit(s[0]); }
  }

  /** The decimal text of a natural number parses back to it. */
  lemma ParseNatText(n: nat)
    ensures ParseInt(Trim(NatToString(n))) == Some(n)
  {
    ParseDigitsText(NatToString(n));
    NatToStringValue(n);
  }

  /** A leading whitespace character is trimmed away. */
  lemma TrimStartSkips(c: char, s: string)
    requires IsJsSpace(c)
    ensures TrimStart([c] + s) == TrimStart(s)
  {
    assert ([c] + s)[1..] == s;
  }

  /** A trailing whitespace character is trimmed away. */
  lemma TrimEndSkips(s: string, c: char)
    requires IsJsSpace(c)
    ensures TrimEnd(s + [c]) == TrimEnd(s)
  {
    assert (s + [c])[..|s|] == s;
  }

  /** Text that does not start with whitespace is its own `TrimStart`. */
  lemma TrimStartKeeps(s: string)
    requires |s| > 0 && !IsJsSpace(s[0])
    ensures TrimStart(s) == s
  {
  }

  /** Text that does not end with whitespace is its own `TrimEnd`. */
  lemma TrimEndKeeps(s: string)
    requires |s| > 0 && !IsJsSpace(s[|s| - 1])
    ensures TrimEnd(s) == s
  {
  }

  /** Leading whitespace before a digit is trimmed up to the digit. */
  lemma SpacedDigitsTrimStart(lead: char, digits: string)
    requires IsJsSpace(lead) && |digits| > 0 && IsDigit(digits[0])
    ensures TrimStart([lead] + digits) == digits
  {
    TrimStartSkips(lead, digits);
    TrimStartKeeps(digits);
  }

  /** A run of digits between two whitespace characters of any kind trims to the digits. */
  lemma SpacedDigitsTrimmed(lead: char, digits: string, trail: char)
    requires IsJsSpace(lead) && IsJsSpace(trail) && AllDigits(digits) && |digits| > 0
    ensures Trim([lead] + digits + [trail]) == digits
  {
    var tail := digits + [trail];
    assert [lead] + digits + [trail] == [lead] + tail;
    SpacedDigitsTrimStart(lead, tail);
    TrimEndSkips(digits, trail);
    DigitsAreTrimmed(digits);
  }

  /**
   * A size written between Unicode spaces (a no-break space, an ideographic
   * space, ...) still parses, as `parseInt(size.trim())` does.
   */
  lemma SpacedSizeParses(lead: char, digits: string, trail: char)
    requires IsJsSpace(lead) && IsJsSpace(trail) && AllDigits(digits) && |digits| > 0
    ensures SizeOf([lead] + digits + [trail]) == Some(DigitsValue(digits))
  {
    SpacedDigitsTrimmed(lead, digits, trail);
    ParseDigitsText(digits);
  }

  lemma NoBreakSpaceSplit()
    ensures Split("a,\U{A0}b", ',') == ["a", ['\U{A0}'] + "b"]
  {
    var second := ['\U{A0}'] + "b";
    assert "a,\U{A0}b" == "a" + [','] + second;
    SplitAtFirst("a", second, ',');
    SplitNoSeparator(second, ',');
  }

  /** A single character that is not whitespace is its own trim. */
  lemma LetterTrimmed(c: char)
    requires !IsJsSpace(c)
    ensures Trim([c]) == [c]
  {
    TrimStartKeeps([c]);
    TrimEndKeeps([c]);
  }

  lemma NoBreakSpaceItemsTrimmed()
    ensures Trim("a") == "a" && Trim(['\U{A0}'] + "b") == "b"
  {
    var a, b := ['a'], ['b'];
    assert "a" == a && "b" == b;
    TrimStartSkips('\U{A0}', b);
    LetterTrimmed('a');
    LetterTrimmed('b');
  }

  /** A no-break space after the comma is trimmed away, as JavaScript's `trim()` does. */
  lemma NoBreakSpaceTrimmed(state: ConfigState, key: string, defaultValue: Option<seq<string>>)
    requires GetValue(state, key) == Some("a,\U{A0}b")
    ensures GetPublicValueAsArray(state, key, defaultValue) == Some(["a", "b"])
  {
    NoBreakSpaceSplit();
    NoBreakSpaceItemsTrimmed();
    var items := Split(GetValue(state, key).value, ',');
    assert items == ["a", ['\U{A0}'] + "b"];
    var r := GetPublicValueAsArray(state, key, defaultValue).value;
    assert |r| == 2 && r[0] == Trim(items[0]) && r[1] == Trim(items[1]);
    assert r == ["a", "b"];
  }

  /** One trimmed item as a size; `None` stands for NaN. */
  function SizeOf(item: string): Option<int>
  {
    ParseInt(Trim(item))
  }

  /** `.filter(size => !isNaN(size))`: the present values, in order. */
  function Present(sizes: seq<Option<int>>): (r: seq<int>)
    ensures |r| <= |sizes|
  {
    if |sizes| == 0 then []
    else if sizes[0].None? then Present(sizes[1..])
    else [sizes[0].value] + Present(sizes[1..])
  }

  /** A value is kept exactly when some entry holds it. */
  lemma {:induction false} PresentMembers(sizes: seq<Option<int>>, n: int)
    ensures n in Present(sizes) <==> Some(n) in sizes
  {
    if |sizes| > 0 {
      PresentMembers(sizes[1..], n);
      assert sizes == [sizes[0]] + sizes[1..];
    }
  }

  /** Filtering keeps the order: it distributes over concatenation. */
  lemma {:induction false} PresentAppend(a: seq<Option<int>>, b: seq<Option<int>>)
    ensures Present(a + b) == Present(a) + Present(b)
  {
    if |a| > 0 {
      assert (a + b)[1..] == a[1..] + b;
      PresentAppend(a[1..], b);
    } else {
      assert a + b == b;
    }
  }

  /** With no NaN entry nothing is dropped. */
  lemma {:induction false} PresentAllSome(sizes: seq<Option<int>>)
    requires forall i :: 0 <= i < |sizes| ==> sizes[i].Some?
    ensures |Present(sizes)| == |sizes|
    ensures forall i :: 0 <= i < |sizes| ==> Some(Present(sizes)[i]) == sizes[i]
  {
    if |sizes| > 0 {
      PresentAllSome(sizes[1..]);
    }
  }

  /**
   * The ','-separated items mapped to `parseInt(item.trim(), 10)` and
   * filtered of NaN: the numbers that parse, in item order.
   */
  function ParsedSizes(items: seq<string>): (r: seq<int>)
    ensures |r| <= |items|
  {
    Present(Sizes(items))
  }

  /** `.map(item => parseInt(item.trim(), 10))`: one size per item, in item order. */
  function Sizes(items: seq<string>): (r: seq<Option<int>>)
    ensures |r| == |items|
    ensures forall i :: 0 <= i < |items| ==> r[i] == SizeOf(items[i])
  {
    if |items| == 0 then [] else [SizeOf(items[0])] + Sizes(items[1..])
  }

  lemma {:induction false} SizesAppend(a: seq<string>, b: seq<string>)
    ensures Sizes(a + b) == Sizes(a) + Sizes(b)
  {
    if |a| > 0 {
      assert (a + b)[1..] == a[1..] + b;
      SizesAppend(a[1..], b);
    } else {
      assert a + b == b;
    }
  }

  /** A number is among the sizes exactly when some item parses to it. */
  lemma ParsedSizesMembers(items: seq<string>, n: int)
    ensures n in ParsedSizes(items) <==> exists i :: 0 <= i < |items| && SizeOf(items[i]) == Some(n)
  {
    var sizes := Sizes(items);
    PresentMembers(sizes, n);
    if Some(n) in sizes {
      var i :| 0 <= i < |sizes| && sizes[i] == Some(n);
      assert SizeOf(items[i]) == Some(n);
    }
    if exists i :: 0 <= i < |items| && SizeOf(items[i]) == Some(n) {
      var i :| 0 <= i < |items| && SizeOf(items[i]) == Some(n);
      assert sizes[i] == Some(n);
    }
  }

  /** The sizes of two runs of items are those of the first run, then those of the second. */
  lemma ParsedSizesAppend(a: seq<string>, b: seq<string>)
    ensures ParsedSizes(a + b) == ParsedSizes(a) + ParsedSizes(b)
  {
    SizesAppend(a, b);
    PresentAppend(Sizes(a), Sizes(b));
  }

  /** When every item parses, the sizes are the items' numbers, index by index. */
  lemma ParsedSizesAllParse(items: seq<string>)
    requires forall i :: 0 <= i < |items| ==> SizeOf(items[i]).Some?
    ensures |ParsedSizes(items)| == |items|
    ensures forall i :: 0 <= i < |items| ==> Some(ParsedSizes(items)[i]) == SizeOf(items[i])
  {
    PresentAllSome(Sizes(items));
  }

  /**
   * `getSizeOptions`: the published ','-separated sizes that parse as
   * numbers, or the default sizes when nothing is published or none parses.
   */
  function GetSizeOptions(state: ConfigState): (r: seq<int>)
    ensures |r| >= 1
    ensures Falsy(GetValue(state, SIZE_OPTIONS_KEY)) ==> r == DEFAULT_SIZE_OPTIONS
    ensures !Falsy(GetValue(state, SIZE_OPTIONS_KEY)) ==>
              var parsed := ParsedSizes(Split(GetValue(state, SIZE_OPTIONS_KEY).value, ','));
              r == if parsed == [] then DEFAULT_SIZE_OPTIONS else parsed
  {
    var value := GetValue(state, SIZE_OPTIONS_KEY);
    if Falsy(value) then DEFAULT_SIZE_OPTIONS
    else
      var sizes := ParsedSizes(Split(value.value, ','));
      if |sizes| == 0 then DEFAULT_SIZE_OPTIONS else sizes
  }

  function NatsToStrings(ns: seq<nat>): (r: seq<string>)
    ensures |r| == |ns|
    ensures forall k :: 0 <= k < |ns| ==> AllDigits(r[k]) && |r[k]| > 0
  {
    if |ns| == 0 then [] else [NatToString(ns[0])] + NatsToStrings(ns[1..])
  }

  lemma ParsedSizesOfNumbers(ns: seq<nat>)
    ensures ParsedSizes(NatsToStrings(ns)) == ns
  {
    var items := NatsToStrings(ns);
    forall i | 0 <= i < |items| ensures SizeOf(items[i]) == Some(ns[i] as int) {
      NatsToStringsAt(ns, i);
      ParseNatText(ns[i]);
    }
    ParsedSizesAllParse(items);
  }

  lemma {:induction false} NatsToStringsAt(ns: seq<nat>, i: nat)
    requires i < |ns|
    ensures NatsToStrings(ns)[i] == NatToString(ns[i])
  {
    if i > 0 {
      NatsToStringsAt(ns[1..], i - 1);
    }
  }

  lemma NumbersHaveNoComma(ns: seq<nat>)
    ensures forall k :: 0 <= k < |ns| ==> ',' !in NatsToStrings(ns)[k]
  {
    forall k | 0 <= k < |ns| ensures ',' !in NatsToStrings(ns)[k] {
      assert AllDigits(NatsToStrings(ns)[k]);
    }
  }

  /**
   * Sizes published as plain numbers joined by ',' parse back to exactly
   * those numbers, so `GetSizeOptions` returns them.
   */
  lemma SizesTextReadBack(ns: seq<nat>)
    requires |ns| >= 1
    ensures var value := Join(NatsToStrings(ns), ',');
            value != "" && ParsedSizes(Split(value, ',')) == ns
  {
    var texts := NatsToStrings(ns);
    NumbersHaveNoComma(ns);
    SplitJoin(texts, ',');
    ParsedSizesOfNumbers(ns);
    JoinHasFirst(texts, ',');
  }

  lemma JoinHasFirst(parts: seq<string>, sep: char)
    requires |parts| >= 1
    ensures |Join(parts, sep)| >= |parts[0]|
  {
  }
}

=== FILE: contract_position_repository.dfy ===
/**
 * Other positions of identity contracts: which positions lie on a work
 * position, following the recursion over the tree's nested-set index.
 */
module ContractPositionRepository {
  import opened Wrappers
  import opened RoleTreeNodeRepository

  /** A contract position; `workPosition` is the tree node it sits on, when set. */
  datatype ContractPosition = ContractPosition(id: Uuid, identityContract: Uuid, workPosition: Option<TreeNode>)

  /**
   * The query condition for a position node `n` and the work position `wp`:
   * the same tree type, and either the same node, or DOWN with `n.lft` in
   * wp's range, or UP with `wp.lft` in n's range. A null recursion is none.
   */
  predicate OnWorkPosition(n: TreeNode, wp: TreeNode, recursionType: Option<RecursionType>)
    ensures n.treeType == wp.treeType && n.id == wp.id ==> OnWorkPosition(n, wp, recursionType)
    ensures n.treeType == wp.treeType && recursionType == Some(DOWN) && wp.lft < n.lft < wp.rgt ==> OnWorkPosition(n, wp, recursionType)
    ensures n.treeType == wp.treeType && recursionType == Some(UP) && n.lft < wp.lft < n.rgt ==> OnWorkPosition(n, wp, recursionType)
    ensures recursionType.None? && n.id != wp.id ==> !OnWorkPosition(n, wp, recursionType)
  {
    n.treeType == wp.treeType
    && (n.id == wp.id
        || (recursionType == Some(DOWN) && Between(n.lft, wp))
        || (recursionType == Some(UP) && Between(wp.lft, n)))
  }

  /**
   * `findAllByWorkPosition`: the positions with a work position meeting the
   * condition; nothing when no tree node has the given identifier.
   */
  function FindAllByWorkPosition(positions: seq<ContractPosition>, nodes: map<Uuid, TreeNode>, workPositionId: Uuid,
                                 recursionType: Option<RecursionType>): (r: seq<ContractPosition>)
    ensures workPositionId !in nodes ==> r == []
    ensures workPositionId in nodes ==>
              forall p :: p in r <==> p in positions && p.workPosition.Some?
                                      && OnWorkPosition(p.workPosition.value, nodes[workPositionId], recursionType)
  {
    if workPositionId !in nodes then [] else PositionsOn(positions, nodes[workPositionId], recursionType)
  }

  function PositionsOn(positions: seq<ContractPosition>, wp: TreeNode, recursionType: Option<RecursionType>): (r: seq<ContractPosition>)
    ensures forall p :: p in r <==> p in positions && p.workPosition.Some? && OnWorkPosition(p.workPosition.value, wp, recursionType)
  {
    if |positions| == 0 then []
    else
      var rest := PositionsOn(positions[1..], wp, recursionType);
      assert positions == [positions[0]] + positions[1..];
      var p := positions[0];
      if p.workPosition.Some? && OnWorkPosition(p.workPosition.value, wp, recursionType) then [p] + rest else rest
  }

  /** Positions on another tree type never match, whatever the recursion. */
  lemma OtherTreeTypeNeverMatches(n: TreeNode, wp: TreeNode, recursionType: Option<RecursionType>)
    requires n.treeType != wp.treeType
    ensures !OnWorkPosition(n, wp, recursionType)
  {
  }

  /** Without recursion (NO or null) only the work position itself matches. */
  lemma NoRecursionSameNodeOnly(n: TreeNode, wp: TreeNode, recursionType: Option<RecursionType>)
    requires recursionType != Some(DOWN) && recursionType != Some(UP)
    ensures OnWorkPosition(n, wp, recursionType) <==> n.treeType == wp.treeType && n.id == wp.id
  {
  }

  /** More recursion never matches less: whatever NO matches, DOWN and UP match too. */
  lemma RecursionWidens(n: TreeNode, wp: TreeNode)
    ensures OnWorkPosition(n, wp, Some(NO)) ==> OnWorkPosition(n, wp, Some(DOWN)) && OnWorkPosition(n, wp, Some(UP))
    ensures OnWorkPosition(n, wp, None) == OnWorkPosition(n, wp, Some(NO))
  {
  }

  /**
   * The automatic-role lookup and this query agree: a position on a node
   * matches the work position exactly when an automatic role with the same
   * recursion on the work position applies to the node, within one tree type.
   */
  lemma AgreesWithAutomaticRoles(n: TreeNode, wp: TreeNode, recursionType: RecursionType, role: Uuid, id: Uuid)
    requires n.treeType == wp.treeType
    ensures OnWorkPosition(n, wp, Some(recursionType)) <==> AppliesTo(RoleTreeNode(id, wp, recursionType, role), n)
  {
  }
}

=== FILE: contract_slice_attribute_enum.dfy ===
/**
 * Keys of the contract-slice fields and the lookups between a key and the
 * name of the slice field it stands for. The field-to-symbol lookup is
 * modelled twice: as written (it misspells one field name) and corrected.
 */
module ContractSliceAttributeEnum {
  import opened Wrappers
  import opened Strings

  /** The twelve symbols the enum declares. */
  datatype ContractSliceAttribute =
    | CONTRACT_CODE | IDENTITY | VALID_FROM | CONTRACT_VALID_FROM | CONTRACT_VALID_TILL
    | MAIN | STATE | POSITION | WORK_POSITION | EXTERNE | GUARANTEES | DESCRIPTION

  /**
   * What a JavaScript lookup can give back: a symbol, `null`, or
   * `undefined` (a property of the enum class that was never declared).
   */
  datatype Lookup = Symbol(attribute: ContractSliceAttribute) | Null | Undefined

  function KeyOf(a: ContractSliceAttribute): string
  {
    match a
    case CONTRACT_CODE => "CONTRACT_CODE"
    case IDENTITY => "IDENTITY"
    case VALID_FROM => "VALID_FROM"
    case CONTRACT_VALID_FROM => "CONTRACT_VALID_FROM"
    case CONTRACT_VALID_TILL => "CONTRACT_VALID_TILL"
    case MAIN => "MAIN"
    case STATE => "STATE"
    case POSITION => "POSITION"
    case WORK_POSITION => "WORK_POSITION"
    case EXTERNE => "EXTERNE"
    case GUARANTEES => "GUARANTEES"
    case DESCRIPTION => "DESCRIPTION"
  }

  /** The symbol declared under `key`, if any. */
  function FindSymbolByKey(key: string): (r: Option<ContractSliceAttribute>)
    ensures r.Some? ==> KeyOf(r.value) == key
    ensures forall a :: KeyOf(a) == key ==> r == Some(a)
  {
    match key
    case "CONTRACT_CODE" => Some(CONTRACT_CODE)
    case "IDENTITY" => Some(IDENTITY)
    case "VALID_FROM" => Some(VALID_FROM)
    case "CONTRACT_VALID_FROM" => Some(CONTRACT_VALID_FROM)
    case "CONTRACT_VALID_TILL" => Some(CONTRACT_VALID_TILL)
    case "MAIN" => Some(MAIN)
    case "STATE" => Some(STATE)
    case "POSITION" => Some(POSITION)
    case "WORK_POSITION" => Some(WORK_POSITION)
    case "EXTERNE" => Some(EXTERNE)
    case "GUARANTEES" => Some(GUARANTEES)
    case "DESCRIPTION" => Some(DESCRIPTION)
    case _ => None
  }

  /** The slice field a symbol selects. */
  function FieldOf(a: ContractSliceAttribute): string
  {
    match a
    case IDENTITY => "identity"
    case VALID_FROM => "validFrom"
    case CONTRACT_VALID_FROM => "contractValidFrom"
    case CONTRACT_VALID_TILL => "contractValidTill"
    case WORK_POSITION => "workPosition"
    case POSITION => "position"
    case EXTERNE => "externe"
    case MAIN => "main"
    case DESCRIPTION => "description"
    case GUARANTEES => "guarantees"
    case STATE => "state"
    case CONTRACT_CODE => "contractCode"
  }

  /** `getField(key)`: null for a falsy or unknown key, else the symbol's field. */
  function GetField(key: Option<string>): (r: Option<string>)
    ensures Falsy(key) ==> r == None
    ensures r.Some? <==> !Falsy(key) && FindSymbolByKey(key.value).Some?
    ensures r.Some? ==> r.value == FieldOf(FindSymbolByKey(key.value).value)
  {
    if Falsy(key) then None
    else
      match FindSymbolByKey(key.value)
      case None => None
      case Some(a) => Some(FieldOf(a))
  }

  /**
   * `getEnum(field)` as written: the CONTRACT_VALID_TILL case tests the
   * misspelled name "contratcValidTill", and the "disabled" case returns a
   * DISABLED property the enum never declares.
   */
  function GetEnum(field: Option<string>): (r: Lookup)
    ensures Falsy(field) ==> r == Null
    ensures field == Some("disabled") ==> r == Undefined
    ensures r.Symbol? && r.attribute != CONTRACT_VALID_TILL ==> field == Some(FieldOf(r.attribute))
    ensures r == Symbol(CONTRACT_VALID_TILL) <==> field == Some("contratcValidTill")
  {
    if Falsy(field) then Null
    else
      match field.value
      case "identity" => Symbol(IDENTITY)
      case "validFrom" => Symbol(VALID_FROM)
      case "contractValidFrom" => Symbol(CONTRACT_VALID_FROM)
      case "contratcValidTill" => Symbol(CONTRACT_VALID_TILL)
      case "workPosition" => Symbol(WORK_POSITION)
      case "position" => Symbol(POSITION)
      case "externe" => Symbol(EXTERNE)
      case "main" => Symbol(MAIN)
      case "description" => Symbol(DESCRIPTION)
      case "disabled" => Undefined
      case "guarantees" => Symbol(GUARANTEES)
      case "state" => Symbol(STATE)
      case "contractCode" => Symbol(CONTRACT_CODE)
      case _ => Null
  }

  /**
   * `getEnum(field)` as evidently intended: the CONTRACT_VALID_TILL case
   * tests the name `getField` produces. The undeclared "disabled" case is
   * kept as it is.
   */
  function GetEnumCorrected(field: Option<string>): (r: Lookup)
    ensures Falsy(field) ==> r == Null
    ensures field == Some("disabled") ==> r == Undefined
    ensures r.Symbol? ==> field == Some(FieldOf(r.attribute))
    ensures forall a :: field == Some(FieldOf(a)) ==> r == Symbol(a)
  {
    if Falsy(field) then Null
    else
      match field.value
      case "identity" => Symbol(IDENTITY)
      case "validFrom" => Symbol(VALID_FROM)
      case "contractValidFrom" => Symbol(CONTRACT_VALID_FROM)
      case "contractValidTill" => Symbol(CONTRACT_VALID_TILL)
      case "workPosition" => Symbol(WORK_POSITION)
      case "position" => Symbol(POSITION)
      case "externe" => Symbol(EXTERNE)
      case "main" => Symbol(MAIN)
      case "description" => Symbol(DESCRIPTION)
      case "disabled" => Undefined
      case "guarantees" => Symbol(GUARANTEES)
      case "state" => Symbol(STATE)
      case "contractCode" => Symbol(CONTRACT_CODE)
      case _ => Null
  }

  /** `getLevel(key)`: null for a falsy key, 'default' for any other. */
  function GetLevel(key: Option<string>): (r: Option<string>)
    ensures r == None <==> Falsy(key)
    ensures r.Some? ==> r.value == "default"
  {
    if Falsy(key) then None else Some("default")
  }

  /** As written, the round trip holds for the eleven other symbols ... */
  lemma RoundTripExceptValidTill(a: ContractSliceAttribute)
    requires a != CONTRACT_VALID_TILL
    ensures GetEnum(GetField(Some(KeyOf(a)))) == Symbol(a)
  {
  }

  /** ... and gives null for CONTRACT_VALID_TILL. */
  lemma RoundTripFailsForValidTill()
    ensures GetField(Some("CONTRACT_VALID_TILL")) == Some("contractValidTill")
    ensures GetEnum(GetField(Some("CONTRACT_VALID_TILL"))) == Null
  {
  }

  /** With the corrected lookup the round trip holds for every symbol. */
  lemma RoundTripCorrected(a: ContractSliceAttribute)
    ensures GetEnumCorrected(GetField(Some(KeyOf(a)))) == Symbol(a)
  {
  }

  /** Distinct symbols select distinct fields. */
  lemma FieldInjective(a: ContractSliceAttribute, b: ContractSliceAttribute)
    ensures FieldOf(a) == FieldOf(b) ==> a == b
  {
  }
}

=== FILE: contract_slice_service.dfy ===
/**
 * Contract slices (time slices of an identity's contract) and the filter
 * that finds them. Each filter field that is set adds one condition; the
 * query keeps the slices meeting all of them. As in SQL, a comparison with
 * an unset column holds for no slice.
 */
module ContractSliceService {
  import opened Wrappers
  import opened Strings

  type Uuid = string

  /** Days since an epoch. */
  type Date = int

  datatype WorkPosition = WorkPosition(id: Uuid, name: string, code: string)

  datatype ContractSlice = ContractSlice(
    id: Uuid,
    identity: Uuid,
    position: Option<string>,
    workPosition: Option<WorkPosition>,
    validFrom: Option<Date>,
    validTill: Option<Date>,
    externe: bool,
    main: bool,
    disabled: bool,
    state: Option<string>,
    parentContract: Option<Uuid>,
    contractCode: Option<string>,
    usingAsContract: bool)

  /** What a slice is saved from; only the disabled flag is copied here. */
  datatype ContractSliceDto = ContractSliceDto(id: Uuid, disabled: bool)

  /** The filter; an unset field adds no condition. */
  datatype ContractSliceFilter = ContractSliceFilter(
    text: Option<string>,
    treeNode: Option<Uuid>,
    identity: Option<Uuid>,
    validTill: Option<Date>,
    validFrom: Option<Date>,
    externe: Option<bool>,
    main: Option<bool>,
    valid: Option<bool>,
    validNowOrInFuture: Option<bool>,
    state: Option<string>,
    excludeContract: Option<Uuid>,
    parentContract: Option<Uuid>,
    contractCode: Option<string>,
    usingAsContract: Option<bool>,
    shouldBeUsingAsContract: Option<bool>)

  const EMPTY_FILTER: ContractSliceFilter :=
    ContractSliceFilter(None, None, None, None, None, None, None, None, None, None, None, None, None, None, None)

  /** `toEntity`: the mapped slice takes the dto's disabled flag; nothing is mapped without a slice. */
  function ToEntity(dto: Option<ContractSliceDto>, mapped: Option<ContractSlice>): (r: Option<ContractSlice>)
    ensures r.None? <==> mapped.None?
    ensures r.Some? && dto.Some? ==> r.value == mapped.value.(disabled := dto.value.disabled)
    ensures dto.None? ==> r == mapped
  {
    if mapped.Some? && dto.Some? then Some(mapped.value.(disabled := dto.value.disabled)) else mapped
  }

  /** `lower(column) like '%text%'`: an unset column never matches. */
  predicate LikeIgnoreCase(column: Option<string>, text: string)
  {
    column.Some? && Contains(ToLower(column.value), ToLower(text))
  }

  /**
   * The quick text condition: the position, or the work position's name or
   * code, holds the text ignoring case. The path to the work position is an
   * inner join, so a slice without a work position never matches.
   */
  predicate TextMatches(s: ContractSlice, text: string)
    ensures TextMatches(s, text) ==> s.workPosition.Some?
    ensures s.workPosition.Some? && s.position.None? ==>
              (TextMatches(s, text) <==> LikeIgnoreCase(Some(s.workPosition.value.name), text)
                                         || LikeIgnoreCase(Some(s.workPosition.value.code), text))
  {
    s.workPosition.Some?
    && (LikeIgnoreCase(s.position, text)
        || LikeIgnoreCase(Some(s.workPosition.value.name), text)
        || LikeIgnoreCase(Some(s.workPosition.value.code), text))
  }

  /** `column <= day`, false for an unset column. */
  predicate AtMost(column: Option<Date>, day: Date) { column.Some? && column.value <= day }
  /** `column >= day`, false for an unset column. */
  predicate AtLeast(column: Option<Date>, day: Date) { column.Some? && column.value >= day }
  /** `column < day`, false for an unset column. */
  predicate Before(column: Option<Date>, day: Date) { column.Some? && column.value < day }
  /** `column > day`, false for an unset column. */
  predicate After(column: Option<Date>, day: Date) { column.Some? && column.value > day }

  /** The date window holds today: started (or no start) and not ended (or no end). */
  predicate InWindow(s: ContractSlice, today: Date)
    ensures s.validFrom.None? && s.validTill.None? ==> InWindow(s, today)
    ensures s.validFrom == Some(today) && s.validTill == Some(today) ==> InWindow(s, today)
    ensures s.validTill.Some? && s.validTill.value < today ==> !InWindow(s, today)
    ensures s.validFrom.Some? && s.validFrom.value > today ==> !InWindow(s, today)
  {
    (AtMost(s.validFrom, today) || s.validFrom.None?) && (AtLeast(s.validTill, today) || s.validTill.None?)
  }

  /** valid = true: in the window and not disabled. */
  predicate ValidNow(s: ContractSlice, today: Date)
    ensures s.disabled ==> !ValidNow(s, today)
    ensures s.validFrom.None? && s.validTill.None? ==> (ValidNow(s, today) <==> !s.disabled)
  {
    InWindow(s, today) && !s.disabled
  }

  /** valid = false: ended, not started yet, or disabled. */
  predicate InvalidNow(s: ContractSlice, today: Date)
    ensures s.disabled ==> InvalidNow(s, today)
    ensures s.validFrom.None? && s.validTill.None? ==> (InvalidNow(s, today) <==> s.disabled)
  {
    Before(s.validTill, today) || After(s.validFrom, today) || s.disabled
  }

  /** validNowOrInFuture = true: not ended (or no end) and not disabled. */
  predicate ValidNowOrInFuture(s: ContractSlice, today: Date)
    ensures s.validFrom.Some? && s.validFrom.value > today && s.validTill.None? && !s.disabled ==> ValidNowOrInFuture(s, today)
    ensures s.validTill == Some(today) ==> (ValidNowOrInFuture(s, today) <==> !s.disabled)
  {
    (AtLeast(s.validTill, today) || s.validTill.None?) && !s.disabled
  }

  /** validNowOrInFuture = false: ended. */
  predicate EndedBefore(s: ContractSlice, today: Date)
    ensures s.validTill == Some(today - 1) ==> EndedBefore(s, today)
    ensures s.validTill.None? || s.validTill == Some(today) ==> !EndedBefore(s, today)
  {
    Before(s.validTill, today)
  }

  /** shouldBeUsingAsContract = false: not started yet or ended. */
  predicate OutOfWindow(s: ContractSlice, today: Date)
    ensures s.validFrom.None? && s.validTill.None? ==> !OutOfWindow(s, today)
    ensures s.validFrom == Some(today + 1) || s.validTill == Some(today - 1) ==> OutOfWindow(s, today)
  {
    After(s.validFrom, today) || Before(s.validTill, today)
  }

  /** An optional condition: holds when the field is unset. */
  predicate When<T>(field: Option<T>, p: T -> bool)
  {
    field.None? || p(field.value)
  }

  /** The slices `toPredicates` keeps for the filter on the given day. */
  predicate Matches(s: ContractSlice, f: ContractSliceFilter, today: Date)
    ensures f == EMPTY_FILTER ==> Matches(s, f, today)
    ensures Matches(s, f, today) && f.text.Some? && f.text.value != "" ==> s.workPosition.Some?
    ensures Matches(s, f, today) && f.identity.Some? ==> s.identity == f.identity.value
    ensures f.validTill.Some? && s.validTill.None? ==> !Matches(s, f, today)
    ensures f.validFrom.Some? && s.validFrom.None? ==> !Matches(s, f, today)
  {
    ((f.text.Some? && f.text.value != "") ==> TextMatches(s, f.text.value))
    && When(f.treeNode, (id: Uuid) => s.workPosition.Some? && s.workPosition.value.id == id)
    && When(f.identity, (id: Uuid) => s.identity == id)
    && When(f.validTill, (day: Date) => AtMost(s.validTill, day))
    && When(f.validFrom, (day: Date) => AtLeast(s.validFrom, day))
    && When(f.externe, (b: bool) => s.externe == b)
    && When(f.main, (b: bool) => s.main == b)
    && When(f.valid, (b: bool) => if b then ValidNow(s, today) else InvalidNow(s, today))
    && When(f.validNowOrInFuture, (b: bool) => if b then ValidNowOrInFuture(s, today) else EndedBefore(s, today))
    && When(f.state, (state: string) => s.state == Some(state))
    && When(f.excludeContract, (id: Uuid) => s.id != id)
    && When(f.parentContract, (id: Uuid) => s.parentContract == Some(id))
    && When(f.contractCode, (code: string) => s.contractCode == Some(code))
    && When(f.usingAsContract, (b: bool) => s.usingAsContract == b)
    && When(f.shouldBeUsingAsContract, (b: bool) => if b then InWindow(s, today) else OutOfWindow(s, today))
  }

  /** The slices of a repository the filter finds, in stored order. */
  function Find(slices: seq<ContractSlice>, f: ContractSliceFilter, today: Date): (r: seq<ContractSlice>)
    ensures forall s :: s in r <==> s in slices && Matches(s, f, today)
    ensures |r| <= |slices|
  {
    if |slices| == 0 then []
    else
      var rest := Find(slices[1..], f, today);
      assert slices == [slices[0]] + slices[1..];
      if Matches(slices[0], f, today) then [slices[0]] + rest else rest
  }

  /** The empty filter finds every slice. */
  lemma {:induction false} EmptyFilterFindsAll(slices: seq<ContractSlice>, today: Date)
    ensures Find(slices, EMPTY_FILTER, today) == slices
  {
    if |slices| > 0 {
      EmptyFilterFindsAll(slices[1..], today);
      assert slices == [slices[0]] + slices[1..];
    }
  }

  /** valid = false finds exactly the slices valid = true leaves out. */
  lemma ValidFalseIsComplement(s: ContractSlice, today: Date)
    ensures InvalidNow(s, today) <==> !ValidNow(s, today)
  {
  }

  /** shouldBeUsingAsContract = false finds exactly the slices true leaves out; neither looks at the disabled flag. */
  lemma ShouldBeUsingIsComplementAndIgnoresDisabled(s: ContractSlice, today: Date, disabled: bool)
    ensures OutOfWindow(s, today) <==> !InWindow(s, today)
    ensures InWindow(s.(disabled := disabled), today) == InWindow(s, today)
  {
  }

  /** A slice valid now is valid now or in the future. */
  lemma ValidNowIsValidNowOrInFuture(s: ContractSlice, today: Date)
    requires ValidNow(s, today)
    ensures ValidNowOrInFuture(s, today) && !EndedBefore(s, today)
  {
  }

  /**
   * validNowOrInFuture = false is not the complement of true: the two never
   * both hold, but a disabled slice that has not ended matches neither.
   */
  lemma ValidNowOrInFutureNotComplement(s: ContractSlice, today: Date)
    ensures !(ValidNowOrInFuture(s, today) && EndedBefore(s, today))
    ensures s.disabled && !Before(s.validTill, today) ==> !ValidNowOrInFuture(s, today) && !EndedBefore(s, today)
  {
  }

  /** The text condition ignores the case of the searched text. */
  lemma TextIgnoresCase(s: ContractSlice, text: string)
    ensures TextMatches(s, ToLower(text)) == TextMatches(s, text)
  {
    assert ToLower(ToLower(text)) == ToLower(text);
  }
}

=== FILE: form_attribute_detail.dfy ===
/**
 * The form-attribute detail: which validations an attribute's persistent
 * type supports, how the form is cleaned up when the type changes, which
 * face types can render it, and how a code-list attribute keeps its code
 * list in the face type.
 */
module FormAttributeDetail {
  import opened Wrappers
  import opened Strings

  /** Keys of the persistent types the detail tests for. */
  const SHORTTEXT: string := "SHORTTEXT"
  const CODELIST: string := "CODELIST"
  const BYTEARRAY: string := "BYTEARRAY"
  const ATTACHMENT: string := "ATTACHMENT"
  const DOUBLE: string := "DOUBLE"
  const INT: string := "INT"
  const LONG: string := "LONG"

  /** A form attribute as the detail form edits it; `order` is its `seq` property. */
  datatype FormAttribute = FormAttribute(
    id: Option<string>,
    code: string,
    persistentType: Option<string>,
    faceType: Option<string>,
    codeList: Option<string>,
    formDefinition: Option<string>,
    order: int,
    unmodifiable: bool,
    unique: bool,
    regex: Option<string>,
    min: Option<string>,
    max: Option<string>)

  /** `_supportsRegexValidation`: any type except binary ones. */
  predicate SupportsRegex(persistentType: Option<string>)
  {
    !Falsy(persistentType) && persistentType.value != BYTEARRAY && persistentType.value != ATTACHMENT
  }

  /** `_supportsUniqueValidation`: the same types as the regex validation. */
  predicate SupportsUnique(persistentType: Option<string>)
  {
    SupportsRegex(persistentType)
  }

  /** `_supportsMinMaxValidation`: the numeric types only. */
  predicate SupportsMinMax(persistentType: Option<string>)
  {
    !Falsy(persistentType) && (persistentType.value == DOUBLE || persistentType.value == INT || persistentType.value == LONG)
  }

  /** Every type that supports min/max also supports regex and unique, and the empty type supports nothing. */
  lemma SupportHierarchy(persistentType: Option<string>)
    ensures SupportsMinMax(persistentType) ==> SupportsRegex(persistentType) && SupportsUnique(persistentType)
    ensures Falsy(persistentType) ==> !SupportsRegex(persistentType) && !SupportsMinMax(persistentType)
    ensures !Falsy(persistentType) ==>
              (SupportsRegex(persistentType) <==> persistentType.value !in {BYTEARRAY, ATTACHMENT})
  {
  }

  /** The form holds no validation its persistent type does not support. */
  predicate Consistent(form: FormAttribute)
  {
    (!SupportsUnique(form.persistentType) ==> !form.unique)
    && (!SupportsRegex(form.persistentType) ==> form.regex.None?)
    && (!SupportsMinMax(form.persistentType) ==> form.min.None? && form.max.None?)
  }

  /**
   * `onChangePersistentType`: the new type is taken, the face type is
   * cleared, and unique, regex and min/max are cleared when the new type
   * does not support them; everything else is kept.
   */
  function ChangePersistentType(form: FormAttribute, persistentType: Option<string>): (r: FormAttribute)
    ensures Consistent(r)
    ensures r.persistentType == persistentType && r.faceType.None?
    ensures r.unique == (form.unique && SupportsUnique(persistentType))
    ensures SupportsRegex(persistentType) ==> r.regex == form.regex
    ensures SupportsMinMax(persistentType) ==> r.min == form.min && r.max == form.max
    ensures r.(persistentType := form.persistentType, faceType := form.faceType, unique := form.unique,
               regex := form.regex, min := form.min, max := form.max) == form
  {
    var cleared := form.(persistentType := persistentType, faceType := None);
    var uniqueChecked := if SupportsUnique(persistentType) then cleared else cleared.(unique := false);
    var regexChecked := if SupportsRegex(persistentType) then uniqueChecked else uniqueChecked.(regex := None);
    if SupportsMinMax(persistentType) then regexChecked else regexChecked.(min := None, max := None)
  }

  /** Changing the type twice in a row is the same as changing it once to the second type. */
  lemma ChangePersistentTypeLastWins(form: FormAttribute, first: Option<string>, second: Option<string>)
    requires SupportsMinMax(second) ==> SupportsMinMax(first)
    requires SupportsRegex(second) ==> SupportsRegex(first)
    ensures ChangePersistentType(ChangePersistentType(form, first), second) == ChangePersistentType(form, second)
  {
  }

  /** `select`: a code-list attribute shows its face type as its code list. */
  function Select(entity: FormAttribute): (r: FormAttribute)
    ensures entity.persistentType == Some(CODELIST) ==> r.codeList == entity.faceType
    ensures r.(codeList := entity.codeList) == entity
  {
    if entity.persistentType == Some(CODELIST) then entity.(codeList := entity.faceType) else entity
  }

  /** The entity `save` sends: the chosen type, and for a code list the code list as the face type. */
  function SavedEntity(form: FormAttribute, persistentType: Option<string>): (r: FormAttribute)
    ensures r.persistentType == persistentType
    ensures persistentType == Some(CODELIST) ==> r.faceType == form.codeList
    ensures persistentType != Some(CODELIST) ==> r.faceType == form.faceType
    ensures r.(persistentType := form.persistentType, faceType := form.faceType) == form
  {
    form.(persistentType := persistentType,
          faceType := if persistentType == Some(CODELIST) then form.codeList else form.faceType)
  }

  /** Opening a stored attribute and saving it unchanged stores the same face type and type. */
  lemma SelectSaveRoundTrip(entity: FormAttribute)
    ensures var saved := SavedEntity(Select(entity), entity.persistentType);
            saved.faceType == entity.faceType && saved.persistentType == entity.persistentType
  {
  }

  /** What `save` dispatches: nothing for an invalid form, a create with the definition for a new attribute, else a patch. */
  datatype SaveRequest = CreateEntity(entity: FormAttribute) | PatchEntity(entity: FormAttribute)

  function Save(formValid: bool, form: FormAttribute, persistentType: Option<string>, formDefinition: Option<string>): (r: Option<SaveRequest>)
    ensures !formValid <==> r.None?
    ensures r.Some? && form.id.None? ==>
              r.value == CreateEntity(SavedEntity(form, persistentType).(formDefinition := formDefinition))
    ensures r.Some? && form.id.Some? ==> r.value == PatchEntity(SavedEntity(form, persistentType))
  {
    if !formValid then None
    else
      var entity := SavedEntity(form, persistentType);
      if form.id.None? then Some(CreateEntity(entity.(formDefinition := formDefinition)))
      else Some(PatchEntity(entity))
  }

  /**
   * The entity received for a new attribute: SHORTTEXT, seq 0, modifiable,
   * in the given definition, and without an id (the route's id only keys
   * the entity in the store).
   */
  function NewAttribute(formDefinition: Option<string>): (r: FormAttribute)
    ensures r.id.None?
    ensures r.persistentType == Some(SHORTTEXT) && r.order == 0 && !r.unmodifiable
    ensures r.formDefinition == formDefinition
    ensures Consistent(r)
  {
    FormAttribute(None, "", Some(SHORTTEXT), None, None, formDefinition, 0, false, false, None, None, None)
  }

  /**
   * A valid new attribute is saved by creating it, in the form definition
   * given when saving, with the chosen persistent type.
   */
  lemma NewAttributeIsCreated(formDefinition: Option<string>, edited: FormAttribute, persistentType: Option<string>,
                              saveDefinition: Option<string>)
    requires edited.id == NewAttribute(formDefinition).id
    ensures var r := Save(true, edited, persistentType, saveDefinition);
            r.Some? && r.value.CreateEntity? && r.value.entity.formDefinition == saveDefinition
            && r.value.entity.persistentType == persistentType && r.value.entity.id.None?
  {
  }

  /** A registered form-attribute renderer. */
  datatype Renderer = Renderer(persistentType: Option<string>, faceType: Option<string>, labelKey: Option<string>)

  datatype FaceTypeOption = FaceTypeOption(value: string, niceLabel: string)

  /** Every renderer of `rs` is registered for the (non-empty) persistent type. */
  predicate AllRegisteredFor(rs: seq<Renderer>, persistentType: string)
  {
    forall k :: 0 <= k < |rs| ==> rs[k].persistentType == Some(persistentType) && persistentType != ""
  }

  /** The renderers for the persistent type; one without a type never fits. */
  function FittingRenderers(renderers: seq<Renderer>, persistentType: string): (r: seq<Renderer>)
    ensures AllRegisteredFor(r, persistentType)
  {
    if |renderers| == 0 then []
    else
      var c := renderers[0];
      var rest := FittingRenderers(renderers[1..], persistentType);
      if !Falsy(c.persistentType) && c.persistentType.value == persistentType then [c] + rest else rest
  }

  /** A renderer is offered exactly when it is registered for the persistent type. */
  lemma {:induction false} FittingRenderersMembers(renderers: seq<Renderer>, persistentType: string, x: Renderer)
    ensures x in FittingRenderers(renderers, persistentType)
            <==> x in renderers && x.persistentType == Some(persistentType) && persistentType != ""
  {
    if |renderers| > 0 {
      var c := renderers[0];
      FittingRenderersMembers(renderers[1..], persistentType, x);
      assert renderers == [c] + renderers[1..];
      if x == c {
        assert x in renderers;
      }
    }
  }

  /** The renderers keep their registration order: the filter distributes over concatenation. */
  lemma {:induction false} FittingRenderersAppend(a: seq<Renderer>, b: seq<Renderer>, persistentType: string)
    ensures FittingRenderers(a + b, persistentType) == FittingRenderers(a, persistentType) + FittingRenderers(b, persistentType)
  {
    if |a| > 0 {
      assert (a + b)[1..] == a[1..] + b;
      FittingRenderersAppend(a[1..], b, persistentType);
    } else {
      assert a + b == b;
    }
  }

  /** The face type a renderer offers: its own, else its persistent type. */
  function FaceTypeOf(c: Renderer): string
    requires c.persistentType.Some?
  {
    if Falsy(c.faceType) then c.persistentType.value else c.faceType.value
  }

  /** The option label: the translated label key or the face type, marked when it is the type's default. */
  function FaceTypeLabel(c: Renderer, translate: string -> string, defaultLabel: string): string
    requires c.persistentType.Some?
  {
    var faceType := FaceTypeOf(c);
    (if Falsy(c.labelKey) then faceType else translate(c.labelKey.value))
    + (if faceType == c.persistentType.value then " (" + defaultLabel + ")" else "")
  }

  /**
   * `getFaceTypes`: none without a persistent type; otherwise one option per
   * fitting renderer, in registration order.
   */
  function GetFaceTypes(persistentType: Option<string>, renderers: seq<Renderer>, translate: string -> string,
                        defaultLabel: string): (r: Option<seq<FaceTypeOption>>)
    ensures Falsy(persistentType) <==> r.None?
    ensures r.Some? ==>
              var fitting := FittingRenderers(renderers, persistentType.value);
              |r.value| == |fitting|
              && forall k :: 0 <= k < |fitting| ==>
                   fitting[k].persistentType == persistentType
                   && r.value[k].value == FaceTypeOf(fitting[k])
  {
    if Falsy(persistentType) then None
    else
      var fitting := FittingRenderers(renderers, persistentType.value);
      Some(seq(|fitting|, k requires 0 <= k < |fitting| =>
             FaceTypeOption(FaceTypeOf(fitting[k]), FaceTypeLabel(fitting[k], translate, defaultLabel))))
  }

  /** The detail view's state: the persistent type it shows and the form it edits. */
  class AttributeDetailForm {
    var persistentType: Option<string>
    var form: FormAttribute

    constructor (form: FormAttribute)
      ensures persistentType.None? && this.form == form
    {
      persistentType := None;
      this.form := form;
    }

    /** `onChangePersistentType` on the view: the state and the form fields change together. */
    method OnChangePersistentType(value: Option<string>)
      modifies this
      ensures persistentType == value
      ensures form == ChangePersistentType(old(form), value)
      ensures Consistent(form)
    {
      persistentType := value;
      form := ChangePersistentType(form, value);
    }
  }
}

=== FILE: form_attribute_table.dfy ===
/**
 * The attribute table of a form definition: opening the detail of a new
 * attribute places it after the existing ones.
 */
module FormAttributeTable {
  import opened Wrappers
  import opened FormAttributeDetail

  /** The largest value a Java `short` holds, the bound of an attribute's `seq`. */
  const SHORT_MAX: int := 32767

  /** The highest `seq` among the attributes of the definition. */
  function HighestOrder(orders: seq<int>): (r: int)
    requires |orders| > 0
    ensures r in orders && forall k :: 0 <= k < |orders| ==> orders[k] <= r
  {
    if |orders| == 1 then orders[0]
    else
      var rest := HighestOrder(orders[1..]);
      assert forall k :: 1 <= k < |orders| ==> orders[k] == orders[1..][k - 1];
      if orders[0] >= rest then orders[0] else rest
  }

  /**
   * The first page of the definition's attributes sorted by `seq`
   * descending, one attribute per page: the `seq` values it holds.
   */
  function FirstPageBySeqDesc(orders: seq<int>): (r: seq<int>)
    ensures |r| == (if |orders| == 0 then 0 else 1)
    ensures |r| == 1 ==> r[0] == HighestOrder(orders)
  {
    if |orders| == 0 then [] else [HighestOrder(orders)]
  }

  /**
   * The `seq` of a new attribute from the loaded page: 0 without a response
   * or without attributes, else one more than the first one, capped at
   * `SHORT_MAX`.
   */
  function NextOrder(page: Option<seq<int>>): (r: int)
    ensures page.None? || page.value == [] ==> r == 0
    ensures page.Some? && page.value != [] ==> r == if page.value[0] + 1 > SHORT_MAX then SHORT_MAX else page.value[0] + 1
  {
    if page.None? || |page.value| == 0 then 0
    else if page.value[0] + 1 > SHORT_MAX then SHORT_MAX
    else page.value[0] + 1
  }

  /**
   * A new attribute comes after every existing one unless the bound is
   * reached, and never exceeds the bound when the existing ones do not.
   */
  lemma NextOrderAfterAll(orders: seq<int>)
    requires forall k :: 0 <= k < |orders| ==> orders[k] <= SHORT_MAX
    ensures var next := NextOrder(Some(FirstPageBySeqDesc(orders)));
            next <= SHORT_MAX
            && (next < SHORT_MAX ==> forall k :: 0 <= k < |orders| ==> orders[k] < next)
            && (|orders| == 0 ==> next == 0)
  {
  }

  /** Where the table navigates. */
  function NewDetailUrl(newId: string, definitionId: string): string
  {
    "/form-definitions/attribute/" + newId + "/detail?new=1&formDefinition=" + definitionId
  }

  function DetailUrl(id: string): string
  {
    "/form-definitions/attribute/" + id + "/detail"
  }

  /** The redux entities the table stores and the navigation history. */
  class AttributeTableView {
    var entities: map<string, FormAttribute>
    var history: seq<string>

    constructor ()
      ensures entities == map[] && history == []
    {
      entities := map[];
      history := [];
    }

    /**
     * `showDetail`: an existing attribute only navigates to its detail. A
     * new one gets the SHORTTEXT defaults, the next `seq`, is stored under a
     * fresh identifier and opened as new.
     */
    method ShowDetail(entity: FormAttribute, definitionId: string, page: Option<seq<int>>, newId: string)
      modifies this
      ensures entity.id.Some? ==>
                entities == old(entities) && history == old(history) + [DetailUrl(entity.id.value)]
      ensures entity.id.None? ==>
                entities == old(entities)[newId := entity.(order := NextOrder(page), formDefinition := Some(definitionId),
                                                           persistentType := Some(SHORTTEXT), unmodifiable := false)]
                && history == old(history) + [NewDetailUrl(newId, definitionId)]
    {
      if entity.id.Some? {
        history := history + [DetailUrl(entity.id.value)];
        return;
      }
      var created := entity.(order := 0, formDefinition := Some(definitionId), persistentType := Some(SHORTTEXT),
                             unmodifiable := false);
      if page.Some? {
        var data := page.value;
        if |data| > 0 {
          created := created.(order := data[0] + 1);
          if created.order > SHORT_MAX {
            created := created.(order := SHORT_MAX);
          }
        }
      }
      entities := entities[newId := created];
      history := history + [NewDetailUrl(newId, definitionId)];
    }
  }
}

=== FILE: groovy_sandbox_filter.dfy ===
/**
 * The value filter of the Groovy script sandbox: every value a script
 * touches passes only if its class is allowed, globally or by the custom
 * types of the innermost running script, which sit on a stack.
 */
module GroovySandboxFilter {
  import opened Wrappers

  const OBJECT: string := "java.lang.Object"
  const THROWABLE: string := "java.lang.Throwable"
  const SCRIPT: string := "groovy.lang.Script"
  const CLOSURE: string := "groovy.lang.Closure"

  /** The classes every script may use, by fully qualified name. */
  const ALLOWED_TYPES: set<string> := {
    "java.lang.String", "java.lang.Integer", "java.lang.Double", "java.lang.Long", "java.sql.Date", "java.util.Date",
    "java.lang.Enum", "java.lang.Boolean", "java.math.BigDecimal", "java.util.UUID", "java.lang.Character",
    "eu.bcvsolutions.idm.core.security.api.domain.GuardedString", "java.time.format.DateTimeFormatter",
    "org.joda.time.LocalDateTime", "[Ljava.lang.String;", "java.time.LocalDateTime", "java.time.ZonedDateTime",
    "java.time.ZoneId", "java.time.Instant", "java.time.LocalDate", "java.time.LocalTime",
    "org.joda.time.LocalDate", "java.time.OffsetTime", "java.time.OffsetDateTime", "java.util.Map",
    "java.util.HashMap", "java.util.List", "java.util.ArrayList", "java.util.Set", "java.util.HashSet",
    "org.slf4j.LoggerFactory", "org.slf4j.Logger", "ch.qos.logback.classic.Logger", "groovy.lang.GString",
    "org.codehaus.groovy.runtime.GStringImpl", "java.text.MessageFormat", "java.util.Arrays",
    "java.util.Collections", "eu.bcvsolutions.idm.core.api.utils.DtoUtils",
    "org.apache.commons.lang3.StringUtils", "java.util.Collection"}

  /**
   * A Java class: its name, whether it is primitive, and the names of all
   * the classes it is assignable to (itself and its supertypes).
   */
  datatype JavaClass = JavaClass(name: string, primitive: bool, supertypes: set<string>)

  /** A value a script touches. */
  datatype Value =
    | Null
    | Instance(runtimeClass: JavaClass, aopTarget: Option<JavaClass>)
    | ClassObject(cls: JavaClass)
    | ArrayValue(arrayClass: JavaClass, component: JavaClass)

  datatype Outcome = Pass | Denied(targetClass: string) | NoCustomTypes

  /** The class checked for a value: the proxy target, the class itself, the array component, or the runtime class. */
  function TargetClass(o: Value): JavaClass
    requires !o.Null?
  {
    match o
    case Instance(rc, aop) => if aop.Some? then aop.value else rc
    case ClassObject(c) => c
    case ArrayValue(_, component) => component
  }

  /** `c` is the class named `name` or one of its subclasses. */
  predicate IsA(c: JavaClass, name: string)
  {
    name == c.name || name in c.supertypes
  }

  /** `target` is assignable to one of `types` other than `Object`. */
  predicate AssignableTo(target: JavaClass, types: set<string>)
  {
    exists a :: a in types && a != OBJECT && IsA(target, a)
  }

  /** A compiled script or a closure. */
  predicate IsScriptOrClosure(o: Value)
  {
    o.Instance? && (IsA(o.runtimeClass, SCRIPT) || IsA(o.runtimeClass, CLOSURE))
  }

  /**
   * The class of `o` is checked against the allowed types and is let through
   * by none of them: it is not primitive, not allowed or assignable to an
   * allowed type other than `Object` (globally or by `custom`), not a script
   * or closure and not an exception.
   */
  predicate Unauthorized(o: Value, custom: set<string>)
    requires !o.Null?
    ensures TargetClass(o).primitive || TargetClass(o).name in custom || IsA(TargetClass(o), THROWABLE)
            ==> !Unauthorized(o, custom)
    ensures Unauthorized(o, custom) ==> forall a :: a in custom && a != OBJECT ==> !IsA(TargetClass(o), a)
  {
    var target := TargetClass(o);
    && !target.primitive
    && target.name !in ALLOWED_TYPES && target.name !in custom
    && !AssignableTo(target, ALLOWED_TYPES) && !AssignableTo(target, custom)
    && !IsScriptOrClosure(o)
    && !IsA(target, THROWABLE)
  }

  /**
   * `filter`, deciding on a value with the custom types on top of the stack
   * (`None` for an empty stack, which fails when it is consulted).
   */
  function Filter(o: Value, customTypes: Option<set<string>>): (r: Outcome)
    ensures o.Null? ==> r == Pass
    ensures r == NoCustomTypes <==>
              !o.Null? && customTypes.None? && !TargetClass(o).primitive && TargetClass(o).name !in ALLOWED_TYPES
    ensures r.Denied? <==> !o.Null? && customTypes.Some? && Unauthorized(o, customTypes.value)
    ensures r.Denied? ==> r.targetClass == TargetClass(o).name
  {
    if o.Null? then Pass
    else
      var target := TargetClass(o);
      if target.primitive then Pass
      else if target.name in ALLOWED_TYPES then Pass
      else if customTypes.None? then NoCustomTypes
      else
        var custom := customTypes.value;
        if target.name in custom then Pass
        else if (o.ClassObject? && o.cls.name in ALLOWED_TYPES) || (o.ClassObject? && o.cls.name in custom) then Pass
        else if AssignableTo(target, ALLOWED_TYPES) then Pass
        else if AssignableTo(target, custom) then Pass
        else if IsScriptOrClosure(o) then Pass
        else if IsA(target, THROWABLE) then Pass
        else Denied(target.name)
  }

  /** Allowing `Object` as a custom type does not let every class through. */
  lemma ObjectGrantsNothing(o: Value, custom: set<string>)
    requires !o.Null?
    requires Filter(o, Some(custom)).Denied?
    ensures Filter(o, Some(custom + {OBJECT})).Denied? || TargetClass(o).name == OBJECT
  {
  }

  /** More custom types never deny what fewer allowed. */
  lemma FilterMonotone(o: Value, custom: set<string>, more: set<string>)
    requires custom <= more
    requires Filter(o, Some(custom)) == Pass
    ensures Filter(o, Some(more)) == Pass
  {
    if !o.Null? {
      var target := TargetClass(o);
      if AssignableTo(target, custom) {
        var a :| a in custom && a != OBJECT && IsA(target, a);
        assert a in more;
      }
    }
  }

  /** The filter and its stack of custom-type sets, one per nested script evaluation. */
  class Sandbox {
    var allowedCustomTypes: seq<set<string>>

    /** `GroovySandboxFilter(allowedTypes)`: a null set is not pushed. */
    constructor (allowedTypes: Option<set<string>>)
      ensures allowedCustomTypes == (if allowedTypes.Some? then [allowedTypes.value] else [])
    {
      allowedCustomTypes := if allowedTypes.Some? then [allowedTypes.value] else [];
    }

    /** `addCustomTypes`: a non-null set becomes the top of the stack. */
    method AddCustomTypes(allowedTypes: Option<set<string>>)
      modifies this
      ensures allowedCustomTypes == old(allowedCustomTypes) + (if allowedTypes.Some? then [allowedTypes.value] else [])
    {
      if allowedTypes.Some? {
        allowedCustomTypes := allowedCustomTypes + [allowedTypes.value];
      }
    }

    /** `getCustomTypes`: the top of the stack, none on an empty one. */
    function GetCustomTypes(): (r: Option<set<string>>)
      reads this
      ensures r.None? <==> |allowedCustomTypes| == 0
      ensures r.Some? ==> r.value == allowedCustomTypes[|allowedCustomTypes| - 1]
    {
      if |allowedCustomTypes| == 0 then None else Some(allowedCustomTypes[|allowedCustomTypes| - 1])
    }

    /** `removeLastCustomTypes`: pops and returns the top; fails on an empty stack. */
    method RemoveLastCustomTypes() returns (r: Option<set<string>>)
      modifies this
      ensures r == old(GetCustomTypes())
      ensures |old(allowedCustomTypes)| > 0 ==> allowedCustomTypes == old(allowedCustomTypes)[..|old(allowedCustomTypes)| - 1]
      ensures |old(allowedCustomTypes)| == 0 ==> allowedCustomTypes == []
    {
      if |allowedCustomTypes| == 0 {
        return None;
      }
      r := Some(allowedCustomTypes[|allowedCustomTypes| - 1]);
      allowedCustomTypes := allowedCustomTypes[..|allowedCustomTypes| - 1];
    }

    /** `isCustomTypesLast`: exactly one set is on the stack. */
    function IsCustomTypesLast(): (r: bool)
      reads this
      ensures r <==> |allowedCustomTypes| == 1
    {
      |allowedCustomTypes| == 1
    }

    /** `filter` with the current top of the stack. */
    function FilterValue(o: Value): (r: Outcome)
      reads this
      ensures r == Filter(o, GetCustomTypes())
    {
      Filter(o, GetCustomTypes())
    }

    /** A nested evaluation that pushes its types and pops them restores the outer types. */
    method NestedEvaluation(types: set<string>) returns (popped: Option<set<string>>)
      modifies this
      ensures popped == Some(types)
      ensures allowedCustomTypes == old(allowedCustomTypes)
    {
      AddCustomTypes(Some(types));
      popped := RemoveLastCustomTypes();
    }
  }
}

=== FILE: guarantee_managers_filter.dfy ===
/**
 * The "managers for" filter on identities: the managers of an identity are
 * the guarantees of its contracts, and a manager must itself be an enabled
 * identity with a valid, enabled, not excluded contract.
 */
module GuaranteeManagersFilter {
  import opened Wrappers

  type Uuid = string
  /** A calendar day. */
  type Date = int

  datatype ContractState = EXCLUDED | OtherState(name: string)

  datatype Identity = Identity(id: Uuid, disabled: bool)

  datatype IdentityContract = IdentityContract(
    id: Uuid,
    identity: Uuid,
    validTill: Option<Date>,
    disabled: bool,
    state: Option<ContractState>)

  /** A guarantee (manager) set by hand on a contract. */
  datatype ContractGuarantee = ContractGuarantee(identityContract: IdentityContract, guarantee: Uuid)

  /** The parameters of the identity filter that this builder reads. */
  datatype IdentityFilter = IdentityFilter(
    managersFor: Option<Uuid>,
    managersByTreeType: Option<Uuid>,
    includeGuarantees: bool,
    validContractManagers: Option<bool>,
    managersByContract: Option<Uuid>)

  /** A contract that has not ended: no end date, or an end date today or later. */
  predicate ValidNowOrInFuture(contract: IdentityContract, today: Date)
  {
    contract.validTill.None? || contract.validTill.value >= today
  }

  /**
   * `getValidNowOrInFuturePredicate`: no restriction when the filter is
   * unset, otherwise the contract's validity must equal the filter value.
   */
  function ValidityPredicate(contract: IdentityContract, validContractManagers: Option<bool>, today: Date): (r: bool)
    ensures validContractManagers.None? ==> r
    ensures validContractManagers == Some(true) ==> (r <==> ValidNowOrInFuture(contract, today))
    ensures validContractManagers == Some(false) ==> (r <==> !ValidNowOrInFuture(contract, today))
  {
    match validContractManagers
    case None => true
    case Some(valid) =>
      var p := contract.validTill.None? || contract.validTill.value >= today;
      if valid then p else !p
  }

  /** `getGuaranteesPredicate` for one guarantee row and the candidate manager `root`. */
  predicate GuaranteeMatches(g: ContractGuarantee, root: Identity, filter: IdentityFilter, today: Date)
    requires filter.managersFor.Some?
  {
    && ValidityPredicate(g.identityContract, filter.validContractManagers, today)
    && g.identityContract.identity == filter.managersFor.value
    && g.guarantee == root.id
    && (filter.managersByContract.None? || g.identityContract.id == filter.managersByContract.value)
  }

  /** A contract that lets its identity act as a manager. */
  predicate ManagerContract(c: IdentityContract, root: Identity, today: Date)
  {
    && !root.disabled
    && ValidNowOrInFuture(c, today)
    && !c.disabled
    && (c.state.None? || c.state.value != EXCLUDED)
    && c.identity == root.id
  }

  /**
   * `getPredicate` evaluated for one identity: None when the filter does
   * not ask for managers (no restriction), false when guarantees are not
   * wanted, otherwise whether `root` is a manager of `managersFor`.
   */
  function GetPredicate(root: Identity, contracts: seq<IdentityContract>, guarantees: seq<ContractGuarantee>,
                        filter: IdentityFilter, today: Date): (r: Option<bool>)
    ensures filter.managersFor.None? <==> r.None?
    ensures filter.managersFor.Some? && (filter.managersByTreeType.Some? || !filter.includeGuarantees) ==> r == Some(false)
    ensures r == Some(true) ==> !root.disabled
    ensures filter.managersFor.Some? && filter.managersByTreeType.None? && filter.includeGuarantees ==>
              (r == Some(true) <==>
                 && (exists c :: c in contracts && ManagerContract(c, root, today))
                 && (exists g :: g in guarantees && GuaranteeMatches(g, root, filter, today)))
  {
    if filter.managersFor.None? then None
    else if filter.managersByTreeType.Some? || !filter.includeGuarantees then Some(false)
    else
      Some((exists c :: c in contracts && ManagerContract(c, root, today))
           && (exists g :: g in guarantees && GuaranteeMatches(g, root, filter, today)))
  }

  /** The identities the filter keeps: all of them when it yields no predicate. */
  function FindManagers(identities: seq<Identity>, contracts: seq<IdentityContract>, guarantees: seq<ContractGuarantee>,
                        filter: IdentityFilter, today: Date): (r: seq<Identity>)
    ensures forall x :: x in r <==> x in identities && GetPredicate(x, contracts, guarantees, filter, today) != Some(false)
    ensures |r| <= |identities|
  {
    if |identities| == 0 then []
    else
      var rest := FindManagers(identities[1..], contracts, guarantees, filter, today);
      assert identities == [identities[0]] + identities[1..];
      if GetPredicate(identities[0], contracts, guarantees, filter, today) != Some(false) then [identities[0]] + rest
      else rest
  }

  /** Without `managersFor` nothing is filtered out. */
  lemma {:induction false} UnsetFilterKeepsAll(identities: seq<Identity>, contracts: seq<IdentityContract>,
                                              guarantees: seq<ContractGuarantee>, filter: IdentityFilter, today: Date)
    requires filter.managersFor.None?
    ensures FindManagers(identities, contracts, guarantees, filter, today) == identities
  {
    if |identities| > 0 {
      UnsetFilterKeepsAll(identities[1..], contracts, guarantees, filter, today);
      assert identities == [identities[0]] + identities[1..];
    }
  }

  /** Managers by tree type, or guarantees switched off, leave nobody for this builder. */
  lemma NoGuaranteesFindsNobody(identities: seq<Identity>, contracts: seq<IdentityContract>,
                                guarantees: seq<ContractGuarantee>, filter: IdentityFilter, today: Date)
    requires filter.managersFor.Some? && (filter.managersByTreeType.Some? || !filter.includeGuarantees)
    ensures FindManagers(identities, contracts, guarantees, filter, today) == []
  {
  }

  /**
   * A manager is found with `validContractManagers` unset exactly when it is
   * found with it true or with it false: the two settings split the guaranteed
   * contracts between them.
   */
  lemma ValidityFilterSplits(root: Identity, contracts: seq<IdentityContract>, guarantees: seq<ContractGuarantee>,
                             filter: IdentityFilter, today: Date)
    requires filter.managersFor.Some? && filter.managersByTreeType.None? && filter.includeGuarantees
    requires filter.validContractManagers.None?
    ensures GetPredicate(root, contracts, guarantees, filter, today) == Some(true) <==>
              (GetPredicate(root, contracts, guarantees, filter.(validContractManagers := Some(true)), today) == Some(true)
               || GetPredicate(root, contracts, guarantees, filter.(validContractManagers := Some(false)), today) == Some(true))
  {
    var valid := filter.(validContractManagers := Some(true));
    var invalid := filter.(validContractManagers := Some(false));
    if exists g :: g in guarantees && GuaranteeMatches(g, root, filter, today) {
      var g :| g in guarantees && GuaranteeMatches(g, root, filter, today);
      if ValidNowOrInFuture(g.identityContract, today) {
        assert GuaranteeMatches(g, root, valid, today);
      } else {
        assert GuaranteeMatches(g, root, invalid, today);
      }
    }
    if exists g :: g in guarantees && GuaranteeMatches(g, root, valid, today) {
      var g :| g in guarantees && GuaranteeMatches(g, root, valid, today);
      assert GuaranteeMatches(g, root, filter, today);
    }
    if exists g :: g in guarantees && GuaranteeMatches(g, root, invalid, today) {
      var g :| g in guarantees && GuaranteeMatches(g, root, invalid, today);
      assert GuaranteeMatches(g, root, filter, today);
    }
  }

  /** Naming one contract can only remove managers, never add them. */
  lemma ByContractNarrows(root: Identity, contracts: seq<IdentityContract>, guarantees: seq<ContractGuarantee>,
                          filter: IdentityFilter, today: Date)
    requires filter.managersByContract.Some?
    requires GetPredicate(root, contracts, guarantees, filter, today) == Some(true)
    ensures GetPredicate(root, contracts, guarantees, filter.(managersByContract := None), today) == Some(true)
  {
    var g :| g in guarantees && GuaranteeMatches(g, root, filter, today);
    assert GuaranteeMatches(g, root, filter.(managersByContract := None), today);
  }

  /** Only a guarantee of one of the subordinate's own contracts makes a manager. */
  lemma ManagerGuaranteesSubordinate(root: Identity, contracts: seq<IdentityContract>, guarantees: seq<ContractGuarantee>,
                                     filter: IdentityFilter, today: Date)
    requires GetPredicate(root, contracts, guarantees, filter, today) == Some(true)
    ensures exists g :: g in guarantees && g.guarantee == root.id && g.identityContract.identity == filter.managersFor.value
  {
    var g :| g in guarantees && GuaranteeMatches(g, root, filter, today);
  }
}

=== FILE: identity_attribute_enum.dfy ===
/**
 * Keys of the identity fields offered to form projections and to the
 * identity-attribute selection, and the two lookups between a key and the
 * name of the identity field it stands for.
 */
module IdentityAttributeEnum {
  import opened Wrappers
  import opened Strings

  /** The thirteen symbols the enum declares. */
  datatype IdentityAttribute =
    | USERNAME | EXTERNAL_CODE | DISABLED | FIRSTNAME | LASTNAME | EMAIL | PHONE
    | TITLE_BEFORE | TITLE_AFTER | DESCRIPTION | ASSIGNED_ROLES
    | ASSIGNED_ROLES_FOR_SYSTEM | FORM_PROJECTION

  /** The key of a symbol: the name it is declared under. */
  function KeyOf(a: IdentityAttribute): string
  {
    match a
    case USERNAME => "USERNAME"
    case EXTERNAL_CODE => "EXTERNAL_CODE"
    case DISABLED => "DISABLED"
    case FIRSTNAME => "FIRSTNAME"
    case LASTNAME => "LASTNAME"
    case EMAIL => "EMAIL"
    case PHONE => "PHONE"
    case TITLE_BEFORE => "TITLE_BEFORE"
    case TITLE_AFTER => "TITLE_AFTER"
    case DESCRIPTION => "DESCRIPTION"
    case ASSIGNED_ROLES => "ASSIGNED_ROLES"
    case ASSIGNED_ROLES_FOR_SYSTEM => "ASSIGNED_ROLES_FOR_SYSTEM"
    case FORM_PROJECTION => "FORM_PROJECTION"
  }

  /** The symbol declared under `key`, if any. */
  function FindSymbolByKey(key: string): (r: Option<IdentityAttribute>)
    ensures r.Some? ==> KeyOf(r.value) == key
    ensures forall a :: KeyOf(a) == key ==> r == Some(a)
  {
    match key
    case "USERNAME" => Some(USERNAME)
    case "EXTERNAL_CODE" => Some(EXTERNAL_CODE)
    case "DISABLED" => Some(DISABLED)
    case "FIRSTNAME" => Some(FIRSTNAME)
    case "LASTNAME" => Some(LASTNAME)
    case "EMAIL" => Some(EMAIL)
    case "PHONE" => Some(PHONE)
    case "TITLE_BEFORE" => Some(TITLE_BEFORE)
    case "TITLE_AFTER" => Some(TITLE_AFTER)
    case "DESCRIPTION" => Some(DESCRIPTION)
    case "ASSIGNED_ROLES" => Some(ASSIGNED_ROLES)
    case "ASSIGNED_ROLES_FOR_SYSTEM" => Some(ASSIGNED_ROLES_FOR_SYSTEM)
    case "FORM_PROJECTION" => Some(FORM_PROJECTION)
    case _ => None
  }

  /** The identity field a symbol selects. */
  function FieldOf(a: IdentityAttribute): string
  {
    match a
    case USERNAME => "username"
    case EXTERNAL_CODE => "externalCode"
    case DISABLED => "disabled"
    case FIRSTNAME => "firstName"
    case LASTNAME => "lastName"
    case EMAIL => "email"
    case PHONE => "phone"
    case TITLE_BEFORE => "titleBefore"
    case TITLE_AFTER => "titleAfter"
    case DESCRIPTION => "description"
    case ASSIGNED_ROLES => "assignedRoles"
    case ASSIGNED_ROLES_FOR_SYSTEM => "assignedRolesForSystem"
    case FORM_PROJECTION => "formProjection"
  }

  /**
   * `getField(key)`: null for a falsy or unknown key, otherwise the field
   * name of the symbol declared under the key.
   */
  function GetField(key: Option<string>): (r: Option<string>)
    ensures Falsy(key) ==> r == None
    ensures r.Some? <==> !Falsy(key) && FindSymbolByKey(key.value).Some?
    ensures r.Some? ==> r.value != "" && GetEnum(r) == FindSymbolByKey(key.value)
  {
    if Falsy(key) then None
    else
      match FindSymbolByKey(key.value)
      case None => None
      case Some(a) => Some(FieldOf(a))
  }

  /**
   * `getEnum(field)`: null for a falsy or unknown field name, otherwise the
   * symbol whose field it is.
   */
  function GetEnum(field: Option<string>): (r: Option<IdentityAttribute>)
    ensures Falsy(field) ==> r == None
    ensures r.Some? ==> field == Some(FieldOf(r.value))
    ensures forall a :: field == Some(FieldOf(a)) ==> r == Some(a)
  {
    if Falsy(field) then None
    else
      match field.value
      case "username" => Some(USERNAME)
      case "externalCode" => Some(EXTERNAL_CODE)
      case "disabled" => Some(DISABLED)
      case "firstName" => Some(FIRSTNAME)
      case "lastName" => Some(LASTNAME)
      case "email" => Some(EMAIL)
      case "phone" => Some(PHONE)
      case "titleBefore" => Some(TITLE_BEFORE)
      case "titleAfter" => Some(TITLE_AFTER)
      case "description" => Some(DESCRIPTION)
      case "assignedRoles" => Some(ASSIGNED_ROLES)
      case "assignedRolesForSystem" => Some(ASSIGNED_ROLES_FOR_SYSTEM)
      case "formProjection" => Some(FORM_PROJECTION)
      case _ => None
  }

  /** `getLevel(key)`: null for a falsy key, 'default' for any other. */
  function GetLevel(key: Option<string>): (r: Option<string>)
    ensures r == None <==> Falsy(key)
    ensures r.Some? ==> r.value == "default"
  {
    if Falsy(key) then None else Some("default")
  }

  /** Looking up the field of a symbol's key and then the symbol of that field gives the symbol back. */
  lemma RoundTrip(a: IdentityAttribute)
    ensures GetField(Some(KeyOf(a))) == Some(FieldOf(a))
    ensures GetEnum(GetField(Some(KeyOf(a)))) == Some(a)
  {
  }

  /** Distinct symbols select distinct fields. */
  lemma FieldInjective(a: IdentityAttribute, b: IdentityAttribute)
    ensures FieldOf(a) == FieldOf(b) ==> a == b
  {
  }
}

=== FILE: identity_value_generator.dfy ===
/**
 * Username generation from an identity's first and last name, shared by the
 * identity value generators: the name parts are optionally cut, ordered,
 * joined by an optional connecting string, lower-cased, cut to the maximal
 * name length, and their whitespace is deleted or replaced.
 */
module IdentityValueGenerator {
  import opened Wrappers
  import opened Strings

  /** The property names a generator is configured by. */
  const FIRST_NAME_CHARACTERS_COUNT: string := "firstNameCharacterCount"
  const LAST_NAME_CHARACTERS_COUNT: string := "lastNameCharacterCount"
  const CONNECTING_CHARACTER: string := "connectionCharacter"
  const FIRST_NAME_FIRST: string := "firstNameFirst"
  const REPLACE_WHITE_SPACES_CHARACTER: string := "replaceWhiteSpacesCharacter"

  /** The generator's configured properties, each as the text stored for it. */
  datatype GeneratorProperties = GeneratorProperties(
    connectingCharacter: Option<string>,
    firstNameCharacterCount: Option<string>,
    lastNameCharacterCount: Option<string>,
    firstNameFirst: bool,
    replaceWhiteSpacesCharacter: Option<string>)

  /**
   * `Integer.valueOf` refused the text of a character-count property, or
   * `String.replaceAll` refused the replacement text for whitespace.
   */
  datatype GeneratorError = NumberFormat(text: string) | IllegalReplacement(replacement: string)

  const INT_MIN: int := -0x8000_0000
  const INT_MAX: int := 0x7FFF_FFFF

  /**
   * `Integer.valueOf(text)`: an optional sign followed by at least one
   * decimal digit, and a value that fits in 32 bits.
   */
  function ParseInt(text: string): (r: Option<int>)
    ensures r.Some? ==> INT_MIN <= r.value <= INT_MAX
    ensures r.Some? ==> |text| > 0
    ensures |text| > 0 && AllDigits(text) && DigitsValue(text) <= INT_MAX ==> r == Some(DigitsValue(text))
  {
    if |text| == 0 then None
    else
      var negative := text[0] == '-';
      var digits := if text[0] == '-' || text[0] == '+' then text[1..] else text;
      if |digits| == 0 || !AllDigits(digits) then None
      else
        var magnitude: int := DigitsValue(digits);
        var v := if negative then 0 - magnitude else magnitude;
        if INT_MIN <= v <= INT_MAX then Some(v) else None
  }

  /**
   * `get*CharacterCount`: no count when the property is missing or empty,
   * otherwise its text parsed as an integer.
   */
  function CharacterCount(property: Option<string>): (r: Result<Option<int>, GeneratorError>)
    ensures Falsy(property) ==> r == Ok(None)
    ensures r.Ok? && r.value.Some? ==> !Falsy(property) && ParseInt(property.value) == r.value
    ensures r.Fail? <==> !Falsy(property) && ParseInt(property.value).None?
    ensures !Falsy(property) && ParseInt(property.value).Some? ==> r == Ok(ParseInt(property.value))
  {
    if Falsy(property) then Ok(None)
    else
      match ParseInt(property.value)
      case None => Fail(NumberFormat(property.value))
      case Some(n) => Ok(Some(n))
  }

  function Min(a: int, b: int): int { if a <= b then a else b }
  function Max(a: int, b: int): int { if a >= b then a else b }

  /**
   * `StringUtils.substring(s, 0, end)`: a negative end counts from the end
   * of the string, and an end past the string is clamped.
   */
  function Substring(s: string, end: int): (r: string)
    ensures |r| <= |s| && r == s[..|r|]
    ensures end >= 0 ==> |r| == Min(end, |s|)
    ensures end < 0 ==> |r| == Max(0, |s| + end)
  {
    var e := if end < 0 then |s| + end else end;
    if e <= 0 then "" else if e >= |s| then s else s[..e]
  }

  /** A name part cut to at most `count` characters when a count is set. */
  function Cut(part: string, count: Option<int>): (r: string)
    ensures |r| <= |part| && r == part[..|r|]
    ensures count.None? ==> r == part
    ensures count.Some? && count.value >= 0 ==> |r| == Min(count.value, |part|)
  {
    match count
    case None => part
    case Some(n) => Substring(part, n)
  }

  /**
   * The username before whitespace handling: the ordered parts and the
   * connecting string, lower-cased and cut to `maxLength` characters.
   */
  function JoinedUsername(first: string, last: string, firstNameFirst: bool,
                          connecting: Option<string>, maxLength: nat): (r: string)
    ensures |r| <= maxLength && IsLower(r)
    ensures var whole := (if firstNameFirst then first else last)
                         + connecting.GetOr("")
                         + (if firstNameFirst then last else first);
            |r| == Min(|whole|, maxLength) && r == ToLower(whole)[..|r|]
  {
    var whole := (if firstNameFirst then first else last)
                 + connecting.GetOr("")
                 + (if firstNameFirst then last else first);
    var lower := ToLower(whole);
    if |lower| > maxLength then lower[..maxLength] else lower
  }

  /**
   * `Character.isWhitespace`, which `StringUtils.deleteWhitespace` uses: the
   * ASCII controls tab to carriage return, the separators U+001C to U+001F,
   * and the Unicode space, line and paragraph separators other than the
   * non-breaking ones (U+00A0, U+2007, U+202F).
   */
  predicate IsJavaWhitespace(c: char)
  {
    || IsSpace(c)
    || '\U{1C}' <= c <= '\U{1F}'
    || c == '\U{1680}'
    || '\U{2000}' <= c <= '\U{2006}'
    || '\U{2008}' <= c <= '\U{200A}'
    || c == '\U{2028}' || c == '\U{2029}' || c == '\U{205F}' || c == '\U{3000}'
  }

  /** Some character matches the regular-expression class `\s`. */
  predicate HasSpace(s: string)
  {
    exists i :: 0 <= i < |s| && IsSpace(s[i])
  }

  /** Some character is whitespace for `Character.isWhitespace`. */
  predicate HasJavaWhitespace(s: string)
  {
    exists i :: 0 <= i < |s| && IsJavaWhitespace(s[i])
  }

  /** The pieces of a sequence of strings, one after the other. */
  function Concat(parts: seq<string>): string
  {
    if |parts| == 0 then "" else parts[0] + Concat(parts[1..])
  }

  /** `s` with each character `c` replaced by the string `image(c)`. */
  function Mapped(s: string, image: char -> string): string
  {
    Concat(seq(|s|, i requires 0 <= i < |s| => image(s[i])))
  }

  lemma MappedCons(s: string, image: char -> string)
    requires |s| > 0
    ensures Mapped(s, image) == image(s[0]) + Mapped(s[1..], image)
  {
    var all := seq(|s|, i requires 0 <= i < |s| => image(s[i]));
    assert all[1..] == seq(|s[1..]|, i requires 0 <= i < |s[1..]| => image(s[1..][i]));
  }

  /** What deletion leaves of one character. */
  function Kept(c: char): string
  {
    if IsJavaWhitespace(c) then "" else [c]
  }

  /** `t` without its leading zeros. */
  function SkipZeros(t: string): (r: string)
    ensures |r| <= |t| && r == t[|t| - |r|..]
  {
    if |t| > 0 && t[0] == '0' then SkipZeros(t[1..]) else t
  }

  /**
   * The replacement text of `Matcher.replaceAll` for the pattern `\\s`,
   * which has no capturing group: a backslash makes the next character
   * literal, `$0` (with any further zeros, which still name group 0) stands
   * for the matched text, and a trailing backslash or any other `$`
   * reference is refused.
   */
  predicate ValidReplacement(rep: string)
    decreases |rep|
  {
    if |rep| == 0 then true
    else if rep[0] == '\\' then |rep| >= 2 && ValidReplacement(rep[2..])
    else if rep[0] == '$' then |rep| >= 2 && rep[1] == '0' && ValidReplacement(SkipZeros(rep[2..]))
    else ValidReplacement(rep[1..])
  }

  /** What a valid replacement text inserts for one match `matched`. */
  function Expand(rep: string, matched: char): string
    requires ValidReplacement(rep)
    decreases |rep|
  {
    if |rep| == 0 then ""
    else if rep[0] == '\\' then [rep[1]] + Expand(rep[2..], matched)
    else if rep[0] == '$' then [matched] + Expand(SkipZeros(rep[2..]), matched)
    else [rep[0]] + Expand(rep[1..], matched)
  }

  /** A replacement text with no backslash and no dollar sign. */
  predicate PlainText(rep: string)
  {
    '\\' !in rep && '$' !in rep
  }

  /** A plain replacement text is accepted and inserted as it is. */
  lemma {:induction false} PlainReplacement(rep: string, matched: char)
    requires PlainText(rep)
    ensures ValidReplacement(rep) && Expand(rep, matched) == rep
    decreases |rep|
  {
    if |rep| > 0 {
      assert PlainText(rep[1..]) by {
        assert forall c :: c in rep[1..] ==> c in rep;
      }
      PlainReplacement(rep[1..], matched);
    }
  }

  /** `Matcher.quoteReplacement`: a backslash before every backslash and dollar sign. */
  function QuoteReplacement(t: string): (r: string)
    ensures |r| >= |t|
  {
    if |t| == 0 then ""
    else if t[0] == '\\' || t[0] == '$' then ['\\', t[0]] + QuoteReplacement(t[1..])
    else [t[0]] + QuoteReplacement(t[1..])
  }

  /** A quoted text is accepted as a replacement and inserts exactly that text. */
  lemma {:induction false} ExpandQuoted(t: string, matched: char)
    ensures ValidReplacement(QuoteReplacement(t)) && Expand(QuoteReplacement(t), matched) == t
  {
    if |t| > 0 {
      ExpandQuoted(t[1..], matched);
      var q := QuoteReplacement(t);
      if t[0] == '\\' || t[0] == '$' {
        assert q[2..] == QuoteReplacement(t[1..]);
      } else {
        assert q[1..] == QuoteReplacement(t[1..]);
      }
    }
  }

  /** What replacement with a valid text makes of one character. */
  function ReplacedBy(rep: string): char -> string
    requires ValidReplacement(rep)
  {
    c => if IsSpace(c) then Expand(rep, c) else [c]
  }

  /**
   * `StringUtils.deleteWhitespace`: the non-whitespace characters of `s`,
   * in order.
   */
  function DeleteWhitespace(s: string): (r: string)
    ensures r == Mapped(s, Kept)
    ensures !HasJavaWhitespace(r)
    ensures |r| <= |s|
    ensures !HasJavaWhitespace(s) ==> r == s
  {
    if |s| == 0 then ""
    else
      var rest := DeleteWhitespace(s[1..]);
      MappedCons(s, Kept);
      assert !HasJavaWhitespace(s) ==> !HasJavaWhitespace(s[1..]) by {
        if HasJavaWhitespace(s[1..]) {
          var i :| 0 <= i < |s[1..]| && IsJavaWhitespace(s[1..][i]);
          assert IsJavaWhitespace(s[i + 1]);
        }
      }
      if IsJavaWhitespace(s[0]) then rest
      else
        var r := [s[0]] + rest;
        assert forall i :: 1 <= i < |r| ==> r[i] == rest[i - 1];
        r
  }

  /**
   * `s.replaceAll("\\\\s", replacement)`: each character of the class `\\s`
   * becomes the expanded replacement, every other character is kept, in
   * order; a refused replacement fails, but only when there is a match.
   */
  function ReplaceWhitespace(s: string, replacement: string): (r: Option<string>)
    ensures !HasSpace(s) ==> r == Some(s)
    ensures r.None? <==> HasSpace(s) && !ValidReplacement(replacement)
    ensures r.Some? && ValidReplacement(replacement) ==> r.value == Mapped(s, ReplacedBy(replacement))
    ensures PlainText(replacement) && !HasSpace(replacement) ==> r.Some? && !HasSpace(r.value)
    ensures PlainText(replacement) && |replacement| == 1 ==> r.Some? && |r.value| == |s|
  {
    if !HasSpace(s) then
      assert PlainText(replacement) ==> ValidReplacement(replacement) by {
        if PlainText(replacement) { PlainReplacement(replacement, ' '); }
      }
      if ValidReplacement(replacement) then
        assert s == Mapped(s, ReplacedBy(replacement)) by {
          KeptUnchanged(s, ReplacedBy(replacement));
        }
        Some(s)
      else Some(s)
    else if !ValidReplacement(replacement) then
      assert !PlainText(replacement) by {
        if PlainText(replacement) { PlainReplacement(replacement, ' '); }
      }
      None
    else
      var r := Mapped(s, ReplacedBy(replacement));
      assert PlainText(replacement) ==> !HasSpace(replacement) ==> !HasSpace(r) by {
        if PlainText(replacement) { PlainSpaceFree(s, replacement); }
      }
      assert PlainText(replacement) ==> |replacement| == 1 ==> |r| == |s| by {
        if PlainText(replacement) { PlainSpaceFree(s, replacement); }
      }
      Some(r)
  }

  /** Mapping that keeps every character of a string keeps the string. */
  lemma {:induction false} KeptUnchanged(s: string, image: char -> string)
    requires forall i :: 0 <= i < |s| ==> image(s[i]) == [s[i]]
    ensures Mapped(s, image) == s
  {
    if |s| > 0 {
      MappedCons(s, image);
      KeptUnchanged(s[1..], image);
    }
  }

  /** With a plain replacement the characters of `\\s` become exactly that text. */
  lemma {:induction false} PlainSpaceFree(s: string, replacement: string)
    requires PlainText(replacement)
    ensures ValidReplacement(replacement)
    ensures !HasSpace(replacement) ==> !HasSpace(Mapped(s, ReplacedBy(replacement)))
    ensures |replacement| == 1 ==> |Mapped(s, ReplacedBy(replacement))| == |s|
  {
    PlainReplacement(replacement, ' ');
    if |s| > 0 {
      PlainSpaceFree(s[1..], replacement);
      MappedCons(s, ReplacedBy(replacement));
      PlainReplacement(replacement, s[0]);
      var head := ReplacedBy(replacement)(s[0]);
      var rest := Mapped(s[1..], ReplacedBy(replacement));
      var r := head + rest;
      assert forall i :: |head| <= i < |r| ==> r[i] == rest[i - |head|];
      assert forall i :: 0 <= i < |head| ==> r[i] == head[i];
    }
  }

  /**
   * `replaceAllWhiteSpaces`: a null or empty string is returned as it is; an
   * empty or missing replacement deletes the whitespace, any other replaces
   * each whitespace character by it.
   */
  function ReplaceAllWhiteSpaces(replacement: Option<string>, s: Option<string>): (r: Result<Option<string>, GeneratorError>)
    ensures Falsy(s) ==> r == Ok(s)
    ensures !Falsy(s) && Falsy(replacement) ==> r == Ok(Some(Mapped(s.value, Kept)))
    ensures !Falsy(s) && !Falsy(replacement) && ValidReplacement(replacement.value) ==>
              r == Ok(Some(Mapped(s.value, ReplacedBy(replacement.value))))
    ensures r.Fail? <==> !Falsy(s) && !Falsy(replacement) && HasSpace(s.value) && !ValidReplacement(replacement.value)
    ensures r.Fail? ==> r.error == IllegalReplacement(replacement.value)
    ensures !Falsy(s) && Falsy(replacement) ==> !HasJavaWhitespace(r.value.value) && |r.value.value| <= |s.value|
    ensures !HasJavaWhitespace(s.GetOr("")) ==> r == Ok(s)
  {
    if Falsy(s) then Ok(s)
    else if Falsy(replacement) then Ok(Some(DeleteWhitespace(s.value)))
    else
      assert !HasJavaWhitespace(s.value) ==> !HasSpace(s.value) by {
        if HasSpace(s.value) {
          var i :| 0 <= i < |s.value| && IsSpace(s.value[i]);
          assert IsJavaWhitespace(s.value[i]);
        }
      }
      match ReplaceWhitespace(s.value, replacement.value)
      case None => Fail(IllegalReplacement(replacement.value))
      case Some(t) => Ok(Some(t))
  }

  /**
   * `generateUsername` on names whose accents were already stripped: null
   * when either name is missing or empty, a number-format failure when a
   * character count cannot be parsed, otherwise the joined username after
   * whitespace handling. `maxLength` is the maximal name length.
   */
  function GenerateUsername(firstName: Option<string>, lastName: Option<string>,
                            props: GeneratorProperties, maxLength: nat): (r: Result<Option<string>, GeneratorError>)
    ensures Falsy(firstName) || Falsy(lastName) ==> r == Ok(None)
    ensures !Falsy(firstName) && !Falsy(lastName) && CharacterCount(props.firstNameCharacterCount).Fail? ==>
              r == Fail(CharacterCount(props.firstNameCharacterCount).error)
    ensures !Falsy(firstName) && !Falsy(lastName) && CharacterCount(props.firstNameCharacterCount).Ok?
            && CharacterCount(props.lastNameCharacterCount).Fail? ==>
              r == Fail(CharacterCount(props.lastNameCharacterCount).error)
    ensures !Falsy(firstName) && !Falsy(lastName)
            && CharacterCount(props.firstNameCharacterCount).Ok?
            && CharacterCount(props.lastNameCharacterCount).Ok? ==>
              var joined := JoinedUsername(Cut(firstName.value, CharacterCount(props.firstNameCharacterCount).value),
                                           Cut(lastName.value, CharacterCount(props.lastNameCharacterCount).value),
                                           props.firstNameFirst, props.connectingCharacter, maxLength);
              r == ReplaceAllWhiteSpaces(props.replaceWhiteSpacesCharacter, Some(joined))
    ensures r.Ok? && !Falsy(firstName) && !Falsy(lastName) ==> r.value.Some?
  {
    if Falsy(firstName) || Falsy(lastName) then Ok(None)
    else
      match CharacterCount(props.firstNameCharacterCount)
      case Fail(e) => Fail(e)
      case Ok(firstCount) =>
        match CharacterCount(props.lastNameCharacterCount)
        case Fail(e) => Fail(e)
        case Ok(lastCount) =>
          var joined := JoinedUsername(Cut(firstName.value, firstCount), Cut(lastName.value, lastCount),
                                       props.firstNameFirst, props.connectingCharacter, maxLength);
          ReplaceAllWhiteSpaces(props.replaceWhiteSpacesCharacter, Some(joined))
  }

  /**
   * With an empty replacement the generated username has no whitespace,
   * is lower-case and is no longer than the maximal name length.
   */
  lemma UsernameWithoutWhitespace(firstName: Option<string>, lastName: Option<string>,
                                  props: GeneratorProperties, maxLength: nat)
    requires Falsy(props.replaceWhiteSpacesCharacter)
    requires GenerateUsername(firstName, lastName, props, maxLength).Ok?
    ensures var r := GenerateUsername(firstName, lastName, props, maxLength).value;
            r.Some? ==> !HasJavaWhitespace(r.value) && |r.value| <= maxLength && IsLower(r.value)
  {
    var r := GenerateUsername(firstName, lastName, props, maxLength).value;
    if r.Some? {
      var joined := JoinedUsername(Cut(firstName.value, CharacterCount(props.firstNameCharacterCount).value),
                                   Cut(lastName.value, CharacterCount(props.lastNameCharacterCount).value),
                                   props.firstNameFirst, props.connectingCharacter, maxLength);
      if joined != "" {
        DeleteWhitespaceKeepsLower(joined);
      }
    }
  }

  lemma {:induction false} DeleteWhitespaceKeepsLower(s: string)
    requires IsLower(s)
    ensures IsLower(DeleteWhitespace(s))
  {
    if |s| > 0 {
      assert IsLower(s[1..]) by {
        forall i | 0 <= i < |s[1..]| ensures LowerChar(s[1..][i]) == s[1..][i] {
          assert s[1..][i] == s[i + 1];
        }
      }
      DeleteWhitespaceKeepsLower(s[1..]);
    }
  }

  /**
   * Whitespace handling is idempotent when whitespace is deleted, or
   * replaced by a plain text free of whitespace.
   */
  lemma ReplaceAllWhiteSpacesIdempotent(replacement: Option<string>, s: Option<string>)
    requires Falsy(replacement) || (PlainText(replacement.value) && !HasSpace(replacement.value))
    ensures var once := ReplaceAllWhiteSpaces(replacement, s);
            once.Ok? && ReplaceAllWhiteSpaces(replacement, once.value) == once
  {
    if !Falsy(replacement) && !Falsy(s) {
      PlainSpaceFree(s.value, replacement.value);
    }
  }
}

=== FILE: jwt_authentication_mapper.dfy ===
/**
 * The mapping between a signed authentication, its claims (the
 * authentication dto) and the persisted token: token defaults on creation,
 * expiration prolongation, and the conversions between the three.
 * Times are milliseconds since the epoch.
 */
module JwtAuthenticationMapper {
  import opened Wrappers

  type Uuid = string

  /** The token type of authentication tokens: the authentication token name upper-cased. */
  const AUTHENTICATION_TOKEN_NAME: string := "CIDMST"
  const PROPERTY_AUTHORITIES: string := "authorities"
  const PROPERTY_CURRENT_USERNAME: string := "currentUsername"
  const PROPERTY_CURRENT_IDENTITY_ID: string := "currentIdentityId"
  const PROPERTY_ORIGINAL_USERNAME: string := "originalUsername"
  const PROPERTY_ORIGINAL_IDENTITY_ID: string := "originalIdentityId"

  /** A granted authority, and its serialisable form stored in a token. */
  datatype GrantedAuthority = GrantedAuthority(authority: string)
  datatype AuthorityDto = AuthorityDto(authority: string)

  /** A value of the token's property map; `NullValue` is a key stored with null. */
  datatype PropertyValue = Authorities(authorities: seq<AuthorityDto>) | Text(text: string) | Id(id: Uuid) | NullValue

  datatype Token = Token(
    id: Option<Uuid>,
    tokenType: Option<string>,
    ownerId: Option<Uuid>,
    ownerType: Option<string>,
    issuedAt: Option<int>,
    expiration: Option<int>,
    moduleId: Option<string>,
    externalId: Option<string>,
    disabled: bool,
    properties: map<string, PropertyValue>,
    hash: Option<string>)

  /** The claims written into a signed token. */
  datatype AuthenticationDto = AuthenticationDto(
    id: Option<Uuid>,
    currentUsername: Option<string>,
    currentIdentityId: Option<Uuid>,
    originalUsername: Option<string>,
    originalIdentityId: Option<Uuid>,
    expiration: Option<int>,
    fromModule: Option<string>,
    issuedAt: Option<int>)

  datatype Identity = Identity(id: Option<Uuid>, username: Option<string>)

  /** The authentication a request runs with. */
  datatype Authentication = Authentication(
    id: Option<Uuid>,
    currentIdentity: Identity,
    originalIdentity: Identity,
    expiration: Option<int>,
    issuedAt: Option<int>,
    authorities: seq<GrantedAuthority>,
    fromModule: Option<string>)

  datatype MapperError = CurrentIdentityRequired | IdentityIdRequired

  function TextValue(s: Option<string>): PropertyValue
  {
    if s.Some? then Text(s.value) else NullValue
  }

  function IdValue(s: Option<Uuid>): PropertyValue
  {
    if s.Some? then Id(s.value) else NullValue
  }

  /** `getString`: the text stored under the key, none otherwise. */
  function GetString(properties: map<string, PropertyValue>, key: string): (r: Option<string>)
    ensures r.Some? <==> key in properties && properties[key].Text?
  {
    if key in properties && properties[key].Text? then Some(properties[key].text) else None
  }

  /** `getUuid`: the identifier stored under the key, none otherwise. */
  function GetUuid(properties: map<string, PropertyValue>, key: string): (r: Option<Uuid>)
    ensures r.Some? <==> key in properties && properties[key].Id?
  {
    if key in properties && properties[key].Id? then Some(properties[key].id) else None
  }

  /** `putIfAbsent`: only a missing key or one stored with null gets the value. */
  function PutIfAbsent(properties: map<string, PropertyValue>, key: string, value: PropertyValue): (r: map<string, PropertyValue>)
    ensures key in r
    ensures key in properties && properties[key] != NullValue ==> r == properties
    ensures (key !in properties || properties[key] == NullValue) ==> r == properties[key := value]
  {
    if key in properties && properties[key] != NullValue then properties else properties[key := value]
  }

  /** `getDtoAuthorities(token)`: the stored authorities, none when the property is missing. */
  function TokenAuthorities(token: Token): (r: seq<AuthorityDto>)
    ensures PROPERTY_AUTHORITIES !in token.properties ==> r == []
    ensures PROPERTY_AUTHORITIES in token.properties && token.properties[PROPERTY_AUTHORITIES].Authorities? ==>
              r == token.properties[PROPERTY_AUTHORITIES].authorities
  {
    if PROPERTY_AUTHORITIES in token.properties && token.properties[PROPERTY_AUTHORITIES].Authorities?
    then token.properties[PROPERTY_AUTHORITIES].authorities
    else []
  }

  /** `getDtoAuthorities(authorities)`: one dto per authority in order; none for null. */
  method DtoAuthorities(authorities: Option<seq<GrantedAuthority>>) returns (r: seq<AuthorityDto>)
    ensures authorities.None? ==> r == []
    ensures authorities.Some? ==>
              (|r| == |authorities.value| && forall k :: 0 <= k < |r| ==> r[k].authority == authorities.value[k].authority)
  {
    r := [];
    if authorities.Some? {
      var list := authorities.value;
      for k := 0 to |list|
        invariant |r| == k && forall j :: 0 <= j < k ==> r[j].authority == list[j].authority
      {
        r := r + [AuthorityDto(list[k].authority)];
      }
    }
  }

  /** The authorities a stored list grants. */
  function Granted(authorities: seq<AuthorityDto>): (r: seq<GrantedAuthority>)
    ensures |r| == |authorities| && forall k :: 0 <= k < |r| ==> r[k].authority == authorities[k].authority
  {
    seq(|authorities|, k requires 0 <= k < |authorities| => GrantedAuthority(authorities[k].authority))
  }

  /** `toDto(token)`: the claims of a persisted token, read from its fields and properties. */
  function TokenToDto(token: Token): (r: AuthenticationDto)
    ensures r.id == token.id && r.expiration == token.expiration && r.issuedAt == token.issuedAt
    ensures r.fromModule == token.moduleId
    ensures r.currentUsername == GetString(token.properties, PROPERTY_CURRENT_USERNAME)
    ensures r.currentIdentityId == GetUuid(token.properties, PROPERTY_CURRENT_IDENTITY_ID)
    ensures r.originalUsername == GetString(token.properties, PROPERTY_ORIGINAL_USERNAME)
    ensures r.originalIdentityId == GetUuid(token.properties, PROPERTY_ORIGINAL_IDENTITY_ID)
  {
    AuthenticationDto(token.id,
      GetString(token.properties, PROPERTY_CURRENT_USERNAME), GetUuid(token.properties, PROPERTY_CURRENT_IDENTITY_ID),
      GetString(token.properties, PROPERTY_ORIGINAL_USERNAME), GetUuid(token.properties, PROPERTY_ORIGINAL_IDENTITY_ID),
      token.expiration, token.moduleId, token.issuedAt)
  }

  /** `toDto(authentication)`. */
  function AuthenticationToDto(authentication: Authentication): (r: AuthenticationDto)
    ensures r.id == authentication.id && r.expiration == authentication.expiration
    ensures r.currentUsername == authentication.currentIdentity.username
    ensures r.currentIdentityId == authentication.currentIdentity.id
    ensures r.originalUsername == authentication.originalIdentity.username
    ensures r.originalIdentityId == authentication.originalIdentity.id
    ensures r.fromModule == authentication.fromModule && r.issuedAt == authentication.issuedAt
  {
    AuthenticationDto(authentication.id, authentication.currentIdentity.username, authentication.currentIdentity.id,
      authentication.originalIdentity.username, authentication.originalIdentity.id, authentication.expiration,
      authentication.fromModule, authentication.issuedAt)
  }

  /** `fromDto(token)`: the authentication of a persisted token, with the authorities it stores. */
  function TokenToAuthentication(token: Token): (r: Authentication)
    ensures r.id == token.id && r.authorities == Granted(TokenAuthorities(token))
  {
    Authentication(token.id,
      Identity(GetUuid(token.properties, PROPERTY_CURRENT_IDENTITY_ID), GetString(token.properties, PROPERTY_CURRENT_USERNAME)),
      Identity(GetUuid(token.properties, PROPERTY_ORIGINAL_IDENTITY_ID), GetString(token.properties, PROPERTY_ORIGINAL_USERNAME)),
      token.expiration, token.issuedAt, Granted(TokenAuthorities(token)), token.moduleId)
  }

  /** Going from a token to its authentication and on to claims gives the token's own claims. */
  lemma TokenClaimsRoundTrip(token: Token)
    ensures AuthenticationToDto(TokenToAuthentication(token)) == TokenToDto(token)
  {
  }

  /** The fields `createToken` copies from the prepared token; no expiration and no hash yet. */
  function PreparedBase(prepared: Option<Token>): (r: Token)
    ensures prepared.Some? ==> r == prepared.value.(expiration := None, hash := None)
    ensures prepared.None? ==> r == Token(None, None, None, None, None, None, None, None, false, map[], None)
  {
    if prepared.Some? then prepared.value.(expiration := None, hash := None)
    else Token(None, None, None, None, None, None, None, None, false, map[], None)
  }

  /**
   * The required fields of `createToken`: type, owner and issue time are
   * defaulted only where missing, the expiration is always renewed and a
   * missing identifier is a random one.
   */
  function WithDefaults(base: Token, identity: Identity, ownerType: string, now: int, expiration: int,
                        randomId: Uuid): (r: Token)
    requires identity.id.Some?
    ensures r.tokenType == (if base.tokenType.Some? then base.tokenType else Some(AUTHENTICATION_TOKEN_NAME))
    ensures r.ownerId == (if base.ownerId.Some? then base.ownerId else identity.id)
    ensures r.ownerType == (if base.ownerType.Some? then base.ownerType else Some(ownerType))
    ensures r.issuedAt == (if base.issuedAt.Some? then base.issuedAt else Some(now))
    ensures r.id == (if base.id.Some? then base.id else Some(randomId))
    ensures r.expiration == Some(expiration)
    ensures r.(tokenType := base.tokenType, ownerId := base.ownerId, ownerType := base.ownerType,
               issuedAt := base.issuedAt, id := base.id, expiration := base.expiration) == base
  {
    base.(tokenType := if base.tokenType.None? then Some(AUTHENTICATION_TOKEN_NAME) else base.tokenType,
          ownerId := if base.ownerId.None? then identity.id else base.ownerId,
          ownerType := if base.ownerType.None? then Some(ownerType) else base.ownerType,
          issuedAt := if base.issuedAt.None? then Some(now) else base.issuedAt,
          expiration := Some(expiration),
          id := if base.id.None? then Some(randomId) else base.id)
  }

  /**
   * The properties `createToken` writes: the authorities and the current
   * user always, the original user only when the prepared token has none.
   */
  function IdentityProperties(properties: map<string, PropertyValue>, identity: Identity,
                              authorities: seq<AuthorityDto>): (r: map<string, PropertyValue>)
    requires identity.id.Some?
    ensures PROPERTY_AUTHORITIES in r && r[PROPERTY_AUTHORITIES] == Authorities(authorities)
    ensures PROPERTY_ORIGINAL_USERNAME in r && PROPERTY_ORIGINAL_IDENTITY_ID in r
    ensures GetUuid(r, PROPERTY_CURRENT_IDENTITY_ID) == identity.id
    ensures GetString(r, PROPERTY_CURRENT_USERNAME) == identity.username
    ensures PROPERTY_ORIGINAL_USERNAME in properties && properties[PROPERTY_ORIGINAL_USERNAME] != NullValue ==>
              r[PROPERTY_ORIGINAL_USERNAME] == properties[PROPERTY_ORIGINAL_USERNAME]
    ensures PROPERTY_ORIGINAL_IDENTITY_ID in properties && properties[PROPERTY_ORIGINAL_IDENTITY_ID] != NullValue ==>
              r[PROPERTY_ORIGINAL_IDENTITY_ID] == properties[PROPERTY_ORIGINAL_IDENTITY_ID]
    ensures PROPERTY_ORIGINAL_USERNAME !in properties ==> GetString(r, PROPERTY_ORIGINAL_USERNAME) == identity.username
    ensures PROPERTY_ORIGINAL_IDENTITY_ID !in properties ==> GetUuid(r, PROPERTY_ORIGINAL_IDENTITY_ID) == identity.id
  {
    var written := properties[PROPERTY_AUTHORITIES := Authorities(authorities)]
                             [PROPERTY_CURRENT_USERNAME := TextValue(identity.username)]
                             [PROPERTY_CURRENT_IDENTITY_ID := Id(identity.id.value)];
    var withUsername := PutIfAbsent(written, PROPERTY_ORIGINAL_USERNAME, TextValue(identity.username));
    PutIfAbsent(withUsername, PROPERTY_ORIGINAL_IDENTITY_ID, Id(identity.id.value))
  }

  /** The token `createToken` builds before hashing. */
  function NewToken(identity: Identity, prepared: Option<Token>, ownerType: string, now: int, expiration: int,
                    authorities: seq<AuthorityDto>, randomId: Uuid): (r: Token)
    requires identity.id.Some?
    ensures r.id.Some? && TokenAuthorities(r) == authorities
  {
    var base := WithDefaults(PreparedBase(prepared), identity, ownerType, now, expiration, randomId);
    base.(properties := IdentityProperties(base.properties, identity, authorities))
  }

  /** Java's `long` division, truncating toward zero. */
  function TruncDiv(a: int, b: int): (r: int)
    requires b > 0
    ensures a >= 0 ==> 0 <= r && r * b <= a < r * b + b
    ensures a < 0 ==> r <= 0 && r * b - b < a <= r * b
  {
    if a >= 0 then
      DivBounds(a, b);
      a / b
    else
      var q := (-a) / b;
      DivBounds(-a, b);
      NegatedProduct(q, b);
      -q
  }

  /** Euclidean division of a natural number brackets it between two multiples of the divisor. */
  lemma DivBounds(n: nat, b: int)
    requires b > 0
    ensures 0 <= n / b && (n / b) * b <= n < (n / b) * b + b
  {
  }

  /** Negating a factor negates the product. */
  lemma NegatedProduct(q: int, b: int)
    ensures (-q) * b == -(q * b)
  {
  }

  /** `ChronoUnit.SECONDS.between(from, to)` on millisecond instants. */
  function SecondsBetween(from: int, to: int): int
  {
    TruncDiv(to - from, 1000)
  }

  /** The prolongation rule: the new expiration must be at least a minute later. */
  predicate ShouldProlong(oldExpiration: int, newExpiration: int)
    ensures newExpiration - oldExpiration >= 60000 ==> ShouldProlong(oldExpiration, newExpiration)
    ensures ShouldProlong(oldExpiration, newExpiration) ==> newExpiration > oldExpiration
  {
    SecondsBetween(oldExpiration, newExpiration) >= 60
  }

  /** In milliseconds the rule reads: the new expiration is at least 60000 ms later. */
  lemma ShouldProlongIffMinute(oldExpiration: int, newExpiration: int)
    ensures ShouldProlong(oldExpiration, newExpiration) <==> newExpiration - oldExpiration >= 60000
  {
    var d := newExpiration - oldExpiration;
    if d >= 60000 {
      assert d / 1000 >= 60;
    } else if d >= 0 {
      assert d / 1000 < 60;
    }
  }

  /** `getNewExpiration`: now plus the configured timeout. */
  function NewExpiration(now: int, timeoutMillis: int): (r: int)
    ensures ShouldProlong(now, r) <==> timeoutMillis >= 60000
    ensures r > now <==> timeoutMillis > 0
  {
    ShouldProlongIffMinute(now, now + timeoutMillis);
    now + timeoutMillis
  }

  /** The persisted tokens (the token manager's store). */
  class TokenStore {
    var tokens: map<Uuid, Token>

    constructor ()
      ensures tokens == map[] && Valid()
    {
      tokens := map[];
    }

    /** Every token is stored under its own identifier. */
    predicate Valid()
      reads this
    {
      forall id :: id in tokens ==> tokens[id].id == Some(id)
    }

    /** `getToken`. */
    function GetToken(id: Uuid): (r: Option<Token>)
      reads this
      ensures r.Some? <==> id in tokens
      ensures r.Some? ==> r.value == tokens[id]
    {
      if id in tokens then Some(tokens[id]) else None
    }

    /** `saveToken`: the token is stored under its identifier. */
    method SaveToken(token: Token) returns (saved: Token)
      requires token.id.Some? && Valid()
      modifies this
      ensures saved == token && tokens == old(tokens)[token.id.value := token] && Valid()
    {
      tokens := tokens[token.id.value := token];
      saved := token;
    }

    /**
     * `createToken`: the token with its defaults, hashed over its own claims
     * and saved. An identity without identifier is refused.
     */
    method CreateToken(identity: Identity, prepared: Option<Token>, ownerType: string, now: int, timeoutMillis: int,
                       identityAuthorities: seq<GrantedAuthority>, randomId: Uuid, sign: AuthenticationDto -> string)
      returns (r: Result<Token, MapperError>)
      requires Valid()
      modifies this
      ensures identity.id.None? ==> r == Fail(IdentityIdRequired) && tokens == old(tokens)
      ensures identity.id.Some? ==>
                r.Ok? && r.value.id.Some?
                && |TokenAuthorities(r.value)| == |identityAuthorities|
                && (forall k :: 0 <= k < |identityAuthorities| ==>
                      TokenAuthorities(r.value)[k].authority == identityAuthorities[k].authority)
                && r.value == NewToken(identity, prepared, ownerType, now, NewExpiration(now, timeoutMillis),
                                       TokenAuthorities(r.value), randomId).(hash := r.value.hash)
                && r.value.hash == Some(sign(TokenToDto(r.value)))
                && tokens == old(tokens)[r.value.id.value := r.value]
      ensures Valid()
    {
      if identity.id.None? {
        return Fail(IdentityIdRequired);
      }
      var authorities := DtoAuthorities(Some(identityAuthorities));
      var token := NewToken(identity, prepared, ownerType, now, NewExpiration(now, timeoutMillis), authorities, randomId);
      token := token.(hash := Some(sign(TokenToDto(token))));
      var saved := SaveToken(token);
      r := Ok(saved);
    }

    /**
     * `fromDto(dto)`: the authentication of the claims. A token is looked up
     * by the claims' identifier; when there is none, a new one is created
     * from the claims (keeping their identifier when given) and saved. The
     * authorities come from the token.
     */
    method FromDto(dto: AuthenticationDto, ownerType: string, identityAuthorities: seq<GrantedAuthority>,
                   randomId: Uuid, sign: AuthenticationDto -> string)
      returns (r: Result<Authentication, MapperError>)
      requires Valid()
      modifies this
      ensures Valid()
      ensures dto.currentIdentityId.None? ==> r == Fail(CurrentIdentityRequired) && tokens == old(tokens)
      ensures dto.currentIdentityId.Some? ==>
                r.Ok? && r.value.id.Some?
                && r.value.currentIdentity == Identity(dto.currentIdentityId, dto.currentUsername)
                && r.value.originalIdentity == Identity(dto.originalIdentityId, dto.originalUsername)
                && r.value.fromModule == dto.fromModule
                && r.value.id.value in tokens
                && r.value.authorities == Granted(TokenAuthorities(tokens[r.value.id.value]))
      ensures dto.currentIdentityId.Some? && dto.id.Some? && dto.id.value in old(tokens) ==>
                tokens == old(tokens) && r.Ok? && r.value.id == dto.id
      ensures dto.currentIdentityId.Some? && (dto.id.None? || dto.id.value !in old(tokens)) ==>
                var id := if dto.id.Some? then dto.id.value else randomId;
                && r.Ok? && r.value.id == Some(id)
                && r.value.expiration == dto.expiration && r.value.issuedAt == dto.issuedAt
                && r.value.authorities == identityAuthorities
                && id in tokens && tokens == old(tokens)[id := tokens[id]]
                && tokens[id].tokenType == Some(AUTHENTICATION_TOKEN_NAME)
                && tokens[id].ownerId == dto.currentIdentityId && tokens[id].ownerType == Some(ownerType)
                && tokens[id].moduleId.None? && tokens[id].externalId.None? && !tokens[id].disabled
                && TokenToDto(tokens[id]) == dto.(id := Some(id), fromModule := None)
                && Granted(TokenAuthorities(tokens[id])) == identityAuthorities
                && tokens[id].hash == Some(sign(TokenToDto(tokens[id])))
    {
      if dto.currentIdentityId.None? {
        return Fail(CurrentIdentityRequired);
      }
      var currentIdentityId := dto.currentIdentityId.value;
      var identity := Identity(dto.currentIdentityId, dto.currentUsername);
      var found: Option<Token> := if dto.id.None? then None else GetToken(dto.id.value);
      var token: Token;
      if found.Some? {
        token := found.value;
      } else {
        var authorities := DtoAuthorities(Some(identityAuthorities));
        var properties := map[PROPERTY_AUTHORITIES := Authorities(authorities),
                              PROPERTY_CURRENT_USERNAME := TextValue(identity.username),
                              PROPERTY_CURRENT_IDENTITY_ID := Id(currentIdentityId),
                              PROPERTY_ORIGINAL_USERNAME := TextValue(dto.originalUsername),
                              PROPERTY_ORIGINAL_IDENTITY_ID := IdValue(dto.originalIdentityId)];
        token := Token(dto.id, Some(AUTHENTICATION_TOKEN_NAME), dto.currentIdentityId, Some(ownerType), dto.issuedAt,
                       dto.expiration, None, None, false, properties, None);
        if token.id.None? {
          token := token.(id := Some(randomId));
        }
        token := token.(hash := Some(sign(TokenToDto(token))));
        token := SaveToken(token);
      }
      var granted := Granted(TokenAuthorities(token));
      r := Ok(Authentication(token.id, identity, Identity(dto.originalIdentityId, dto.originalUsername),
                             token.expiration, token.issuedAt, granted, dto.fromModule));
    }

    /**
     * `prolongExpiration`: claims without identifier or without expiration,
     * and claims whose expiration would move by less than a minute, are
     * returned as they are. Otherwise the claims get the new expiration; the
     * persisted token, when there is one with a limited expiration, gets it
     * too, is hashed again and saved, and its claims are returned.
     */
    method ProlongExpiration(dto: Option<AuthenticationDto>, now: int, timeoutMillis: int, sign: AuthenticationDto -> string)
      returns (r: Option<AuthenticationDto>)
      requires Valid()
      modifies this
      ensures Valid()
      ensures dto.None? || dto.value.id.None? || dto.value.expiration.None? ==> r == dto && tokens == old(tokens)
      ensures dto.Some? && dto.value.id.Some? && dto.value.expiration.Some?
              && !ShouldProlong(dto.value.expiration.value, NewExpiration(now, timeoutMillis)) ==>
                r == dto && tokens == old(tokens)
      ensures dto.Some? && dto.value.id.Some? && dto.value.expiration.Some?
              && ShouldProlong(dto.value.expiration.value, NewExpiration(now, timeoutMillis)) ==>
                r.Some? && r.value.expiration == Some(NewExpiration(now, timeoutMillis))
                && r.value.expiration.value >= dto.value.expiration.value + 60000
                && var id := dto.value.id.value;
                   (id !in old(tokens) || old(tokens)[id].expiration.None? ==>
                      r == Some(dto.value.(expiration := Some(NewExpiration(now, timeoutMillis)))) && tokens == old(tokens))
                   && (id in old(tokens) && old(tokens)[id].expiration.Some? ==>
                      var moved := old(tokens)[id].(expiration := Some(NewExpiration(now, timeoutMillis)));
                      tokens == old(tokens)[id := moved.(hash := Some(sign(TokenToDto(moved))))]
                      && r == Some(TokenToDto(tokens[id])))
    {
      if dto.None? || dto.value.id.None? {
        return dto;
      }
      var newExpiration := NewExpiration(now, timeoutMillis);
      var oldExpiration := dto.value.expiration;
      if oldExpiration.None? {
        return dto;
      }
      if SecondsBetween(oldExpiration.value, newExpiration) < 60 {
        return dto;
      }
      ShouldProlongIffMinute(oldExpiration.value, newExpiration);
      var prolonged := dto.value.(expiration := Some(newExpiration));
      var token := GetToken(prolonged.id.value);
      if token.None? {
        return Some(prolonged);
      }
      if token.value.expiration.None? {
        return Some(prolonged);
      }
      var updated := token.value.(expiration := Some(newExpiration));
      updated := updated.(hash := Some(sign(TokenToDto(updated))));
      assert updated.id == prolonged.id;
      var saved := SaveToken(updated);
      r := Some(TokenToDto(saved));
    }
  }
}

=== FILE: layout_reducers.dfy ===
/**
 * The layout reducer of the frontend: which navigation items are selected
 * (the breadcrumb path from a root item down to the current item), whether
 * localization is ready, and the navigation items themselves.
 */
module LayoutReducers {
  import opened Wrappers
  import opened Strings

  /** A navigation item: its id and the id of its parent item, if any. */
  datatype NavigationItem = NavigationItem(id: string, parentId: Option<string>)

  datatype LayoutState = LayoutState(
    navigation: map<string, NavigationItem>,
    selectedNavigationItems: seq<Option<string>>,
    i18nReady: bool)

  datatype Action =
    | SelectNavigationItems(selectedNavigationItems: seq<Option<string>>)
    | SelectNavigationItem(selectedNavigationItemId: Option<string>)
    | I18nReady(ready: bool)
    | NavigationInit(newNavigation: map<string, NavigationItem>)
    | OtherAction

  /**
   * `rank` orders the navigation items so that every known parent ranks
   * below its child: the parent chains have no cycle.
   */
  ghost predicate Ranked(navigation: map<string, NavigationItem>, rank: map<string, nat>)
  {
    forall k :: k in navigation ==>
      k in rank
      && (navigation[k].parentId.Some? && navigation[k].parentId.value in navigation
          ==> navigation[k].parentId.value in rank && rank[navigation[k].parentId.value] < rank[k])
  }

  /** Every item is stored under its own id. */
  ghost predicate WellKeyed(navigation: map<string, NavigationItem>)
  {
    forall k :: k in navigation ==> navigation[k].id == k
  }

  /**
   * The ids met when walking from `itemId` up through the parents, root
   * first; the walk stops at a missing id or an unknown item.
   */
  ghost function AncestorPath(navigation: map<string, NavigationItem>, itemId: Option<string>,
                              rank: map<string, nat>): seq<Option<string>>
    requires Ranked(navigation, rank)
    decreases if itemId.Some? && itemId.value in navigation then rank[itemId.value] + 1 else 0
  {
    if itemId.None? || itemId.value !in navigation then []
    else
      var item := navigation[itemId.value];
      AncestorPath(navigation, item.parentId, rank) + [Some(item.id)]
  }

  /** The walk does not depend on which ranking shows that it ends. */
  lemma {:induction false} AncestorPathRankIrrelevant(navigation: map<string, NavigationItem>, itemId: Option<string>,
                                                      rank1: map<string, nat>, rank2: map<string, nat>)
    requires Ranked(navigation, rank1) && Ranked(navigation, rank2)
    ensures AncestorPath(navigation, itemId, rank1) == AncestorPath(navigation, itemId, rank2)
    decreases if itemId.Some? && itemId.value in navigation then rank1[itemId.value] + 1 else 0
  {
    if itemId.Some? && itemId.value in navigation {
      AncestorPathRankIrrelevant(navigation, navigation[itemId.value].parentId, rank1, rank2);
    }
  }

  /**
   * The path is empty exactly when the selected id is missing or unknown;
   * otherwise it ends at the selected item, each element is the parent of
   * the next, and the first element has no known parent.
   */
  lemma {:induction false} AncestorPathShape(navigation: map<string, NavigationItem>, itemId: Option<string>,
                                             rank: map<string, nat>)
    requires Ranked(navigation, rank) && WellKeyed(navigation)
    ensures var p := AncestorPath(navigation, itemId, rank);
            (p == [] <==> itemId.None? || itemId.value !in navigation)
            && (p != [] ==>
                  p[|p| - 1] == itemId
                  && (forall i :: 0 <= i < |p| ==> p[i].Some? && p[i].value in navigation)
                  && (forall i :: 1 <= i < |p| ==> navigation[p[i].value].parentId == p[i - 1])
                  && (navigation[p[0].value].parentId.None?
                      || navigation[p[0].value].parentId.value !in navigation))
    decreases if itemId.Some? && itemId.value in navigation then rank[itemId.value] + 1 else 0
  {
    if itemId.Some? && itemId.value in navigation {
      var parent := navigation[itemId.value].parentId;
      AncestorPathShape(navigation, parent, rank);
      var q := AncestorPath(navigation, parent, rank);
      var p := q + [itemId];
      assert AncestorPath(navigation, itemId, rank) == p;
      if q != [] {
        assert q[|q| - 1] == parent;
        assert forall i :: 0 <= i < |q| ==> p[i] == q[i];
      }
    }
  }

  /**
   * One step of the layout reducer. `rank` witnesses that the parent chains
   * of the current navigation end, so that the walk up from a selected
   * item terminates.
   */
  method Layout(state: LayoutState, action: Action, ghost rank: map<string, nat>) returns (next: LayoutState)
    requires Ranked(state.navigation, rank)
    ensures action.SelectNavigationItems? ==>
              var prev := state.selectedNavigationItems;
              var items := action.selectedNavigationItems;
              next == state.(selectedNavigationItems := next.selectedNavigationItems)
              && |next.selectedNavigationItems| == |items|
              && forall i :: 0 <= i < |items| ==>
                   next.selectedNavigationItems[i]
                   == if !Falsy(items[i]) then items[i] else if i < |prev| then prev[i] else None
    ensures action.SelectNavigationItem? ==>
              next == state.(selectedNavigationItems :=
                               AncestorPath(state.navigation, action.selectedNavigationItemId, rank))
    ensures action.I18nReady? ==> next == state.(i18nReady := action.ready)
    ensures action.NavigationInit? ==> next == state.(navigation := action.newNavigation)
    ensures action.OtherAction? ==> next == state
  {
    match action
    case SelectNavigationItems(items) =>
      var prev := state.selectedNavigationItems;
      var selected: seq<Option<string>> := [];
      for i := 0 to |items|
        invariant |selected| == i
        invariant forall j :: 0 <= j < i ==>
                    selected[j] == if !Falsy(items[j]) then items[j] else if j < |prev| then prev[j] else None
      {
        var value := if !Falsy(items[i]) then items[i] else if |prev| > i then prev[i] else None;
        selected := selected + [value];
      }
      next := state.(selectedNavigationItems := selected);
    case SelectNavigationItem(selectedId) =>
      var navigation := state.navigation;
      var path: seq<Option<string>> := [];
      var itemId := selectedId;
      while itemId.Some?
        invariant AncestorPath(navigation, itemId, rank) + path == AncestorPath(navigation, selectedId, rank)
        decreases if itemId.Some? && itemId.value in navigation then rank[itemId.value] + 1 else 0
      {
        if itemId.value !in navigation {
          break;
        }
        var item := navigation[itemId.value];
        path := [Some(item.id)] + path;
        itemId := item.parentId;
      }
      next := state.(selectedNavigationItems := path);
    case I18nReady(ready) =>
      next := state.(i18nReady := ready);
    case NavigationInit(newNavigation) =>
      next := state.(navigation := newNavigation);
    case OtherAction =>
      next := state;
  }
}

=== FILE: long_running_task_execute_dependent_processor.dfy ===
/**
 * When a scheduled long-running task ends, its dependent tasks
 * are started: each dependent trigger names the initiating task and the
 * task to run after it.
 */
module LongRunningTaskExecuteDependentProcessor {
  import opened Wrappers
  import opened OperationStates

  type Uuid = string

  const PROCESSOR_NAME: string := "long-running-task-execute-dependent-processor"

  /** The ended long-running task: its result state and whether it ran in dry-run mode. */
  datatype LongRunningTask = LongRunningTask(id: Uuid, resultState: OperationState, dryRun: bool)

  datatype ScheduledTask = ScheduledTask(id: Uuid, quartzTaskName: string)

  /** A dependency: `dependentTaskId` runs after `initiatorTaskId` ends. */
  datatype DependentTaskTrigger = DependentTaskTrigger(initiatorTaskId: string, dependentTaskId: string)

  /** One start of a task in a new transaction, with its dry-run flag. */
  datatype TaskRun = TaskRun(taskId: string, dryRun: bool)

  /** `findByInitiatorTaskId`: the triggers of the initiator, in stored order. */
  function TriggersOf(triggers: seq<DependentTaskTrigger>, initiator: string): (r: seq<DependentTaskTrigger>)
    ensures forall t :: t in r <==> t in triggers && t.initiatorTaskId == initiator
  {
    if |triggers| == 0 then []
    else
      var n := |triggers| - 1;
      var rest := TriggersOf(triggers[..n], initiator);
      assert triggers == triggers[..n] + [triggers[n]];
      if triggers[n].initiatorTaskId == initiator then rest + [triggers[n]] else rest
  }

  /** How many of the triggers name a task the scheduler knows. */
  function ExistingCount(triggers: seq<DependentTaskTrigger>, tasks: set<string>): (n: nat)
    ensures n <= |triggers|
  {
    if |triggers| == 0 then 0
    else (if triggers[0].dependentTaskId in tasks then 1 else 0) + ExistingCount(triggers[1..], tasks)
  }

  /** The runs the triggers start: one per trigger whose task exists, in trigger order. */
  function DependentRuns(triggers: seq<DependentTaskTrigger>, tasks: set<string>, dryRun: bool): (r: seq<TaskRun>)
    ensures forall run :: run in r ==> run.taskId in tasks && run.dryRun == dryRun
    ensures forall run :: run in r ==> exists t :: t in triggers && t.dependentTaskId == run.taskId
    ensures forall t :: t in triggers && t.dependentTaskId in tasks ==> TaskRun(t.dependentTaskId, dryRun) in r
    ensures |r| <= |triggers|
  {
    if |triggers| == 0 then []
    else
      var n := |triggers| - 1;
      var rest := DependentRuns(triggers[..n], tasks, dryRun);
      assert triggers == triggers[..n] + [triggers[n]];
      if triggers[n].dependentTaskId in tasks then rest + [TaskRun(triggers[n].dependentTaskId, dryRun)] else rest
  }

  /** One run per trigger whose task exists: a dependent named twice runs twice, a missing one not at all. */
  lemma {:induction false} DependentRunsCount(triggers: seq<DependentTaskTrigger>, tasks: set<string>, dryRun: bool)
    ensures |DependentRuns(triggers, tasks, dryRun)| == ExistingCount(triggers, tasks)
  {
    if |triggers| > 0 {
      var n := |triggers| - 1;
      DependentRunsCount(triggers[..n], tasks, dryRun);
      ExistingCountSnoc(triggers[..n], triggers[n], tasks);
      assert triggers[..n] + [triggers[n]] == triggers;
    }
  }

  lemma {:induction false} ExistingCountSnoc(triggers: seq<DependentTaskTrigger>, t: DependentTaskTrigger, tasks: set<string>)
    ensures ExistingCount(triggers + [t], tasks) == ExistingCount(triggers, tasks) + (if t.dependentTaskId in tasks then 1 else 0)
  {
    if |triggers| > 0 {
      assert (triggers + [t])[1..] == triggers[1..] + [t];
      ExistingCountSnoc(triggers[1..], t, tasks);
    } else {
      assert [t][1..] == [];
    }
  }

  lemma DependentRunsSnoc(triggers: seq<DependentTaskTrigger>, t: DependentTaskTrigger, tasks: set<string>, dryRun: bool)
    ensures DependentRuns(triggers + [t], tasks, dryRun)
            == DependentRuns(triggers, tasks, dryRun) + (if t.dependentTaskId in tasks then [TaskRun(t.dependentTaskId, dryRun)] else [])
  {
    assert (triggers + [t])[..|triggers|] == triggers;
  }

  /** The runs of two runs of triggers are those of the first, then those of the second. */
  lemma {:induction false} DependentRunsAppend(a: seq<DependentTaskTrigger>, b: seq<DependentTaskTrigger>,
                                               tasks: set<string>, dryRun: bool)
    ensures DependentRuns(a + b, tasks, dryRun) == DependentRuns(a, tasks, dryRun) + DependentRuns(b, tasks, dryRun)
  {
    if |b| > 0 {
      var n := |b| - 1;
      assert a + b == (a + b[..n]) + [b[n]];
      assert b == b[..n] + [b[n]];
      DependentRunsSnoc(a + b[..n], b[n], tasks, dryRun);
      DependentRunsSnoc(b[..n], b[n], tasks, dryRun);
      DependentRunsAppend(a, b[..n], tasks, dryRun);
    } else {
      assert a + b == a;
    }
  }

  /** Whether the ended task starts its dependents: it is scheduled, has dependents and was executed. */
  predicate StartsDependents(task: LongRunningTask, scheduledTaskOf: map<Uuid, ScheduledTask>,
                             triggers: seq<DependentTaskTrigger>)
    ensures task.resultState != EXECUTED || task.id !in scheduledTaskOf ==> !StartsDependents(task, scheduledTaskOf, triggers)
    ensures StartsDependents(task, scheduledTaskOf, triggers) ==>
              exists t :: t in triggers && t.initiatorTaskId == scheduledTaskOf[task.id].quartzTaskName
  {
    if task.id in scheduledTaskOf && TriggersOf(triggers, scheduledTaskOf[task.id].quartzTaskName) != [] then
      var dependents := TriggersOf(triggers, scheduledTaskOf[task.id].quartzTaskName);
      assert dependents[0] in dependents;
      task.resultState == EXECUTED
    else
      false
  }

  /** The scheduler: every task it knows and the runs started through it. */
  class SchedulerManager {
    var tasks: set<string>
    var runs: seq<TaskRun>

    constructor (tasks: set<string>)
      ensures this.tasks == tasks && runs == []
    {
      this.tasks := tasks;
      runs := [];
    }

    /** `runTaskNewTransactional`: the run is recorded. */
    method RunTaskNewTransactional(taskId: string, dryRun: bool)
      modifies this
      ensures tasks == old(tasks)
      ensures runs == old(runs) + [TaskRun(taskId, dryRun)]
    {
      runs := runs + [TaskRun(taskId, dryRun)];
    }

    /** Each trigger in turn: its task is started when the scheduler knows it, skipped otherwise. */
    method RunDependents(dependentTasks: seq<DependentTaskTrigger>, dryRun: bool)
      modifies this
      ensures tasks == old(tasks)
      ensures runs == old(runs) + DependentRuns(dependentTasks, tasks, dryRun)
    {
      for k := 0 to |dependentTasks|
        invariant tasks == old(tasks)
        invariant runs == old(runs) + DependentRuns(dependentTasks[..k], tasks, dryRun)
      {
        assert dependentTasks[..k + 1][..k] == dependentTasks[..k];
        var trigger := dependentTasks[k];
        if trigger.dependentTaskId in tasks {
          RunTaskNewTransactional(trigger.dependentTaskId, dryRun);
        }
      }
      assert dependentTasks[..|dependentTasks|] == dependentTasks;
    }
  }

  /**
   * `process`: NOT_EXECUTED, starting nothing, when the ended long-running task has no
   * scheduled task, no dependents, or did not end EXECUTED; otherwise every
   * dependent whose task still exists is started with the initiator's
   * dry-run flag, missing ones are skipped, and the result is EXECUTED.
   */
  method Process(task: LongRunningTask, scheduledTaskOf: map<Uuid, ScheduledTask>,
                 triggers: seq<DependentTaskTrigger>, scheduler: SchedulerManager)
    returns (r: OperationResult)
    modifies scheduler
    ensures scheduler.tasks == old(scheduler.tasks)
    ensures r.code.None?
    ensures r.state == (if StartsDependents(task, scheduledTaskOf, triggers) then EXECUTED else NOT_EXECUTED)
    ensures !StartsDependents(task, scheduledTaskOf, triggers) ==> scheduler.runs == old(scheduler.runs)
    ensures StartsDependents(task, scheduledTaskOf, triggers) ==>
              scheduler.runs == old(scheduler.runs)
                                + DependentRuns(TriggersOf(triggers, scheduledTaskOf[task.id].quartzTaskName),
                                                old(scheduler.tasks), task.dryRun)
  {
    if task.id !in scheduledTaskOf {
      return OperationResult(NOT_EXECUTED, None);
    }
    var scheduledTask := scheduledTaskOf[task.id];
    var dependentTasks := TriggersOf(triggers, scheduledTask.quartzTaskName);
    if |dependentTasks| == 0 {
      return OperationResult(NOT_EXECUTED, None);
    }
    if task.resultState != EXECUTED {
      return OperationResult(NOT_EXECUTED, None);
    }
    scheduler.RunDependents(dependentTasks, task.dryRun);
    r := OperationResult(EXECUTED, None);
  }
}

=== FILE: notification_configuration_service.dfy ===
/**
 * The notification configuration: which senders deliver a notification
 * (by topic, level and type), the rule that a topic, level and type are
 * configured at most once, and the defaults modules bring.
 */
module NotificationConfigurationService {
  import opened Wrappers

  /** The type of the notification envelope, which is routed by configuration. */
  const NOTIFICATION_TYPE: string := "notification"
  const CONSOLE_TYPE: string := "console"

  datatype NotificationLevel = SUCCESS | INFO | WARNING | ERROR

  datatype Configuration = Configuration(id: nat, topic: string, level: Option<NotificationLevel>,
                                         notificationType: string, template: Option<string>)

  /** A configuration to save; without identifier it is new. */
  datatype ConfigurationDto = ConfigurationDto(id: Option<nat>, topic: string, level: Option<NotificationLevel>,
                                               notificationType: string, template: Option<string>)

  /** A default configuration declared by a module. */
  datatype DefaultConfiguration = DefaultConfiguration(topic: string, level: Option<NotificationLevel>,
                                                       notificationType: string, template: Option<string>)

  /** A registered sender: its notification type and the entity class it sends. */
  datatype Sender = Sender(senderType: string, entityClass: string)

  /**
   * A duplicate topic, level and type; an unsupported notification type;
   * or a finder for one configuration that met several.
   */
  datatype ServiceError =
    | TopicAndLevelExists(topic: string)
    | NotSupported(notificationType: string)
    | IncorrectResultSize(topic: string)

  predicate SameKey(c: Configuration, topic: string, level: Option<NotificationLevel>, notificationType: string)
  {
    c.topic == topic && c.level == level && c.notificationType == notificationType
  }

  /** The first sender registered for the type (the registry is ordered). */
  function PluginFor(senders: seq<Sender>, senderType: string): (r: Option<Sender>)
    ensures r.Some? <==> exists k :: 0 <= k < |senders| && senders[k].senderType == senderType
    ensures r.Some? ==> r.value in senders && r.value.senderType == senderType
  {
    if |senders| == 0 then None
    else if senders[0].senderType == senderType then Some(senders[0])
    else
      var rest := PluginFor(senders[1..], senderType);
      assert forall k :: 1 <= k < |senders| ==> senders[k] == senders[1..][k - 1];
      rest
  }

  /** `getDefaultSenders`: the console sender (null when none is registered). */
  function DefaultSenders(senders: seq<Sender>): (r: seq<Option<Sender>>)
    ensures |r| == 1
    ensures r[0].Some? <==> exists k :: 0 <= k < |senders| && senders[k].senderType == CONSOLE_TYPE
    ensures r[0].Some? ==> r[0].value in senders && r[0].value.senderType == CONSOLE_TYPE
  {
    [PluginFor(senders, CONSOLE_TYPE)]
  }

  /** The senders registered for the given types, in the order of the types; unknown types are skipped. */
  function SendersOfTypes(senders: seq<Sender>, types: seq<string>): (r: seq<Option<Sender>>)
    ensures forall k :: 0 <= k < |r| ==> r[k].Some? && r[k].value in senders
    ensures |r| == 0 <==> forall k :: 0 <= k < |types| ==> PluginFor(senders, types[k]).None?
  {
    if |types| == 0 then []
    else
      var n := |types| - 1;
      var rest := SendersOfTypes(senders, types[..n]);
      assert forall k :: 0 <= k < n ==> types[..n][k] == types[k];
      var plugin := PluginFor(senders, types[n]);
      if plugin.Some? then rest + [plugin] else rest
  }

  /** An entry is a sender exactly when it is the registered sender of one of the types. */
  lemma {:induction false} SendersOfTypesExactly(senders: seq<Sender>, types: seq<string>, s: Option<Sender>)
    ensures s in SendersOfTypes(senders, types) <==>
              s.Some? && exists k :: 0 <= k < |types| && s == PluginFor(senders, types[k])
  {
    if |types| > 0 {
      var n := |types| - 1;
      SendersOfTypesExactly(senders, types[..n], s);
      assert forall k :: 0 <= k < n ==> types[..n][k] == types[k];
      if s.Some? && s == PluginFor(senders, types[n]) {
        assert s in SendersOfTypes(senders, types);
      }
    }
  }

  /** The senders of two runs of types are those of the first run, then those of the second. */
  lemma {:induction false} SendersOfTypesAppend(senders: seq<Sender>, a: seq<string>, b: seq<string>)
    ensures SendersOfTypes(senders, a + b) == SendersOfTypes(senders, a) + SendersOfTypes(senders, b)
  {
    if |b| > 0 {
      var n := |b| - 1;
      assert (a + b)[..|a + b| - 1] == a + b[..n];
      assert (a + b)[|a + b| - 1] == b[n];
      SendersOfTypesAppend(senders, a, b[..n]);
    } else {
      assert a + b == a;
    }
  }

  /** One type contributes its sender when it has one, and nothing otherwise. */
  lemma SendersOfOneType(senders: seq<Sender>, t: string)
    ensures SendersOfTypes(senders, [t]) == (if PluginFor(senders, t).Some? then [PluginFor(senders, t)] else [])
  {
    assert [t][..0] == [];
  }

  /** `getSupportedNotificationTypes`: every registered type except the envelope. */
  function SupportedNotificationTypes(senders: seq<Sender>): (r: set<string>)
    ensures forall t :: t in r <==> t != NOTIFICATION_TYPE && exists k :: 0 <= k < |senders| && senders[k].senderType == t
  {
    set k | 0 <= k < |senders| && senders[k].senderType != NOTIFICATION_TYPE :: senders[k].senderType
  }

  /** `toSenderType`: null for an empty type, the first matching sender's class, or an error. */
  function ToSenderType(senders: seq<Sender>, notificationType: string): (r: Result<Option<string>, ServiceError>)
    ensures notificationType == "" ==> r == Ok(None)
    ensures notificationType != "" && PluginFor(senders, notificationType).Some? ==>
              r == Ok(Some(PluginFor(senders, notificationType).value.entityClass))
    ensures notificationType != "" && PluginFor(senders, notificationType).None? ==> r == Fail(NotSupported(notificationType))
  {
    if notificationType == "" then Ok(None)
    else match PluginFor(senders, notificationType)
      case Some(sender) => Ok(Some(sender.entityClass))
      case None => Fail(NotSupported(notificationType))
  }

  /** The configurations with the topic, level and type, in storage order. */
  function WithKey(cs: seq<Configuration>, topic: string, level: Option<NotificationLevel>, notificationType: string)
    : (r: seq<Configuration>)
    ensures forall c :: c in r <==> c in cs && SameKey(c, topic, level, notificationType)
  {
    if |cs| == 0 then []
    else
      var n := |cs| - 1;
      var rest := WithKey(cs[..n], topic, level, notificationType);
      assert cs == cs[..n] + [cs[n]];
      if SameKey(cs[n], topic, level, notificationType) then rest + [cs[n]] else rest
  }

  /**
   * Why `save` refuses a configuration, given the stored ones with its
   * topic, level and type: the finder meets several, or meets one that is
   * not the configuration being saved.
   */
  function Refusal(same: seq<Configuration>, dto: ConfigurationDto): (r: Option<ServiceError>)
    ensures r == Some(IncorrectResultSize(dto.topic)) <==> |same| >= 2
    ensures r == Some(TopicAndLevelExists(dto.topic)) <==> |same| == 1 && Some(same[0].id) != dto.id
    ensures r.None? <==> |same| == 0 || (|same| == 1 && Some(same[0].id) == dto.id)
  {
    if |same| >= 2 then Some(IncorrectResultSize(dto.topic))
    else if |same| == 1 && Some(same[0].id) != dto.id then Some(TopicAndLevelExists(dto.topic))
    else None
  }

  /** Every configuration with the key of `saved` is `saved`'s own, by identifier. */
  predicate NoOtherWithKey(cs: seq<Configuration>, saved: Configuration)
  {
    forall c :: c in WithKey(cs, saved.topic, saved.level, saved.notificationType) ==> c.id == saved.id
  }

  /** Where no topic, level and type repeat, a key has at most one configuration. */
  lemma {:induction false} UniqueKeyOnce(cs: seq<Configuration>, topic: string, level: Option<NotificationLevel>,
                                         notificationType: string)
    requires forall j, k :: 0 <= j < k < |cs| ==> !SameKey(cs[k], cs[j].topic, cs[j].level, cs[j].notificationType)
    ensures |WithKey(cs, topic, level, notificationType)| <= 1
  {
    if |cs| > 0 {
      var n := |cs| - 1;
      assert forall j, k :: 0 <= j < k < n ==> cs[..n][j] == cs[j] && cs[..n][k] == cs[k];
      UniqueKeyOnce(cs[..n], topic, level, notificationType);
      var rest := WithKey(cs[..n], topic, level, notificationType);
      if SameKey(cs[n], topic, level, notificationType) && |rest| > 0 {
        // the one configuration already found shares its key with cs[n]
        assert rest[0] in rest;
      }
    }
  }

  /** The stored configurations, in insertion order, and the next identifier. */
  class ConfigurationRepository {
    var configurations: seq<Configuration>
    var nextId: nat

    constructor ()
      ensures configurations == [] && nextId == 0 && Valid() && Unique()
    {
      configurations := [];
      nextId := 0;
    }

    /** Identifiers are distinct and below `nextId`. */
    predicate Valid()
      reads this
    {
      (forall k :: 0 <= k < |configurations| ==> configurations[k].id < nextId)
      && (forall j, k :: 0 <= j < k < |configurations| ==> configurations[j].id != configurations[k].id)
    }

    /** No topic, level and type are configured twice. */
    predicate Unique()
      reads this
    {
      forall j, k :: 0 <= j < k < |configurations| ==>
        !SameKey(configurations[k], configurations[j].topic, configurations[j].level, configurations[j].notificationType)
    }

    /** `countByTopic`. */
    function CountByTopic(topic: string): (r: nat)
      reads this
      ensures r == 0 <==> forall k :: 0 <= k < |configurations| ==> configurations[k].topic != topic
    {
      TopicCount(configurations, topic)
    }

    /** `findTypes(topic, level)`: the types configured for the topic and level, in storage order. */
    function FindTypes(topic: string, level: Option<NotificationLevel>): (r: seq<string>)
      reads this
      ensures forall t :: t in r <==> exists k :: 0 <= k < |configurations| && SameKey(configurations[k], topic, level, t)
    {
      TypesIn(configurations, topic, level)
    }

    /**
     * `save`: the finder for the topic, level and type fails when it meets
     * several configurations; the save is refused when it meets another
     * configuration than the one saved; otherwise a new configuration is
     * appended, or the one with the same identifier replaced and every other
     * kept. The at-most-once rule is kept once it holds.
     */
    method Save(dto: ConfigurationDto) returns (r: Result<Configuration, ServiceError>)
      requires Valid()
      modifies this
      ensures Valid()
      ensures old(Unique()) ==> Unique()
      ensures var refusal := Refusal(WithKey(old(configurations), dto.topic, dto.level, dto.notificationType), dto);
              && (refusal.Some? ==> r == Fail(refusal.value) && configurations == old(configurations))
              && (refusal.None? ==> r.Ok?)
      ensures old(Unique()) && r.Fail? ==> r.error == TopicAndLevelExists(dto.topic)
      ensures r.Ok? ==>
                r.value == Configuration(if dto.id.Some? then dto.id.value else old(nextId),
                                         dto.topic, dto.level, dto.notificationType, dto.template)
      ensures r.Ok? && (exists i :: 0 <= i < |old(configurations)| && old(configurations)[i].id == r.value.id) ==>
                |configurations| == |old(configurations)|
                && forall k :: 0 <= k < |configurations| ==>
                     configurations[k] == if old(configurations)[k].id == r.value.id then r.value else old(configurations)[k]
      ensures r.Ok? && (forall i :: 0 <= i < |old(configurations)| ==> old(configurations)[i].id != r.value.id) ==>
                configurations == old(configurations) + [r.value]
    {
      var found := FindByKey(dto.topic, dto.level, dto.notificationType);
      if Unique() {
        UniqueKeyOnce(configurations, dto.topic, dto.level, dto.notificationType);
      }
      var refusal := Refusal(found, dto);
      if refusal.Some? {
        return Fail(refusal.value);
      }
      assert found == [] || found == [found[0]];
      var id: nat;
      if dto.id.Some? {
        id := dto.id.value;
      } else {
        id := nextId;
      }
      var saved := Configuration(id, dto.topic, dto.level, dto.notificationType, dto.template);
      Store(saved);
      r := Ok(saved);
    }

    /**
     * The repository's own save: the configuration with the same identifier
     * is replaced and every other kept, or the configuration is appended.
     */
    method Store(saved: Configuration)
      requires Valid()
      modifies this
      ensures Valid()
      ensures old(Unique()) && NoOtherWithKey(old(configurations), saved) ==> Unique()
      ensures saved.id < old(nextId) ==> nextId == old(nextId)
      ensures (exists i :: 0 <= i < |old(configurations)| && old(configurations)[i].id == saved.id) ==>
                |configurations| == |old(configurations)|
                && forall k :: 0 <= k < |configurations| ==>
                     configurations[k] == if old(configurations)[k].id == saved.id then saved else old(configurations)[k]
      ensures (forall i :: 0 <= i < |old(configurations)| ==> old(configurations)[i].id != saved.id) ==>
                configurations == old(configurations) + [saved]
    {
      var i := IndexOf(saved.id);
      if i < |configurations| {
        configurations := configurations[i := saved];
        assert configurations[i] == saved;
      } else {
        configurations := configurations + [saved];
        nextId := if saved.id >= nextId then saved.id + 1 else nextId;
      }
    }

    /** `findByTopicAndLevelAndNotificationType`, before it insists on one result. */
    method FindByKey(topic: string, level: Option<NotificationLevel>, notificationType: string)
      returns (found: seq<Configuration>)
      ensures found == WithKey(configurations, topic, level, notificationType)
    {
      found := [];
      for k := 0 to |configurations|
        invariant found == WithKey(configurations[..k], topic, level, notificationType)
      {
        assert configurations[..k + 1][..k] == configurations[..k];
        if SameKey(configurations[k], topic, level, notificationType) {
          found := found + [configurations[k]];
        }
      }
      assert configurations[..|configurations|] == configurations;
    }

    /** The position of the configuration with the identifier, or the length when there is none. */
    method IndexOf(id: nat) returns (i: nat)
      ensures i <= |configurations|
      ensures i < |configurations| ==> configurations[i].id == id
      ensures i == |configurations| ==> forall k :: 0 <= k < |configurations| ==> configurations[k].id != id
    {
      i := 0;
      while i < |configurations| && configurations[i].id != id
        invariant i <= |configurations|
        invariant forall k :: 0 <= k < i ==> configurations[k].id != id
      {
        i := i + 1;
      }
    }

    /**
     * `initDefaultTopics`: module by module, a default configuration is
     * stored when its topic has no configuration yet, or when its topic was
     * already taken up earlier in the same module. Afterwards every default
     * topic is configured, and nothing stored before is changed.
     */
    method InitDefaultTopics(modules: seq<seq<DefaultConfiguration>>)
      requires Valid()
      modifies this
      ensures Valid()
      ensures (configurations, nextId) == Initialized(old(configurations), old(nextId), modules)
      ensures |configurations| >= |old(configurations)| && configurations[..|old(configurations)|] == old(configurations)
      ensures forall m, c :: 0 <= m < |modules| && 0 <= c < |modules[m]| ==> CountByTopic(modules[m][c].topic) > 0
    {
      for m := 0 to |modules|
        invariant Valid()
        invariant Initialized(configurations, nextId, modules[m..]) == Initialized(old(configurations), old(nextId), modules)
        invariant |configurations| >= |old(configurations)| && configurations[..|old(configurations)|] == old(configurations)
        invariant forall m', c :: 0 <= m' < m && 0 <= c < |modules[m']| ==> CountByTopic(modules[m'][c].topic) > 0
      {
        ghost var prefix := configurations;
        InitModule(modules[m]);
        assert configurations[..|old(configurations)|] == configurations[..|prefix|][..|old(configurations)|];
        assert modules[m..][1..] == modules[m + 1..];
      }
    }

    /** One module's defaults, in their declared order. */
    method InitModule(defaults: seq<DefaultConfiguration>)
      requires Valid()
      modifies this
      ensures Valid()
      ensures (configurations, nextId) == ModuleDefaults(old(configurations), old(nextId), defaults, {})
      ensures |configurations| >= |old(configurations)| && configurations[..|old(configurations)|] == old(configurations)
      ensures forall topic :: old(CountByTopic(topic)) > 0 ==> CountByTopic(topic) > 0
      ensures forall c :: 0 <= c < |defaults| ==> CountByTopic(defaults[c].topic) > 0
    {
      var topicToCreate: set<string> := {};
      for c := 0 to |defaults|
        invariant Valid()
        invariant ModuleDefaults(configurations, nextId, defaults[c..], topicToCreate)
                  == ModuleDefaults(old(configurations), old(nextId), defaults, {})
        invariant forall topic :: old(CountByTopic(topic)) > 0 ==> CountByTopic(topic) > 0
        invariant forall c' :: 0 <= c' < c ==> CountByTopic(defaults[c'].topic) > 0
      {
        topicToCreate := InitDefault(defaults, c, topicToCreate);
      }
    }

    /** One default of a module: stored when its topic is new or already taken up by this module. */
    method InitDefault(defaults: seq<DefaultConfiguration>, c: nat, topicToCreate: set<string>)
      returns (topicsAfter: set<string>)
      requires Valid() && c < |defaults|
      modifies this
      ensures Valid()
      ensures ModuleDefaults(configurations, nextId, defaults[c + 1..], topicsAfter)
              == ModuleDefaults(old(configurations), old(nextId), defaults[c..], topicToCreate)
      ensures |configurations| >= |old(configurations)| && configurations[..|old(configurations)|] == old(configurations)
      ensures forall topic :: old(CountByTopic(topic)) > 0 ==> CountByTopic(topic) > 0
      ensures CountByTopic(defaults[c].topic) > 0
    {
      assert defaults[c..][1..] == defaults[c + 1..];
      var config := defaults[c];
      var count := CountByTopic(config.topic);
      topicsAfter := topicToCreate;
      if config.topic in topicToCreate || count == 0 {
        topicsAfter := topicToCreate + {config.topic};
        StoreNew(config);
        assert configurations[..|old(configurations)|] == old(configurations);
      }
    }

    /** `repository.save` of a new configuration made from a module default. */
    method StoreNew(config: DefaultConfiguration)
      requires Valid()
      modifies this
      ensures Valid()
      ensures configurations == old(configurations) + [Configuration(old(nextId), config.topic, config.level,
                                                                     config.notificationType, config.template)]
      ensures nextId == old(nextId) + 1
      ensures forall topic :: old(CountByTopic(topic)) > 0 ==> CountByTopic(topic) > 0
      ensures CountByTopic(config.topic) > 0
    {
      var saved := Configuration(nextId, config.topic, config.level, config.notificationType, config.template);
      configurations := configurations + [saved];
      nextId := nextId + 1;
      assert configurations[|configurations| - 1].topic == config.topic;
      forall topic | old(CountByTopic(topic)) > 0
        ensures CountByTopic(topic) > 0
      {
        var k :| 0 <= k < |old(configurations)| && old(configurations)[k].topic == topic;
        assert configurations[k].topic == topic;
      }
    }

    /**
     * `getSenders`: the console sender for an empty topic; for a plain type
     * its own sender; for the envelope the senders of the types configured
     * for the topic and level; the console sender when nothing was found.
     */
    method GetSenders(senders: seq<Sender>, topic: string, level: Option<NotificationLevel>, notificationType: string)
      returns (r: seq<Option<Sender>>)
      ensures topic == "" ==> r == DefaultSenders(senders)
      ensures topic != "" && notificationType != NOTIFICATION_TYPE ==>
                r == (if PluginFor(senders, notificationType).Some? then [PluginFor(senders, notificationType)]
                      else DefaultSenders(senders))
      ensures topic != "" && notificationType == NOTIFICATION_TYPE ==>
                r == (if SendersOfTypes(senders, FindTypes(topic, level)) != [] then SendersOfTypes(senders, FindTypes(topic, level))
                      else DefaultSenders(senders))
      ensures |r| > 0
    {
      if topic == "" {
        return DefaultSenders(senders);
      }
      var found: seq<Option<Sender>> := [];
      if notificationType != NOTIFICATION_TYPE {
        var plugin := PluginFor(senders, notificationType);
        if plugin.Some? {
          found := found + [plugin];
        }
      } else {
        var types := FindTypes(topic, level);
        for k := 0 to |types|
          invariant found == SendersOfTypes(senders, types[..k])
        {
          assert types[..k + 1][..k] == types[..k];
          var plugin := PluginFor(senders, types[k]);
          if plugin.Some? {
            found := found + [plugin];
          }
        }
        assert types[..|types|] == types;
      }
      if |found| == 0 {
        return DefaultSenders(senders);
      }
      r := found;
    }
  }

  /**
   * The configurations and next identifier after one module's defaults:
   * a default is stored, under the next identifier, when its topic has no
   * configuration or was already taken up by this module (`toCreate`).
   */
  function ModuleDefaults(cs: seq<Configuration>, nextId: nat, defaults: seq<DefaultConfiguration>, toCreate: set<string>)
    : (r: (seq<Configuration>, nat))
    ensures |r.0| >= |cs| && r.0[..|cs|] == cs
    decreases |defaults|
  {
    if |defaults| == 0 then (cs, nextId)
    else
      var c := defaults[0];
      if c.topic in toCreate || TopicCount(cs, c.topic) == 0 then
        var stored := cs + [Configuration(nextId, c.topic, c.level, c.notificationType, c.template)];
        var r := ModuleDefaults(stored, nextId + 1, defaults[1..], toCreate + {c.topic});
        assert r.0[..|cs|] == r.0[..|stored|][..|cs|];
        r
      else ModuleDefaults(cs, nextId, defaults[1..], toCreate)
  }

  /** The configurations and next identifier after the defaults of every module, in module order. */
  function Initialized(cs: seq<Configuration>, nextId: nat, modules: seq<seq<DefaultConfiguration>>)
    : (r: (seq<Configuration>, nat))
    decreases |modules|
  {
    if |modules| == 0 then (cs, nextId)
    else
      var afterFirst := ModuleDefaults(cs, nextId, modules[0], {});
      Initialized(afterFirst.0, afterFirst.1, modules[1..])
  }

  function TopicCount(configurations: seq<Configuration>, topic: string): (r: nat)
    ensures r == 0 <==> forall k :: 0 <= k < |configurations| ==> configurations[k].topic != topic
  {
    if |configurations| == 0 then 0
    else
      var n := |configurations| - 1;
      assert forall k :: 0 <= k < n ==> configurations[..n][k] == configurations[k];
      TopicCount(configurations[..n], topic) + (if configurations[n].topic == topic then 1 else 0)
  }

  function TypesIn(configurations: seq<Configuration>, topic: string, level: Option<NotificationLevel>): (r: seq<string>)
    ensures forall t :: t in r <==> exists k :: 0 <= k < |configurations| && SameKey(configurations[k], topic, level, t)
  {
    if |configurations| == 0 then []
    else
      var n := |configurations| - 1;
      var rest := TypesIn(configurations[..n], topic, level);
      assert forall k :: 0 <= k < n ==> configurations[..n][k] == configurations[k];
      var c := configurations[n];
      if c.topic == topic && c.level == level then rest + [c.notificationType] else rest
  }
}

=== FILE: operation_state.dfy ===
/**
 * The states of an operation result reported by event processors and
 * long-running tasks, with an optional result code.
 */
module OperationStates {
  import opened Wrappers

  datatype OperationState = CREATED | RUNNING | EXECUTED | NOT_EXECUTED | BLOCKED | EXCEPTION | CANCELED

  /** An operation result: its state and, when set, the result code of the model. */
  datatype OperationResult = OperationResult(state: OperationState, code: Option<string>)
}

=== FILE: password_change_accounts.dfy ===
/**
 * The targets offered when an identity changes its password: the identity
 * manager itself first, then every account of the identity that is not in
 * protection; and which errors of loading the accounts are reported.
 */
module PasswordChangeAccounts {
  import opened Wrappers

  const DEFAULT_APP_NAME: string := "CzechIdM"

  /** The application name: the configured `app.name`, or the default. */
  function IdmName(configuredName: Option<string>): string
  {
    configuredName.GetOr(DEFAULT_APP_NAME)
  }

  /** The option value that stands for a password change in the identity manager itself. */
  function ResourceIdm(configuredName: Option<string>): string
  {
    "0:" + IdmName(configuredName)
  }

  /** An account of the identity, with the name of its system. */
  datatype Account = Account(id: string, uid: string, systemName: string, inProtection: bool)

  datatype AccountOption = AccountOption(value: string, niceLabel: string)

  /** The option an account is offered as. */
  function AccountOptionOf(acc: Account): AccountOption
  {
    AccountOption(acc.id, acc.systemName + " (" + acc.uid + ")")
  }

  /** The options of the accounts not in protection, in account order. */
  function UnprotectedOptions(accounts: seq<Account>): (r: seq<AccountOption>)
    ensures |r| <= |accounts|
  {
    if |accounts| == 0 then []
    else if accounts[|accounts| - 1].inProtection then UnprotectedOptions(accounts[..|accounts| - 1])
    else UnprotectedOptions(accounts[..|accounts| - 1]) + [AccountOptionOf(accounts[|accounts| - 1])]
  }

  /**
   * Every offered account option comes from an account not in protection,
   * and every account not in protection is offered.
   */
  lemma {:induction false} UnprotectedOptionsExactly(accounts: seq<Account>)
    ensures forall o :: o in UnprotectedOptions(accounts) ==>
              exists a :: a in accounts && !a.inProtection && o == AccountOptionOf(a)
    ensures forall a :: a in accounts && !a.inProtection ==> AccountOptionOf(a) in UnprotectedOptions(accounts)
  {
    if |accounts| > 0 {
      var init := accounts[..|accounts| - 1];
      UnprotectedOptionsExactly(init);
      assert accounts == init + [accounts[|accounts| - 1]];
    }
  }

  /**
   * The options keep the account order: for two runs of accounts they are
   * the options of the first run followed by those of the second.
   */
  lemma {:induction false} UnprotectedOptionsAppend(a: seq<Account>, b: seq<Account>)
    ensures UnprotectedOptions(a + b) == UnprotectedOptions(a) + UnprotectedOptions(b)
    decreases |b|
  {
    if |b| == 0 {
      assert a + b == a;
    } else {
      var n := |b| - 1;
      assert (a + b)[..|a + b| - 1] == a + b[..n];
      UnprotectedOptionsAppend(a, b[..n]);
    }
  }

  /** One account is offered, valued by its id, exactly when it is not in protection. */
  lemma UnprotectedOptionsOfOne(acc: Account)
    ensures UnprotectedOptions([acc]) == if acc.inProtection then [] else [AccountOption(acc.id, acc.systemName + " (" + acc.uid + ")")]
  {
    assert [acc][..0] == [];
  }

  /**
   * `_getOptions`: null while the accounts load; otherwise the identity
   * manager's own option (labelled with the username when the identity is
   * known) followed by the options of the unprotected accounts.
   */
  method GetOptions(showLoading: bool, configuredName: Option<string>, identityUsername: Option<string>,
                    accounts: seq<Account>) returns (options: Option<seq<AccountOption>>)
    ensures showLoading <==> options.None?
    ensures options.Some? ==>
              |options.value| >= 1
              && options.value[0].value == ResourceIdm(configuredName)
              && options.value[0].niceLabel
                 == IdmName(configuredName) + (if identityUsername.Some? then " (" + identityUsername.value + ")" else "")
              && options.value[1..] == UnprotectedOptions(accounts)
  {
    if showLoading {
      return None;
    }
    var idmLabel := IdmName(configuredName) + (if identityUsername.Some? then " (" + identityUsername.value + ")" else "");
    var result := [AccountOption(ResourceIdm(configuredName), idmLabel)];
    for i := 0 to |accounts|
      invariant |result| >= 1 && result[0] == AccountOption(ResourceIdm(configuredName), idmLabel)
      invariant result[1..] == UnprotectedOptions(accounts[..i])
    {
      assert accounts[..i + 1][..i] == accounts[..i];
      if accounts[i].inProtection {
        continue;
      }
      result := result + [AccountOptionOf(accounts[i])];
    }
    assert accounts[..|accounts|] == accounts;
    return Some(result);
  }

  /** The count of offered targets is one more than the accounts not in protection. */
  lemma {:induction false} OptionCount(accounts: seq<Account>)
    ensures |UnprotectedOptions(accounts)| == |set i | 0 <= i < |accounts| && !accounts[i].inProtection|
  {
    if |accounts| > 0 {
      var n := |accounts| - 1;
      OptionCount(accounts[..n]);
      var before := set i | 0 <= i < n && !accounts[..n][i].inProtection;
      var now := set i | 0 <= i < |accounts| && !accounts[i].inProtection;
      if accounts[n].inProtection {
        assert now == before;
      } else {
        assert now == before + {n};
      }
    }
  }

  /** An error of loading the accounts; its HTTP status may be missing. */
  datatype LoadError = LoadError(statusCode: Option<int>)

  /** A failed load is reported unless it was refused with 403 (the user may not read accounts). */
  function ShouldReportLoadError(error: Option<LoadError>): (r: bool)
    ensures r <==> error.Some? && error.value.statusCode != Some(403)
  {
    match error
    case None => false
    case Some(e) => e.statusCode != Some(403)
  }
}

=== FILE: password_expiration_warning.dfy ===
/**
 * The scheduled task that warns identities whose password expires within
 * a number of days: `init` fixes the expiration day, the items are the
 * passwords expiring by then whose identity is not disabled, and each item
 * sends one warning.
 */
module PasswordExpirationWarning {
  import opened Wrappers
  import opened OperationStates

  type Uuid = string

  /** Days since an epoch. */
  type Date = int

  const TASK_NAME: string := "core-password-expiration-warning-long-running-task"
  const PARAMETER_DAYS_BEFORE: string := "days before"
  const PASSWORD_EXPIRATION_TASK_DAYS_BEFORE: string := "PASSWORD_EXPIRATION_TASK_DAYS_BEFORE"
  /** The notification topic; its value is declared by the core module descriptor. */
  const TOPIC_PASSWORD_EXPIRATION_WARNING: string := "TOPIC_PASSWORD_EXPIRATION_WARNING"

  const INT_MIN: int := -0x8000_0000
  const INT_RANGE: int := 0x1_0000_0000

  /** A Java `long`. */
  predicate IsLong(x: int)
  {
    -0x8000_0000_0000_0000 <= x < 0x8000_0000_0000_0000
  }

  /** A stored password: its identity, whether that identity is disabled, and when it expires. */
  datatype Password = Password(id: Uuid, identity: Uuid, identityDisabled: bool, validTill: Option<Date>)

  /** A warning sent: topic, recipient, the expiry day and the configured days. */
  datatype Warning = Warning(topic: string, identity: Uuid, expiration: Option<Date>, daysBefore: int)

  /** Two's-complement truncation to 32 bits (`intValue`, and `int` arithmetic). */
  function ToInt32(x: int): (r: int)
    ensures INT_MIN <= r < -INT_MIN
    ensures (r - x) % INT_RANGE == 0
    ensures INT_MIN <= x < -INT_MIN ==> r == x
  {
    (x - INT_MIN) % INT_RANGE + INT_MIN
  }

  /** The expiration day as written: `daysBefore.intValue() - 1` is 32-bit arithmetic. */
  function ExpirationAsWritten(today: Date, daysBefore: int): (r: Date)
    requires daysBefore > 0 && IsLong(daysBefore)
    ensures daysBefore < -INT_MIN ==> r == today + daysBefore - 1
  {
    today + ToInt32(ToInt32(daysBefore) - 1)
  }

  /**
   * Past 32 bits the day wraps: 2^31 days before sets the expiration
   * 2^31 - 1 days ahead, but 2^32 days before sets it to yesterday, so
   * fewer warnings go out for the larger setting.
   */
  lemma ExpirationWraps(today: Date)
    ensures ExpirationAsWritten(today, 0x8000_0000) == today + 0x7FFF_FFFF
    ensures ExpirationAsWritten(today, 0x1_0000_0000) == today - 1
  {
  }

  /** The expiration day: the last of `daysBefore` days starting today. */
  function Expiration(today: Date, daysBefore: int): (r: Date)
    requires daysBefore > 0
    ensures today <= r < today + daysBefore
  {
    today + daysBefore - 1
  }

  /** More days before never warns fewer passwords. */
  lemma ExpirationMonotone(today: Date, d1: int, d2: int)
    requires 0 < d1 <= d2
    ensures Expiration(today, d1) <= Expiration(today, d2)
  {
  }

  /** The password filter: expires by the day (a password that never expires is not selected), identity enabled. */
  predicate ExpiresBy(p: Password, expiration: Date)
  {
    p.validTill.Some? && p.validTill.value <= expiration && !p.identityDisabled
  }

  /**
   * A password is selected exactly when it expires within `daysBefore`
   * days counting today and its identity is enabled.
   */
  lemma SelectedWithinDays(p: Password, today: Date, daysBefore: int)
    requires daysBefore > 0
    ensures ExpiresBy(p, Expiration(today, daysBefore)) <==>
              p.validTill.Some? && p.validTill.value - today < daysBefore && !p.identityDisabled
  {
  }

  function PasswordsExpiringBy(passwords: seq<Password>, expiration: Date): (r: seq<Password>)
    ensures forall p :: p in r <==> p in passwords && ExpiresBy(p, expiration)
  {
    if |passwords| == 0 then []
    else
      var rest := PasswordsExpiringBy(passwords[1..], expiration);
      assert passwords == [passwords[0]] + passwords[1..];
      if ExpiresBy(passwords[0], expiration) then [passwords[0]] + rest else rest
  }

  /** The long-running task: its parameter and expiration day once initialised, and the warnings it sent. */
  class PasswordExpirationWarningTask {
    var daysBefore: Option<int>
    var expiration: Option<Date>
    var sent: seq<Warning>

    constructor ()
      ensures daysBefore.None? && expiration.None? && sent == []
    {
      daysBefore := None;
      expiration := None;
      sent := [];
    }

    /**
     * `init`: the days-before parameter must be set and positive, else
     * PASSWORD_EXPIRATION_TASK_DAYS_BEFORE; the expiration day is the last
     * of that many days starting today.
     */
    method Init(parameter: Option<int>, today: Date) returns (r: Result<Date, string>)
      requires parameter.Some? ==> IsLong(parameter.value)
      modifies this
      ensures daysBefore == parameter && sent == old(sent)
      ensures r.Fail? <==> parameter.None? || parameter.value <= 0
      ensures r.Fail? ==> r.error == PASSWORD_EXPIRATION_TASK_DAYS_BEFORE && expiration == old(expiration)
      ensures r.Ok? ==> r.value == Expiration(today, parameter.value) && expiration == Some(r.value)
    {
      daysBefore := parameter;
      if parameter.None? || parameter.value <= 0 {
        return Fail(PASSWORD_EXPIRATION_TASK_DAYS_BEFORE);
      }
      expiration := Some(Expiration(today, parameter.value));
      r := Ok(expiration.value);
    }

    /** `getItemsToProcess`: the passwords expiring by the expiration day whose identity is not disabled. */
    function ItemsToProcess(passwords: seq<Password>): (r: seq<Password>)
      requires expiration.Some?
      reads this
      ensures forall p :: p in r ==> p in passwords && p.validTill.Some? && p.validTill.value <= expiration.value
      ensures forall p :: p in r ==> !p.identityDisabled
      ensures forall p :: p in passwords && ExpiresBy(p, expiration.value) ==> p in r
    {
      PasswordsExpiringBy(passwords, expiration.value)
    }

    /**
     * `processItem`: one warning to the password's identity; EXECUTED, or
     * EXCEPTION when sending fails or when there is no validTill to format
     * (the formatter throws inside the same try block).
     */
    method ProcessItem(password: Password, sendFails: bool) returns (r: OperationResult)
      requires daysBefore.Some?
      modifies this
      ensures daysBefore == old(daysBefore) && expiration == old(expiration)
      ensures r.code.None?
      ensures r.state == (if sendFails || password.validTill.None? then EXCEPTION else EXECUTED)
      ensures r.state == EXCEPTION ==> sent == old(sent)
      ensures r.state == EXECUTED ==>
                sent == old(sent) + [Warning(TOPIC_PASSWORD_EXPIRATION_WARNING, password.identity, password.validTill,
                                             daysBefore.value)]
    {
      if sendFails || password.validTill.None? {
        return OperationResult(EXCEPTION, None);
      }
      sent := sent + [Warning(TOPIC_PASSWORD_EXPIRATION_WARNING, password.identity, password.validTill, daysBefore.value)];
      r := OperationResult(EXECUTED, None);
    }
  }
}

=== FILE: result_models.dfy ===
/**
 * The error and info models a bulk action or a long-running task reports:
 * two lists, appended in place, whose first error stands for the whole.
 */
module ResultModels {
  import opened Wrappers

  /** A result model: a status code and its parameters. */
  datatype ResultModel = ResultModel(statusEnum: string, parameters: map<string, string>)

  /** An error model: a result model with an HTTP status. */
  datatype ErrorModel = ErrorModel(statusEnum: string, statusCode: int, parameters: map<string, string>)

  /** The first error, or none when there is no error. */
  function FirstError(errors: seq<ErrorModel>): (r: Option<ErrorModel>)
    ensures r.None? <==> |errors| == 0
    ensures r.Some? ==> r.value == errors[0] && r.value in errors
  {
    if |errors| == 0 then None else Some(errors[0])
  }

  /** Adding an error to a non-empty list keeps the first error; adding one to an empty list makes it the first. */
  lemma FirstErrorAfterAdd(errors: seq<ErrorModel>, error: ErrorModel)
    ensures |errors| > 0 ==> FirstError(errors + [error]) == FirstError(errors)
    ensures |errors| == 0 ==> FirstError(errors + [error]) == Some(error)
  {
  }

  class Results {
    var errors: seq<ErrorModel>
    var infos: seq<ResultModel>

    /** `ResultModels()`. */
    constructor Empty()
      ensures errors == [] && infos == []
    {
      errors := [];
      infos := [];
    }

    /** `ResultModels(error)` and `ResultModels(error, info)`: a null error or info is skipped. */
    constructor Single(error: Option<ErrorModel>, info: Option<ResultModel>)
      ensures errors == (if error.Some? then [error.value] else [])
      ensures infos == (if info.Some? then [info.value] else [])
    {
      errors := if error.Some? then [error.value] else [];
      infos := if info.Some? then [info.value] else [];
    }

    /** `ResultModels(errors)`: every error, in order. */
    constructor OfErrors(errors: seq<ErrorModel>)
      ensures this.errors == errors && infos == []
    {
      this.errors := errors;
      infos := [];
    }

    /** `ResultModels(errors, infos)`: a null list is skipped, otherwise all its elements are taken. */
    constructor OfLists(errors: Option<seq<ErrorModel>>, infos: Option<seq<ResultModel>>)
      ensures this.errors == errors.GetOr([]) && this.infos == infos.GetOr([])
    {
      this.errors := errors.GetOr([]);
      this.infos := infos.GetOr([]);
    }

    /** `addError`: appended at the end; the infos stay. */
    method AddError(error: ErrorModel)
      modifies this
      ensures errors == old(errors) + [error] && infos == old(infos)
      ensures |old(errors)| > 0 ==> GetError() == old(GetError())
    {
      errors := errors + [error];
      FirstErrorAfterAdd(old(errors), error);
    }

    /** `addInfo`: appended at the end; the errors stay. */
    method AddInfo(info: ResultModel)
      modifies this
      ensures infos == old(infos) + [info] && errors == old(errors)
    {
      infos := infos + [info];
    }

    /** `getError`: none when there are no errors, else the first one added. */
    function GetError(): (r: Option<ErrorModel>)
      reads this
      ensures r.None? <==> |errors| == 0
      ensures r.Some? ==> r.value == errors[0]
    {
      FirstError(errors)
    }
  }
}

=== FILE: role_delete_bulk_action.dfy ===
/**
 * The bulk action deleting roles, before it runs: it reports how many
 * identities hold each selected role (the five largest counts, largest
 * first) and how many role-request concepts would be modified.
 */
module RoleDeleteBulkAction {
  import opened Strings
  import opened ResultModels

  const NAME: string := "role-delete-bulk-action"
  const ROLE_DELETE_BULK_ACTION_NUMBER_OF_IDENTITIES: string := "ROLE_DELETE_BULK_ACTION_NUMBER_OF_IDENTITIES"
  const ROLE_DELETE_BULK_ACTION_CONCEPTS_TO_MODIFY: string := "ROLE_DELETE_BULK_ACTION_CONCEPTS_TO_MODIFY"
  /** How many per-role infos are reported at most. */
  const LIMIT: nat := 5

  /** A selected role: its code, how many identities hold it, how many concepts request it. */
  datatype SelectedRole = SelectedRole(id: string, code: string, identityRoleCount: nat, conceptCount: nat)

  /** An entry of the models map: the info and its count. */
  datatype Entry = Entry(model: ResultModel, count: nat)

  function IdentitiesModel(role: SelectedRole): (r: ResultModel)
    ensures r.statusEnum == ROLE_DELETE_BULK_ACTION_NUMBER_OF_IDENTITIES
    ensures "role" in r.parameters && r.parameters["role"] == role.code
  {
    ResultModel(ROLE_DELETE_BULK_ACTION_NUMBER_OF_IDENTITIES,
                map["role" := role.code, "count" := NatToString(role.identityRoleCount)])
  }

  function ConceptsModel(conceptCount: nat): ResultModel
  {
    ResultModel(ROLE_DELETE_BULK_ACTION_CONCEPTS_TO_MODIFY, map["conceptCount" := NatToString(conceptCount)])
  }

  /** The models map as entries: one per role held by at least one identity, in selection order. */
  function IdentityEntries(roles: seq<SelectedRole>): (r: seq<Entry>)
    ensures forall e :: e in r <==> exists role :: role in roles && role.identityRoleCount > 0
                                                  && e == Entry(IdentitiesModel(role), role.identityRoleCount)
    ensures forall k :: 0 <= k < |r| ==> r[k].count > 0
  {
    if |roles| == 0 then []
    else
      var n := |roles| - 1;
      var rest := IdentityEntries(roles[..n]);
      assert roles == roles[..n] + [roles[n]];
      if roles[n].identityRoleCount > 0 then rest + [Entry(IdentitiesModel(roles[n]), roles[n].identityRoleCount)] else rest
  }

  /** The summed concept count of the selected roles. */
  function ConceptsToModify(roles: seq<SelectedRole>): (r: nat)
    ensures r == 0 <==> forall k :: 0 <= k < |roles| ==> roles[k].conceptCount == 0
  {
    if |roles| == 0 then 0
    else
      var n := |roles| - 1;
      assert forall k :: 0 <= k < n ==> roles[..n][k] == roles[k];
      ConceptsToModify(roles[..n]) + roles[n].conceptCount
  }

  predicate SortedByCountDesc(s: seq<Entry>)
  {
    forall i, j :: 0 <= i < j < |s| ==> s[i].count >= s[j].count
  }

  /** Inserts an entry before the first entry with a smaller count. */
  function Insert(e: Entry, s: seq<Entry>): (r: seq<Entry>)
    ensures multiset(r) == multiset(s) + multiset{e}
    ensures |r| == |s| + 1
    ensures SortedByCountDesc(s) ==> SortedByCountDesc(r)
  {
    if |s| == 0 || e.count >= s[0].count then [e] + s
    else
      var rest := Insert(e, s[1..]);
      assert s == [s[0]] + s[1..];
      assert SortedByCountDesc(s) ==> SortedByCountDesc([s[0]] + rest) by {
        if SortedByCountDesc(s) {
          HeadDominates(s, e, rest);
        }
      }
      [s[0]] + rest
  }

  /** Putting back the largest entry before the sorted rest of the entries keeps the order. */
  lemma HeadDominates(s: seq<Entry>, e: Entry, rest: seq<Entry>)
    requires |s| > 0 && SortedByCountDesc(s) && e.count < s[0].count
    requires multiset(rest) == multiset(s[1..]) + multiset{e} && SortedByCountDesc(rest)
    ensures SortedByCountDesc([s[0]] + rest)
  {
    var r := [s[0]] + rest;
    forall j | 0 < j < |r| ensures r[0].count >= r[j].count {
      assert r[j] == rest[j - 1];
      assert rest[j - 1] in multiset(rest);
      if r[j] != e {
        assert r[j] in multiset(s[1..]);
        var i :| 0 <= i < |s[1..]| && s[1..][i] == r[j];
        assert s[i + 1] == r[j];
      }
    }
  }

  /** Sorts by count, largest first: the stream sort with the reversed value comparator. */
  function SortByCountDesc(s: seq<Entry>): (r: seq<Entry>)
    ensures multiset(r) == multiset(s)
    ensures |r| == |s|
    ensures SortedByCountDesc(r)
  {
    if |s| == 0 then []
    else
      assert s == [s[0]] + s[1..];
      Insert(s[0], SortByCountDesc(s[1..]))
  }

  function Models(entries: seq<Entry>): (r: seq<ResultModel>)
    ensures |r| == |entries|
    ensures forall k :: 0 <= k < |r| ==> r[k] == entries[k].model
  {
    if |entries| == 0 then [] else [entries[0].model] + Models(entries[1..])
  }

  /** The reported entries: the first five of the sorted models map. */
  function TopEntries(roles: seq<SelectedRole>): seq<Entry>
  {
    var sorted := SortByCountDesc(IdentityEntries(roles));
    if |sorted| <= LIMIT then sorted else sorted[..LIMIT]
  }

  /**
   * The reported entries are at most five, largest count first, all from
   * roles held by some identity; with the entries left out they make up
   * the whole models map, and none of those has a larger count than a
   * reported one.
   */
  lemma {:induction false} TopEntriesAreTheLargest(roles: seq<SelectedRole>)
    ensures var top := TopEntries(roles);
            var sorted := SortByCountDesc(IdentityEntries(roles));
            && |top| == (if |sorted| <= LIMIT then |sorted| else LIMIT)
            && SortedByCountDesc(top)
            && (forall e :: e in top ==> e in IdentityEntries(roles) && e.count > 0)
            && multiset(top) + multiset(sorted[|top|..]) == multiset(IdentityEntries(roles))
            && (forall e, x :: e in top && x in sorted[|top|..] ==> x.count <= e.count)
  {
    var entries := IdentityEntries(roles);
    var sorted := SortByCountDesc(entries);
    var top := TopEntries(roles);
    var n := if |sorted| <= LIMIT then |sorted| else LIMIT;
    assert top == sorted[..n];
    PrefixOfSorted(sorted, n);
    forall e | e in top ensures e in entries && e.count > 0 {
      assert e in multiset(sorted[..n]);
      assert e in multiset(entries);
    }
  }

  /** A prefix of a sorted sequence is sorted, and no later entry has a larger count. */
  lemma PrefixOfSorted(sorted: seq<Entry>, n: nat)
    requires SortedByCountDesc(sorted) && n <= |sorted|
    ensures SortedByCountDesc(sorted[..n])
    ensures multiset(sorted[..n]) + multiset(sorted[n..]) == multiset(sorted)
    ensures forall e, x :: e in sorted[..n] && x in sorted[n..] ==> x.count <= e.count
  {
    assert sorted == sorted[..n] + sorted[n..];
    forall e, x | e in sorted[..n] && x in sorted[n..]
      ensures x.count <= e.count
    {
      var i :| 0 <= i < n && sorted[..n][i] == e;
      var j :| 0 <= j < |sorted[n..]| && sorted[n..][j] == x;
      assert sorted[i] == e && sorted[n + j] == x;
    }
  }

  /**
   * The infos `prevalidate` reports: the reported per-role models, then the
   * concepts model when some concept would be modified.
   */
  function PrevalidateInfos(roles: seq<SelectedRole>): (r: seq<ResultModel>)
    ensures |r| <= LIMIT + 1
    ensures ConceptsToModify(roles) > 0 ==> |r| > 0 && r[|r| - 1] == ConceptsModel(ConceptsToModify(roles))
    ensures ConceptsToModify(roles) == 0 ==> |r| <= LIMIT
  {
    Models(TopEntries(roles)) + if ConceptsToModify(roles) > 0 then [ConceptsModel(ConceptsToModify(roles))] else []
  }

  /**
   * Every reported info but a trailing concepts model counts the
   * identities of a role, and the concepts model is there exactly when
   * some concept would be modified.
   */
  lemma {:induction false} InfosShape(roles: seq<SelectedRole>)
    ensures var r := PrevalidateInfos(roles);
            var n := |Models(TopEntries(roles))|;
            && (forall k :: 0 <= k < n ==> r[k].statusEnum == ROLE_DELETE_BULK_ACTION_NUMBER_OF_IDENTITIES)
            && (ConceptsToModify(roles) > 0 <==> |r| == n + 1)
  {
    TopEntriesAreTheLargest(roles);
    var top := TopEntries(roles);
    forall k | 0 <= k < |top| ensures top[k].model.statusEnum == ROLE_DELETE_BULK_ACTION_NUMBER_OF_IDENTITIES {
      assert top[k] in top;
    }
  }

  /** `entities.forEach`: the models map is filled with one entry per role held by some identity. */
  method CollectEntries(roles: seq<SelectedRole>) returns (models: seq<Entry>)
    ensures models == IdentityEntries(roles)
  {
    models := [];
    for k := 0 to |roles|
      invariant models == IdentityEntries(roles[..k])
    {
      assert roles[..k + 1][..k] == roles[..k];
      var role := roles[k];
      if role.identityRoleCount > 0 {
        models := models + [Entry(IdentitiesModel(role), role.identityRoleCount)];
      }
    }
    assert roles[..|roles|] == roles;
  }

  /** `prevalidate`: a fresh result whose infos are `PrevalidateInfos` and which has no errors. */
  method Prevalidate(roles: seq<SelectedRole>) returns (result: Results)
    ensures fresh(result)
    ensures result.errors == [] && result.infos == PrevalidateInfos(roles)
  {
    result := new Results.Empty();
    var models := CollectEntries(roles);
    var conceptsToModify := ConceptsToModify(roles);
    var collect := SortByCountDesc(models);
    if |collect| > LIMIT {
      collect := collect[..LIMIT];
    }
    assert collect == TopEntries(roles);
    AddInfos(result, collect);
    assert result.infos == Models(TopEntries(roles));
    if conceptsToModify > 0 {
      result.AddInfo(ConceptsModel(conceptsToModify));
    }
  }

  /** `collect.forEach(addInfo)`: the models are appended in order. */
  method AddInfos(result: Results, entries: seq<Entry>)
    modifies result
    ensures result.errors == old(result.errors) && result.infos == old(result.infos) + Models(entries)
  {
    for k := 0 to |entries|
      invariant result.errors == old(result.errors) && result.infos == old(result.infos) + Models(entries[..k])
    {
      assert Models(entries[..k + 1]) == Models(entries[..k]) + [entries[k].model];
      result.AddInfo(entries[k].model);
    }
    assert entries[..|entries|] == entries;
  }
}

=== FILE: role_form_attribute_table.dfy ===
/**
 * The table of a role's form attributes (its sub-definition): choosing a
 * form attribute fills the role attribute's validation fields from it.
 * Its unique, regex and min/max rules are those of the form-attribute
 * detail and are used from there.
 */
module RoleFormAttributeTable {
  import opened Wrappers
  import FormAttributeDetail

  /** The form attribute a role attribute is based on. */
  datatype SourceAttribute = SourceAttribute(
    defaultValue: Option<string>, required: bool, unique: bool, min: Option<string>, max: Option<string>,
    regex: Option<string>, validationMessage: Option<string>, persistentType: Option<string>)

  /** The role attribute's validation fields, as the detail form holds them. */
  datatype RoleAttributeForm = RoleAttributeForm(
    defaultValue: Option<string>, required: bool, unique: bool, min: Option<string>, max: Option<string>,
    regex: Option<string>, validationMessage: Option<string>)

  /** A role attribute row; `formAttribute` is the embedded form attribute, when loaded. */
  datatype RoleAttribute = RoleAttribute(id: Option<string>, formAttribute: Option<SourceAttribute>)

  /** The persistent type the detail shows: the embedded form attribute's, else none. */
  function DetailPersistentType(entity: RoleAttribute): (r: Option<string>)
    ensures entity.formAttribute.None? ==> r.None?
    ensures entity.formAttribute.Some? ==> r == entity.formAttribute.value.persistentType
  {
    match entity.formAttribute
    case None => None
    case Some(a) => a.persistentType
  }

  /** The role-attribute detail of the table. */
  class RoleAttributeDetail {
    var persistentType: Option<string>
    var form: RoleAttributeForm
    var permissionRequests: seq<string>

    constructor (form: RoleAttributeForm)
      ensures persistentType.None? && this.form == form && permissionRequests == []
    {
      persistentType := None;
      this.form := form;
      permissionRequests := [];
    }

    /** `showDetail`: permissions are loaded for a stored row; the type comes from its form attribute. */
    method ShowDetail(entity: RoleAttribute)
      modifies this
      ensures persistentType == DetailPersistentType(entity) && form == old(form)
      ensures permissionRequests == old(permissionRequests) + (if entity.id.Some? then [entity.id.value] else [])
    {
      if entity.id.Some? {
        permissionRequests := permissionRequests + [entity.id.value];
      }
      persistentType := DetailPersistentType(entity);
    }

    /**
     * `_onChangeFormAttribute`: a chosen attribute is copied field by field
     * with its type; clearing the choice only clears the type.
     */
    method OnChangeFormAttribute(value: Option<SourceAttribute>)
      modifies this
      ensures value.Some? ==>
                form == RoleAttributeForm(value.value.defaultValue, value.value.required, value.value.unique,
                                          value.value.min, value.value.max, value.value.regex,
                                          value.value.validationMessage)
                && persistentType == value.value.persistentType
      ensures value.None? ==> form == old(form) && persistentType.None?
      ensures permissionRequests == old(permissionRequests)
    {
      match value
      case Some(a) =>
        form := form.(defaultValue := a.defaultValue);
        form := form.(required := a.required);
        form := form.(unique := a.unique);
        form := form.(min := a.min);
        form := form.(max := a.max);
        form := form.(regex := a.regex);
        form := form.(validationMessage := a.validationMessage);
        persistentType := a.persistentType;
      case None =>
        persistentType := None;
    }

    /** Which validation fields the detail offers for its current type. */
    function ValidationFields(): (r: (bool, bool, bool))
      reads this
      ensures r.2 ==> r.0 && r.1
      ensures r.0 == r.1
      ensures persistentType.None? || persistentType == Some("") ==> r == (false, false, false)
      ensures r.0 <==> FormAttributeDetail.SupportsUnique(persistentType)
      ensures r.1 <==> FormAttributeDetail.SupportsRegex(persistentType)
      ensures r.2 <==> FormAttributeDetail.SupportsMinMax(persistentType)
    {
      FormAttributeDetail.SupportHierarchy(persistentType);
      (FormAttributeDetail.SupportsUnique(persistentType), FormAttributeDetail.SupportsRegex(persistentType),
       FormAttributeDetail.SupportsMinMax(persistentType))
    }
  }
}

=== FILE: role_synchronization_executor.dfy ===
/**
 * Synchronization of roles from a connected system: correlating an
 * account with an existing role by an attribute, reading the role type
 * from a mapped attribute, and the actions that create a role for an
 * account, delete the role linked with an account, or unlink an account
 * from its roles.
 */
module RoleSynchronizationExecutor {
  import opened Wrappers

  type Uuid = string

  /** The entity type this executor synchronizes. */
  const ROLE: string := "ROLE"
  /** The role attribute whose string value is read as a role type. */
  const ROLE_TYPE_FIELD: string := "roleType"

  const RELATION_NOT_FOUND: string := "Entity account relation (with ownership = true) was not found!"
  const ROLE_RELATION_NOT_FOUND: string := "Role account relation was not found!"
  const RELATIONS_TO_DELETE: string := "Role-account relations to delete"
  const RELATION_DELETED: string := "Role-account relation deleted (without call delete provisioning)"

  datatype RoleType = SYSTEM | BUSINESS | TECHNICAL | LOGIN

  /** A role with its properties by name (used for correlation). */
  datatype Role = Role(id: Uuid, name: string, properties: map<string, string>)

  const CREATE_ENTITY_ENTRY: string := "Missing entity action is CREATE_ENTITY, we will do create new role."

  /** The item-log line written before a role is provisioned. */
  function ProvisioningEntry(role: Role): string
  {
    "Call provisioning (process RoleEventType.SAVE) for role (" + role.id + ") with username (" + role.name + ")."
  }

  /** A role-account relation; the owning one ties the account to the role it created. */
  datatype RoleAccount = RoleAccount(id: Uuid, account: Uuid, role: Uuid, ownership: bool)

  datatype SyncActionType = UPDATE_ENTITY | CREATE_ENTITY | DELETE_ENTITY

  datatype OperationResultType = SUCCESS | WARNING | ERROR

  /** An action log entry of the synchronization run. */
  datatype ActionLog = ActionLog(action: SyncActionType, result: OperationResultType)

  /** A value read from a mapped attribute. */
  datatype AttributeValue = Text(text: string) | RoleTypeValue(roleType: RoleType) | OtherValue(repr: string) | NoValue

  /** A mapped attribute: whether it maps to an entity property, and which. */
  datatype AttributeMapping = AttributeMapping(entityAttribute: bool, idmPropertyName: string)

  datatype ExecutorError =
    | SYNCHRONIZATION_CORRELATION_TO_MANY_RESULTS(correlationAttribute: string, value: string)
    | NoSuchRoleType(name: string)

  /** `supports`: only roles. */
  function Supports(entityType: string): (r: bool)
    ensures r <==> entityType == ROLE
  {
    ROLE == entityType
  }

  /** `RoleType.valueOf`: the constant of that exact name, or an error. */
  function RoleTypeOf(name: string): (r: Result<RoleType, ExecutorError>)
    ensures r.Fail? <==> name !in {"SYSTEM", "BUSINESS", "TECHNICAL", "LOGIN"}
    ensures r.Fail? ==> r.error == NoSuchRoleType(name)
  {
    if name == "SYSTEM" then Ok(SYSTEM)
    else if name == "BUSINESS" then Ok(BUSINESS)
    else if name == "TECHNICAL" then Ok(TECHNICAL)
    else if name == "LOGIN" then Ok(LOGIN)
    else Fail(NoSuchRoleType(name))
  }

  function RoleTypeName(t: RoleType): string
  {
    match t
    case SYSTEM => "SYSTEM"
    case BUSINESS => "BUSINESS"
    case TECHNICAL => "TECHNICAL"
    case LOGIN => "LOGIN"
  }

  /** Reading a role type back from its name gives it again. */
  lemma RoleTypeRoundTrip(t: RoleType)
    ensures RoleTypeOf(RoleTypeName(t)) == Ok(t)
  {
  }

  /**
   * `getValueByMappedAttribute`: the transformed value, except that a
   * string mapped to the entity attribute `roleType` becomes a role type.
   */
  function ValueByMappedAttribute(attribute: AttributeMapping, transformed: AttributeValue): (r: Result<AttributeValue, ExecutorError>)
    ensures !(transformed.Text? && attribute.entityAttribute && attribute.idmPropertyName == ROLE_TYPE_FIELD) ==> r == Ok(transformed)
    ensures transformed.Text? && attribute.entityAttribute && attribute.idmPropertyName == ROLE_TYPE_FIELD ==>
              (r.Ok? <==> RoleTypeOf(transformed.text).Ok?)
              && (r.Ok? ==> r.value == RoleTypeValue(RoleTypeOf(transformed.text).value))
  {
    if transformed.Text? && attribute.entityAttribute && ROLE_TYPE_FIELD == attribute.idmPropertyName then
      match RoleTypeOf(transformed.text)
      case Ok(t) => Ok(RoleTypeValue(t))
      case Fail(e) => Fail(e)
    else Ok(transformed)
  }

  predicate HasProperty(role: Role, name: string, value: string)
  {
    name in role.properties && role.properties[name] == value
  }

  /** The roles whose property has the value, in stored order. */
  function RolesWith(roles: seq<Role>, name: string, value: string): (r: seq<Role>)
    ensures forall x :: x in r <==> x in roles && HasProperty(x, name, value)
  {
    if |roles| == 0 then []
    else
      var rest := RolesWith(roles[1..], name, value);
      assert roles == [roles[0]] + roles[1..];
      if HasProperty(roles[0], name, value) then [roles[0]] + rest else rest
  }

  /** `findEntityByAttribute`: none for no role, the role for exactly one, an error for more. */
  function FindEntityByAttribute(roles: seq<Role>, idmAttributeName: string, value: string)
    : (r: Result<Option<Role>, ExecutorError>)
    ensures r == Ok(None) <==> forall x :: x in roles ==> !HasProperty(x, idmAttributeName, value)
    ensures r.Ok? && r.value.Some? ==> r.value.value in roles && HasProperty(r.value.value, idmAttributeName, value)
    ensures r.Fail? <==> |RolesWith(roles, idmAttributeName, value)| > 1
    ensures r.Fail? ==> r.error == SYNCHRONIZATION_CORRELATION_TO_MANY_RESULTS(idmAttributeName, value)
  {
    var entities := RolesWith(roles, idmAttributeName, value);
    if |entities| == 0 then Ok(None)
    else
      assert entities[0] in entities;
      if |entities| > 1 then Fail(SYNCHRONIZATION_CORRELATION_TO_MANY_RESULTS(idmAttributeName, value))
      else Ok(Some(entities[0]))
  }

  /** A correlation value held by one role only finds that role. */
  lemma UniqueCorrelation(roles: seq<Role>, k: nat, name: string)
    requires k < |roles| && name in roles[k].properties
    requires forall j :: 0 <= j < |roles| && j != k ==> !HasProperty(roles[j], name, roles[k].properties[name])
    ensures FindEntityByAttribute(roles, name, roles[k].properties[name]) == Ok(Some(roles[k]))
  {
    SingleMatch(roles, k, name, roles[k].properties[name]);
  }

  lemma {:induction false} SingleMatch(roles: seq<Role>, k: nat, name: string, value: string)
    requires k < |roles| && HasProperty(roles[k], name, value)
    requires forall j :: 0 <= j < |roles| && j != k ==> !HasProperty(roles[j], name, value)
    ensures RolesWith(roles, name, value) == [roles[k]]
    decreases |roles|
  {
    var rest := roles[1..];
    if k == 0 {
      NoMatch(rest, name, value);
    } else {
      SingleMatch(rest, k - 1, name, value);
    }
  }

  lemma {:induction false} NoMatch(roles: seq<Role>, name: string, value: string)
    requires forall j :: 0 <= j < |roles| ==> !HasProperty(roles[j], name, value)
    ensures RolesWith(roles, name, value) == []
  {
    if |roles| > 0 {
      NoMatch(roles[1..], name, value);
    }
  }

  /** The relations of the account, in order. */
  function RelationsOf(relations: seq<RoleAccount>, account: Uuid): (r: seq<RoleAccount>)
    ensures forall x :: x in r <==> x in relations && x.account == account
  {
    if |relations| == 0 then []
    else
      var n := |relations| - 1;
      assert relations == relations[..n] + [relations[n]];
      RelationsOf(relations[..n], account) + (if relations[n].account == account then [relations[n]] else [])
  }

  /** Keeps the relations that are not of the account. */
  function RelationsNotOf(relations: seq<RoleAccount>, account: Uuid): (r: seq<RoleAccount>)
    ensures forall x :: x in r <==> x in relations && x.account != account
  {
    if |relations| == 0 then []
    else
      var rest := RelationsNotOf(relations[1..], account);
      assert relations == [relations[0]] + relations[1..];
      if relations[0].account != account then [relations[0]] + rest else rest
  }

  /** The executor's view of the stores: roles, role-account relations, and the run's logs. */
  class RoleSyncExecutor {
    var roles: seq<Role>
    var roleAccounts: seq<RoleAccount>
    var itemLog: seq<string>
    var actionLogs: seq<ActionLog>
    /** Roles whose provisioning was called, in order. */
    var provisioned: seq<Uuid>

    constructor (roles: seq<Role>, roleAccounts: seq<RoleAccount>)
      ensures this.roles == roles && this.roleAccounts == roleAccounts
      ensures itemLog == [] && actionLogs == [] && provisioned == []
    {
      this.roles := roles;
      this.roleAccounts := roleAccounts;
      itemLog := [];
      actionLogs := [];
      provisioned := [];
    }

    predicate HasRole(id: Uuid)
      reads this
    {
      exists k :: 0 <= k < |roles| && roles[k].id == id
    }

    /**
     * `doDeleteEntity`: the role linked with the account (`linked`, as the
     * account's owning relation gives it) is deleted; when there is none,
     * or it no longer exists, a warning is logged and nothing is deleted.
     */
    method DoDeleteEntity(linked: Option<Uuid>)
      modifies this
      ensures roleAccounts == old(roleAccounts) && provisioned == old(provisioned)
      ensures linked.None? || !old(HasRole(linked.value)) ==>
                roles == old(roles) && itemLog == old(itemLog) + [RELATION_NOT_FOUND]
                && actionLogs == old(actionLogs) + [ActionLog(UPDATE_ENTITY, WARNING)]
      ensures linked.Some? && old(HasRole(linked.value)) ==>
                itemLog == old(itemLog) && actionLogs == old(actionLogs)
                && (forall x :: x in roles <==> x in old(roles) && x.id != linked.value)
      ensures linked.Some? ==> !HasRole(linked.value)
    {
      var found := false;
      if linked.Some? {
        found := FindRole(linked.value);
      }
      if !found {
        itemLog := itemLog + [RELATION_NOT_FOUND];
        actionLogs := actionLogs + [ActionLog(UPDATE_ENTITY, WARNING)];
        return;
      }
      var kept: seq<Role> := [];
      for k := 0 to |roles|
        invariant forall x :: x in kept <==> x in roles[..k] && x.id != linked.value
      {
        assert roles[..k + 1] == roles[..k] + [roles[k]];
        if roles[k].id != linked.value {
          kept := kept + [roles[k]];
        }
      }
      assert roles[..|roles|] == roles;
      roles := kept;
    }

    /** Whether a role with the identifier is stored. */
    method FindRole(id: Uuid) returns (found: bool)
      ensures found <==> HasRole(id)
    {
      found := false;
      for k := 0 to |roles|
        invariant found <==> exists j :: 0 <= j < k && roles[j].id == id
      {
        if roles[k].id == id {
          found := true;
        }
      }
    }

    /**
     * `callProvisioningForEntity`: an item-log line naming the role, then
     * the role's update event, which provisions it.
     */
    method CallProvisioningForEntity(role: Role)
      modifies this
      ensures itemLog == old(itemLog) + [ProvisioningEntry(role)]
      ensures provisioned == old(provisioned) + [role.id]
      ensures roles == old(roles) && roleAccounts == old(roleAccounts) && actionLogs == old(actionLogs)
    {
      itemLog := itemLog + [ProvisioningEntry(role)];
      provisioned := provisioned + [role.id];
    }

    /**
     * `doCreateEntity`: the role filled from the account's attributes is
     * saved, tied to the account by an owning relation, and provisioned,
     * with three item-log lines: the create decision, the new role's id and
     * the provisioning call.
     */
    method DoCreateEntity(filled: Role, account: Uuid, relationId: Uuid)
      modifies this
      ensures roles == old(roles) + [filled]
      ensures roleAccounts == old(roleAccounts) + [RoleAccount(relationId, account, filled.id, true)]
      ensures provisioned == old(provisioned) + [filled.id]
      ensures itemLog == old(itemLog) + [CREATE_ENTITY_ENTRY, "Role with id " + filled.id + " was created", ProvisioningEntry(filled)]
      ensures actionLogs == old(actionLogs)
    {
      itemLog := itemLog + [CREATE_ENTITY_ENTRY];
      roles := roles + [filled];
      roleAccounts := roleAccounts + [RoleAccount(relationId, account, filled.id, true)];
      itemLog := itemLog + ["Role with id " + filled.id + " was created"];
      CallProvisioningForEntity(filled);
    }

    /** The `find` by account: the account's relations, in order. */
    method FindRelations(account: Uuid) returns (relations: seq<RoleAccount>)
      ensures relations == RelationsOf(roleAccounts, account)
    {
      relations := [];
      for k := 0 to |roleAccounts|
        invariant relations == RelationsOf(roleAccounts[..k], account)
      {
        assert roleAccounts[..k + 1][..k] == roleAccounts[..k];
        if roleAccounts[k].account == account {
          relations := relations + [roleAccounts[k]];
        }
      }
      assert roleAccounts[..|roleAccounts|] == roleAccounts;
    }

    /** Deletes the given relations one by one, logging each deletion. */
    method DeleteRelations(relations: seq<RoleAccount>)
      modifies this
      ensures roles == old(roles) && provisioned == old(provisioned) && actionLogs == old(actionLogs)
      ensures forall x :: x in roleAccounts <==> x in old(roleAccounts) && x !in relations
      ensures itemLog == old(itemLog) + seq(|relations|, i => RELATION_DELETED)
    {
      for k := 0 to |relations|
        invariant roles == old(roles) && provisioned == old(provisioned) && actionLogs == old(actionLogs)
        invariant forall x :: x in roleAccounts <==> x in old(roleAccounts) && x !in relations[..k]
        invariant itemLog == old(itemLog) + seq(k, i => RELATION_DELETED)
      {
        assert relations[..k + 1] == relations[..k] + [relations[k]];
        assert seq(k + 1, i => RELATION_DELETED) == seq(k, i => RELATION_DELETED) + [RELATION_DELETED];
        roleAccounts := Without(roleAccounts, relations[k]);
        itemLog := itemLog + [RELATION_DELETED];
      }
      assert relations[..|relations|] == relations;
    }

    /**
     * `doUnlink`: with no relation of the account a warning is logged;
     * otherwise every relation of the account is deleted (the account
     * itself stays), one log line each. The flag for role relations is
     * not used.
     */
    method DoUnlink(account: Uuid, removeRoleRole: bool)
      modifies this
      ensures roles == old(roles) && provisioned == old(provisioned)
      ensures forall x :: x in roleAccounts <==> x in old(roleAccounts) && x.account != account
      ensures (forall x :: x in old(roleAccounts) ==> x.account != account) ==>
                itemLog == old(itemLog) + [ROLE_RELATION_NOT_FOUND]
                && actionLogs == old(actionLogs) + [ActionLog(UPDATE_ENTITY, WARNING)]
      ensures (exists x :: x in old(roleAccounts) && x.account == account) ==>
                actionLogs == old(actionLogs)
                && itemLog == old(itemLog) + [RELATIONS_TO_DELETE]
                              + seq(|RelationsOf(old(roleAccounts), account)|, i => RELATION_DELETED)
    {
      var relations := FindRelations(account);
      if |relations| == 0 {
        itemLog := itemLog + [ROLE_RELATION_NOT_FOUND];
        actionLogs := actionLogs + [ActionLog(UPDATE_ENTITY, WARNING)];
        return;
      }
      assert relations[0] in relations;
      itemLog := itemLog + [RELATIONS_TO_DELETE];
      DeleteRelations(relations);
    }
  }

  /** The relations except the given one. */
  function Without(relations: seq<RoleAccount>, relation: RoleAccount): (r: seq<RoleAccount>)
    ensures forall x :: x in r <==> x in relations && x != relation
  {
    if |relations| == 0 then []
    else
      var rest := Without(relations[1..], relation);
      assert relations == [relations[0]] + relations[1..];
      if relations[0] != relation then [relations[0]] + rest else rest
  }
}

=== FILE: role_tree_node_repository.dfy ===
/**
 * Automatic roles by tree node: which automatic roles apply to a tree
 * node, following the recursion of each automatic role over the nested-set
 * index of the tree (a node's `lft`..`rgt` range covers its subtree).
 */
module RoleTreeNodeRepository {
  import opened Wrappers

  type Uuid = string

  datatype RecursionType = NO | DOWN | UP

  /** A tree node with its nested-set index; indexes are numbered per tree type. */
  datatype TreeNode = TreeNode(id: Uuid, treeType: Uuid, lft: int, rgt: int)

  /** An automatic role: the role assigned for a tree node, with its recursion. */
  datatype RoleTreeNode = RoleTreeNode(id: Uuid, treeNode: TreeNode, recursionType: RecursionType, role: Uuid)

  datatype RepositoryError = UnsupportedOperation(message: string)

  /** `find`: the generic filter is not supported and always fails. */
  function Find(): (r: Result<seq<RoleTreeNode>, RepositoryError>)
    ensures r.Fail? && r.error.UnsupportedOperation?
  {
    Fail(UnsupportedOperation("Use IdmRoleTreeNodeService (uses criteria api)"))
  }

  /** `lft` lies in the closed range of `range`. */
  predicate Between(x: int, range: TreeNode)
  {
    range.lft <= x <= range.rgt
  }

  /**
   * The condition of `findAutomaticRoles`: the automatic role's own node;
   * a DOWN role whose range holds the node's `lft`; an UP role whose `lft`
   * lies in the node's range. The tree type is not compared.
   */
  predicate AppliesTo(e: RoleTreeNode, node: TreeNode)
    ensures e.recursionType == DOWN && e.treeNode.lft < node.lft < e.treeNode.rgt ==> AppliesTo(e, node)
    ensures e.recursionType == UP && node.lft < e.treeNode.lft < node.rgt ==> AppliesTo(e, node)
    ensures e.recursionType == DOWN && e.treeNode.id != node.id && !(e.treeNode.lft <= node.lft <= e.treeNode.rgt)
            ==> !AppliesTo(e, node)
  {
    e.treeNode.id == node.id
    || (e.recursionType == DOWN && Between(node.lft, e.treeNode))
    || (e.recursionType == UP && Between(e.treeNode.lft, node))
  }

  /** `findAutomaticRoles`: the automatic roles that apply to the node, in stored order. */
  function FindAutomaticRoles(all: seq<RoleTreeNode>, node: TreeNode): (r: seq<RoleTreeNode>)
    ensures forall x :: x in r <==> x in all && AppliesTo(x, node)
    ensures |r| <= |all|
  {
    if |all| == 0 then []
    else
      var rest := FindAutomaticRoles(all[1..], node);
      assert all == [all[0]] + all[1..];
      if AppliesTo(all[0], node) then [all[0]] + rest else rest
  }

  /** An automatic role on the node itself applies whatever its recursion. */
  lemma OwnNodeAlwaysApplies(e: RoleTreeNode, node: TreeNode)
    requires e.treeNode.id == node.id
    ensures AppliesTo(e, node)
  {
  }

  /** Without recursion, an automatic role applies to its own node only. */
  lemma NoRecursionOwnNodeOnly(e: RoleTreeNode, node: TreeNode)
    requires e.recursionType == NO
    ensures AppliesTo(e, node) <==> e.treeNode.id == node.id
  {
  }

  /**
   * Two nodes of one tree have the same range, or disjoint ranges, or one
   * range strictly inside the other, as a nested-set index guarantees.
   */
  predicate Laminar(a: TreeNode, b: TreeNode)
  {
    a.lft < a.rgt && b.lft < b.rgt
    && ((a.lft == b.lft && a.rgt == b.rgt)
        || a.rgt < b.lft || b.rgt < a.lft
        || (a.lft < b.lft && b.rgt < a.rgt) || (b.lft < a.lft && a.rgt < b.rgt))
  }

  /**
   * On a nested-set index, testing the `lft` of the node is the same as
   * testing that its whole range is inside: DOWN applies exactly to the
   * subtree of the automatic role's node, and UP exactly to its ancestors.
   */
  lemma DownIsSubtree(e: RoleTreeNode, node: TreeNode)
    requires Laminar(e.treeNode, node)
    ensures Between(node.lft, e.treeNode) <==> e.treeNode.lft <= node.lft && node.rgt <= e.treeNode.rgt
    ensures Between(e.treeNode.lft, node) <==> node.lft <= e.treeNode.lft && e.treeNode.rgt <= node.rgt
  {
  }

  /** A node and an automatic role on the same range position in two different trees. */
  lemma CrossTreeTypeMatch()
    ensures var roleNode := TreeNode("a-root", "tree-a", 1, 4);
            var otherNode := TreeNode("b-child", "tree-b", 2, 3);
            var automaticRole := RoleTreeNode("auto", roleNode, DOWN, "role");
            roleNode.treeType != otherNode.treeType && AppliesTo(automaticRole, otherNode)
  {
  }

  /** The condition with the tree type compared, as the contract-position query does. */
  predicate AppliesToSameTreeType(e: RoleTreeNode, node: TreeNode)
  {
    e.treeNode.treeType == node.treeType && AppliesTo(e, node)
  }

  /** `findAutomaticRoles` restricted to automatic roles of the node's own tree type. */
  function FindAutomaticRolesSameTreeType(all: seq<RoleTreeNode>, node: TreeNode): (r: seq<RoleTreeNode>)
    ensures forall x :: x in r <==> x in all && AppliesToSameTreeType(x, node)
    ensures forall x :: x in r ==> x.treeNode.treeType == node.treeType
  {
    if |all| == 0 then []
    else
      var rest := FindAutomaticRolesSameTreeType(all[1..], node);
      assert all == [all[0]] + all[1..];
      if AppliesToSameTreeType(all[0], node) then [all[0]] + rest else rest
  }

  /** Within one tree type the corrected lookup returns what the lookup as written returns. */
  lemma {:induction false} SameTreeTypeAgrees(all: seq<RoleTreeNode>, node: TreeNode)
    requires forall k :: 0 <= k < |all| ==> all[k].treeNode.treeType == node.treeType
    ensures FindAutomaticRolesSameTreeType(all, node) == FindAutomaticRoles(all, node)
  {
    if |all| > 0 {
      SameTreeTypeAgrees(all[1..], node);
    }
  }
}

=== FILE: script_evaluator.dfy ===
/**
 * Evaluation of stored scripts by category: a script is found by its code,
 * must be callable from the evaluator's category, and runs with the extra
 * classes and services its authorities grant. The builder collects the
 * code and parameters of an evaluation.
 */
module ScriptEvaluator {
  import opened Wrappers

  type Uuid = string

  const SCRIPT_EVALUATOR: string := "scriptEvaluator"
  const SCRIPT_NAME_KEY: string := "scriptName"
  /** The category whose scripts every evaluator may call. */
  const DEFAULT: string := "DEFAULT"
  /** The builder class, always allowed first. */
  const BUILDER_CLASS: string := "eu.bcvsolutions.idm.core.script.evaluator.AbstractScriptEvaluator$Builder"

  datatype Script = Script(id: Uuid, code: string, name: string, category: string, body: string)

  datatype ScriptAuthorityType = CLASS_NAME | SERVICE

  /** A grant to a script: a class it may use, or a service bean it receives by name. */
  datatype ScriptAuthority = ScriptAuthority(authorityType: ScriptAuthorityType, className: string, service: string)

  /** A script parameter: the evaluator itself, a service bean, or a value given by the caller. */
  datatype ParameterValue = EvaluatorRef | Bean(name: string) | Given(repr: string)

  /** What is handed to the Groovy script service. */
  datatype Evaluation = Evaluation(body: string, parameters: Option<map<string, ParameterValue>>, extraAllowedClasses: seq<string>)

  datatype EvaluatorError =
    | NullScriptCode
    | NOT_FOUND(script: string)
    | GROOVY_SCRIPT_INVALID_CATEGORY(scriptCategory: string)
    | BAD_VALUE(className: string)
    | NoSuchBean(service: string)
    | NullParameters
    | GROOVY_SCRIPT_EXCEPTION(scriptName: string)

  /** `canExecuteScript`: a DEFAULT script always, another only in a supported category. */
  function CanExecuteScript(script: Script, supported: set<string>): (r: bool)
    ensures script.category == DEFAULT ==> r
    ensures script.category != DEFAULT ==> (r <==> script.category in supported)
  {
    script.category == DEFAULT || script.category in supported
  }

  /** The class names granted, in the order of the authorities. */
  function ClassNames(authorities: seq<ScriptAuthority>): (r: seq<string>)
    ensures forall c :: c in r <==> exists a :: a in authorities && a.authorityType == CLASS_NAME && a.className == c
  {
    if |authorities| == 0 then []
    else
      var n := |authorities| - 1;
      var rest := ClassNames(authorities[..n]);
      assert authorities == authorities[..n] + [authorities[n]];
      if authorities[n].authorityType == CLASS_NAME then rest + [authorities[n].className] else rest
  }

  /**
   * The grants succeed exactly when every class named is known, and every
   * service named is an existing bean with a parameter map to receive it.
   */
  predicate GrantOk(authorities: seq<ScriptAuthority>, knownClasses: set<string>, beans: set<string>,
                    parameters: Option<map<string, ParameterValue>>)
  {
    && (forall a :: a in authorities && a.authorityType == CLASS_NAME ==> a.className in knownClasses)
    && (forall a :: a in authorities && a.authorityType == SERVICE ==> a.service in beans && parameters.Some?)
  }

  /**
   * The authorities applied in order to the allowed classes and the
   * parameters: a class must be known (BAD_VALUE otherwise); a service
   * bean is looked up first (NoSuchBean) and then put under its name,
   * which needs a parameter map.
   */
  function Grant(authorities: seq<ScriptAuthority>, knownClasses: set<string>, beans: set<string>,
                 parameters: Option<map<string, ParameterValue>>)
    : (r: Result<(seq<string>, Option<map<string, ParameterValue>>), EvaluatorError>)
    ensures r.Ok? ==> r.value.0 == [BUILDER_CLASS] + ClassNames(authorities)
    ensures r.Ok? ==> forall c :: c in ClassNames(authorities) ==> c in knownClasses
    ensures r.Ok? ==> (r.value.1.None? <==> parameters.None?)
    ensures r.Ok? && r.value.1.Some? ==>
              forall a :: a in authorities && a.authorityType == SERVICE ==>
                a.service in r.value.1.value && r.value.1.value[a.service] == Bean(a.service)
    ensures r.Ok? && r.value.1.Some? ==>
              forall key :: key in parameters.value && (forall a :: a in authorities && a.authorityType == SERVICE ==> a.service != key) ==>
                key in r.value.1.value && r.value.1.value[key] == parameters.value[key]
    ensures r.Ok? <==> GrantOk(authorities, knownClasses, beans, parameters)
  {
    if |authorities| == 0 then Ok(([BUILDER_CLASS], parameters))
    else
      var n := |authorities| - 1;
      assert authorities == authorities[..n] + [authorities[n]];
      var a := authorities[n];
      match Grant(authorities[..n], knownClasses, beans, parameters)
      case Fail(e) => Fail(e)
      case Ok((allowed, params)) =>
        if a.authorityType == CLASS_NAME then
          if a.className in knownClasses then Ok((allowed + [a.className], params)) else Fail(BAD_VALUE(a.className))
        else if a.service !in beans then Fail(NoSuchBean(a.service))
        else if params.None? then Fail(NullParameters)
        else Ok((allowed, Some(params.value[a.service := Bean(a.service)])))
  }

  /** The first authority naming an unknown class is the error reported, when nothing fails before it. */
  lemma {:induction false} FirstUnknownClassReported(authorities: seq<ScriptAuthority>, knownClasses: set<string>,
                                                     beans: set<string>, parameters: Option<map<string, ParameterValue>>)
    requires |authorities| > 0
    requires authorities[|authorities| - 1].authorityType == CLASS_NAME
    requires authorities[|authorities| - 1].className !in knownClasses
    requires Grant(authorities[..|authorities| - 1], knownClasses, beans, parameters).Ok?
    ensures Grant(authorities, knownClasses, beans, parameters) == Fail(BAD_VALUE(authorities[|authorities| - 1].className))
  {
  }

  /** The authorities stored for a script; none when it has no entry. */
  function AuthoritiesFor(script: Script, authoritiesOf: map<Uuid, seq<ScriptAuthority>>): seq<ScriptAuthority>
  {
    if script.id in authoritiesOf then authoritiesOf[script.id] else []
  }

  /**
   * `evaluate(scriptCode, parameters)`: NOT_FOUND for an unknown code (a
   * null code finds nothing either, and building the NOT_FOUND parameters
   * from it throws a NullPointerException), INVALID_CATEGORY when the
   * script cannot be called from here, then the grants; a failing script
   * becomes GROOVY_SCRIPT_EXCEPTION.
   */
  function Evaluate(scripts: map<string, Script>, authoritiesOf: map<Uuid, seq<ScriptAuthority>>, supported: set<string>,
                    knownClasses: set<string>, beans: set<string>, scriptCode: Option<string>,
                    parameters: Option<map<string, ParameterValue>>, scriptFails: bool)
    : (r: Result<Evaluation, EvaluatorError>)
    ensures scriptCode.None? ==> r == Fail(NullScriptCode)
    ensures scriptCode.Some? && scriptCode.value !in scripts ==> r == Fail(NOT_FOUND(scriptCode.value))
    ensures scriptCode.Some? && scriptCode.value in scripts && !CanExecuteScript(scripts[scriptCode.value], supported) ==>
              r == Fail(GROOVY_SCRIPT_INVALID_CATEGORY(scripts[scriptCode.value].category))
    ensures r.Ok? ==> scriptCode.Some? && scriptCode.value in scripts && CanExecuteScript(scripts[scriptCode.value], supported)
                      && r.value.body == scripts[scriptCode.value].body && !scriptFails
                      && |r.value.extraAllowedClasses| > 0 && r.value.extraAllowedClasses[0] == BUILDER_CLASS
    ensures scriptCode.Some? && scriptCode.value in scripts && CanExecuteScript(scripts[scriptCode.value], supported) ==>
              var script := scripts[scriptCode.value];
              var g := Grant(AuthoritiesFor(script, authoritiesOf), knownClasses, beans, parameters);
              && (g.Fail? ==> r == Fail(g.error))
              && (g.Ok? && scriptFails ==> r == Fail(GROOVY_SCRIPT_EXCEPTION(script.code)))
              && (g.Ok? && !scriptFails ==> r.Ok? && r.value.extraAllowedClasses == g.value.0
                                            && r.value.parameters == g.value.1)
  {
    if scriptCode.None? then Fail(NullScriptCode)
    else if scriptCode.value !in scripts then Fail(NOT_FOUND(scriptCode.value))
    else
      var script := scripts[scriptCode.value];
      if !CanExecuteScript(script, supported) then Fail(GROOVY_SCRIPT_INVALID_CATEGORY(script.category))
      else
        var authorities := AuthoritiesFor(script, authoritiesOf);
        match Grant(authorities, knownClasses, beans, parameters)
        case Fail(e) => Fail(e)
        case Ok((allowed, params)) =>
          if scriptFails then Fail(GROOVY_SCRIPT_EXCEPTION(script.code))
          else Ok(Evaluation(script.body, params, allowed))
  }

  /** A DEFAULT script passes the category check of every evaluator. */
  lemma DefaultCallableEverywhere(script: Script, supported: set<string>)
    requires script.category == DEFAULT
    ensures CanExecuteScript(script, supported)
  {
  }

  /** The loop of `evaluate` over the script's authorities, one grant at a time. */
  method ApplyGrants(authorities: seq<ScriptAuthority>, knownClasses: set<string>, beans: set<string>,
                     parameters: Option<map<string, ParameterValue>>)
    returns (r: Result<(seq<string>, Option<map<string, ParameterValue>>), EvaluatorError>)
    ensures r == Grant(authorities, knownClasses, beans, parameters)
  {
    var extraAllowedClasses := [BUILDER_CLASS];
    var params := parameters;
    for k := 0 to |authorities|
      invariant Grant(authorities[..k], knownClasses, beans, parameters) == Ok((extraAllowedClasses, params))
    {
      assert authorities[..k + 1][..k] == authorities[..k];
      var authority := authorities[k];
      if authority.authorityType == CLASS_NAME {
        if authority.className !in knownClasses {
          FailureStays(authorities, k + 1, knownClasses, beans, parameters);
          return Fail(BAD_VALUE(authority.className));
        }
        extraAllowedClasses := extraAllowedClasses + [authority.className];
      } else {
        if authority.service !in beans {
          FailureStays(authorities, k + 1, knownClasses, beans, parameters);
          return Fail(NoSuchBean(authority.service));
        }
        if params.None? {
          FailureStays(authorities, k + 1, knownClasses, beans, parameters);
          return Fail(NullParameters);
        }
        params := Some(params.value[authority.service := Bean(authority.service)]);
      }
    }
    assert authorities[..|authorities|] == authorities;
    r := Ok((extraAllowedClasses, params));
  }

  /** An evaluator for the categories it supports; the grants are looked up in the given stores. */
  class Evaluator {
    const supported: set<string>

    constructor (supported: set<string>)
      ensures this.supported == supported
    {
      this.supported := supported;
    }

    /** `evaluate(scriptCode, parameters)`: the grants are applied one authority at a time. */
    method EvaluateWith(scripts: map<string, Script>, authoritiesOf: map<Uuid, seq<ScriptAuthority>>,
                        knownClasses: set<string>, beans: set<string>, scriptCode: Option<string>,
                        parameters: Option<map<string, ParameterValue>>, scriptFails: bool)
      returns (r: Result<Evaluation, EvaluatorError>)
      ensures r == Evaluate(scripts, authoritiesOf, supported, knownClasses, beans, scriptCode, parameters, scriptFails)
    {
      if scriptCode.None? {
        return Fail(NullScriptCode);
      }
      if scriptCode.value !in scripts {
        return Fail(NOT_FOUND(scriptCode.value));
      }
      var script := scripts[scriptCode.value];
      if !CanExecuteScript(script, supported) {
        return Fail(GROOVY_SCRIPT_INVALID_CATEGORY(script.category));
      }
      var granted := ApplyGrants(AuthoritiesFor(script, authoritiesOf), knownClasses, beans, parameters);
      if granted.Fail? {
        return Fail(granted.error);
      }
      var (extraAllowedClasses, params) := granted.value;
      if scriptFails {
        return Fail(GROOVY_SCRIPT_EXCEPTION(script.code));
      }
      r := Ok(Evaluation(script.body, params, extraAllowedClasses));
    }

    /** `evaluate(scriptCode)`: the only parameter is the evaluator itself. */
    method EvaluateCode(scripts: map<string, Script>, authoritiesOf: map<Uuid, seq<ScriptAuthority>>,
                        knownClasses: set<string>, beans: set<string>, scriptCode: string, scriptFails: bool)
      returns (r: Result<Evaluation, EvaluatorError>)
      ensures r == Evaluate(scripts, authoritiesOf, supported, knownClasses, beans, Some(scriptCode),
                            Some(map[SCRIPT_EVALUATOR := EvaluatorRef]), scriptFails)
      ensures r.Ok? ==> r.value.parameters.Some? && SCRIPT_EVALUATOR in r.value.parameters.value
    {
      r := EvaluateWith(scripts, authoritiesOf, knownClasses, beans, Some(scriptCode),
                        Some(map[SCRIPT_EVALUATOR := EvaluatorRef]), scriptFails);
      if r.Ok? {
        EvaluatorParameterKept(scripts[scriptCode], authoritiesOf, knownClasses, beans);
      }
    }

    /** `evaluate(builder)`: the builder's code and parameters (either may be unset). */
    method EvaluateBuilder(scripts: map<string, Script>, authoritiesOf: map<Uuid, seq<ScriptAuthority>>,
                           knownClasses: set<string>, beans: set<string>, builder: Builder, scriptFails: bool)
      returns (r: Result<Evaluation, EvaluatorError>)
      ensures r == Evaluate(scripts, authoritiesOf, supported, knownClasses, beans, builder.scriptCode,
                            builder.parameters, scriptFails)
    {
      r := EvaluateWith(scripts, authoritiesOf, knownClasses, beans, builder.scriptCode, builder.parameters, scriptFails);
    }
  }

  /** The evaluator parameter survives the grants unless a service bean takes its name. */
  lemma EvaluatorParameterKept(script: Script, authoritiesOf: map<Uuid, seq<ScriptAuthority>>,
                               knownClasses: set<string>, beans: set<string>)
    ensures var authorities := AuthoritiesFor(script, authoritiesOf);
            var g := Grant(authorities, knownClasses, beans, Some(map[SCRIPT_EVALUATOR := EvaluatorRef]));
            g.Ok? ==> g.value.1.Some? && SCRIPT_EVALUATOR in g.value.1.value
  {
    var authorities := AuthoritiesFor(script, authoritiesOf);
    var g := Grant(authorities, knownClasses, beans, Some(map[SCRIPT_EVALUATOR := EvaluatorRef]));
    if g.Ok? {
      if exists a :: a in authorities && a.authorityType == SERVICE && a.service == SCRIPT_EVALUATOR {
        var a :| a in authorities && a.authorityType == SERVICE && a.service == SCRIPT_EVALUATOR;
        assert a.service in g.value.1.value;
      }
    }
  }

  /** Once the grants fail for a prefix of the authorities, they fail for all of them. */
  lemma {:induction false} FailureStays(authorities: seq<ScriptAuthority>, k: nat, knownClasses: set<string>, beans: set<string>,
                                        parameters: Option<map<string, ParameterValue>>)
    requires k <= |authorities|
    requires Grant(authorities[..k], knownClasses, beans, parameters).Fail?
    ensures Grant(authorities, knownClasses, beans, parameters) == Grant(authorities[..k], knownClasses, beans, parameters)
    decreases |authorities| - k
  {
    if k < |authorities| {
      assert authorities[..k + 1][..k] == authorities[..k];
      FailureStays(authorities, k + 1, knownClasses, beans, parameters);
    } else {
      assert authorities[..k] == authorities;
    }
  }

  /** The builder of an evaluation: a script code and parameters, both unset at first. */
  class Builder {
    var parameters: Option<map<string, ParameterValue>>
    var scriptCode: Option<string>

    constructor ()
      ensures parameters.None? && scriptCode.None?
    {
      parameters := None;
      scriptCode := None;
    }

    method SetScriptCode(scriptCode: string)
      modifies this
      ensures this.scriptCode == Some(scriptCode) && parameters == old(parameters)
    {
      this.scriptCode := Some(scriptCode);
    }

    method SetParameters(parameters: Option<map<string, ParameterValue>>)
      modifies this
      ensures this.parameters == parameters && scriptCode == old(scriptCode)
    {
      this.parameters := parameters;
    }

    /** `addParameter`: the map is made on first use; the value is put under the key and earlier entries stay. */
    method AddParameter(key: string, value: ParameterValue)
      modifies this
      ensures scriptCode == old(scriptCode)
      ensures parameters.Some? && key in parameters.value && parameters.value[key] == value
      ensures forall k :: k != key ==> (k in parameters.value <==> old(parameters).Some? && k in old(parameters).value)
      ensures forall k :: k != key && old(parameters).Some? && k in old(parameters).value ==>
                parameters.value[k] == old(parameters).value[k]
    {
      if parameters.None? {
        parameters := Some(map[]);
      }
      parameters := Some(parameters.value[key := value]);
    }
  }
}

=== FILE: strings.dfy ===
/**
 * String helpers shared by the model. Strings are sequences of characters;
 * case mapping covers the ASCII letters only.
 */
module Strings {
  import opened Wrappers

  /** A JavaScript string is falsy when it is null, undefined or empty. */
  predicate Falsy(s: Option<string>)
  {
    s.None? || s.value == ""
  }

  /** The whitespace class `\s` of Java regular expressions. */
  predicate IsSpace(c: char)
  {
    c == ' ' || c == '\t' || c == '\n' || c == '\U{B}' || c == '\U{C}' || c == '\r'
  }

  /**
   * The characters JavaScript's `trim()` and `parseInt` skip: the WhiteSpace
   * and LineTerminator code points of ECMA-262, that is tab, vertical tab,
   * form feed, the byte order mark, the Unicode space separators (category
   * Zs), line feed, carriage return and the line and paragraph separators.
   */
  predicate IsJsSpace(c: char)
  {
    || '\t' <= c <= '\r'               // tab, line feed, vertical tab, form feed, carriage return
    || c == ' ' || c == '\U{A0}' || c == '\U{1680}'
    || '\U{2000}' <= c <= '\U{200A}'   // the en quad to the hair space
    || c == '\U{2028}' || c == '\U{2029}' // line and paragraph separators
    || c == '\U{202F}' || c == '\U{205F}' || c == '\U{3000}'
    || c == '\U{FEFF}'                  // byte order mark
  }

  function LowerChar(c: char): char
  {
    if 'A' <= c <= 'Z' then (c as int + 32) as char else c
  }

  predicate IsLower(s: string)
  {
    forall i :: 0 <= i < |s| ==> LowerChar(s[i]) == s[i]
  }

  /** `toLowerCase()` on ASCII letters. */
  function ToLower(s: string): (r: string)
    ensures |r| == |s| && IsLower(r)
    ensures forall i :: 0 <= i < |s| ==> r[i] == LowerChar(s[i])
  {
    seq(|s|, i requires 0 <= i < |s| => LowerChar(s[i]))
  }

  predicate StartsWith(s: string, prefix: string)
  {
    |prefix| <= |s| && s[..|prefix|] == prefix
  }

  /** `t` occurs in `s` starting at index `i`. */
  predicate OccursAt(s: string, t: string, i: int)
  {
    0 <= i <= |s| - |t| && s[i..i + |t|] == t
  }

  /** `s` holds `t` as a contiguous piece. */
  predicate Contains(s: string, t: string)
  {
    exists i :: 0 <= i <= |s| && OccursAt(s, t, i)
  }

  /**
   * `s.split(sep)` with a one-character separator, as JavaScript does it:
   * every piece, the empty ones included, so that "" gives [""].
   */
  function Split(s: string, sep: char): (r: seq<string>)
    ensures |r| >= 1
    ensures forall k :: 0 <= k < |r| ==> sep !in r[k]
  {
    if |s| == 0 then [""]
    else
      var rest := Split(s[1..], sep);
      if s[0] == sep then [""] + rest
      else [[s[0]] + rest[0]] + rest[1..]
  }

  /** The inverse of `Split`: the pieces glued back with the separator. */
  function Join(parts: seq<string>, sep: char): string
  {
    if |parts| == 0 then ""
    else if |parts| == 1 then parts[0]
    else parts[0] + [sep] + Join(parts[1..], sep)
  }

  lemma {:induction false} JoinSplit(s: string, sep: char)
    ensures Join(Split(s, sep), sep) == s
  {
    if |s| > 0 {
      JoinSplit(s[1..], sep);
      var rest := Split(s[1..], sep);
      if s[0] == sep {
        assert Split(s, sep) == [""] + rest;
        assert ([""] + rest)[1..] == rest;
      } else {
        var parts := [[s[0]] + rest[0]] + rest[1..];
        if |rest| == 1 {
          assert parts == [[s[0]] + rest[0]];
        } else {
          assert parts[1..] == rest[1..];
          assert Join(rest, sep) == rest[0] + [sep] + Join(rest[1..], sep);
        }
      }
    }
  }

  /** Splitting a string that holds no separator gives that string alone. */
  lemma {:induction false} SplitNoSeparator(s: string, sep: char)
    requires sep !in s
    ensures Split(s, sep) == [s]
  {
    if |s| > 0 {
      assert s[0] != sep by { assert s[0] in s; }
      SplitNoSeparator(s[1..], sep);
      assert [s[0]] + s[1..] == s;
    }
  }

  /** Splitting `a + [sep] + b` where `a` has no separator cuts right after `a`. */
  lemma {:induction false} SplitAtFirst(a: string, b: string, sep: char)
    requires sep !in a
    ensures Split(a + [sep] + b, sep) == [a] + Split(b, sep)
  {
    if |a| == 0 {
      assert a + [sep] + b == [sep] + b;
      assert ([sep] + b)[1..] == b;
    } else {
      SplitAtFirst(a[1..], b, sep);
      assert (a + [sep] + b)[1..] == a[1..] + [sep] + b;
      assert [a[0]] + a[1..] == a;
    }
  }

  /** Removes leading JavaScript whitespace. */
  function TrimStart(s: string): (r: string)
    ensures |r| <= |s| && r == s[|s| - |r|..]
    ensures |r| > 0 ==> !IsJsSpace(r[0])
    ensures forall i :: 0 <= i < |s| - |r| ==> IsJsSpace(s[i])
  {
    if |s| > 0 && IsJsSpace(s[0]) then
      var r := TrimStart(s[1..]);
      assert s[1..][|s[1..]| - |r|..] == s[|s| - |r|..];
      assert forall i :: 1 <= i < |s| - |r| ==> s[i] == s[1..][i - 1];
      r
    else s
  }

  /** Removes trailing JavaScript whitespace. */
  function TrimEnd(s: string): (r: string)
    ensures |r| <= |s| && r == s[..|r|]
    ensures |r| > 0 ==> !IsJsSpace(r[|r| - 1])
    ensures forall i :: |r| <= i < |s| ==> IsJsSpace(s[i])
  {
    if |s| > 0 && IsJsSpace(s[|s| - 1]) then TrimEnd(s[..|s| - 1]) else s
  }

  /** JavaScript's `trim()`: no leading and no trailing whitespace. */
  function Trim(s: string): string
  {
    TrimEnd(TrimStart(s))
  }

  predicate IsDigit(c: char) { '0' <= c <= '9' }

  predicate AllDigits(s: string)
  {
    forall i :: 0 <= i < |s| ==> IsDigit(s[i])
  }

  /** The value of a run of decimal digits. */
  function DigitsValue(s: string): (r: nat)
    requires AllDigits(s)
    ensures |s| > 0 && s[0] != '0' ==> r > 0
  {
    if |s| == 0 then 0
    else
      assert AllDigits(s[..|s| - 1]);
      DigitsValue(s[..|s| - 1]) * 10 + (s[|s| - 1] as int - '0' as int)
  }

  /** The decimal text of a natural number, without leading zeros. */
  function NatToString(n: nat): (r: string)
    ensures |r| > 0 && AllDigits(r)
  {
    var digit := ('0' as int + n % 10) as char;
    if n < 10 then [digit] else NatToString(n / 10) + [digit]
  }

  lemma {:induction false} NatToStringValue(n: nat)
    ensures DigitsValue(NatToString(n)) == n
  {
    var s := NatToString(n);
    if n >= 10 {
      NatToStringValue(n / 10);
      assert s[..|s| - 1] == NatToString(n / 10);
    }
  }

  /** Splitting pieces glued with a separator they do not contain gives the pieces back. */
  lemma {:induction false} SplitJoin(parts: seq<string>, sep: char)
    requires |parts| >= 1
    requires forall k :: 0 <= k < |parts| ==> sep !in parts[k]
    ensures Split(Join(parts, sep), sep) == parts
  {
    if |parts| == 1 {
      SplitNoSeparator(parts[0], sep);
    } else {
      SplitJoin(parts[1..], sep);
      SplitAtFirst(parts[0], Join(parts[1..], sep), sep);
    }
  }
}

=== FILE: synchronization_service.dfy ===
/**
 * Running a synchronization of a connected system: finding the executor
 * for the entity type of the synchronized mapping, stopping a running
 * synchronization by its logs, and the lookup of the system entity behind
 * an account's uid.
 */
module SynchronizationService {
  import opened Wrappers

  type Uuid = string

  /** The entity type a mapping synchronizes (identity, role, tree, ...), by its name. */
  type SystemEntityType = string

  datatype SystemMapping = SystemMapping(id: Uuid, name: string, entityType: SystemEntityType, system: Uuid)

  /** A synchronization configuration; its mapping is required. */
  datatype SyncConfig = SyncConfig(id: Uuid, name: string, systemMapping: Option<SystemMapping>)

  /** A synchronization run's log; `running` while the run goes on. */
  datatype SyncLog = SyncLog(id: Uuid, synchronizationConfig: Uuid, running: bool)

  /** A synchronization executor plugin and the entity type it supports. */
  datatype Executor = Executor(name: string, entityType: SystemEntityType)

  datatype SystemEntity = SystemEntity(id: Uuid, uid: string, system: Uuid, entityType: SystemEntityType)

  datatype SyncEventType = START | CANCEL

  /** An event published to the event manager, with the configuration it is about (none when missing). */
  datatype SyncEvent = SyncEvent(eventType: SyncEventType, config: Option<SyncConfig>)

  datatype SyncError =
    | SYNCHRONIZATION_NOT_FOUND(id: Uuid)
    | MappingRequired
    | ExecutorNotSupported(entityType: SystemEntityType)
    | SYNCHRONIZATION_IS_NOT_RUNNING(name: string)
    | SYNCHRONIZATION_TO_MANY_SYSTEM_ENTITY(uid: string)

  /** `getPluginFor`: the first executor supporting the entity type. */
  function PluginFor(executors: seq<Executor>, entityType: SystemEntityType): (r: Option<Executor>)
    ensures r.Some? <==> exists k :: 0 <= k < |executors| && executors[k].entityType == entityType
    ensures r.Some? ==> r.value in executors && r.value.entityType == entityType
    ensures r.Some? ==> exists k :: 0 <= k < |executors| && executors[k] == r.value
                                    && forall j :: 0 <= j < k ==> executors[j].entityType != entityType
  {
    if |executors| == 0 then None
    else if executors[0].entityType == entityType then Some(executors[0])
    else
      assert forall k :: 1 <= k < |executors| ==> executors[k] == executors[1..][k - 1];
      PluginFor(executors[1..], entityType)
  }

  /** `getSyncExecutor`: the executor for the entity type, or an unsupported-operation error. */
  function GetSyncExecutor(executors: seq<Executor>, entityType: SystemEntityType): (r: Result<Executor, SyncError>)
    ensures r.Ok? <==> exists k :: 0 <= k < |executors| && executors[k].entityType == entityType
    ensures r.Ok? ==> r.value in executors && r.value.entityType == entityType
    ensures r.Fail? ==> r.error == ExecutorNotSupported(entityType)
  {
    match PluginFor(executors, entityType)
    case Some(executor) => Ok(executor)
    case None => Fail(ExecutorNotSupported(entityType))
  }

  /**
   * `process`: the configuration must exist (SYNCHRONIZATION_NOT_FOUND) and
   * have a mapping; the run is handed to the executor of the mapping's
   * entity type, which is returned.
   */
  function Process(configs: map<Uuid, SyncConfig>, synchronizationConfigId: Uuid, executors: seq<Executor>)
    : (r: Result<Executor, SyncError>)
    ensures synchronizationConfigId !in configs ==> r == Fail(SYNCHRONIZATION_NOT_FOUND(synchronizationConfigId))
    ensures synchronizationConfigId in configs && configs[synchronizationConfigId].systemMapping.None? ==> r == Fail(MappingRequired)
    ensures r.Ok? ==> synchronizationConfigId in configs && configs[synchronizationConfigId].systemMapping.Some?
                      && r.value in executors
                      && r.value.entityType == configs[synchronizationConfigId].systemMapping.value.entityType
    ensures synchronizationConfigId in configs && configs[synchronizationConfigId].systemMapping.Some? ==>
              var entityType := configs[synchronizationConfigId].systemMapping.value.entityType;
              && (r.Ok? <==> exists k :: 0 <= k < |executors| && executors[k].entityType == entityType)
              && (r.Fail? ==> r.error == ExecutorNotSupported(entityType))
              && r == GetSyncExecutor(executors, entityType)
  {
    if synchronizationConfigId !in configs then Fail(SYNCHRONIZATION_NOT_FOUND(synchronizationConfigId))
    else
      var config := configs[synchronizationConfigId];
      if config.systemMapping.None? then Fail(MappingRequired)
      else GetSyncExecutor(executors, config.systemMapping.value.entityType)
  }

  predicate SameSystemEntity(e: SystemEntity, uid: string, system: Uuid, entityType: SystemEntityType)
  {
    e.uid == uid && e.system == system && e.entityType == entityType
  }

  /** The system entities with the uid on the system and of the type, in stored order. */
  function SystemEntitiesOf(entities: seq<SystemEntity>, uid: string, system: Uuid, entityType: SystemEntityType)
    : (r: seq<SystemEntity>)
    ensures forall e :: e in r <==> e in entities && SameSystemEntity(e, uid, system, entityType)
    ensures |r| <= |entities|
  {
    if |entities| == 0 then []
    else
      var rest := SystemEntitiesOf(entities[1..], uid, system, entityType);
      assert entities == [entities[0]] + entities[1..];
      if SameSystemEntity(entities[0], uid, system, entityType) then [entities[0]] + rest else rest
  }

  /** `findSystemEntity`: none for no match, the entity for exactly one, an error for more. */
  function FindSystemEntity(entities: seq<SystemEntity>, uid: string, system: Uuid, entityType: SystemEntityType)
    : (r: Result<Option<SystemEntity>, SyncError>)
    ensures r == Ok(None) <==> forall e :: e in entities ==> !SameSystemEntity(e, uid, system, entityType)
    ensures r.Ok? && r.value.Some? ==> r.value.value in entities && SameSystemEntity(r.value.value, uid, system, entityType)
    ensures r.Fail? <==> |SystemEntitiesOf(entities, uid, system, entityType)| > 1
    ensures r.Fail? ==> r.error == SYNCHRONIZATION_TO_MANY_SYSTEM_ENTITY(uid)
  {
    var found := SystemEntitiesOf(entities, uid, system, entityType);
    if |found| == 1 then
      assert found[0] in found;
      Ok(Some(found[0]))
    else if |found| > 1 then
      assert found[0] in found;
      Fail(SYNCHRONIZATION_TO_MANY_SYSTEM_ENTITY(uid))
    else Ok(None)
  }

  /** Two stored entities for the same uid are an error, never a silent pick. */
  lemma {:induction false} DuplicateUidFails(entities: seq<SystemEntity>, i: nat, j: nat)
    requires i < j < |entities|
    requires SameSystemEntity(entities[i], entities[j].uid, entities[j].system, entities[j].entityType)
    ensures FindSystemEntity(entities, entities[j].uid, entities[j].system, entities[j].entityType).Fail?
  {
    var e := entities[j];
    CountAtLeastTwo(entities, i, j, e.uid, e.system, e.entityType);
  }

  lemma {:induction false} CountAtLeastTwo(entities: seq<SystemEntity>, i: nat, j: nat, uid: string, system: Uuid,
                                           entityType: SystemEntityType)
    requires i < j < |entities|
    requires SameSystemEntity(entities[i], uid, system, entityType) && SameSystemEntity(entities[j], uid, system, entityType)
    ensures |SystemEntitiesOf(entities, uid, system, entityType)| > 1
    decreases i
  {
    var rest := entities[1..];
    if i == 0 {
      assert entities[j] in rest;
      assert SystemEntitiesOf(rest, uid, system, entityType) != [];
    } else {
      CountAtLeastTwo(rest, i - 1, j - 1, uid, system, entityType);
    }
  }

  predicate RunningLogOf(log: SyncLog, configId: Uuid)
  {
    log.synchronizationConfig == configId && log.running
  }

  /** The synchronization task: the configuration it runs, the stored logs and the published events. */
  class SynchronizationTask {
    var synchronizationConfigId: Uuid
    var logs: seq<SyncLog>
    var events: seq<SyncEvent>

    constructor (synchronizationConfigId: Uuid, logs: seq<SyncLog>)
      ensures this.synchronizationConfigId == synchronizationConfigId && this.logs == logs && events == []
    {
      this.synchronizationConfigId := synchronizationConfigId;
      this.logs := logs;
      events := [];
    }

    /**
     * `updateState`: when the run should go on but the long-running task has been
     * cancelled (`taskUpdate` false), a CANCEL event for the configuration
     * is published.
     */
    method UpdateState(running: bool, taskUpdate: bool, configs: map<Uuid, SyncConfig>)
      modifies this
      ensures synchronizationConfigId == old(synchronizationConfigId) && logs == old(logs)
      ensures running && !taskUpdate ==>
                events == old(events) + [SyncEvent(CANCEL, if synchronizationConfigId in configs
                                                           then Some(configs[synchronizationConfigId]) else None)]
      ensures !(running && !taskUpdate) ==> events == old(events)
    {
      if running && !taskUpdate {
        var config := if synchronizationConfigId in configs then Some(configs[synchronizationConfigId]) else None;
        events := events + [SyncEvent(CANCEL, config)];
      }
    }

    /**
     * `stopSynchronization`: SYNCHRONIZATION_IS_NOT_RUNNING when the
     * configuration has no running log; otherwise each of its running logs
     * is marked stopped. Other logs do not change.
     */
    method StopSynchronization(config: SyncConfig) returns (r: Result<SyncConfig, SyncError>)
      modifies this
      ensures synchronizationConfigId == old(synchronizationConfigId) && events == old(events)
      ensures r.Fail? <==> forall k :: 0 <= k < |old(logs)| ==> !RunningLogOf(old(logs)[k], config.id)
      ensures r.Fail? ==> r.error == SYNCHRONIZATION_IS_NOT_RUNNING(config.name) && logs == old(logs)
      ensures r.Ok? ==> r.value == config
      ensures |logs| == |old(logs)|
      ensures forall k :: 0 <= k < |logs| ==>
                logs[k] == if RunningLogOf(old(logs)[k], config.id) then old(logs)[k].(running := false) else old(logs)[k]
      ensures forall k :: 0 <= k < |logs| ==> !RunningLogOf(logs[k], config.id)
    {
      var anyRunning := false;
      for k := 0 to |logs|
        invariant anyRunning <==> exists j :: 0 <= j < k && RunningLogOf(logs[j], config.id)
      {
        if RunningLogOf(logs[k], config.id) {
          anyRunning := true;
        }
      }
      if !anyRunning {
        return Fail(SYNCHRONIZATION_IS_NOT_RUNNING(config.name));
      }
      for k := 0 to |logs|
        invariant synchronizationConfigId == old(synchronizationConfigId) && events == old(events)
        invariant |logs| == |old(logs)|
        invariant forall j :: 0 <= j < k ==>
                    logs[j] == if RunningLogOf(old(logs)[j], config.id) then old(logs)[j].(running := false) else old(logs)[j]
        invariant forall j :: k <= j < |logs| ==> logs[j] == old(logs)[j]
      {
        if RunningLogOf(logs[k], config.id) {
          logs := logs[k := logs[k].(running := false)];
        }
      }
      r := Ok(config);
    }
  }
}

=== FILE: system_manager.dfy ===
/**
 * The redux manager of target systems: connector-inventory loading with a
 * cache keyed by ui key, and the connector-configuration forms (loading a
 * form instance, saving its values and loading it again).
 */
module SystemManager {
  import opened Wrappers

  const AVAILABLE_CONNECTORS: string := "connectors-available"
  const AVAILABLE_REMOTE_CONNECTORS: string := "remote-connectors-available"
  const UI_KEY_SUPPORTED_TYPES: string := "connector-supported-types"

  /** A connector, identified by the full name of its connector key. */
  datatype Connector = Connector(fullName: string, displayName: string)

  /** One property of a connector-inventory response: a framework and its connector list (null allowed). */
  datatype FrameworkEntry = FrameworkEntry(framework: string, connectors: Option<seq<Connector>>)

  datatype ConnectorType = ConnectorType(id: string, name: string)

  /** The three kinds of connector configuration a system has. */
  datatype ConfigurationKind = ConnectorConfiguration | PoolingConfiguration | OperationOptionsConfiguration

  datatype FormDefinition = FormDefinition(code: string)
  datatype FormValue = FormValue(attribute: string, value: string)
  datatype FormInstance = FormInstance(definition: FormDefinition, values: seq<FormValue>)

  /** What is stored in redux data under a ui key. */
  datatype Payload =
    | Frameworks(frameworks: map<string, map<string, Connector>>)
    | SupportedTypes(types: map<string, ConnectorType>)
    | Form(instance: FormInstance)

  /** A failed backend call. */
  datatype ServiceError = ServiceError(statusCode: int)

  /** Calls made to the backend, in order. */
  datatype Request =
    | GetAvailableConnectors
    | GetAvailableRemoteConnectors(systemId: string)
    | GetSupportedTypes
    | GetFormDefinition(kind: ConfigurationKind, id: string)
    | GetFormValues(kind: ConfigurationKind, id: string)
    | SaveFormValues(kind: ConfigurationKind, id: string)

  /** What a callback was called with: a result, or null and an error. */
  datatype Callback<T> = NotCalled | CalledWith(result: T) | CalledWithError(error: ServiceError)

  /** Connectors keyed by full name, filled in list order: a later duplicate name overwrites. */
  function ConnectorsByName(connectors: seq<Connector>): map<string, Connector>
  {
    if |connectors| == 0 then map[]
    else
      var last := connectors[|connectors| - 1];
      ConnectorsByName(connectors[..|connectors| - 1])[last.fullName := last]
  }

  /**
   * A name is a key exactly when some connector has it, and it maps to the
   * last connector of the list with that name.
   */
  lemma {:induction false} ConnectorsByNameLast(connectors: seq<Connector>, name: string)
    ensures name in ConnectorsByName(connectors) <==> exists i :: 0 <= i < |connectors| && connectors[i].fullName == name
    ensures name in ConnectorsByName(connectors) ==>
              exists i :: 0 <= i < |connectors| && ConnectorsByName(connectors)[name] == connectors[i]
                          && connectors[i].fullName == name
                          && forall j :: i < j < |connectors| ==> connectors[j].fullName != name
  {
    if |connectors| > 0 {
      var n := |connectors| - 1;
      var init := connectors[..n];
      ConnectorsByNameLast(init, name);
      if connectors[n].fullName != name && name in ConnectorsByName(init) {
        var i :| 0 <= i < |init| && ConnectorsByName(init)[name] == init[i] && init[i].fullName == name
                 && forall j :: i < j < |init| ==> init[j].fullName != name;
        assert ConnectorsByName(connectors)[name] == connectors[i];
      }
      if name !in ConnectorsByName(init) && connectors[n].fullName != name {
        assert forall i :: 0 <= i < n ==> connectors[i] == init[i];
      }
    }
  }

  /**
   * The framework map of a response, filled in property order. A null
   * connector list is skipped when `skipNull` holds; otherwise it fails (the
   * list is iterated without a check, which throws).
   */
  function FrameworksOf(json: seq<FrameworkEntry>, skipNull: bool): (r: Option<map<string, map<string, Connector>>>)
    ensures skipNull ==> r.Some?
    ensures r.Some? ==> forall f :: f in r.value ==> exists i :: 0 <= i < |json| && json[i].framework == f
  {
    if |json| == 0 then Some(map[])
    else
      match FrameworksOf(json[..|json| - 1], skipNull)
      case None => None
      case Some(m) =>
        var e := json[|json| - 1];
        match e.connectors
        case None => if skipNull then Some(m) else None
        case Some(list) => Some(m[e.framework := ConnectorsByName(list)])
  }

  /** Skipping null lists never fails, and a framework is present exactly when it has a list. */
  lemma {:induction false} RemoteFrameworksPresent(json: seq<FrameworkEntry>, framework: string)
    ensures FrameworksOf(json, true).Some?
    ensures framework in FrameworksOf(json, true).value
            <==> exists i :: 0 <= i < |json| && json[i].framework == framework && json[i].connectors.Some?
  {
    if |json| > 0 {
      var n := |json| - 1;
      RemoteFrameworksPresent(json[..n], framework);
      assert forall i :: 0 <= i < n ==> json[..n][i] == json[i];
    }
  }

  /** Without skipping, the map exists exactly when no list is null. */
  lemma {:induction false} FrameworksFailOnNull(json: seq<FrameworkEntry>)
    ensures FrameworksOf(json, false).Some? <==> forall i :: 0 <= i < |json| ==> json[i].connectors.Some?
  {
    if |json| > 0 {
      var n := |json| - 1;
      FrameworksFailOnNull(json[..n]);
      assert forall i :: 0 <= i < n ==> json[..n][i] == json[i];
    }
  }

  /** Supported connector types keyed by id; a missing `_embedded.connectorTypes` gives an empty map. */
  function TypesById(connectorTypes: Option<seq<ConnectorType>>): (r: map<string, ConnectorType>)
    ensures connectorTypes.None? ==> r == map[]
    ensures connectorTypes.Some? ==>
              forall id :: id in r <==> exists i :: 0 <= i < |connectorTypes.value| && connectorTypes.value[i].id == id
  {
    match connectorTypes
    case None => map[]
    case Some(items) => TypesOfList(items)
  }

  /** No later type in `items` has the id of the one at `i`. */
  predicate LastWithId(items: seq<ConnectorType>, i: int)
    requires 0 <= i < |items|
  {
    forall j :: i < j < |items| ==> items[j].id != items[i].id
  }

  /**
   * The types keyed by id, each id holding the last type listed with it
   * (a later type overwrites an earlier one with the same id).
   */
  function TypesOfList(items: seq<ConnectorType>): (r: map<string, ConnectorType>)
    ensures forall id :: id in r <==> exists i :: 0 <= i < |items| && items[i].id == id
  {
    if |items| == 0 then map[]
    else
      var n := |items| - 1;
      var r := TypesOfList(items[..n])[items[n].id := items[n]];
      assert forall i :: 0 <= i < n ==> items[..n][i] == items[i];
      r
  }

  /** Under each id is the last type listed with it. */
  lemma {:induction false} TypesOfListLastWins(items: seq<ConnectorType>, i: int)
    requires 0 <= i < |items| && LastWithId(items, i)
    ensures items[i].id in TypesOfList(items) && TypesOfList(items)[items[i].id] == items[i]
  {
    var n := |items| - 1;
    assert TypesOfList(items) == TypesOfList(items[..n])[items[n].id := items[n]];
    if i < n {
      assert items[..n][i] == items[i];
      assert LastWithId(items[..n], i) by {
        forall j | i < j < n ensures items[..n][j].id != items[..n][i].id {
          assert items[..n][j] == items[j];
        }
      }
      TypesOfListLastWins(items[..n], i);
      assert items[n].id != items[i].id;
    }
  }

  /** The redux data slice this manager reads and writes, and the backend calls it made. */
  class SystemStore {
    var data: map<string, Payload>
    var loading: set<string>
    var errors: seq<(string, ServiceError)>
    var requests: seq<Request>

    constructor ()
      ensures data == map[] && loading == {} && errors == [] && requests == []
    {
      data := map[];
      loading := {};
      errors := [];
      requests := [];
    }

    /** `requestData(uiKey)`. */
    method RequestData(uiKey: string)
      modifies this
      ensures loading == old(loading) + {uiKey}
      ensures data == old(data) && errors == old(errors) && requests == old(requests)
    {
      loading := loading + {uiKey};
    }

    /** `receiveData(uiKey, payload)`. */
    method ReceiveData(uiKey: string, payload: Payload)
      modifies this
      ensures data == old(data)[uiKey := payload] && loading == old(loading) - {uiKey}
      ensures errors == old(errors) && requests == old(requests)
    {
      data := data[uiKey := payload];
      loading := loading - {uiKey};
    }

    /** `receiveError(null, uiKey, error)`. */
    method ReceiveError(uiKey: string, error: ServiceError)
      modifies this
      ensures errors == old(errors) + [(uiKey, error)] && loading == old(loading) - {uiKey}
      ensures data == old(data) && requests == old(requests)
    {
      errors := errors + [(uiKey, error)];
      loading := loading - {uiKey};
    }

    /** The inner `forEach`: connectors keyed by full name. */
    static method CollectConnectors(list: seq<Connector>) returns (connectors: map<string, Connector>)
      ensures connectors == ConnectorsByName(list)
    {
      connectors := map[];
      for j := 0 to |list|
        invariant connectors == ConnectorsByName(list[..j])
      {
        assert list[..j + 1][..j] == list[..j];
        connectors := connectors[list[j].fullName := list[j]];
      }
      assert list[..|list|] == list;
    }

    /** The `for ... in json` loop of both inventory fetches. */
    static method CollectFrameworks(json: seq<FrameworkEntry>, skipNull: bool)
      returns (frameworks: Option<map<string, map<string, Connector>>>)
      ensures frameworks == FrameworksOf(json, skipNull)
    {
      var collected: map<string, map<string, Connector>> := map[];
      var i := 0;
      while i < |json|
        invariant 0 <= i <= |json|
        invariant FrameworksOf(json[..i], skipNull) == Some(collected)
      {
        assert json[..i + 1][..i] == json[..i];
        match json[i].connectors {
          case None =>
            if !skipNull {
              FailurePersists(json, skipNull, i + 1);
              return None;
            }
          case Some(list) =>
            var connectors := CollectConnectors(list);
            collected := collected[json[i].framework := connectors];
        }
        i := i + 1;
      }
      assert json[..|json|] == json;
      frameworks := Some(collected);
    }

    /**
     * `fetchAvailableFrameworks`: no backend call when the inventory is
     * already cached; otherwise the loaded map is cached, or the error
     * recorded (a null connector list fails the load).
     */
    method FetchAvailableFrameworks(response: Result<seq<FrameworkEntry>, ServiceError>)
      modifies this
      ensures AVAILABLE_CONNECTORS in old(data) ==>
                data == old(data) && requests == old(requests) && errors == old(errors) && loading == old(loading)
      ensures AVAILABLE_CONNECTORS !in old(data) ==>
                requests == old(requests) + [GetAvailableConnectors]
                && loading == old(loading) - {AVAILABLE_CONNECTORS}
                && (response.Ok? && FrameworksOf(response.value, false).Some? ==>
                      data == old(data)[AVAILABLE_CONNECTORS := Frameworks(FrameworksOf(response.value, false).value)]
                      && errors == old(errors))
                && (response.Fail? ==>
                      data == old(data) && errors == old(errors) + [(AVAILABLE_CONNECTORS, response.error)])
                && (response.Ok? && FrameworksOf(response.value, false).None? ==>
                      data == old(data) && |errors| == |old(errors)| + 1)
    {
      if AVAILABLE_CONNECTORS in data {
        return;
      }
      RequestData(AVAILABLE_CONNECTORS);
      requests := requests + [GetAvailableConnectors];
      match response
      case Fail(error) =>
        ReceiveError(AVAILABLE_CONNECTORS, error);
      case Ok(json) =>
        var frameworks := CollectFrameworks(json, false);
        match frameworks
        case None =>
          ReceiveError(AVAILABLE_CONNECTORS, ServiceError(0));
        case Some(m) =>
          ReceiveData(AVAILABLE_CONNECTORS, Frameworks(m));
    }

    /**
     * `fetchAvailableRemoteConnector`: always calls the backend; null lists
     * are skipped; the callback gets the map, or null and the error.
     */
    method FetchAvailableRemoteConnector(systemId: string, response: Result<seq<FrameworkEntry>, ServiceError>)
      returns (callback: Callback<map<string, map<string, Connector>>>)
      modifies this
      ensures requests == old(requests) + [GetAvailableRemoteConnectors(systemId)]
      ensures loading == old(loading) - {AVAILABLE_REMOTE_CONNECTORS}
      ensures response.Ok? ==>
                FrameworksOf(response.value, true).Some?
                && callback == CalledWith(FrameworksOf(response.value, true).value)
                && data == old(data)[AVAILABLE_REMOTE_CONNECTORS := Frameworks(callback.result)]
                && errors == old(errors)
      ensures response.Fail? ==>
                callback == CalledWithError(response.error) && data == old(data)
                && errors == old(errors) + [(AVAILABLE_REMOTE_CONNECTORS, response.error)]
    {
      RequestData(AVAILABLE_REMOTE_CONNECTORS);
      requests := requests + [GetAvailableRemoteConnectors(systemId)];
      match response
      case Fail(error) =>
        callback := CalledWithError(error);
        ReceiveError(AVAILABLE_REMOTE_CONNECTORS, error);
      case Ok(json) =>
        var frameworks := CollectFrameworks(json, true);
        RemoteFrameworksPresent(json, "");
        callback := CalledWith(frameworks.value);
        ReceiveData(AVAILABLE_REMOTE_CONNECTORS, Frameworks(frameworks.value));
    }

    /**
     * `fetchSupportedTypes`: no backend call when the types are cached;
     * otherwise the types keyed by id are cached, or the error recorded.
     */
    method FetchSupportedTypes(response: Result<Option<seq<ConnectorType>>, ServiceError>)
      modifies this
      ensures UI_KEY_SUPPORTED_TYPES in old(data) ==>
                data == old(data) && requests == old(requests) && errors == old(errors) && loading == old(loading)
      ensures UI_KEY_SUPPORTED_TYPES !in old(data) ==>
                requests == old(requests) + [GetSupportedTypes]
                && loading == old(loading) - {UI_KEY_SUPPORTED_TYPES}
                && (response.Ok? ==>
                      data == old(data)[UI_KEY_SUPPORTED_TYPES := SupportedTypes(TypesById(response.value))]
                      && errors == old(errors))
                && (response.Fail? ==>
                      data == old(data) && errors == old(errors) + [(UI_KEY_SUPPORTED_TYPES, response.error)])
    {
      if UI_KEY_SUPPORTED_TYPES in data {
        return;
      }
      RequestData(UI_KEY_SUPPORTED_TYPES);
      requests := requests + [GetSupportedTypes];
      match response
      case Fail(error) =>
        ReceiveError(UI_KEY_SUPPORTED_TYPES, error);
      case Ok(connectorTypes) =>
        var types: map<string, ConnectorType> := map[];
        if connectorTypes.Some? {
          var items := connectorTypes.value;
          for i := 0 to |items|
            invariant types == TypesOfList(items[..i])
          {
            assert items[..i + 1][..i] == items[..i];
            types := types[items[i].id := items[i]];
          }
          assert items[..|items|] == items;
        }
        ReceiveData(UI_KEY_SUPPORTED_TYPES, SupportedTypes(types));
    }

    /**
     * `fetchConfiguration`: the form definition and the form values are
     * loaded together; only when both arrive is a form instance stored and
     * passed to the callback, otherwise the error is recorded and passed on.
     */
    method FetchConfiguration(kind: ConfigurationKind, id: string, uiKey: string,
                              definition: Result<FormDefinition, ServiceError>,
                              values: Result<seq<FormValue>, ServiceError>)
      returns (callback: Callback<FormInstance>)
      modifies this
      ensures requests == old(requests) + [GetFormDefinition(kind, id), GetFormValues(kind, id)]
      ensures loading == old(loading) - {uiKey}
      ensures definition.Ok? && values.Ok? ==>
                callback == CalledWith(FormInstance(definition.value, values.value))
                && data == old(data)[uiKey := Form(callback.result)] && errors == old(errors)
      ensures definition.Fail? || values.Fail? ==>
                callback.CalledWithError? && data == old(data)
                && errors == old(errors) + [(uiKey, callback.error)]
                && callback.error == (if definition.Fail? then definition.error else values.error)
    {
      RequestData(uiKey);
      requests := requests + [GetFormDefinition(kind, id), GetFormValues(kind, id)];
      if definition.Fail? {
        callback := CalledWithError(definition.error);
        ReceiveError(uiKey, definition.error);
      } else if values.Fail? {
        callback := CalledWithError(values.error);
        ReceiveError(uiKey, values.error);
      } else {
        var instance := FormInstance(definition.value, values.value);
        callback := CalledWith(instance);
        ReceiveData(uiKey, Form(instance));
      }
    }

    /**
     * `saveConnectorConfiguration`, `savePoolingConnectorConfiguration` and
     * `saveOperationOptionsConnectorConfiguration`: save the values, then
     * load the same kind of configuration again, whose failure is recorded
     * and passed on like that of the load itself; a failed save only records
     * the error.
     */
    method SaveConfiguration(kind: ConfigurationKind, id: string, uiKey: string, saved: Result<(), ServiceError>,
                             definition: Result<FormDefinition, ServiceError>,
                             values: Result<seq<FormValue>, ServiceError>)
      returns (callback: Callback<FormInstance>)
      modifies this
      ensures saved.Fail? ==>
                requests == old(requests) + [SaveFormValues(kind, id)]
                && callback == CalledWithError(saved.error) && data == old(data)
                && errors == old(errors) + [(uiKey, saved.error)]
      ensures saved.Ok? ==>
                requests == old(requests) + [SaveFormValues(kind, id), GetFormDefinition(kind, id), GetFormValues(kind, id)]
                && (definition.Ok? && values.Ok? ==>
                      callback == CalledWith(FormInstance(definition.value, values.value))
                      && data == old(data)[uiKey := Form(callback.result)] && errors == old(errors))
                && (definition.Fail? || values.Fail? ==>
                      var error := if definition.Fail? then definition.error else values.error;
                      callback == CalledWithError(error) && data == old(data)
                      && errors == old(errors) + [(uiKey, error)])
      ensures loading == old(loading) - {uiKey}
    {
      RequestData(uiKey);
      requests := requests + [SaveFormValues(kind, id)];
      if saved.Fail? {
        callback := CalledWithError(saved.error);
        ReceiveError(uiKey, saved.error);
      } else {
        callback := FetchConfiguration(kind, id, uiKey, definition, values);
      }
    }
  }

  /** Once a prefix of the response fails, every longer prefix fails too. */
  lemma {:induction false} FailurePersists(json: seq<FrameworkEntry>, skipNull: bool, k: nat)
    requires k <= |json| && FrameworksOf(json[..k], skipNull).None?
    ensures FrameworksOf(json, skipNull).None?
    decreases |json| - k
  {
    if k < |json| {
      assert json[..k + 1][..k] == json[..k];
      FailurePersists(json, skipNull, k + 1);
    } else {
      assert json[..k] == json;
    }
  }
}

=== FILE: system_mapping_service.dfy ===
/**
 * Mappings of a connected system's object class to entities: deleting a
 * mapping with what depends on it, the account protection a provisioning
 * mapping sets, and duplicating a mapping with its attributes onto
 * another object class.
 */
module SystemMappingService {
  import opened Wrappers

  type SystemEntityType = string

  datatype SystemOperationType = PROVISIONING | SYNCHRONIZATION

  datatype SystemMapping = SystemMapping(id: nat, name: string, system: nat, objectClass: nat,
                                         operationType: SystemOperationType, entityType: SystemEntityType,
                                         protectionEnabled: bool, protectionInterval: Option<int>)

  datatype AttributeMapping = AttributeMapping(id: nat, systemMapping: nat, name: string, idmPropertyName: string)

  /** A role's use of a mapping. */
  datatype RoleSystem = RoleSystem(id: nat, systemMapping: nat, role: string)

  datatype SyncConfig = SyncConfig(id: nat, systemMapping: nat)

  /** An account on a system; its system entity carries the entity type. */
  datatype Account = Account(system: nat, systemEntityType: Option<SystemEntityType>)

  /** A deletion, in the order the deletions happen. */
  datatype Deletion = AttributeDeleted(id: nat) | RoleSystemDeleted(id: nat) | MappingDeleted(id: nat)

  datatype MappingError =
    | SYSTEM_MAPPING_DELETE_FAILED_USED_IN_SYNC(mapping: string)
    | SystemEntityRequired
    | MappingNotFound(id: nat)

  /** `findBySystem`: the mappings of the system for the operation and entity type, in stored order. */
  function FindBySystem(mappings: seq<SystemMapping>, system: nat, operation: SystemOperationType,
                        entityType: SystemEntityType): (r: seq<SystemMapping>)
    ensures forall m :: m in r <==> m in mappings && m.system == system && m.operationType == operation
                                    && m.entityType == entityType
  {
    if |mappings| == 0 then []
    else
      var rest := FindBySystem(mappings[1..], system, operation, entityType);
      assert mappings == [mappings[0]] + mappings[1..];
      var m := mappings[0];
      if m.system == system && m.operationType == operation && m.entityType == entityType then [m] + rest else rest
  }

  /** `isEnabledProtection`: false without a provisioning mapping, else the first one's flag. */
  function IsEnabledProtection(mappings: seq<SystemMapping>, account: Account): (r: Result<bool, MappingError>)
    ensures account.systemEntityType.None? <==> r == Fail(SystemEntityRequired)
    ensures account.systemEntityType.Some? ==>
              var found := FindBySystem(mappings, account.system, PROVISIONING, account.systemEntityType.value);
              r == Ok(|found| > 0 && found[0].protectionEnabled)
  {
    if account.systemEntityType.None? then Fail(SystemEntityRequired)
    else
      var found := FindBySystem(mappings, account.system, PROVISIONING, account.systemEntityType.value);
      if |found| == 0 then Ok(false) else Ok(found[0].protectionEnabled)
  }

  /** `getProtectionInterval`: -1 without a provisioning mapping, else the first one's interval (possibly unset). */
  function GetProtectionInterval(mappings: seq<SystemMapping>, account: Account): (r: Result<Option<int>, MappingError>)
    ensures account.systemEntityType.None? <==> r == Fail(SystemEntityRequired)
    ensures account.systemEntityType.Some? ==>
              var found := FindBySystem(mappings, account.system, PROVISIONING, account.systemEntityType.value);
              r == Ok(if |found| == 0 then Some(-1) else found[0].protectionInterval)
  {
    if account.systemEntityType.None? then Fail(SystemEntityRequired)
    else
      var found := FindBySystem(mappings, account.system, PROVISIONING, account.systemEntityType.value);
      if |found| == 0 then Ok(Some(-1)) else Ok(found[0].protectionInterval)
  }

  /** Without a provisioning mapping an account is unprotected, with interval -1. */
  lemma NoMappingNoProtection(mappings: seq<SystemMapping>, account: Account)
    requires account.systemEntityType.Some?
    requires forall m :: m in mappings ==> !(m.system == account.system && m.operationType == PROVISIONING
                                             && m.entityType == account.systemEntityType.value)
    ensures IsEnabledProtection(mappings, account) == Ok(false)
    ensures GetProtectionInterval(mappings, account) == Ok(Some(-1))
  {
  }

  /** The attributes of a mapping, in stored order. */
  function AttributesOf(attributes: seq<AttributeMapping>, mapping: nat): (r: seq<AttributeMapping>)
    ensures forall a :: a in r <==> a in attributes && a.systemMapping == mapping
    ensures |r| <= |attributes|
  {
    if |attributes| == 0 then []
    else
      var rest := AttributesOf(attributes[1..], mapping);
      assert attributes == [attributes[0]] + attributes[1..];
      if attributes[0].systemMapping == mapping then [attributes[0]] + rest else rest
  }

  /**
   * Copies of the attributes onto the mapping, numbered from `nextId` on,
   * keeping name and property.
   */
  function ClonedAttributes(attributes: seq<AttributeMapping>, mapping: nat, nextId: nat): (r: seq<AttributeMapping>)
    ensures |r| == |attributes|
    ensures forall k :: 0 <= k < |r| ==>
              r[k] == attributes[k].(id := nextId + k, systemMapping := mapping)
  {
    if |attributes| == 0 then []
    else [attributes[0].(id := nextId, systemMapping := mapping)] + ClonedAttributes(attributes[1..], mapping, nextId + 1)
  }

  /** The deletions of the given attributes, in order. */
  function AttributeDeletions(attributes: seq<AttributeMapping>): (r: seq<Deletion>)
    ensures |r| == |attributes| && forall k :: 0 <= k < |r| ==> r[k] == AttributeDeleted(attributes[k].id)
  {
    if |attributes| == 0 then [] else [AttributeDeleted(attributes[0].id)] + AttributeDeletions(attributes[1..])
  }

  /** The deletions of the given role-systems, in order. */
  function RoleSystemDeletions(roleSystems: seq<RoleSystem>): (r: seq<Deletion>)
    ensures |r| == |roleSystems| && forall k :: 0 <= k < |r| ==> r[k] == RoleSystemDeleted(roleSystems[k].id)
  {
    if |roleSystems| == 0 then [] else [RoleSystemDeleted(roleSystems[0].id)] + RoleSystemDeletions(roleSystems[1..])
  }

  /** The stores of mappings and of what refers to them, the deletions made, and the next free identifier. */
  class MappingStore {
    var mappings: seq<SystemMapping>
    var attributes: seq<AttributeMapping>
    var roleSystems: seq<RoleSystem>
    var syncConfigs: seq<SyncConfig>
    var deletions: seq<Deletion>
    var nextId: nat

    constructor (mappings: seq<SystemMapping>, attributes: seq<AttributeMapping>, roleSystems: seq<RoleSystem>,
                 syncConfigs: seq<SyncConfig>, nextId: nat)
      ensures this.mappings == mappings && this.attributes == attributes && this.roleSystems == roleSystems
      ensures this.syncConfigs == syncConfigs && this.nextId == nextId && deletions == []
    {
      this.mappings := mappings;
      this.attributes := attributes;
      this.roleSystems := roleSystems;
      this.syncConfigs := syncConfigs;
      this.nextId := nextId;
      deletions := [];
    }

    /** Every stored identifier is below `nextId`. */
    predicate Valid()
      reads this
    {
      (forall m :: m in mappings ==> m.id < nextId) && (forall a :: a in attributes ==> a.id < nextId)
    }

    predicate UsedInSync(mapping: nat)
      reads this
    {
      exists k :: 0 <= k < |syncConfigs| && syncConfigs[k].systemMapping == mapping
    }

    /**
     * `delete`: refused for a mapping a synchronization uses; otherwise
     * its attributes are deleted, then its role-systems, then the mapping.
     */
    method Delete(mapping: SystemMapping) returns (r: Result<(), MappingError>)
      modifies this
      ensures syncConfigs == old(syncConfigs) && nextId == old(nextId)
      ensures r.Fail? <==> old(UsedInSync(mapping.id))
      ensures r.Fail? ==> r.error == SYSTEM_MAPPING_DELETE_FAILED_USED_IN_SYNC(mapping.name)
                          && mappings == old(mappings) && attributes == old(attributes)
                          && roleSystems == old(roleSystems) && deletions == old(deletions)
      ensures r.Ok? ==>
                (forall a :: a in attributes <==> a in old(attributes) && a.systemMapping != mapping.id)
                && (forall s :: s in roleSystems <==> s in old(roleSystems) && s.systemMapping != mapping.id)
                && (forall m :: m in mappings <==> m in old(mappings) && m.id != mapping.id)
                && deletions == old(deletions) + AttributeDeletions(AttributesOf(old(attributes), mapping.id))
                                + RoleSystemDeletions(RoleSystemsOf(old(roleSystems), mapping.id))
                                + [MappingDeleted(mapping.id)]
    {
      for k := 0 to |syncConfigs|
        invariant forall j :: 0 <= j < k ==> syncConfigs[j].systemMapping != mapping.id
      {
        if syncConfigs[k].systemMapping == mapping.id {
          return Fail(SYSTEM_MAPPING_DELETE_FAILED_USED_IN_SYNC(mapping.name));
        }
      }
      DeleteAttributesOf(mapping.id);
      DeleteRoleSystemsOf(mapping.id);
      mappings := MappingsWithout(mappings, mapping.id);
      deletions := deletions + [MappingDeleted(mapping.id)];
      r := Ok(());
    }

    /**
     * `duplicate`: the mapping is copied under a new identifier onto the
     * object class, and each of its attributes is copied onto the copy.
     * Nothing already stored changes.
     */
    method Duplicate(id: nat, objectClass: nat) returns (r: Result<SystemMapping, MappingError>)
      requires Valid()
      modifies this
      ensures Valid()
      ensures syncConfigs == old(syncConfigs) && roleSystems == old(roleSystems) && deletions == old(deletions)
      ensures r.Fail? <==> forall m :: m in old(mappings) ==> m.id != id
      ensures r.Fail? ==> r.error == MappingNotFound(id) && mappings == old(mappings) && attributes == old(attributes)
                          && nextId == old(nextId)
      ensures r.Ok? ==>
                r.value.objectClass == objectClass && r.value.id == old(nextId)
                && (exists m :: m in old(mappings) && m.id == id && r.value == m.(id := old(nextId), objectClass := objectClass))
                && mappings == old(mappings) + [r.value]
                && attributes == old(attributes) + ClonedAttributes(AttributesOf(old(attributes), id), r.value.id, old(nextId) + 1)
                && nextId == old(nextId) + 1 + |AttributesOf(old(attributes), id)|
    {
      var original := FindMapping(id);
      if original.None? {
        return Fail(MappingNotFound(id));
      }
      var mapping := original.value.(id := nextId, objectClass := objectClass);
      mappings := mappings + [mapping];
      nextId := nextId + 1;
      assert forall m :: m in mappings ==> m.id < nextId;
      ghost var before, firstId := attributes, nextId;
      assert before == old(attributes) && firstId == old(nextId) + 1;
      CloneAttributes(id, mapping.id);
      assert attributes == before + ClonedAttributes(AttributesOf(before, id), mapping.id, firstId);
      r := Ok(mapping);
      assert original.value in old(mappings) && original.value.id == id;
    }

    /** The attributes of the mapping are deleted one by one; nothing else changes. */
    method DeleteAttributesOf(mapping: nat)
      modifies this
      ensures mappings == old(mappings) && roleSystems == old(roleSystems) && syncConfigs == old(syncConfigs)
      ensures nextId == old(nextId)
      ensures forall a :: a in attributes <==> a in old(attributes) && a.systemMapping != mapping
      ensures deletions == old(deletions) + AttributeDeletions(AttributesOf(old(attributes), mapping))
    {
      DeleteAttributes(AttributesOf(attributes, mapping));
    }

    /** Each of `toDelete` is deleted in turn; nothing else changes. */
    method DeleteAttributes(toDelete: seq<AttributeMapping>)
      modifies this
      ensures mappings == old(mappings) && roleSystems == old(roleSystems) && syncConfigs == old(syncConfigs)
      ensures nextId == old(nextId)
      ensures forall a :: a in attributes <==> a in old(attributes) && a !in toDelete
      ensures deletions == old(deletions) + AttributeDeletions(toDelete)
    {
      for k := 0 to |toDelete|
        invariant mappings == old(mappings) && roleSystems == old(roleSystems) && syncConfigs == old(syncConfigs)
        invariant nextId == old(nextId)
        invariant forall a :: a in attributes <==> a in old(attributes) && a !in toDelete[..k]
        invariant deletions == old(deletions) + AttributeDeletions(toDelete[..k])
      {
        assert toDelete[..k + 1] == toDelete[..k] + [toDelete[k]];
        AttributeDeletionsSnoc(toDelete[..k], toDelete[k]);
        DeleteAttribute(toDelete[k]);
      }
      assert toDelete[..|toDelete|] == toDelete;
    }

    /** `systemAttributeMappingService.delete`: the attribute is removed and its deletion recorded. */
    method DeleteAttribute(a: AttributeMapping)
      modifies this
      ensures mappings == old(mappings) && roleSystems == old(roleSystems) && syncConfigs == old(syncConfigs)
      ensures nextId == old(nextId)
      ensures forall x :: x in attributes <==> x in old(attributes) && x != a
      ensures deletions == old(deletions) + [AttributeDeleted(a.id)]
    {
      attributes := AttributesWithout(attributes, a);
      deletions := deletions + [AttributeDeleted(a.id)];
    }

    /** The role-systems of the mapping are deleted one by one; nothing else changes. */
    method DeleteRoleSystemsOf(mapping: nat)
      modifies this
      ensures mappings == old(mappings) && attributes == old(attributes) && syncConfigs == old(syncConfigs)
      ensures nextId == old(nextId)
      ensures forall s :: s in roleSystems <==> s in old(roleSystems) && s.systemMapping != mapping
      ensures deletions == old(deletions) + RoleSystemDeletions(RoleSystemsOf(old(roleSystems), mapping))
    {
      DeleteRoleSystems(RoleSystemsOf(roleSystems, mapping));
    }

    /** Each of `toDelete` is deleted in turn; nothing else changes. */
    method DeleteRoleSystems(toDelete: seq<RoleSystem>)
      modifies this
      ensures mappings == old(mappings) && attributes == old(attributes) && syncConfigs == old(syncConfigs)
      ensures nextId == old(nextId)
      ensures forall s :: s in roleSystems <==> s in old(roleSystems) && s !in toDelete
      ensures deletions == old(deletions) + RoleSystemDeletions(toDelete)
    {
      for k := 0 to |toDelete|
        invariant mappings == old(mappings) && attributes == old(attributes) && syncConfigs == old(syncConfigs)
        invariant nextId == old(nextId)
        invariant forall s :: s in roleSystems <==> s in old(roleSystems) && s !in toDelete[..k]
        invariant deletions == old(deletions) + RoleSystemDeletions(toDelete[..k])
      {
        assert toDelete[..k + 1] == toDelete[..k] + [toDelete[k]];
        RoleSystemDeletionsSnoc(toDelete[..k], toDelete[k]);
        DeleteRoleSystem(toDelete[k]);
      }
      assert toDelete[..|toDelete|] == toDelete;
    }

    /** `roleSystemService.delete`: the role system is removed and its deletion recorded. */
    method DeleteRoleSystem(s: RoleSystem)
      modifies this
      ensures mappings == old(mappings) && attributes == old(attributes) && syncConfigs == old(syncConfigs)
      ensures nextId == old(nextId)
      ensures forall x :: x in roleSystems <==> x in old(roleSystems) && x != s
      ensures deletions == old(deletions) + [RoleSystemDeleted(s.id)]
    {
      roleSystems := RoleSystemsWithout(roleSystems, s);
      deletions := deletions + [RoleSystemDeleted(s.id)];
    }

    /** Each attribute of mapping `id` is copied onto mapping `target` under the next identifiers. */
    method CloneAttributes(id: nat, target: nat)
      requires forall a :: a in attributes ==> a.id < nextId
      modifies this
      ensures mappings == old(mappings) && roleSystems == old(roleSystems) && syncConfigs == old(syncConfigs)
      ensures deletions == old(deletions)
      ensures attributes == old(attributes) + ClonedAttributes(AttributesOf(old(attributes), id), target, old(nextId))
      ensures nextId == old(nextId) + |AttributesOf(old(attributes), id)|
      ensures forall a :: a in attributes ==> a.id < nextId
    {
      var toClone := AttributesOf(attributes, id);
      var cloned := CloneEach(toClone, target, nextId);
      ClonedIdsBelow(cloned, toClone, target, nextId);
      ghost var oldAttributes := attributes;
      attributes := attributes + cloned;
      nextId := nextId + |toClone|;
      forall a | a in attributes ensures a.id < nextId {
        if a !in oldAttributes {
          assert a in cloned;
        }
      }
    }

    method FindMapping(id: nat) returns (r: Option<SystemMapping>)
      ensures r.None? <==> forall m :: m in mappings ==> m.id != id
      ensures r.Some? ==> r.value in mappings && r.value.id == id
    {
      for k := 0 to |mappings|
        invariant forall j :: 0 <= j < k ==> mappings[j].id != id
      {
        if mappings[k].id == id {
          return Some(mappings[k]);
        }
      }
      return None;
    }
  }

  /** The attributes' `forEach`: each one cloned onto the mapping and saved under the next identifier. */
  method CloneEach(toClone: seq<AttributeMapping>, target: nat, nextId: nat) returns (cloned: seq<AttributeMapping>)
    ensures cloned == ClonedAttributes(toClone, target, nextId)
  {
    cloned := [];
    for k := 0 to |toClone|
      invariant cloned == ClonedAttributes(toClone[..k], target, nextId)
    {
      assert toClone[..k + 1] == toClone[..k] + [toClone[k]];
      ClonedAttributesSnoc(toClone[..k], toClone[k], target, nextId);
      cloned := cloned + [toClone[k].(id := nextId + k, systemMapping := target)];
    }
    assert toClone[..|toClone|] == toClone;
  }

  lemma ClonedIdsBelow(cloned: seq<AttributeMapping>, attributes: seq<AttributeMapping>, mapping: nat, nextId: nat)
    requires cloned == ClonedAttributes(attributes, mapping, nextId)
    ensures forall a :: a in cloned ==> nextId <= a.id < nextId + |attributes|
  {
  }

  lemma AttributeDeletionsSnoc(attributes: seq<AttributeMapping>, a: AttributeMapping)
    ensures AttributeDeletions(attributes + [a]) == AttributeDeletions(attributes) + [AttributeDeleted(a.id)]
  {
  }

  lemma RoleSystemDeletionsSnoc(roleSystems: seq<RoleSystem>, s: RoleSystem)
    ensures RoleSystemDeletions(roleSystems + [s]) == RoleSystemDeletions(roleSystems) + [RoleSystemDeleted(s.id)]
  {
  }

  lemma ClonedAttributesSnoc(attributes: seq<AttributeMapping>, a: AttributeMapping, mapping: nat, nextId: nat)
    ensures ClonedAttributes(attributes + [a], mapping, nextId)
            == ClonedAttributes(attributes, mapping, nextId) + [a.(id := nextId + |attributes|, systemMapping := mapping)]
  {
  }

  /** The role-systems of a mapping, in stored order. */
  function RoleSystemsOf(roleSystems: seq<RoleSystem>, mapping: nat): (r: seq<RoleSystem>)
    ensures forall s :: s in r <==> s in roleSystems && s.systemMapping == mapping
  {
    if |roleSystems| == 0 then []
    else
      var rest := RoleSystemsOf(roleSystems[1..], mapping);
      assert roleSystems == [roleSystems[0]] + roleSystems[1..];
      if roleSystems[0].systemMapping == mapping then [roleSystems[0]] + rest else rest
  }

  function AttributesWithout(attributes: seq<AttributeMapping>, a: AttributeMapping): (r: seq<AttributeMapping>)
    ensures forall x :: x in r <==> x in attributes && x != a
  {
    if |attributes| == 0 then []
    else
      var rest := AttributesWithout(attributes[1..], a);
      assert attributes == [attributes[0]] + attributes[1..];
      if attributes[0] != a then [attributes[0]] + rest else rest
  }

  function RoleSystemsWithout(roleSystems: seq<RoleSystem>, s: RoleSystem): (r: seq<RoleSystem>)
    ensures forall x :: x in r <==> x in roleSystems && x != s
  {
    if |roleSystems| == 0 then []
    else
      var rest := RoleSystemsWithout(roleSystems[1..], s);
      assert roleSystems == [roleSystems[0]] + roleSystems[1..];
      if roleSystems[0] != s then [roleSystems[0]] + rest else rest
  }

  function MappingsWithout(mappings: seq<SystemMapping>, id: nat): (r: seq<SystemMapping>)
    ensures forall x :: x in r <==> x in mappings && x.id != id
  {
    if |mappings| == 0 then []
    else
      var rest := MappingsWithout(mappings[1..], id);
      assert mappings == [mappings[0]] + mappings[1..];
      if mappings[0].id != id then [mappings[0]] + rest else rest
  }
}

=== FILE: system_table.dfy ===
/**
 * Decisions of the table of target systems: the state label of a system,
 * the labels of its blocked provisioning operations, and what follows a
 * duplicate action.
 */
module SystemTable {
  import opened Wrappers

  /** Flags of the provisioning operations that are blocked on a system. */
  datatype BlockedOperation = BlockedOperation(createOperation: bool, updateOperation: bool, deleteOperation: bool)

  datatype SystemRow = SystemRow(
    disabled: bool,
    readonly: bool,
    disabledProvisioning: bool,
    blockedOperation: Option<BlockedOperation>)

  /** The state labels the table can show. */
  datatype StateLabel = DisabledProvisioningLabel | ReadonlyDisabledProvisioningLabel | DisabledLabel | ReadonlyLabel

  /**
   * The state cell: with provisioning disabled, the label depends on whether
   * the system is also disabled; otherwise disabled wins over read-only, and
   * a system that is neither shows nothing.
   */
  function StateCell(system: SystemRow): (r: Option<StateLabel>)
    ensures r == Some(DisabledProvisioningLabel) <==> system.disabledProvisioning && system.disabled
    ensures r == Some(ReadonlyDisabledProvisioningLabel) <==> system.disabledProvisioning && !system.disabled
    ensures r == Some(DisabledLabel) <==> !system.disabledProvisioning && system.disabled
    ensures r == Some(ReadonlyLabel) <==> !system.disabledProvisioning && !system.disabled && system.readonly
    ensures r == None <==> !system.disabledProvisioning && !system.disabled && !system.readonly
  {
    if system.disabledProvisioning then
      if system.disabled then Some(DisabledProvisioningLabel) else Some(ReadonlyDisabledProvisioningLabel)
    else if system.disabled then Some(DisabledLabel)
    else if system.readonly then Some(ReadonlyLabel)
    else None
  }

  datatype ProvisioningOperation = CREATE | UPDATE | DELETE

  /** The position of an operation in the order the labels are shown. */
  function Position(op: ProvisioningOperation): nat
  {
    match op
    case CREATE => 0
    case UPDATE => 1
    case DELETE => 2
  }

  predicate IsBlocked(b: BlockedOperation, op: ProvisioningOperation)
  {
    match op
    case CREATE => b.createOperation
    case UPDATE => b.updateOperation
    case DELETE => b.deleteOperation
  }

  /**
   * `_getBlockedOperations`: nothing without a system or without blocked
   * operations; otherwise a label for exactly the blocked operations, in
   * create, update, delete order.
   */
  function BlockedOperations(system: Option<SystemRow>): (r: Option<seq<ProvisioningOperation>>)
    ensures r.None? <==> system.None? || system.value.blockedOperation.None?
    ensures r.Some? ==> forall op :: op in r.value <==> IsBlocked(system.value.blockedOperation.value, op)
    ensures r.Some? ==> forall i, j :: 0 <= i < j < |r.value| ==> Position(r.value[i]) < Position(r.value[j])
  {
    if system.None? || system.value.blockedOperation.None? then None
    else
      var b := system.value.blockedOperation.value;
      Some((if b.createOperation then [CREATE] else [])
           + (if b.updateOperation then [UPDATE] else [])
           + (if b.deleteOperation then [DELETE] else []))
  }

  datatype DuplicateOutcome = ShowError | ReloadTable

  /** After a duplicate action: an error message when the callback got both an entity and an error, else a reload. */
  function AfterDuplicate(hasEntity: bool, hasError: bool): (r: DuplicateOutcome)
    ensures r == ShowError <==> hasEntity && hasError
  {
    if hasEntity && hasError then ShowError else ReloadTable
  }
}

=== FILE: token_evict_cache_processor.dfy ===
/**
 * The processor that clears caches when a token changes: the token cache
 * entry always, and the owner's permission and authorization-policy caches
 * when an authentication token ends (deleted, new, or just disabled).
 */
module TokenEvictCacheProcessor {
  import opened Wrappers
  import opened JwtAuthenticationMapper

  datatype TokenEventType = UPDATE | DELETE

  /** A cached value; its content does not matter to eviction. */
  datatype CachedValue = CachedValue(content: string)

  /**
   * Whether the owner's authorization caches are evicted: only for an
   * authentication token, and only on delete, without a previous token, or
   * when the token goes from enabled to disabled.
   */
  predicate EvictsOwnerCaches(token: Token, eventType: TokenEventType, previous: Option<Token>)
    ensures token.tokenType == Some(AUTHENTICATION_TOKEN_NAME) && eventType == DELETE ==> EvictsOwnerCaches(token, eventType, previous)
    ensures EvictsOwnerCaches(token, eventType, previous) && eventType == UPDATE && previous.Some? ==> token.disabled && !previous.value.disabled
  {
    token.tokenType == Some(AUTHENTICATION_TOKEN_NAME)
    && (eventType == DELETE || previous.None? || (!previous.value.disabled && token.disabled))
  }

  /** An update of an authentication token that does not disable it keeps the owner's caches. */
  lemma UpdateWithoutDisablingKeepsCaches(token: Token, previous: Token)
    requires !token.disabled || previous.disabled
    ensures !EvictsOwnerCaches(token, UPDATE, Some(previous))
  {
  }

  /** Tokens of other types never touch the owner's caches. */
  lemma OtherTokenTypesKeepCaches(token: Token, eventType: TokenEventType, previous: Option<Token>)
    requires token.tokenType != Some(AUTHENTICATION_TOKEN_NAME)
    ensures !EvictsOwnerCaches(token, eventType, previous)
  {
  }

  /** Removes the key, when there is one. */
  function Evict(cache: map<Uuid, CachedValue>, key: Option<Uuid>): (r: map<Uuid, CachedValue>)
    ensures key.Some? ==> key.value !in r
    ensures forall k :: k in r <==> k in cache && key != Some(k)
    ensures forall k :: k in r ==> r[k] == cache[k]
  {
    if key.Some? then cache - {key.value} else cache
  }

  /** The three caches the processor touches. */
  class CacheManager {
    var permissionCache: map<Uuid, CachedValue>
    var authorizationPolicyCache: map<Uuid, CachedValue>
    var tokenCache: map<Uuid, CachedValue>

    constructor ()
      ensures permissionCache == map[] && authorizationPolicyCache == map[] && tokenCache == map[]
    {
      permissionCache := map[];
      authorizationPolicyCache := map[];
      tokenCache := map[];
    }

    /**
     * `process`: the owner's entries are evicted from the permission and
     * policy caches when the rule says so; the token's own entry is always
     * evicted from the token cache. No other entry changes.
     */
    method Process(token: Token, eventType: TokenEventType, previous: Option<Token>)
      modifies this
      ensures EvictsOwnerCaches(token, eventType, previous) ==>
                permissionCache == Evict(old(permissionCache), token.ownerId)
                && authorizationPolicyCache == Evict(old(authorizationPolicyCache), token.ownerId)
      ensures !EvictsOwnerCaches(token, eventType, previous) ==>
                permissionCache == old(permissionCache) && authorizationPolicyCache == old(authorizationPolicyCache)
      ensures tokenCache == Evict(old(tokenCache), token.id)
      ensures forall k :: k in old(permissionCache) && Some(k) != token.ownerId ==>
                k in permissionCache && permissionCache[k] == old(permissionCache)[k]
    {
      if EvictsOwnerCaches(token, eventType, previous) {
        permissionCache := Evict(permissionCache, token.ownerId);
        authorizationPolicyCache := Evict(authorizationPolicyCache, token.ownerId);
      }
      tokenCache := Evict(tokenCache, token.id);
    }
  }
}

=== FILE: wrappers.dfy ===
/** Optional values and error results shared by every module of the model. */
module Wrappers {
  /** A value that may be absent: Java's and JavaScript's `null`. */
  datatype Option<T> = None | Some(value: T)
  {
    function GetOr(default: T): T
    {
      match this
      case None => default
      case Some(v) => v
    }
  }

  /** The outcome of an operation that may throw: `Fail` carries the error code. */
  datatype Result<T, E> = Ok(value: T) | Fail(error: E)
}
